=== FILE: README.md ===
# ChurchOps core, modelled in Dafny

ChurchOps is a church attendance application. Its members belong to a five-level organisation: Region → Direction → Department → Team → Cell, and each node holds its parent's id. Services of a service type are held on dates, and an attendance ledger records one row per (service, person) with a status and an optional check-in time. This project models the logic the application runs on top of that store. The SQL queries become searches over sequences, and "now" and "today" are parameters.

Modules, following the program's structure:

- `Common`, `OrderedDict`, `Order`, `Like`: shared helpers.
  - `Common`: counting, filtering and ASCII lower-casing.
  - `OrderedDict`: insertion-ordered dictionaries, as Python's `dict`.
  - `Order`: string and key ordering, with a stable sort standing in for `ORDER BY`.
  - `Like`: SQL `LIKE` / `ILIKE` patterns.
- `Organization`, `People`, `Services`, `Database`: the entities, their column limits and foreign keys, and the store as plain data.
  - The organisation, people and services are kept in sequences, in table order, so "the first row returned" is the first in the sequence.
- `AttendanceForm`, `Marking`, `LegacyMarking`: attendance marking.
  - `AttendanceForm` parses the `person_status[<id>]` form fields.
  - `Marking` covers the present / absent / not-marked transitions of the attendance controller.
  - `LegacyMarking` covers the older present-list / absent-list endpoints of `app.py`.
- `Members`, `Grouping`, `Dropdowns`, `Placement`: the hierarchy resolver.
  - `Members`: people filters, ordering by hierarchy path, searches and pagination.
  - `Grouping`: the name-keyed Region→…→Cell tree of the attendance form.
  - `Dropdowns`: the cascading dropdowns and the duplicate-department label rule.
  - `Placement`: moving people between cells.
- `Sheet`, `LegacyImport`, `ChainImport`: the two spreadsheet imports.
  - `Sheet` is a spreadsheet cell as pandas reads it, and the text a cell becomes in Python or in a text column.
  - `LegacyImport` is the matching cascade and decision fold of `app.py`. Its as-written run also tracks the store's connection pool, since each UPDATE and INSERT keeps a connection for good.
  - `ChainImport` is the get-or-create chain of the assignments controller.
- `Pivot`, `Reports`: attendance counting per date, department and team, the pivot of date rows into per-service series, colour hues, and the JSON report endpoint.
- `Api`: the JSON API.
  - the organisation tree and the flat hierarchy lists;
  - one service's attendance;
  - the overview statistics.

The model follows the code. In particular:

- Fuzzy name matching in the import is SQL `ILIKE '%x%'`, so "Jon" matches "Jonathan".
- The report counts include absent rows.
- The department and team reports ignore the department and team filters respectively.
- The saints listing maps an absent ledger row to "present".

## Model

| member | source | states |
|---|---|---|
| Organization.CellPath | app/models/people.py:30-53 | a resolved path carries the cell's own id and name, and each higher entry is the node its child's parent id names, with that node's own name; None exactly when a link does not resolve |
| Organization.ValidCellHasPath | app/models/organization.py:79-81 | in a store whose foreign keys resolve, every cell's chain reaches a region, so its path exists |
| Organization.TeamOfCell | app/models/organization.py:81 | a cell's team_id names an existing team |
| Organization.DepartmentOfTeam | app/models/organization.py:63 | a team's department_id names an existing department |
| Organization.DirectionOfDepartment | app/models/organization.py:45 | a department's direction_id names an existing direction |
| Organization.RegionOfDirection | app/models/organization.py:27 | a direction's region_id names an existing region |
| Organization.PathOfResolvedChain | app/models/people.py:33-52 | when all four parent links resolve, the hierarchy path exists |
| People.FullName | app/models/people.py:25-27 | the full name is the given name, exactly one space, then the surname, and nothing else |
| People.MemberHasPath | app/models/people.py:11 | since cell_id is required and a foreign key, every member of a valid store has a hierarchy path |
| Services.StatusName | app/models/services.py:71 | every status the application writes fits the 20-character column |
| Services.ServiceName | app/models/services.py:52-56 | the name of the service's type when that type exists, otherwise "Unknown Service" |
| Services.RowIndex | app/controllers/attendance.py:195-198 | the position of the first ledger row for (service, person), every earlier row belonging to another key |
| Services.Lookup | app/controllers/attendance.py:195-198 | `.first()` finds a row exactly when some ledger row carries the key, and the row it finds carries it |
| Services.RowsMembers | app/models/services.py:67-68 | the rows of a key are exactly the ledger rows with that service and person |
| Services.LookupAtRowIndex | app/controllers/attendance.py:195-198 | the row `.first()` returns is the one at the first position of the key |
| Services.UniqueKeysIffDistinct | app/models/services.py:62-71 | "at most one row per (service, person)" counted per key and stated on positions are the same invariant |
| Services.MarkedIds | app/controllers/attendance.py:79-80 | a person id is in `marked_ids` exactly when some row of the service names that person, whatever its status |
| AttendanceForm.ParseShowInt | app/controllers/attendance.py:176-178 | `int()` reads back every integer written in decimal |
| AttendanceForm.ParseIntRejectsForeign | app/controllers/attendance.py:177-181 | text holding a character that is not whitespace to `int()` (the ASCII space, tab to carriage return, or a non-ASCII space), a digit, an underscore or a sign is not an integer, so its field is skipped |
| AttendanceForm.SeparatorRejected | app/controllers/attendance.py:177-181 | text holding one of the ASCII separators U+001C to U+001F is not an integer, although `str.isspace()` accepts them, so a field such as `person_status[\x1c7]` is skipped |
| AttendanceForm.ParseIgnoresSpace | app/controllers/attendance.py:177 | `int()` reads the same value whatever whitespace it strips surrounds the text: the ASCII space, tab to carriage return, and the non-ASCII spaces, but not U+001C to U+001F |
| AttendanceForm.UnderscoreIgnored | app/controllers/attendance.py:177 | an underscore between two digit groups does not change the value `int()` reads |
| AttendanceForm.SqlInt | app.py:603-631 | a value the store's integer cast accepts lies in the 32-bit integer range |
| AttendanceForm.SqlIntShowInt | app.py:603-631 | the integer cast reads back a decimal integer exactly when it lies in the 32-bit range, and rejects it otherwise |
| AttendanceForm.SqlIntAgreesWithParse | app.py:926-932 | whatever text the store's cast accepts, Python's `int()` reads as the same integer |
| AttendanceForm.SqlTrimThenTrim | app.py:926-932 | the whitespace the store trims is whitespace to `int()` as well, so trimming it first changes nothing for `int()` |
| AttendanceForm.StatusKeyRoundTrip | app/controllers/attendance.py:174-178 | the field `person_status[<id>]` is read back as that id |
| AttendanceForm.OtherFieldsIgnored | app/controllers/attendance.py:174 | a field whose name does not start with `person_status[` contributes nothing |
| AttendanceForm.FormItemsFirstValue | app/controllers/attendance.py:172 | `request.form.items()` yields each submitted name once, with the first value submitted under it |
| AttendanceForm.CollectLastValue | app/controllers/attendance.py:172-181 | the dictionary holds an id exactly when some field names it, and the value is that of the last such field |
| AttendanceForm.ParseFormLastValue | app/controllers/attendance.py:169-181 | `person_status` holds exactly the ids of well-shaped field names, each with its last value |
| AttendanceForm.ReadFormValue | app/controllers/attendance.py:169-181 | the dictionary built from `request.form.items()` holds an id exactly when some submitted field names it, with the first value submitted under one such name |
| Marking.StepRows | app/controllers/attendance.py:187-252 | one iteration changes only the rows of its own (service, person) key, and only for a known person |
| Marking.ApplyAllRows | app/controllers/attendance.py:187-252 | after the loop, each key's rows are what its own entry alone makes of them; the rows of every other key are unchanged |
| Marking.ApplyAllReports | app/controllers/attendance.py:211-252 | every reported change names a known person of the dictionary and carries that person's requested status, one of the three known ones |
| Marking.MarkAttendance | app/controllers/attendance.py:159-265 | a 404 exactly when the service does not exist; otherwise, with the form read as `items()` yields it, a change (person, status) is reported exactly when the person is known, the form asks that status for them, and their row was not already in that state; no more changes than entries |
| Marking.StepReports | app/controllers/attendance.py:187-252 | one entry reports its person and status exactly when the person is known and the key is not already in the state asked for |
| Marking.ApplyAllReportsExactly | app/controllers/attendance.py:184-252 | over a dictionary with distinct keys, (person, status) is reported exactly when the person is known, the dictionary maps them to that status, and their rows before the loop were not already in that state |
| Marking.MarkPresentEffect | app/controllers/attendance.py:200-222 | "present" leaves a present row; a new or changed row is checked in now, and an already present row is left as it was |
| Marking.MarkAbsentEffect | app/controllers/attendance.py:223-245 | "absent" leaves an absent row; a new or changed row has no check-in time, and an already absent row is left as it was |
| Marking.MarkNotMarkedEffect | app/controllers/attendance.py:246-252 | "not-marked" deletes the key's first row, leaving no row when there was at most one; with no row it does nothing |
| Marking.MarkLeavesOthers | app/controllers/attendance.py:187-252 | rows of other services, of unknown people, of people the form does not name and of unknown status strings are untouched |
| Marking.MarkKeepsUniqueKeys | app/controllers/attendance.py:195-252 | a run keeps at most one row per (service, person) |
| Marking.EffectSettles | app/controllers/attendance.py:200-252 | one entry leaves its key holding at most one row, already in the requested state |
| Marking.StepSettled | app/controllers/attendance.py:200-252 | an entry whose key is already in the requested state changes nothing and reports nothing |
| Marking.MarkIdempotent | app/controllers/attendance.py:200-252 | submitting the same form again, at any later time, leaves the ledger as it is and reports no change |
| Grouping.Insert | app/controllers/attendance.py:100-136 | filing a person keeps the nested dictionary well formed (distinct names at every level) and the root unchanged |
| Grouping.InsertPeopleAt | app/controllers/attendance.py:131-136 | filing adds the person's entry to the bucket at their own five names and to no other bucket |
| Grouping.InsertIdAt | app/controllers/attendance.py:101-129 | a missing bucket along the path is created with the id of that level's node; an existing bucket keeps its id |
| Grouping.GroupByFilesByPath | app/controllers/attendance.py:84-136 | the bucket at any name path lists exactly the people whose hierarchy names are that path, in query order |
| Grouping.GroupFilesByPath | app/controllers/attendance.py:84-136 | each listed person appears exactly once, under their own cell's names, in query order within the cell; same-named siblings share a bucket |
| Grouping.GroupByKeepsFirstId | app/controllers/attendance.py:101-129 | each bucket keeps the id of the first person's node that reached it |
| Grouping.GroupKeepsFirstId | app/controllers/attendance.py:101-129 | buckets are keyed by name only, so a bucket shared by same-named siblings carries the id of the first one seen |
| Grouping.EntryMarkedIffAnyRow | app/controllers/attendance.py:79-80 | an entry is marked exactly when some ledger row exists for the person and the service, whatever its status |
| Grouping.AttendanceFormView | app/controllers/attendance.py:13-136 | a 404 exactly when the service or its type is missing; otherwise the filtered, ordered member list grouped by hierarchy names |
| LegacyMarking.InsertMissing | app.py:58-72 | the present loop never answers with the "select a service" message |
| LegacyMarking.DeleteKey | app.py:627-631 | the DELETE removes exactly the rows of the key and keeps every other row |
| LegacyMarking.DeleteAllRows | app.py:625-631 | after the absent loop the listed people have no row for the service; every other key keeps its rows |
| LegacyMarking.InsertMissingRows | app.py:58-72 | a listed person without a row gains one row with the default status, the notes and a check-in time; a person who had a row keeps it; no other key changes |
| LegacyMarking.InsertMissingFailsOnlyOnForeignKey | app.py:68-72 | when the service and every listed person exist, the inserts all succeed |
| LegacyMarking.LegacyMark | app.py:603-605 | the request is turned away exactly when the service field is empty or both id lists are empty; a service field the integer cast rejects fails the statement |
| LegacyMarking.LegacyMarkRows | app.py:603-631 | absent ids end with no row, even when also listed as present; present ids gain a row only where none exists; every other key is unchanged |
| LegacyMarking.LegacyMarkKeepsUniqueKeys | app.py:608-631 | the run keeps at most one row per (service, person) |
| Like.PercentMatchesAll | app/controllers/saints.py:185-186 | the pattern `%` matches every text |
| Like.LeadingPercent | app/controllers/saints.py:185-186 | a leading `%` matches when the rest of the pattern matches some suffix of the text |
| Like.LiteralPrefix | app/controllers/saints.py:185-186 | a wildcard-free prefix of the pattern must be a prefix of the text |
| Like.SurroundIsSubstring | app/controllers/saints.py:185-186 | `LIKE '%q%'` with a wildcard-free `q` holds exactly when `q` occurs in the text |
| Like.ILikeSurroundIsContains | app/controllers/saints.py:182-188 | `ILIKE '%q%'` with a wildcard-free `q` is a case-insensitive substring test |
| Like.WildcardSearchMatchesEverything | app/controllers/saints.py:182-188 | a search text of `%` is not escaped and selects every name |
| Members.AtLevel | app/controllers/saints.py:162-175 | one level filter keeps exactly the people whose path has the given id at that level, or everyone when no id is given |
| Members.FilterPeople | app/controllers/saints.py:156-188 | a person is listed exactly when their cell chain resolves and is_active, every supplied level id, the country and the name search all hold |
| Members.NameSearchIsSubstring | app/controllers/saints.py:182-188 | a wildcard-free name search selects exactly those whose first or last name contains the text, ignoring case |
| Members.MemberList | app/controllers/saints.py:190-199 | the selected people, all of them and only them, ordered by region, direction, department, team and cell names, then surname, then given name |
| Members.CeilDiv | app.py:442 | the smallest page count whose pages hold every row |
| Members.Paginate | app/controllers/saints.py:202-205 | page and size are at least 1 and kept when given in range; `pages` is the ceiling of total over size; the items are that page's window |
| Members.ListingPage | app/controllers/saints.py:202-203 | missing arguments mean page 1 of 50 |
| Members.PagesPartition | app/controllers/saints.py:204 | the pages 1..pages laid end to end are exactly the whole result |
| Members.HasNextIffRowsFollow | app/controllers/saints.py:233-235 | `has_next` holds exactly when the next page has rows |
| Members.PageLinksIffOverflow | app/controllers/saints.py:263-273 | the page links are built exactly when the result is longer than one page |
| Members.ClampInRange | app.py:442-448 | total_pages is the ceiling of total/100; the clamped page is at least 1, at most total_pages when that is positive, unchanged when in range, and its offset starts inside a non-empty result |
| Members.SqlPage | app.py:441-499 | a non-empty result never shows an empty page |
| Members.SqlPageIsClampedPaginate | app.py:442-499 | the SQL listing is the library's paging at 100 per page after the clamp; an unclamped page past the end would be empty |
| Members.SaintsStatus | app.py:501-563 | "unmarked" exactly when no service is chosen; otherwise "present" exactly when some row for the service exists, whatever its status |
| Members.AbsentRowListedPresent | app.py:505-512 | a person whose row records an absence is listed as present |
| Members.BulkSearch | app/controllers/assignments.py:40-88 | the first 100 selected people by surname then given name: as many as qualify up to 100, sorted, each selected by the filters, all of them when no more than 100 qualify, and nobody left out sorting before one shown |
| Members.BulkMembers | app/controllers/assignments.py:40-88 | the cut keeps only selected people, and all of them when at most 100 qualify |
| Members.BulkTopK | app/controllers/assignments.py:86-88 | nobody the LIMIT leaves out sorts before anybody it keeps |
| Members.Hits | app/controllers/attendance.py:288-307 | one hit per person found, in the same order, marked exactly when a service is given and the person has a row for it |
| Members.HitsMembers | app/controllers/attendance.py:288-307 | every hit is a person found, every person found has a hit, and a hit is marked exactly when a row exists for the chosen service |
| Members.SearchPeople | app/controllers/attendance.py:270-309 | a text shorter than 2 characters finds nobody; otherwise as many hits as active people whose name contains it, up to 20, each such a person, marked exactly when a service is given and a row exists; all of them when no more than 20 qualify |
| Members.SqlSearchPeople | app.py:254-272 | a text shorter than 3 characters finds nobody; otherwise the first 20 active members of an existing cell whose name contains it, by surname then given name: as many as qualify up to 20, sorted, all of them when no more than 20 qualify, and nobody left out sorting before one shown |
| Members.FilteredCut | app.py:254-272 | the first k selected people by name are selected people, all of them when at most k are, and none left out sorts before one kept |
| Members.SqlSearch | app.py:274-291 | one JSON row per person found, in order, marked exactly when a service argument is given and the person has a row for it |
| Members.VerifyPerson | app.py:1173-1229 | both names are required; "not found" exactly when nobody matches both patterns; otherwise exactly the matching people |
| Dropdowns.DirectionList | app/controllers/saints.py:34-48 | exactly the directions whose region exists and, when a region is chosen, that belong to it; ordered by region name then direction name |
| Dropdowns.TeamList | app/controllers/saints.py:101-124 | exactly the teams whose chain reaches a region and that lie under every chosen region, direction and department; ordered by team name |
| Dropdowns.CellList | app/controllers/saints.py:126-153 | exactly the cells whose chain reaches a region and that lie under every chosen ancestor; ordered by cell name |
| Dropdowns.ValidDepartmentResolves | app/models/organization.py:45 | in a valid store a department's joins up to its region never drop it |
| Dropdowns.ValidTeamResolves | app/models/organization.py:63 | in a valid store a team's joins up to its region never drop it |
| Dropdowns.ValidCellResolves | app/models/organization.py:81 | in a valid store a cell's joins up to its region never drop it |
| Dropdowns.AllDirectionsWhenNoRegion | app/controllers/saints.py:44-48 | with no region chosen every direction is offered |
| Dropdowns.AllTeamsWhenNothingChosen | app/controllers/saints.py:116-124 | with no ancestor chosen every team is offered |
| Dropdowns.AllCellsWhenNothingChosen | app/controllers/saints.py:143-153 | with no ancestor chosen every cell is offered |
| Dropdowns.CellsOfChosenTeam | app/controllers/saints.py:150-151 | with only a team chosen, exactly that team's cells are offered |
| Dropdowns.Named | app/controllers/saints.py:72-76 | a name's group holds exactly the rows carrying that name, as many as carry it |
| Dropdowns.NotNamed | app/controllers/saints.py:72-76 | the rows outside a name's group are exactly the others, and every other name keeps its count |
| Dropdowns.DepartmentOptions | app/controllers/saints.py:98-99 | the department list is sorted by label |
| Dropdowns.FormatGroupsIsRule | app/controllers/saints.py:71-96 | grouping by name and labelling each group yields, up to order, each row labelled by the rule |
| Dropdowns.DepartmentLabels | app/controllers/saints.py:78-99 | the list holds every row once with its rule label; a label is the bare name exactly when no other listed department shares it, otherwise "name (direction name)" |
| Dropdowns.OptionsMembers | app/controllers/saints.py:78-96 | the options are exactly the rule's label of each row |
| Dropdowns.DepartmentRows | app/controllers/saints.py:50-69 | the query rows are exactly the departments whose chain reaches a region and that lie under the chosen region and direction |
| Dropdowns.DepartmentList | app/controllers/saints.py:50-99 | sorted by label; every department offered under the chosen region and direction appears with its own id and direction, and nothing else does |
| Placement.MoveAll | app/controllers/assignments.py:157-160 | every person whose id is listed moves to the cell; everyone else is unchanged |
| Placement.SaveAssignment | app/controllers/assignments.py:123-143 | missing information exactly when the person or cell id is absent or 0; a 404 exactly when the person does not exist; saved exactly when both the person and the cell exist, and the commit fails exactly when only the cell is missing; a save moves exactly that person |
| Placement.SingleIsBulkOfOne | app/controllers/assignments.py:123-168 | saving one known person gives the same outcome as the bulk save of a list holding only that person |
| Placement.SaveBulkAssignment | app/controllers/assignments.py:147-168 | missing information exactly when no ids or no cell is given; unknown ids are skipped; a save moves exactly the listed people and reports the number of ids submitted; the commit fails exactly when the cell does not exist and someone would move into it |
| Placement.SaveKeepsValidPeople | app/models/people.py:11 | a successful bulk save keeps every member in an existing cell |
| Placement.BulkSaveIdempotent | app/controllers/assignments.py:156-162 | saving the same bulk assignment again changes nobody |
| Sheet.StoredTextIsStr | app.py:1051-1073 | the text a cell becomes in a text column is Python's `str()` of it exactly for text and integer cells; an empty cell is stored as "NaN" and a boolean as "true"/"false" |
| People.CellDirection | app/models/people.py:12 | a cell yields a direction name exactly when its hierarchy path resolves |
| People.CellDirectionFits | app/models/organization.py:25-27 | every cell of a valid store yields a direction name that fits the 100-character `direction` column |
| LegacyImport.ActiveValue | app.py:983-992 | an `is_active` value is produced exactly when the column exists and the row's cell is not empty |
| LegacyImport.Found | app.py:930-932 | a query finds somebody exactly when some person satisfies it, and then returns the id of such a person |
| LegacyImport.MatchIsFirstDecisiveStep | app.py:926-968 | the match is the outcome of the first of person_id, email, phone, name that finds somebody or fails; a later key is tried only while nobody has been found |
| LegacyImport.ExactNameMatch | app.py:952-957 | exact mode matches exactly the people whose first and last names equal the row's, ignoring case |
| LegacyImport.FuzzyNameIsSubstring | app.py:958-964 | fuzzy mode matches exactly the people whose stored first name contains the row's first name and whose stored last name contains the row's last name, ignoring case; not the reverse |
| LegacyImport.CellParam | app.py:976-981 | a cell name that is not text makes the row fail; a cell found is a stored cell whose name equals the row's, ignoring case |
| LegacyImport.Decide | app.py:970-1110 | update exactly when matched, updates are on, and a cell resolves or is_active is given; create exactly when unmatched, creation is on and both name columns exist; skip in every other non-failing case; failure exactly when a lookup fails on the path taken; a new person defaults to active |
| LegacyImport.SetPerson | app.py:995-1014 | an update changes only the matched person's cell and active flag, each only when given, and never the columns the lookups read |
| LegacyImport.Insert | app.py:1051-1073 | corrected insert: succeeds exactly when a cell is given whose chain names a direction and the names, direction, email and phone fit their columns; the new person carries the decided names, email, phone, flag and cell, the cell's direction name, and an id above every existing one |
| LegacyImport.InsertRefusedAsWritten | app.py:1052-1055 | the INSERT as written leaves out the required `direction` column, so the store refuses every created person |
| LegacyImport.CreateFailsAsWritten | app.py:1051-1073 | as written, every row decided as a create fails and leaves the people unchanged, where the corrected insert creates the person whenever its values fit |
| LegacyImport.InsertInValidOrg | app.py:1051-1073 | in a valid store, a create naming an existing cell with names, email and phone that fit always succeeds, into that cell |
| LegacyImport.Tally | app.py:1017-1113 | each row adds one to exactly the counter of its outcome |
| LegacyImport.ApplyRow | app.py:920-1117 | a skipped or failed row leaves the people unchanged; an update keeps every lookup column; a create appends exactly one person and needs create_missing |
| LegacyImport.Run | app.py:910-1117 | the four counters sum to the number of rows, and nobody is removed |
| LegacyImport.Import | app.py:898-918 | the file is turned away before any row exactly when it has no identifier column; otherwise `total` is the number of rows and equals the sum of the counters |
| LegacyImport.OverlayIsLastWrite | app.py:995-1014 | after a run of updates each person's cell and flag are those of the last update that set them |
| LegacyImport.OverlayIdempotent | app.py:995-1014 | applying the same updates again changes nothing |
| LegacyImport.ApplyRowWithoutCreate | app.py:970-1110 | without create_missing a row does what its decision says: an update applies it, anything else leaves the people unchanged |
| LegacyImport.RunKeepsKeys | app.py:995-1014 | without create_missing the columns every lookup reads stay as they were |
| LegacyImport.RunCountsFollowKeys | app.py:926-1110 | the counters depend only on the lookup columns of the people |
| LegacyImport.RunIsOverlay | app.py:920-1117 | without create_missing a run equals applying each row's decision, all taken against the table as it was |
| LegacyImport.LeakingRow | app.py:1011-1015 | as written, with no free connection a row that asks the store anything is an error and writes nothing; otherwise it is the corrected row, and an UPDATE or INSERT keeps its connection, leaving one fewer |
| LegacyImport.RunLeaking | db.py:10-22 | as written, every row still ends in one counter, and the free connections only go down, by at most one per row |
| LegacyImport.RunLeakingWhilePoolLasts | app.py:1061-1071 | while there are at least as many free connections as rows, the run as written is the corrected run |
| LegacyImport.PoolExhaustedAsWritten | db.py:20-22 | as written, a file updating one known person once more than there are free connections updates for all but its last row, which is an error, and leaves no connection free |
| LegacyImport.FreshPoolFailsTwentyFirst | db.py:10-18 | from a fresh pool of 20, the 21st such row is the error |
| LegacyImport.RunRepeat | app.py:1011-1018 | the corrected run of the same update row any number of times counts every row as updated |
| LegacyImport.UpdateOnlyImportIdempotent | app.py:861-1171 | an import that cannot create people, run a second time on its own result, gives the same people and counters |
| ChainImport.GetOrCreateRegion | app/controllers/assignments.py:259-264 | the region is the first one with that name, created only when none exists; the other tables are untouched |
| ChainImport.GetOrCreateDirection | app/controllers/assignments.py:266-274 | the direction is the first one with that name under the just-resolved region, created under it only when none exists |
| ChainImport.GetOrCreateDepartment | app/controllers/assignments.py:276-284 | the department is the first one with that name under the just-resolved direction, created only when none exists |
| ChainImport.GetOrCreateTeam | app/controllers/assignments.py:286-294 | the team is the first one with that name under the just-resolved department, created only when none exists |
| ChainImport.GetOrCreateCell | app/controllers/assignments.py:296-304 | the cell is the first one with that name under the just-resolved team, created only when none exists |
| ChainImport.CreateCell | app/controllers/assignments.py:376-379 | the existing-person path always appends a new cell under the team, with a fresh id |
| ChainImport.ResolveTeam | app/controllers/assignments.py:259-294 | resolving a path down to the team never touches the cells |
| ChainImport.ResolveCellIdempotent | app/controllers/assignments.py:259-304 | resolving the same name path a second time creates nothing and returns the same cell |
| ChainImport.GetOrCreateRegionValid | app/models/organization.py:9-10 | a created region keeps ids unique and names within 100 characters |
| ChainImport.GetOrCreateDirectionValid | app/models/organization.py:25-27 | a created direction keeps the table valid and points at an existing region |
| ChainImport.GetOrCreateDepartmentValid | app/models/organization.py:43-45 | a created department keeps the table valid and points at an existing direction |
| ChainImport.GetOrCreateTeamValid | app/models/organization.py:61-63 | a created team keeps the table valid and points at an existing department |
| ChainImport.CreateCellValid | app/models/organization.py:79-81 | an appended cell keeps the table valid and points at an existing team |
| ChainImport.GetOrCreateCellValid | app/models/organization.py:79-81 | get-or-create of a cell keeps the organisation valid |
| ChainImport.ResolveTeamValid | app/controllers/assignments.py:259-294 | resolving a path that fits the columns keeps the organisation valid and ends at an existing team |
| ChainImport.ResolveCellValid | app/controllers/assignments.py:259-304 | resolving a path that fits keeps the organisation valid and ends at an existing cell |
| ChainImport.MissingColumns | app/controllers/assignments.py:221-222 | the missing columns are exactly the required ones the file lacks, and none are missing exactly when all are present |
| ChainImport.CreateAndUpdateText | app/controllers/assignments.py:307-389 | a non-empty email or phone cell is stored the same by both paths; an empty one becomes "NaN" for a new person and leaves a known person's value as it was |
| ChainImport.UpdatePerson | app/controllers/assignments.py:381-389 | only the person with the given id changes |
| ChainImport.ImportRow | app/controllers/assignments.py:233-395 | corrected row: fails exactly when one of its values does not fit its column |
| ChainImport.Fold | app/controllers/assignments.py:228-395 | successes and errors add up to the number of rows, and each error names a row index plus 2 |
| ChainImport.ImportAssignments | app/controllers/assignments.py:220-226 | the file is turned away exactly when one of the seven required columns is missing, naming exactly those; otherwise successes plus errors equal the number of rows |
| ChainImport.FoldErrorRows | app/controllers/assignments.py:393-395 | the error list names exactly the rows that failed, each as its index plus 2 |
| ChainImport.ErrorRowsAreFailedRows | app/controllers/assignments.py:393-395 | the import's error rows are exactly the failed rows, numbered from 2 |
| ChainImport.Messages | app/controllers/assignments.py:403-411 | with no errors, one success message; otherwise a summary, at most 10 error messages, and "...and N more" when there are more than 10 |
| ChainImport.ImportAsWritten | app/controllers/assignments.py:220-417 | as written: turned away exactly when a required column is missing; when the file is imported every row succeeded, none failed, and nobody was created |
| ChainImport.NewPersonFailsAsWritten | app/controllers/assignments.py:310-318 | as written, a file with a row naming nobody known fails as a whole, because the new person lacks the required `direction` |
| ChainImport.WidthErrorFailsFileAsWritten | app/controllers/assignments.py:393-417 | as written, a row whose value does not fit its column fails the whole file, where the corrected import lists that row as an error and goes on |
| ChainImport.FailedRunFailsFile | app/controllers/assignments.py:393-417 | a refused write anywhere in the session fails the whole file |
| ChainImport.CreateLacksDirection | app/controllers/assignments.py:310-317 | the columns the created person sets leave out the required `direction` |
| ChainImport.NewPersonPlaced | app/controllers/assignments.py:250-318 | corrected: a row for an unknown name adds exactly one active person with that name and the row's direction name, fitting every column, in an existing cell, and keeps the organisation valid |
| ChainImport.NewPersonFits | app/models/people.py:9-14 | the person a fitting row creates fits every column width of the people table |
| ChainImport.ExistingPersonMoved | app/controllers/assignments.py:320-389 | a row for a known name moves that person to the found or created cell and overwrites email and phone only when given; nobody else changes |
| ChainImport.FoundCellHasNames | app/controllers/assignments.py:328-335 | a cell found by the full name path carries the row's five names along its chain |
| Pivot.IndexOf | app/controllers/reports.py:85 | `dates.index(d)`: the first position holding the label, found whenever the label is present |
| Pivot.Labels | app/controllers/reports.py:74-78 | the labels are the distinct formatted dates of the rows, each once |
| Pivot.Column | app/controllers/reports.py:84-85 | the intended series of a name: at each label, the count of the last row with that label and name, 0 when there is none |
| Pivot.NoRowNoCount | app/controllers/reports.py:82-85 | a label and name no row carries keeps the count 0 |
| Pivot.LastCountOnly | app/controllers/reports.py:85 | when exactly one row carries a label and name, that row's count is the entry |
| Pivot.AddLabel | app/controllers/reports.py:77-78 | a new formatted date is appended; a known one leaves the labels as they were |
| Pivot.PivotAsWritten | app/controllers/reports.py:74-85 | the loop as written keeps one series per service name, or raises |
| Pivot.PivotAsWrittenFailsOnSecondDate | app/controllers/reports.py:81-85 | two services of the same type, so with the same service name, on two days whose formatted dates differ (a weekly service seen twice in the 30-day window) raise IndexError, because the name's series was sized to the labels known when it was created |
| Pivot.AsWrittenFirstRow | app/controllers/reports.py:74-85 | as written, one row gives one label and one series holding that row's count |
| Pivot.Padded | app/controllers/reports.py:82 | padding keeps the series as a prefix and fills the rest with zeros |
| Pivot.FoldStep | app/controllers/reports.py:74-85 | one corrected step adds the row's label, keeps one series per name, and no series is longer than the labels |
| Pivot.PivotFold | app/controllers/reports.py:74-85 | the corrected loop's labels are the distinct dates in first-seen order, with one series per name, none longer than the labels |
| Pivot.PivotFoldKeys | app/controllers/reports.py:81-82 | a name has a series exactly when some row carries it |
| Pivot.PivotFoldColumns | app/controllers/reports.py:84-85 | each entry a series holds is the count of the last row with that label and name; entries past its end are 0 |
| Pivot.FirstRowOf | app/controllers/reports.py:81-82 | the position of the first row carrying a name, which is past the end exactly when no row carries it |
| Pivot.PivotFoldOrder | app/controllers/reports.py:81-82 | the series come in the order their names are first seen in the rows |
| Pivot.NewLabelHasNoCount | app/controllers/reports.py:77-85 | a label no row produces has no count under any name |
| Pivot.PadAllGet | app/controllers/reports.py:88-98 | padding every series at the end keeps the names, each series as a prefix, and distinct names |
| Pivot.PivotChart | app/controllers/reports.py:70-99 | corrected pivot: labels are the distinct formatted dates in first-seen order; exactly the service names seen have a series, in the order first seen; each series has one entry per label, holding the last count for that label and name, 0 where the service has none |
| Reports.KeysOfCounts | app/controllers/reports.py:49 | COUNT over a group counts exactly the ledger rows that reach that group |
| Reports.CountedRowExists | app/controllers/reports.py:56-58 | a group with a count has a ledger row behind it |
| Reports.KeysIgnoreStatus | app/controllers/reports.py:49 | the counts read no status, so absent rows are counted like present ones |
| Reports.Tally | app/controllers/reports.py:56-58 | GROUP BY: one entry per distinct key, holding the number of rows with that key |
| Reports.Ranked | app/controllers/reports.py:142-146 | one (name, count) pair per name with rows, holding its count, ordered by descending count |
| Reports.Hue | app/controllers/reports.py:95 | `(i * 137) % 360` always lies in [0, 360) |
| Reports.HuesDistinct | app/controllers/reports.py:95 | the first 360 datasets get pairwise different hues |
| Reports.DateGroups | app/controllers/reports.py:38-68 | the date query: ordered by date, one row per (date, service name) with rows in the window, carrying their number, and no group without rows |
| Reports.GroupsInWindow | app/controllers/reports.py:38-40 | every group lies in [today − days, today], both ends included |
| Reports.DateReport | app/controllers/reports.py:35-106 | the date chart gives the i-th dataset the hue `(i * 137) % 360` |
| Reports.DateChartCountsRows | app/controllers/reports.py:46-85 | when the date format keeps the window's days apart, a service's entry at a day's label is the number of ledger rows for that day and service, absent rows included |
| Reports.DateSeriesNames | app/controllers/reports.py:46-85 | the date chart has a series for a service name exactly when some ledger row in the window counts under it |
| Reports.BarsRanked | app/controllers/reports.py:144-145 | the bars are ordered by descending count and name each name once |
| Reports.BarsCountNames | app/controllers/reports.py:162-163 | each name with rows is one bar whose height is its count |
| Reports.BarsCountRows | app/controllers/reports.py:123-163 | a name is a bar exactly when some row counts under it, and its height is the number of such rows |
| Reports.DepartmentReport | app/controllers/reports.py:111-184 | each bar's height is the number of rows under that department name; a name is a bar exactly when it has rows |
| Reports.DepartmentKeyFollowsPath | app/controllers/reports.py:126-137 | a counted row counts under the name of the department on its person's hierarchy path |
| Reports.DepartmentReportIgnoresStatus | app/controllers/reports.py:125 | changing statuses alone does not change the department report |
| Reports.DateGroupsIgnoreStatus | app/controllers/reports.py:49 | changing statuses alone does not change the date query |
| Reports.ApiAttendanceData | app/controllers/reports.py:188-345 | the request fails exactly for an unknown type, for a date report with a region or direction, for a department report with both, and for a team report with either; a breakdown is titled by its type, ordered by descending count, names each name once, and its bars are exactly the names with kept rows, each as high as its number of rows |
| Reports.ApiDateSeriesCountsRows | app/controllers/reports.py:207-330 | the API's date report has a series for a service exactly when it has rows in the window, and at a day's label it holds that day's number of rows |
| Reports.DepartmentIdIgnoredByDepartmentReport | app/controllers/reports.py:291-292 | department_id does not change the department report |
| Reports.TeamIdIgnoredByTeamReport | app/controllers/reports.py:294-295 | team_id does not change the team report |
| Reports.TeamIdRestrictsDepartmentReport | app/controllers/reports.py:294-295 | team_id does restrict the department report: every counted row's person is in a cell of that team |
| Reports.ApiDepartmentsMatchReport | app/controllers/reports.py:225-245 | in a valid store with no region, direction or other filters, the API's department breakdown equals the department page's chart |
| Api.ChildNodes | app/api/routes.py:83-117 | the children listed under a parent are exactly the rows whose parent id is that parent's, each as a node with its own id, name and children |
| Api.ListedUnderOwnParent | app/api/routes.py:83-117 | with unique ids, a row is listed under a parent exactly when it belongs to that parent, and the listed ids stay unique |
| Api.SameIdSameRow | app/api/routes.py:83-117 | with unique ids, two rows sharing an id are the same row |
| Api.ChildIdsUnique | app/api/routes.py:83-117 | unique ids among the rows give unique ids among the listed children |
| Api.PermutationKeepsUniqueIds | app/api/routes.py:72 | reordering rows (the ORDER BY) keeps their ids unique |
| Api.RowOccursOnce | app/api/routes.py:72 | with unique ids, no row occurs twice |
| Api.OrgTree | app/api/routes.py:68-119 | one top-level node per region, ordered by region name |
| Api.OrgTreeHoldsRegions | app/api/routes.py:72-83 | every region appears as its node and every node is a region's; unique region ids give unique node ids |
| Api.DirectionUnderItsRegion | app/api/routes.py:76-89 | in a consistent hierarchy, a direction is listed under exactly one top-level node: its own region's |
| Api.TeamUnderItsDepartment | app/api/routes.py:97-110 | a team is listed under a department exactly when it belongs to it, with unique ids |
| Api.FlatHierarchy | app/api/routes.py:121-174 | all regions; each lower level holds exactly the rows whose parent exists, as the inner joins keep them |
| Api.FilterKeepsAll | app/api/routes.py:130-166 | a join every row survives keeps the whole list |
| Api.FlatHierarchyIsWholeStore | app/api/routes.py:121-174 | in a consistent hierarchy the flat lists are the whole organisation |
| Api.ServiceRows | app/api/routes.py:183 | exactly the ledger rows of the service |
| Api.Records | app/api/routes.py:193-197 | one record per row, in ledger order, with the row's person, that person's "first last" name and the row's check-in time |
| Api.GetAttendanceAsWritten | app/api/routes.py:176-198 | as written: when it answers, every record has a check-in time |
| Api.AbsentRowFailsAsWritten | app/api/routes.py:196 | an absent row without a check-in time makes the endpoint as written fail, where the corrected one lists it with no time |
| Api.GetAttendance | app/api/routes.py:176-198 | 404 exactly when the service is missing; fails exactly when the service's type or a row's person is missing; otherwise the header carries the service's id, its type's name, date and time, the count is the number of the service's ledger rows, and the records follow those rows one to one, each with its person's full name |
| Api.AttendanceCountIsRowCount | app/api/routes.py:192 | attendance_count is the number of ledger rows of the service, absent rows included |
| Api.AsWrittenAgreesWithCheckIns | app/api/routes.py:176-198 | when every row of the service has a check-in time, the endpoint as written and the corrected one agree |
| Api.Latest | app/api/routes.py:207-209 | a service is found exactly when one falls on or before today; it is such a service, and no other one is later by date and time |
| Api.DepartmentNamesCount | app/api/routes.py:217-226 | a department name occurs once per person whose cell lies under that department |
| Api.DepartmentBreakdown | app/api/routes.py:217-230 | the five largest department groups, or all of them when there are fewer, ordered by descending count, each carrying the number of people under that department name, never 0 |
| Api.BreakdownIsTopOfRanking | app/api/routes.py:227-230 | the breakdown is the head of the full ranking, of length min(5, number of names), all of it when there are at most 5 names, and no name left out has more people than one shown |
| Api.PrefixOutranksRest | app/api/routes.py:227-230 | in a list sorted by descending weight, nothing after a cut outweighs anything before it |
| Api.GetOverview | app/api/routes.py:200-244 | the active-people count, the count of services from today on, the department breakdown, and the latest past service with its type's name, its date and its row count; fails exactly when that service's type is missing |

## Left out

- I/O: reading the uploaded file, Flask request parsing, flash messages, redirects, templates and the HTML strings are left out. Form and query arguments arrive already split into typed values, and outcomes are result datatypes.
- pandas file reading and float cells: a spreadsheet cell is a string, an integer, a boolean or empty (NaN). The CSV template downloads are left out because they only write constant text.
- ChainImport.ImportRow: a numeric email or phone cell is stored as its integer digits; pandas would read a phone column with empty cells as floats, so "5551234" would arrive as "5551234.0".
- ChainImport.ImportRow: the names on a known person's path are compared as the row gives them; an empty or numeric path cell, which the source compares as NaN or a number, is not modelled.
- Date and time formatting by `strftime`: the date format is a function parameter. `Reports.DateChartCountsRows` assumes that the format keeps the days of the window apart. In `Api.GetAttendance` and `Api.GetOverview` the service's date and time are the stored values, not the `formatted_date` / `formatted_time` text.
- SQL text, SQLAlchemy sessions, flush / commit / rollback and transactions are left out. A per-row store failure is an explicit error outcome. Session poisoning after a failed flush is modelled only for the assignment import as written (`ChainImport.ImportAsWritten`), where one refused write fails the whole file.
- AttendanceForm.ParseInt: Python's `int()` also accepts digits of other scripts (Unicode category Nd); only ASCII digits are modelled.
- AttendanceForm.SqlInt: PostgreSQL 16 and later also accept underscores and `0x` / `0o` / `0b` prefixes in integer text. The PostgreSQL version is not pinned in the repository, so the older, plainer syntax is modelled.
- LegacyImport.IdParam: a numeric `person_id` cell outside the 32-bit range is compared as it is; the store would reject it as out of range.
- LegacyMarking.LegacyMark: the checkbox person ids arrive as ids; their text form and its cast are not modelled.
- Column length checks appear only where a write can violate them. Those writes are the imports and the person save.
- SQLAlchemy's join inference: each query's joins are written out. Two of them cannot be built: the date report filtered by region or direction, and a report that joins a table twice. Both are a failed query (`QueryFailed`).
- Reports.ApiAttendanceData: a filter on a table the query never joins is modelled as a cross join, assuming unique ids. The tie order under `ORDER BY count DESC`, and the order within one date of the date query, are taken as first-seen (a stable sort). PostgreSQL leaves both unspecified.
- Api.DepartmentBreakdown: ties between equal counts keep first-seen order. The database may return any order among them.
- Lower: only ASCII letters are lower-cased. Python's `lower()` and PostgreSQL's `ILIKE` also fold other scripts.
- String ordering is code-point lexicographic, the C collation. The database collation may differ.
- The status column is a closed choice of the two values the application writes. Unknown status strings from the form are ignored before they reach the store.
- Caching: the `flask_caching` decorators and the cache service are left out. They change when a result is computed, not what it is.
- `get_services` of the JSON API (upcoming services, limit 20): it is a plain query with no logic beyond the `Services.IsUpcoming` test.
- The authentication views, the seeding and schema-migration scripts, the thin service and main views, the duplicate API controller and the browser script are left out. They are outside the attendance, import, hierarchy and report logic.
- The person's `direction` column is modelled as the required text it is. The corrected imports fill it with the direction name on the person's cell chain (`LegacyImport.Insert`) or with the row's Direction cell (`ChainImport.ImportRow`); the source never writes it, so that choice is the model's.
- Members.Paginate: follows the `paginate(..., error_out=False)` behaviour of Flask-SQLAlchemy 3, where a page below 1 becomes 1 and a size below 1 becomes 20. The library version is not pinned in the repository.

## Findings

| source | as written | input that shows it | evidently intended | confidence | as-written member | corrected member |
|---|---|---|---|---|---|---|
| app/controllers/reports.py:81-85 | a service's series is created with as many zeros as there are labels so far and never padded; a later row of that service on a new date writes past its end; the JSON report repeats the loop at app/controllers/reports.py:309-317 | two services of the same type (same service name) on two days whose formatted dates differ, e.g. a weekly service seen twice in the 30-day window: the second service's index is 1 in a series of length 1, an IndexError | every series has one entry per label, 0 where the service has no row | not executed | Pivot.PivotAsWritten, Pivot.PivotAsWrittenFailsOnSecondDate | Pivot.PivotChart |
| app/api/routes.py:196 | every record's `check_in_time` is formatted with `strftime` | a service with one Absent row, whose `check_in_time` is None: the call raises an AttributeError | an absent row is listed with no check-in time | not executed | Api.GetAttendanceAsWritten, Api.AbsentRowFailsAsWritten | Api.GetAttendance |
| app.py:1052-1055 | the INSERT of a new person lists first_name, last_name, email, phone, cell_id and is_active, but not the required `direction` column | any row decided as a create, for example an unmatched row with both names and an existing cell, with create_missing on: the store refuses the insert and the row counts as an error | the insert writes a direction, and the row creates the person | not executed | LegacyImport.InsertAsWritten, LegacyImport.CreateFailsAsWritten | LegacyImport.Insert, LegacyImport.InsertInValidOrg |
| app/controllers/assignments.py:310-317 | a new `Person` is built without `direction`, which the model declares `nullable=False` | a file with one row naming a person not yet stored: the flush or the final commit raises, and the whole file fails with "Error processing file" | the person is created with a direction | not executed | ChainImport.ImportAsWritten, ChainImport.NewPersonFailsAsWritten | ChainImport.ImportRow, ChainImport.NewPersonPlaced |
| app/controllers/assignments.py:393-398 | a write the store refuses is sent only at the next flush, so its error is counted against a later row or raised by the commit; either way the session is left failed, so every later write and the final commit raise | a row for a known person with a 101-character email: the refused update is flushed only at the next row's autoflush (app/controllers/assignments.py:245) or at the commit (app/controllers/assignments.py:398), so the error is charged to the following row or to the whole file, and the file as a whole fails instead of reporting that row | the row is reported as an error, and the others are imported | not executed | ChainImport.ImportAsWritten, ChainImport.WidthErrorFailsFileAsWritten | ChainImport.ImportAssignments, ChainImport.ErrorRowsAreFailedRows |
| app.py:1011-1015 | the UPDATE (and the INSERT at app.py:1061-1071) takes its own connection from the pool and never gives it back, while the lookups of `execute_query` return theirs | a file of 21 rows that each update a known person, in a process whose pool is fresh: the first 20 rows update, and the 21st row's first lookup raises `PoolError` and is counted as an error; from then on every query of the process fails | every connection taken is given back, and every row updates | not executed | LegacyImport.RunLeaking, LegacyImport.PoolExhaustedAsWritten | LegacyImport.Run, LegacyImport.RunRepeat |

=== FILE: api.dfy ===
/** The JSON API (app/api/routes.py): the organisation tree, the flat hierarchy
    lists for cascading dropdowns, the attendance of one service and the overview
    statistics. The people search of the same file is `Members.SearchPeople`. */
module Api {
  import opened Common
  import opened OrderedDict
  import opened Order
  import opened Organization
  import opened People
  import opened Services
  import opened Database
  import opened Reports

  // The organisation tree (routes.py:68-119).

  /** One node of the tree: its own id and name and the nodes one level down (a
      cell's list is empty). */
  datatype Node = Node(id: Id, name: string, children: seq<Node>)

  /** The nodes of the rows of `s` whose parent is `pid`, in store order (the
      relationship collections `region.directions`, `direction.departments`, ...). */
  function ChildNodes<T>(s: seq<T>, id: T -> Id, name: T -> string, parent: T -> Id, pid: Id,
                         children: T -> seq<Node>): (r: seq<Node>)
    ensures forall n :: n in r ==> exists x :: x in s && parent(x) == pid && n == Node(id(x), name(x), children(x))
    ensures forall x :: x in s && parent(x) == pid ==> Node(id(x), name(x), children(x)) in r
  {
    if |s| == 0 then []
    else
      assert forall x :: x in s ==> x == s[0] || x in s[1..];
      (if parent(s[0]) == pid then [Node(id(s[0]), name(s[0]), children(s[0]))] else [])
        + ChildNodes(s[1..], id, name, parent, pid, children)
  }

  /** With unique ids in the table, a row is listed under a parent exactly when it
      is that parent's child, and never twice. */
  lemma {:induction false} ListedUnderOwnParent<T>(s: seq<T>, id: T -> Id, name: T -> string, parent: T -> Id, pid: Id,
                                                   children: T -> seq<Node>, x: T)
    requires UniqueIds(s, id) && x in s
    ensures var r := ChildNodes(s, id, name, parent, pid, children);
      && ((exists n :: n in r && n.id == id(x)) <==> parent(x) == pid)
      && UniqueIds(r, (n: Node) => n.id)
    decreases |s|
  {
    var r := ChildNodes(s, id, name, parent, pid, children);
    if exists n :: n in r && n.id == id(x) {
      var n :| n in r && n.id == id(x);
      var y :| y in s && parent(y) == pid && n == Node(id(y), name(y), children(y));
      SameIdSameRow(s, id, x, y);
    }
    ChildIdsUnique(s, id, name, parent, pid, children);
  }

  lemma SameIdSameRow<T>(s: seq<T>, id: T -> Id, x: T, y: T)
    requires UniqueIds(s, id) && x in s && y in s && id(x) == id(y)
    ensures x == y
  {
    var i :| 0 <= i < |s| && s[i] == x;
    var j :| 0 <= j < |s| && s[j] == y;
    assert i == j;
  }

  lemma {:induction false} ChildIdsUnique<T>(s: seq<T>, id: T -> Id, name: T -> string, parent: T -> Id, pid: Id,
                                             children: T -> seq<Node>)
    requires UniqueIds(s, id)
    ensures UniqueIds(ChildNodes(s, id, name, parent, pid, children), (n: Node) => n.id)
    decreases |s|
  {
    if |s| > 0 {
      assert UniqueIds(s[1..], id);
      ChildIdsUnique(s[1..], id, name, parent, pid, children);
      var rest := ChildNodes(s[1..], id, name, parent, pid, children);
      forall n | n in rest ensures n.id != id(s[0]) {
        var y :| y in s[1..] && parent(y) == pid && n == Node(id(y), name(y), children(y));
        var j :| 0 <= j < |s[1..]| && s[1..][j] == y;
        assert s[j + 1] == y;
      }
    }
  }

  function CellNodes(o: Org, teamId: Id): seq<Node> {
    ChildNodes(o.cells, (c: Cell) => c.id, (c: Cell) => c.name, (c: Cell) => c.teamId, teamId, (c: Cell) => [])
  }

  function TeamNodes(o: Org, departmentId: Id): seq<Node> {
    ChildNodes(o.teams, (t: Team) => t.id, (t: Team) => t.name, (t: Team) => t.departmentId, departmentId,
               (t: Team) => CellNodes(o, t.id))
  }

  function DepartmentNodes(o: Org, directionId: Id): seq<Node> {
    ChildNodes(o.departments, (d: Department) => d.id, (d: Department) => d.name, (d: Department) => d.directionId,
               directionId, (d: Department) => TeamNodes(o, d.id))
  }

  function DirectionNodes(o: Org, regionId: Id): seq<Node> {
    ChildNodes(o.directions, (d: Direction) => d.id, (d: Direction) => d.name, (d: Direction) => d.regionId, regionId,
               (d: Direction) => DepartmentNodes(o, d.id))
  }

  function RegionKey(r: Region): Key {
    [r.name]
  }

  function RegionNode(o: Org, r: Region): Node {
    Node(r.id, r.name, DirectionNodes(o, r.id))
  }

  /** A reordering keeps a table's ids unique. */
  lemma PermutationKeepsUniqueIds<T>(s: seq<T>, t: seq<T>, id: T -> Id)
    requires UniqueIds(s, id) && multiset(t) == multiset(s)
    ensures UniqueIds(t, id)
  {
    forall i, j | 0 <= i < j < |t| ensures id(t[i]) != id(t[j]) {
      assert t[i] in multiset(s) && t[j] in multiset(s);
      if id(t[i]) == id(t[j]) {
        SameIdSameRow(s, id, t[i], t[j]);
        TwoPositions(t, i, j);
        RowOccursOnce(s, id, t[i]);
      }
    }
  }

  lemma {:induction false} RowOccursOnce<T>(s: seq<T>, id: T -> Id, x: T)
    requires UniqueIds(s, id)
    ensures multiset(s)[x] <= 1
    decreases |s|
  {
    if |s| > 0 {
      assert s == [s[0]] + s[1..];
      assert UniqueIds(s[1..], id);
      RowOccursOnce(s[1..], id, x);
      if s[0] == x {
        forall j | 0 <= j < |s[1..]| ensures s[1..][j] != x {
          assert id(s[j + 1]) != id(s[0]);
        }
      }
    }
  }

  /** `get_organization`: the regions ordered by name, each with its subtree. */
  function OrgTree(o: Org): (r: seq<Node>)
    ensures |r| == |o.regions|
    ensures forall i, j :: 0 <= i < j < |r| ==> StrLe(r[i].name, r[j].name)
  {
    var sorted := SortBy(o.regions, RegionKey);
    var r := seq(|sorted|, i requires 0 <= i < |sorted| => RegionNode(o, sorted[i]));
    forall i, j | 0 <= i < j < |r| ensures StrLe(r[i].name, r[j].name) {
      var a, b := sorted[i].name, sorted[j].name;
      assert KeyLe([a], [b]);
      assert r[i].name == a && r[j].name == b;
      if a == b { StrLeRefl(a); }
    }
    r
  }

  /** The tree holds one node per region of the store, and nothing else. */
  lemma OrgTreeHoldsRegions(o: Org)
    ensures forall reg :: reg in o.regions ==> RegionNode(o, reg) in OrgTree(o)
    ensures forall n :: n in OrgTree(o) ==> exists reg :: reg in o.regions && n == RegionNode(o, reg)
    ensures UniqueIds(o.regions, (reg: Region) => reg.id) ==> UniqueIds(OrgTree(o), (n: Node) => n.id)
  {
    var sorted := SortBy(o.regions, RegionKey);
    OrgTreeNodes(o);
    forall reg | reg in o.regions ensures RegionNode(o, reg) in OrgTree(o) {
      SortKeepsMembers(o.regions, RegionKey, reg);
      NodeOfSorted(o, sorted, OrgTree(o), reg);
    }
    forall n | n in OrgTree(o) ensures exists reg :: reg in o.regions && n == RegionNode(o, reg) {
      var i :| 0 <= i < |OrgTree(o)| && OrgTree(o)[i] == n;
      SortKeepsMembers(o.regions, RegionKey, sorted[i]);
    }
    if UniqueIds(o.regions, (reg: Region) => reg.id) {
      PermutationKeepsUniqueIds(o.regions, sorted, (reg: Region) => reg.id);
      SameIdsUnique(sorted, OrgTree(o));
    }
  }

  /** The tree's nodes are the sorted regions' nodes, position by position. */
  lemma OrgTreeNodes(o: Org)
    ensures |OrgTree(o)| == |SortBy(o.regions, RegionKey)|
    ensures forall i :: 0 <= i < |OrgTree(o)| ==> OrgTree(o)[i] == RegionNode(o, SortBy(o.regions, RegionKey)[i])
  {
  }

  lemma NodeOfSorted(o: Org, sorted: seq<Region>, r: seq<Node>, reg: Region)
    requires |r| == |sorted| && forall i :: 0 <= i < |r| ==> r[i] == RegionNode(o, sorted[i])
    requires reg in sorted
    ensures RegionNode(o, reg) in r
  {
    var i :| 0 <= i < |sorted| && sorted[i] == reg;
    assert r[i] == RegionNode(o, reg);
  }

  lemma SameIdsUnique(sorted: seq<Region>, r: seq<Node>)
    requires UniqueIds(sorted, (reg: Region) => reg.id)
    requires |r| == |sorted| && forall i :: 0 <= i < |r| ==> r[i].id == sorted[i].id
    ensures UniqueIds(r, (n: Node) => n.id)
  {
  }

  /** In a valid organisation a direction appears under exactly one region node of
      the tree, its own region, and once in that region's list. */
  lemma DirectionUnderItsRegion(o: Org, d: Direction)
    requires ValidOrg(o) && d in o.directions
    ensures var tree := OrgTree(o);
      && (exists i :: 0 <= i < |tree| && tree[i].id == d.regionId)
      && (forall i :: 0 <= i < |tree| ==>
           ((exists n :: n in tree[i].children && n.id == d.id) <==> tree[i].id == d.regionId))
      && UniqueIds(tree, (n: Node) => n.id)
  {
    var tree := OrgTree(o);
    OrgTreeHoldsRegions(o);
    assert RegionsValid(o) && DirectionsValid(o);
    var reg := FindRegion(o, d.regionId).value;
    assert RegionNode(o, reg) in tree;
    forall i | 0 <= i < |tree|
      ensures (exists n :: n in tree[i].children && n.id == d.id) <==> tree[i].id == d.regionId
    {
      assert tree[i] in tree;
      var owner :| owner in o.regions && tree[i] == RegionNode(o, owner);
      ListedUnderOwnParent(o.directions, (x: Direction) => x.id, (x: Direction) => x.name, (x: Direction) => x.regionId,
                           owner.id, (x: Direction) => DepartmentNodes(o, x.id), d);
    }
  }

  /** Below the regions, every node lists exactly its own children once: a team
      under its department, a cell under its team, and so on. */
  lemma TeamUnderItsDepartment(o: Org, t: Team, departmentId: Id)
    requires ValidOrg(o) && t in o.teams
    ensures var nodes := TeamNodes(o, departmentId);
      && ((exists n :: n in nodes && n.id == t.id) <==> t.departmentId == departmentId)
      && UniqueIds(nodes, (n: Node) => n.id)
  {
    assert TeamsValid(o);
    ListedUnderOwnParent(o.teams, (x: Team) => x.id, (x: Team) => x.name, (x: Team) => x.departmentId, departmentId,
                         (x: Team) => CellNodes(o, x.id), t);
  }

  // The flat lists (routes.py:121-174).

  /** Each list holds store rows, so every entry carries its own parent id. */
  datatype Hierarchy = Hierarchy(
    regions: seq<Region>,
    directions: seq<Direction>,
    departments: seq<Department>,
    teams: seq<Team>,
    cells: seq<Cell>)

  /** `get_organization_hierarchy`: every table, each joined to its parent (an
      inner join drops a row whose parent is missing). */
  function FlatHierarchy(o: Org): (r: Hierarchy)
    ensures r.regions == o.regions
    ensures forall d :: d in r.directions <==> d in o.directions && FindRegion(o, d.regionId).Some?
    ensures forall d :: d in r.departments <==> d in o.departments && FindDirection(o, d.directionId).Some?
    ensures forall t :: t in r.teams <==> t in o.teams && FindDepartment(o, t.departmentId).Some?
    ensures forall c :: c in r.cells <==> c in o.cells && FindTeam(o, c.teamId).Some?
  {
    Hierarchy(
      o.regions,
      Filter(o.directions, (d: Direction) => FindRegion(o, d.regionId).Some?),
      Filter(o.departments, (d: Department) => FindDirection(o, d.directionId).Some?),
      Filter(o.teams, (t: Team) => FindDepartment(o, t.departmentId).Some?),
      Filter(o.cells, (c: Cell) => FindTeam(o, c.teamId).Some?))
  }

  lemma {:induction false} FilterKeepsAll<T>(s: seq<T>, p: T -> bool)
    requires forall x :: x in s ==> p(x)
    ensures Filter(s, p) == s
    decreases |s|
  {
    if |s| > 0 {
      assert s[0] in s;
      assert forall x :: x in s[1..] ==> x in s;
      FilterKeepsAll(s[1..], p);
      assert s == [s[0]] + s[1..];
    }
  }

  /** In a valid organisation the joins drop nothing: the lists are the whole
      tables, in store order. */
  lemma FlatHierarchyIsWholeStore(o: Org)
    requires ValidOrg(o)
    ensures FlatHierarchy(o) == Hierarchy(o.regions, o.directions, o.departments, o.teams, o.cells)
  {
    assert DirectionsValid(o) && DepartmentsValid(o) && TeamsValid(o) && CellsValid(o);
    FilterKeepsAll(o.directions, (d: Direction) => FindRegion(o, d.regionId).Some?);
    FilterKeepsAll(o.departments, (d: Department) => FindDirection(o, d.directionId).Some?);
    FilterKeepsAll(o.teams, (t: Team) => FindDepartment(o, t.departmentId).Some?);
    FilterKeepsAll(o.cells, (c: Cell) => FindTeam(o, c.teamId).Some?);
  }

  // The attendance of one service (routes.py:176-198).

  /** One record: the person, their full name and the check-in time, if any. */
  datatype Record = Record(personId: Id, name: string, checkIn: Option<int>)

  datatype ServiceAttendance = ServiceAttendance(
    serviceId: Id,
    serviceName: string,
    date: int,
    time: int,
    count: nat,
    records: seq<Record>)

  /** NotFound is the 404 of `get_or_404`; Failed is an exception while building
      the response. */
  datatype Fetch = NotFound | Failed | Fetched(attendance: ServiceAttendance)

  /** The ledger rows of one service, in store order. */
  function ServiceRows(l: Ledger, serviceId: Id): (r: Ledger)
    ensures forall a :: a in r <==> a in l && a.serviceId == serviceId
  {
    Filter(l, (a: Attendance) => a.serviceId == serviceId)
  }

  /** Every row's person exists (`record.person` is not None). */
  predicate PeopleExist(people: seq<Person>, rows: Ledger) {
    forall a :: a in rows ==> FindPerson(people, a.personId).Some?
  }

  function RecordOf(people: seq<Person>, a: Attendance): Record
    requires FindPerson(people, a.personId).Some?
  {
    Record(a.personId, FullName(FindPerson(people, a.personId).value), a.checkIn)
  }

  function Records(people: seq<Person>, rows: Ledger): (r: seq<Record>)
    requires PeopleExist(people, rows)
    ensures |r| == |rows|
    ensures forall i :: 0 <= i < |rows| ==> r[i].personId == rows[i].personId && r[i].checkIn == rows[i].checkIn
    ensures forall i :: 0 <= i < |rows| ==>
      FindPerson(people, rows[i].personId).Some? && r[i].name == FullName(FindPerson(people, rows[i].personId).value)
  {
    seq(|rows|, i requires 0 <= i < |rows| => (assert rows[i] in rows; RecordOf(people, rows[i])))
  }

  /** `get_attendance` as written: every record's check-in time is formatted, so a
      row without one (an absent row) makes the whole call fail. */
  function GetAttendanceAsWritten(st: Store, serviceId: Id): (r: Fetch)
    ensures r.Fetched? ==> forall x :: x in r.attendance.records ==> x.checkIn.Some?
  {
    match FindService(st.services, serviceId)
    case None => NotFound
    case Some(s) =>
      var rows := ServiceRows(st.ledger, serviceId);
      match FindServiceType(st.types, s.typeId)
      case None => Failed
      case Some(t) =>
        if !PeopleExist(st.people, rows) then Failed
        else if exists a :: a in rows && a.checkIn.None? then Failed
        else
          var records := Records(st.people, rows);
          assert forall x :: x in records ==> x.checkIn.Some? by {
            forall x | x in records ensures x.checkIn.Some? {
              var i :| 0 <= i < |records| && records[i] == x;
              assert rows[i] in rows;
            }
          }
          Fetched(ServiceAttendance(s.id, t.name, s.date, s.time, |rows|, records))
  }

  /** `get_attendance` with a missing check-in time reported as null. */
  function GetAttendance(st: Store, serviceId: Id): (r: Fetch)
    ensures r == NotFound <==> FindService(st.services, serviceId).None?
    ensures r == Failed <==>
      (&& FindService(st.services, serviceId).Some?
       && (|| FindServiceType(st.types, FindService(st.services, serviceId).value.typeId).None?
           || !PeopleExist(st.people, ServiceRows(st.ledger, serviceId))))
    ensures r.Fetched? ==>
      var rows := ServiceRows(st.ledger, serviceId);
      && r.attendance.count == |rows| == |r.attendance.records|
      && forall i :: 0 <= i < |rows| ==>
           r.attendance.records[i].personId == rows[i].personId && r.attendance.records[i].checkIn == rows[i].checkIn
    ensures r.Fetched? ==>
      var rows := ServiceRows(st.ledger, serviceId);
      forall i :: 0 <= i < |rows| ==>
        && FindPerson(st.people, rows[i].personId).Some?
        && r.attendance.records[i].name == FullName(FindPerson(st.people, rows[i].personId).value)
    ensures r.Fetched? ==>
      var s := FindService(st.services, serviceId);
      && s.Some? && FindServiceType(st.types, s.value.typeId).Some?
      && r.attendance.serviceId == serviceId
      && r.attendance.serviceName == FindServiceType(st.types, s.value.typeId).value.name
      && r.attendance.date == s.value.date
      && r.attendance.time == s.value.time
  {
    match FindService(st.services, serviceId)
    case None => NotFound
    case Some(s) =>
      var rows := ServiceRows(st.ledger, serviceId);
      match FindServiceType(st.types, s.typeId)
      case None => Failed
      case Some(t) =>
        if !PeopleExist(st.people, rows) then Failed
        else Fetched(ServiceAttendance(s.id, t.name, s.date, s.time, |rows|, Records(st.people, rows)))
  }

  /** `attendance_count` counts every row of the service, whatever its status. */
  lemma AttendanceCountIsRowCount(st: Store, serviceId: Id)
    requires GetAttendance(st, serviceId).Fetched?
    ensures GetAttendance(st, serviceId).attendance.count
         == CountWhere(st.ledger, (a: Attendance) => a.serviceId == serviceId)
  {
    FilterCount(st.ledger, (a: Attendance) => a.serviceId == serviceId);
  }

  /** The two agree whenever every row of the service has a check-in time. */
  lemma AsWrittenAgreesWithCheckIns(st: Store, serviceId: Id)
    requires forall a :: a in st.ledger && a.serviceId == serviceId ==> a.checkIn.Some?
    ensures GetAttendanceAsWritten(st, serviceId) == GetAttendance(st, serviceId)
  {
  }

  /** A service whose only row is an absent one (absent rows carry no check-in
      time) fails as written, and is listed with a null time when corrected. */
  lemma AbsentRowFailsAsWritten(p: Person, s: Service, t: ServiceType)
    requires s.typeId == t.id
    ensures var st := Store(Org([], [], [], [], []), [p], [t], [s], [Attendance(s.id, p.id, Absent, None, None)]);
      && GetAttendanceAsWritten(st, s.id) == Failed
      && GetAttendance(st, s.id).Fetched?
      && GetAttendance(st, s.id).attendance.records == [Record(p.id, FullName(p), None)]
  {
    var row := Attendance(s.id, p.id, Absent, None, None);
    var st := Store(Org([], [], [], [], []), [p], [t], [s], [row]);
    assert FindService(st.services, s.id) == Some(s);
    assert FindServiceType(st.types, s.typeId) == Some(t);
    assert FindPerson(st.people, p.id) == Some(p);
    var rows := ServiceRows(st.ledger, s.id);
    assert rows == [row];
    assert row in rows;
  }

  // The overview (routes.py:200-244).

  /** Lexicographic order on (date, time): `ORDER BY service_date DESC,
      service_time DESC`. */
  predicate NotLater(a: Service, b: Service) {
    a.date < b.date || (a.date == b.date && a.time <= b.time)
  }

  /** The most recent service on or before today; among equal (date, time) the
      first in store order. */
  function Latest(services: seq<Service>, today: int): (r: Option<Service>)
    ensures r.Some? <==> exists s :: s in services && s.date <= today
    ensures r.Some? ==> r.value in services && r.value.date <= today
    ensures r.Some? ==> forall s :: s in services && s.date <= today ==> NotLater(s, r.value)
  {
    if |services| == 0 then None
    else
      var rest := Latest(services[1..], today);
      var s0 := services[0];
      assert forall s :: s in services ==> s == s0 || s in services[1..];
      if s0.date > today then rest
      else if rest.None? || NotLater(rest.value, s0) then Some(s0)
      else rest
  }

  const BreakdownLimit: nat := 5

  /** The department a person counts under in the breakdown: departments JOIN
      teams JOIN cells JOIN people, so the chain must resolve up to the department. */
  function PersonDepartment(o: Org, p: Person): Option<string> {
    match FindCell(o, p.cellId)
    case None => None
    case Some(c) =>
      match FindTeam(o, c.teamId)
      case None => None
      case Some(t) =>
        match FindDepartment(o, t.departmentId)
        case None => None
        case Some(d) => Some(d.name)
  }

  /** The department names of the people, one per person whose chain resolves. */
  function DepartmentNames(o: Org, people: seq<Person>): (r: seq<string>)
  {
    if |people| == 0 then []
    else (match PersonDepartment(o, people[0]) case Some(n) => [n] case None => []) + DepartmentNames(o, people[1..])
  }

  /** The breakdown counts people, active or not, per department name. */
  lemma {:induction false} DepartmentNamesCount(o: Org, people: seq<Person>, name: string)
    ensures multiset(DepartmentNames(o, people))[name]
         == CountWhere(people, (p: Person) => PersonDepartment(o, p) == Some(name))
    decreases |people|
  {
    if |people| > 0 {
      DepartmentNamesCount(o, people[1..], name);
    }
  }

  /** The department breakdown: the five largest (department name, people count)
      groups, largest first. */
  function DepartmentBreakdown(o: Org, people: seq<Person>): (r: seq<(string, nat)>)
    ensures |r| == var n := |Ranked(DepartmentNames(o, people))|; if n < BreakdownLimit then n else BreakdownLimit
    ensures SortedDesc(r, CountOf)
    ensures forall e :: e in r ==> e.1 == CountWhere(people, (p: Person) => PersonDepartment(o, p) == Some(e.0)) > 0
  {
    var ranked := Ranked(DepartmentNames(o, people));
    var top := Take(ranked, BreakdownLimit);
    assert forall e :: e in top ==> e in ranked;
    forall e | e in top
      ensures e.1 == CountWhere(people, (p: Person) => PersonDepartment(o, p) == Some(e.0)) > 0
    {
      DepartmentNamesCount(o, people, e.0);
    }
    top
  }

  /** The breakdown is the top of the full ranking: nothing left out has a
      higher count than an entry shown. */
  lemma BreakdownIsTopOfRanking(o: Org, people: seq<Person>)
    ensures var shown := DepartmentBreakdown(o, people);
      var all := Ranked(DepartmentNames(o, people));
      && shown == all[..|shown|]
      && |shown| == (if |all| < BreakdownLimit then |all| else BreakdownLimit)
      && (|all| <= BreakdownLimit ==> shown == all)
      && forall e, x :: e in shown && x in all[|shown|..] ==> x.1 <= e.1
  {
    var all := Ranked(DepartmentNames(o, people));
    PrefixOutranksRest(all, |DepartmentBreakdown(o, people)|, CountOf);
  }

  /** In a list sorted by descending weight, no element after position `k`
      outweighs one before it. */
  lemma PrefixOutranksRest<T>(s: seq<T>, k: nat, weight: T -> int)
    requires SortedDesc(s, weight)
    requires k <= |s|
    ensures forall e, x :: e in s[..k] && x in s[k..] ==> weight(x) <= weight(e)
  {
    forall e, x | e in s[..k] && x in s[k..] ensures weight(x) <= weight(e) {
      var i :| 0 <= i < k && s[..k][i] == e;
      var j :| 0 <= j < |s| - k && s[k..][j] == x;
      assert s[i] == e && s[k + j] == x;
    }
  }

  datatype Overview = Overview(
    activePeople: nat,
    upcomingServices: nat,
    recentService: Option<(string, int)>,
    recentCount: nat,
    breakdown: seq<(string, nat)>)

  /** Failed: the latest service has no type (`service_type.service_name` of None). */
  datatype OverviewResult = OverviewFailed | Stats(overview: Overview)

  /** `get_overview_stats`. */
  function GetOverview(st: Store, today: int): (r: OverviewResult)
    ensures r.Stats? ==>
      && r.overview.activePeople == CountWhere(st.people, (p: Person) => p.isActive)
      && r.overview.upcomingServices == CountWhere(st.services, (s: Service) => IsUpcoming(s, today))
      && r.overview.breakdown == DepartmentBreakdown(st.org, st.people)
    ensures r.Stats? ==> (r.overview.recentService.None? <==> Latest(st.services, today).None?)
    ensures r.Stats? && Latest(st.services, today).None? ==> r.overview.recentCount == 0
    ensures r.Stats? && Latest(st.services, today).Some? ==>
      && FindServiceType(st.types, Latest(st.services, today).value.typeId).Some?
      && r.overview.recentService.value.0 == FindServiceType(st.types, Latest(st.services, today).value.typeId).value.name
      && r.overview.recentService.value.1 == Latest(st.services, today).value.date
      && r.overview.recentCount
         == CountWhere(st.ledger, (a: Attendance) => a.serviceId == Latest(st.services, today).value.id)
    ensures r == OverviewFailed <==>
      Latest(st.services, today).Some? && FindServiceType(st.types, Latest(st.services, today).value.typeId).None?
  {
    var top := DepartmentBreakdown(st.org, st.people);
    var active := CountWhere(st.people, (p: Person) => p.isActive);
    var upcoming := CountWhere(st.services, (s: Service) => IsUpcoming(s, today));
    match Latest(st.services, today)
    case None => Stats(Overview(active, upcoming, None, 0, top))
    case Some(s) =>
      match FindServiceType(st.types, s.typeId)
      case None => OverviewFailed
      case Some(t) =>
        var count := CountWhere(st.ledger, (a: Attendance) => a.serviceId == s.id);
        Stats(Overview(active, upcoming, Some((t.name, s.date)), count, top))
  }
}

=== FILE: chain_import.dfy ===
/** The assignment import (app/controllers/assignments.py:197-417): each spreadsheet
    row names a person and a full Region > Direction > Department > Team > Cell
    path by NAME. A person not yet known (exact, case-sensitive first and last
    name) is created active in the cell the path resolves to, creating every
    missing level on the way; a known person is moved to the cell the path names,
    and their email and phone are replaced when the row gives them. In
    `ImportAssignments` a row that the store rejects counts as an error and the
    import goes on with the next; `ImportAsWritten` is the import as the source
    runs it, in one session that a single refused write fails as a whole. */
module ChainImport {
  import opened Common
  import opened Organization
  import opened People
  import opened Dropdowns
  import opened Sheet

  // First-match lookups over a growing table.

  lemma FirstAfterAppend<T>(s: seq<T>, x: T, p: T -> bool)
    ensures First(s, p).Some? ==> First(s + [x], p) == First(s, p)
    ensures First(s, p).None? && p(x) ==> First(s + [x], p) == Some(x)
  {
    var i := FirstIndex(s, p);
    var j := FirstIndex(s + [x], p);
    if i < |s| {
      assert (s + [x])[i] == s[i];
      assert j == i;
    } else if p(x) {
      assert (s + [x])[|s|] == x;
      assert forall k :: 0 <= k < |s| ==> (s + [x])[k] == s[k];
      assert j == |s|;
    }
  }

  lemma UniqueIdsAppend<T>(s: seq<T>, x: T, id: T -> Id)
    requires UniqueIds(s, id)
    requires forall y :: y in s ==> id(y) < id(x)
    ensures UniqueIds(s + [x], id)
  {
    forall i, j | 0 <= i < j < |s + [x]| ensures id((s + [x])[i]) != id((s + [x])[j]) {
      assert (s + [x])[i] in s;
      if j < |s| {
        assert (s + [x])[j] == s[j];
      }
    }
  }

  // Get-or-create, one level at a time: the first node with the name (and, below
  // the region, the parent) is reused; otherwise a node with a fresh id is added.

  function RegionNamed(o: Org, name: string): Option<Region> {
    First(o.regions, (r: Region) => r.name == name)
  }

  function DirectionNamed(o: Org, name: string, regionId: Id): Option<Direction> {
    First(o.directions, (d: Direction) => d.name == name && d.regionId == regionId)
  }

  function DepartmentNamed(o: Org, name: string, directionId: Id): Option<Department> {
    First(o.departments, (d: Department) => d.name == name && d.directionId == directionId)
  }

  function TeamNamed(o: Org, name: string, departmentId: Id): Option<Team> {
    First(o.teams, (t: Team) => t.name == name && t.departmentId == departmentId)
  }

  function CellNamed(o: Org, name: string, teamId: Id): Option<Cell> {
    First(o.cells, (c: Cell) => c.name == name && c.teamId == teamId)
  }

  function GetOrCreateRegion(o: Org, name: string): (r: (Org, Region))
    ensures r.1.name == name && r.1 in r.0.regions
    ensures r.0.directions == o.directions && r.0.departments == o.departments
    ensures r.0.teams == o.teams && r.0.cells == o.cells
    ensures RegionNamed(r.0, name) == Some(r.1)
  {
    match RegionNamed(o, name)
    case Some(x) => (o, x)
    case None =>
      var x := Region(NextId(o.regions, (r: Region) => r.id), name);
      FirstAfterAppend(o.regions, x, (r: Region) => r.name == name);
      (o.(regions := o.regions + [x]), x)
  }

  function GetOrCreateDirection(o: Org, name: string, regionId: Id): (r: (Org, Direction))
    ensures r.1.name == name && r.1.regionId == regionId && r.1 in r.0.directions
    ensures r.0.regions == o.regions && r.0.departments == o.departments
    ensures r.0.teams == o.teams && r.0.cells == o.cells
    ensures DirectionNamed(r.0, name, regionId) == Some(r.1)
  {
    match DirectionNamed(o, name, regionId)
    case Some(x) => (o, x)
    case None =>
      var x := Direction(NextId(o.directions, (d: Direction) => d.id), name, regionId);
      FirstAfterAppend(o.directions, x, (d: Direction) => d.name == name && d.regionId == regionId);
      (o.(directions := o.directions + [x]), x)
  }

  function GetOrCreateDepartment(o: Org, name: string, directionId: Id): (r: (Org, Department))
    ensures r.1.name == name && r.1.directionId == directionId && r.1 in r.0.departments
    ensures r.0.regions == o.regions && r.0.directions == o.directions
    ensures r.0.teams == o.teams && r.0.cells == o.cells
    ensures DepartmentNamed(r.0, name, directionId) == Some(r.1)
  {
    match DepartmentNamed(o, name, directionId)
    case Some(x) => (o, x)
    case None =>
      var x := Department(NextId(o.departments, (d: Department) => d.id), name, directionId);
      FirstAfterAppend(o.departments, x, (d: Department) => d.name == name && d.directionId == directionId);
      (o.(departments := o.departments + [x]), x)
  }

  function GetOrCreateTeam(o: Org, name: string, departmentId: Id): (r: (Org, Team))
    ensures r.1.name == name && r.1.departmentId == departmentId && r.1 in r.0.teams
    ensures r.0.regions == o.regions && r.0.directions == o.directions
    ensures r.0.departments == o.departments && r.0.cells == o.cells
    ensures TeamNamed(r.0, name, departmentId) == Some(r.1)
  {
    match TeamNamed(o, name, departmentId)
    case Some(x) => (o, x)
    case None =>
      var x := Team(NextId(o.teams, (t: Team) => t.id), name, departmentId);
      FirstAfterAppend(o.teams, x, (t: Team) => t.name == name && t.departmentId == departmentId);
      (o.(teams := o.teams + [x]), x)
  }

  /** A new cell row under `teamId`, whatever cells the team already has. */
  function CreateCell(o: Org, name: string, teamId: Id): (r: (Org, Cell))
    ensures r.1.name == name && r.1.teamId == teamId
    ensures r.0 == o.(cells := o.cells + [r.1])
    ensures forall c :: c in o.cells ==> c.id < r.1.id
  {
    var x := Cell(NextId(o.cells, (c: Cell) => c.id), name, teamId);
    (o.(cells := o.cells + [x]), x)
  }

  function GetOrCreateCell(o: Org, name: string, teamId: Id): (r: (Org, Cell))
    ensures r.1.name == name && r.1.teamId == teamId && r.1 in r.0.cells
    ensures r.0.regions == o.regions && r.0.directions == o.directions
    ensures r.0.departments == o.departments && r.0.teams == o.teams
    ensures CellNamed(r.0, name, teamId) == Some(r.1)
  {
    match CellNamed(o, name, teamId)
    case Some(x) => (o, x)
    case None =>
      var r := CreateCell(o, name, teamId);
      FirstAfterAppend(o.cells, r.1, (c: Cell) => c.name == name && c.teamId == teamId);
      r
  }

  /** The five names of a row's path, region first. */
  datatype PathText = PathText(region: string, direction: string, department: string, team: string, cell: string)

  function Names(t: PathText): seq<string> {
    [t.region, t.direction, t.department, t.team, t.cell]
  }

  /** The team a path resolves to, creating what is missing (assignments.py:259-294). */
  function ResolveTeam(o: Org, t: PathText): (r: (Org, Team))
    ensures r.0.cells == o.cells
  {
    var (o1, region) := GetOrCreateRegion(o, t.region);
    var (o2, direction) := GetOrCreateDirection(o1, t.direction, region.id);
    var (o3, department) := GetOrCreateDepartment(o2, t.department, direction.id);
    GetOrCreateTeam(o3, t.team, department.id)
  }

  /** The full get-or-create chain of a new person's row (assignments.py:259-304). */
  function ResolveCell(o: Org, t: PathText): (r: (Org, Cell)) {
    var (o4, team) := ResolveTeam(o, t);
    GetOrCreateCell(o4, t.cell, team.id)
  }

  /** Resolving a path a second time finds exactly what the first run created:
      the chain is idempotent. */
  lemma ResolveCellIdempotent(o: Org, t: PathText)
    ensures var (o1, c) := ResolveCell(o, t);
      ResolveCell(o1, t) == (o1, c)
  {
    var (a1, region) := GetOrCreateRegion(o, t.region);
    var (a2, direction) := GetOrCreateDirection(a1, t.direction, region.id);
    var (a3, department) := GetOrCreateDepartment(a2, t.department, direction.id);
    var (a4, team) := GetOrCreateTeam(a3, t.team, department.id);
    var (a5, cell) := GetOrCreateCell(a4, t.cell, team.id);
    assert RegionNamed(a5, t.region) == Some(region);
    assert DirectionNamed(a5, t.direction, region.id) == Some(direction);
    assert DepartmentNamed(a5, t.department, direction.id) == Some(department);
    assert TeamNamed(a5, t.team, department.id) == Some(team);
  }

  /** The resolved cell carries the row's names all the way up: its chain of
      ancestors has exactly the five names of the row. */
  predicate CellHasNames(o: Org, c: Cell, t: PathText) {
    match CellAncestors(o, c)
    case None => false
    case Some(up) =>
      c.name == t.cell && up.team.name == t.team && up.department.name == t.department
      && up.direction.name == t.direction && up.region.name == t.region
  }

  // Keeping the organisation valid.

  lemma GetOrCreateRegionValid(o: Org, name: string)
    requires ValidOrg(o) && NameFits(name)
    ensures ValidOrg(GetOrCreateRegion(o, name).0)
  {
    if RegionNamed(o, name).None? {
      var x := GetOrCreateRegion(o, name).1;
      var o1 := o.(regions := o.regions + [x]);
      assert GetOrCreateRegion(o, name).0 == o1;
      UniqueIdsAppend(o.regions, x, (r: Region) => r.id);
      assert RegionsValid(o1);
      forall d | d in o1.directions ensures FindRegion(o1, d.regionId).Some? {
        FirstAfterAppend(o.regions, x, (r: Region) => r.id == d.regionId);
      }
      assert DirectionsValid(o1);
      assert DepartmentsValid(o1);
      assert TeamsValid(o1);
      assert CellsValid(o1);
    }
  }

  lemma GetOrCreateDirectionValid(o: Org, name: string, regionId: Id)
    requires ValidOrg(o) && NameFits(name) && FindRegion(o, regionId).Some?
    ensures ValidOrg(GetOrCreateDirection(o, name, regionId).0)
  {
    if DirectionNamed(o, name, regionId).None? {
      var x := GetOrCreateDirection(o, name, regionId).1;
      var o1 := o.(directions := o.directions + [x]);
      assert GetOrCreateDirection(o, name, regionId).0 == o1;
      assert RegionsValid(o1);
      UniqueIdsAppend(o.directions, x, (d: Direction) => d.id);
      assert DirectionsValid(o1);
      forall d | d in o1.departments ensures FindDirection(o1, d.directionId).Some? {
        FirstAfterAppend(o.directions, x, (e: Direction) => e.id == d.directionId);
      }
      assert DepartmentsValid(o1);
      assert TeamsValid(o1);
      assert CellsValid(o1);
    }
  }

  lemma GetOrCreateDepartmentValid(o: Org, name: string, directionId: Id)
    requires ValidOrg(o) && NameFits(name) && FindDirection(o, directionId).Some?
    ensures ValidOrg(GetOrCreateDepartment(o, name, directionId).0)
  {
    if DepartmentNamed(o, name, directionId).None? {
      var x := GetOrCreateDepartment(o, name, directionId).1;
      var o1 := o.(departments := o.departments + [x]);
      assert GetOrCreateDepartment(o, name, directionId).0 == o1;
      assert RegionsValid(o1);
      assert DirectionsValid(o1);
      UniqueIdsAppend(o.departments, x, (d: Department) => d.id);
      assert DepartmentsValid(o1);
      forall t | t in o1.teams ensures FindDepartment(o1, t.departmentId).Some? {
        FirstAfterAppend(o.departments, x, (e: Department) => e.id == t.departmentId);
      }
      assert TeamsValid(o1);
      assert CellsValid(o1);
    }
  }

  lemma GetOrCreateTeamValid(o: Org, name: string, departmentId: Id)
    requires ValidOrg(o) && NameFits(name) && FindDepartment(o, departmentId).Some?
    ensures ValidOrg(GetOrCreateTeam(o, name, departmentId).0)
  {
    if TeamNamed(o, name, departmentId).None? {
      var x := GetOrCreateTeam(o, name, departmentId).1;
      var o1 := o.(teams := o.teams + [x]);
      assert GetOrCreateTeam(o, name, departmentId).0 == o1;
      assert RegionsValid(o1);
      assert DirectionsValid(o1);
      assert DepartmentsValid(o1);
      AppendTeamValid(o, x);
      forall c | c in o1.cells ensures FindTeam(o1, c.teamId).Some? {
        FirstAfterAppend(o.teams, x, (e: Team) => e.id == c.teamId);
      }
      assert CellsValid(o1);
    }
  }

  lemma CreateCellValid(o: Org, name: string, teamId: Id)
    requires ValidOrg(o) && NameFits(name) && FindTeam(o, teamId).Some?
    ensures ValidOrg(CreateCell(o, name, teamId).0)
  {
    var x := CreateCell(o, name, teamId).1;
    AppendCellValid(o, x);
    var o1 := o.(cells := o.cells + [x]);
    assert RegionsValid(o1);
    assert DirectionsValid(o1);
    assert DepartmentsValid(o1);
    assert TeamsValid(o1);
  }

  lemma AppendTeamValid(o: Org, x: Team)
    requires TeamsValid(o) && NameFits(x.name) && FindDepartment(o, x.departmentId).Some?
    requires forall t :: t in o.teams ==> t.id < x.id
    ensures TeamsValid(o.(teams := o.teams + [x]))
  {
    UniqueIdsAppend(o.teams, x, (t: Team) => t.id);
    var o1 := o.(teams := o.teams + [x]);
    forall t | t in o1.teams ensures NameFits(t.name) && FindDepartment(o1, t.departmentId).Some? {
      assert FindDepartment(o1, t.departmentId) == FindDepartment(o, t.departmentId);
    }
  }

  lemma AppendCellValid(o: Org, x: Cell)
    requires CellsValid(o) && NameFits(x.name) && FindTeam(o, x.teamId).Some?
    requires forall c :: c in o.cells ==> c.id < x.id
    ensures CellsValid(o.(cells := o.cells + [x]))
  {
    UniqueIdsAppend(o.cells, x, (c: Cell) => c.id);
  }

  lemma GetOrCreateCellValid(o: Org, name: string, teamId: Id)
    requires ValidOrg(o) && NameFits(name) && FindTeam(o, teamId).Some?
    ensures ValidOrg(GetOrCreateCell(o, name, teamId).0)
  {
    if CellNamed(o, name, teamId).None? {
      CreateCellValid(o, name, teamId);
    }
  }

  predicate PathFits(t: PathText) {
    NameFits(t.region) && NameFits(t.direction) && NameFits(t.department) && NameFits(t.team) && NameFits(t.cell)
  }

  lemma FoundById<T>(s: seq<T>, x: T, id: T -> Id)
    requires x in s
    ensures First(s, (y: T) => id(y) == id(x)).Some?
  {
  }

  /** The chain keeps the organisation valid, and the team it returns exists and
      carries the row's names up to the region. */
  lemma ResolveTeamValid(o: Org, t: PathText)
    requires ValidOrg(o) && PathFits(t)
    ensures ValidOrg(ResolveTeam(o, t).0)
    ensures FindTeam(ResolveTeam(o, t).0, ResolveTeam(o, t).1.id).Some?
  {
    var (o1, region) := GetOrCreateRegion(o, t.region);
    GetOrCreateRegionValid(o, t.region);
    FoundById(o1.regions, region, (r: Region) => r.id);
    var (o2, direction) := GetOrCreateDirection(o1, t.direction, region.id);
    GetOrCreateDirectionValid(o1, t.direction, region.id);
    FoundById(o2.directions, direction, (d: Direction) => d.id);
    var (o3, department) := GetOrCreateDepartment(o2, t.department, direction.id);
    GetOrCreateDepartmentValid(o2, t.department, direction.id);
    FoundById(o3.departments, department, (d: Department) => d.id);
    var (o4, team) := GetOrCreateTeam(o3, t.team, department.id);
    GetOrCreateTeamValid(o3, t.team, department.id);
    FoundById(o4.teams, team, (e: Team) => e.id);
  }

  lemma ResolveCellValid(o: Org, t: PathText)
    requires ValidOrg(o) && PathFits(t)
    ensures ValidOrg(ResolveCell(o, t).0)
    ensures FindCell(ResolveCell(o, t).0, ResolveCell(o, t).1.id).Some?
  {
    var (o4, team) := ResolveTeam(o, t);
    ResolveTeamValid(o, t);
    GetOrCreateCellValid(o4, t.cell, team.id);
    var (o5, cell) := GetOrCreateCell(o4, t.cell, team.id);
    FoundById(o5.cells, cell, (c: Cell) => c.id);
  }

  // Rows.

  const RequiredColumns: seq<string> := ["First Name", "Last Name", "Region", "Direction", "Department", "Team", "Cell"]

  /** The required columns the file lacks, in the order they are listed. */
  function MissingColumns(required: seq<string>, columns: seq<string>): (r: seq<string>)
    ensures forall c :: c in r <==> c in required && c !in columns
    ensures |r| == 0 <==> forall c :: c in required ==> c in columns
  {
    var r := Filter(required, (c: string) => c !in columns);
    assert |r| > 0 ==> r[0] in r;
    r
  }

  /** One spreadsheet row: the name and path cells as `str()` gives them, "" for an
      empty cell; the email and phone cells as they are, None when the file has
      no such column. */
  datatype ChainRow = ChainRow(first: string, last: string, email: Option<Value>, phone: Option<Value>, path: PathText)

  datatype ImportState = ImportState(org: Org, people: seq<Person>)

  /** The person the row names: exact, case-sensitive first and last name. */
  function NamedPerson(people: seq<Person>, first: string, last: string): Option<Person> {
    First(people, (p: Person) => p.firstName == first && p.lastName == last)
  }

  /** The first cell whose chain carries the row's five names (assignments.py:329-335). */
  function CellByNames(o: Org, t: PathText): Option<Cell> {
    First(o.cells, (c: Cell) => CellHasNames(o, c, t))
  }

  /** The cell an existing person is moved to: the named cell when one exists,
      otherwise Region..Team by get-or-create and always a new cell. */
  function ExistingPersonCell(o: Org, t: PathText): (r: (Org, Cell)) {
    match CellByNames(o, t)
    case Some(c) => (o, c)
    case None =>
      var (o4, team) := ResolveTeam(o, t);
      CreateCell(o4, t.cell, team.id)
  }

  /** Overwrites a field only when the row gives a value. */
  function Replace(current: Option<string>, given: Option<string>): Option<string> {
    if given.Some? then given else current
  }

  /** What a new person gets from an optional column (`row.get(name, None)`,
      assignments.py:307-308): the cell as it is, so an empty cell is stored as
      the text "NaN"; NULL when the file has no such column. */
  function CreateText(c: Option<Value>): (r: Option<string>)
    ensures r.None? <==> c.None?
    ensures c == Some(Blank) ==> r == Some("NaN")
  {
    if c.Some? then Some(StoredText(c.value)) else None
  }

  /** What a known person gets from an optional column (assignments.py:383-387):
      the cell as it is when the column exists and the cell is not empty, and
      nothing otherwise. */
  function UpdateText(c: Option<Value>): (r: Option<string>)
    ensures r.None? <==> c.None? || c.value.Blank?
  {
    if c.Some? && !c.value.Blank? then Some(StoredText(c.value)) else None
  }

  /** The two branches write the same text for a filled cell; they differ only on
      an empty one, which a new person gets as "NaN" and a known person ignores. */
  lemma CreateAndUpdateText(c: Option<Value>)
    ensures c.Some? && !c.value.Blank? ==> CreateText(c) == UpdateText(c)
    ensures c == Some(Blank) ==> CreateText(c) == Some("NaN") && UpdateText(c).None?
  {
  }

  /** The column's cell fits its VARCHAR width in either branch ("NaN" fits both). */
  predicate CellFits(c: Option<Value>, limit: nat) {
    c.None? || |StoredText(c.value)| <= limit
  }

  /** The column widths a row must respect for the store to accept what it writes. */
  predicate RowFits(row: ChainRow) {
    && PathFits(row.path)
    && |row.first| <= FirstNameLimit && |row.last| <= LastNameLimit
    && CellFits(row.email, EmailLimit) && CellFits(row.phone, PhoneLimit)
  }

  /** Replaces every person with id `id` by `p`. */
  function UpdatePerson(people: seq<Person>, id: Id, f: Person -> Person): (r: seq<Person>)
    ensures |r| == |people|
    ensures forall i :: 0 <= i < |r| ==> r[i] == if people[i].id == id then f(people[i]) else people[i]
  {
    if |people| == 0 then [] else [if people[0].id == id then f(people[0]) else people[0]] + UpdatePerson(people[1..], id, f)
  }

  datatype RowOutcome = Applied(state: ImportState) | RowFailed

  /** One row of the loop (assignments.py:233-395), with the new person's
      `direction` column filled from the row's Direction cell. */
  function ImportRow(st: ImportState, row: ChainRow): (r: RowOutcome)
    ensures r.RowFailed? <==> !RowFits(row)
  {
    if !RowFits(row) then RowFailed
    else match NamedPerson(st.people, row.first, row.last)
      case None =>
        var (o1, cell) := ResolveCell(st.org, row.path);
        var p := NewPerson(NextId(st.people, (x: Person) => x.id), row.first, row.last, cell.id,
                           row.path.direction, CreateText(row.email), CreateText(row.phone), true);
        Applied(ImportState(o1, st.people + [p]))
      case Some(existing) =>
        var (o1, cell) := ExistingPersonCell(st.org, row.path);
        var people := UpdatePerson(st.people, existing.id,
          (x: Person) => x.(cellId := cell.id, email := Replace(x.email, UpdateText(row.email)),
                            phone := Replace(x.phone, UpdateText(row.phone))));
        Applied(ImportState(o1, people))
  }

  /** The loop's result: the final state, the number of rows applied, and the row
      numbers of the failed rows as the messages print them (index + 2: the
      header is row 1). */
  datatype Report = Report(state: ImportState, successes: nat, errorRows: seq<int>)

  /** The loop over the rows for a given row step; a failed row leaves the state
      as it was. */
  function Fold(st: ImportState, rows: seq<ChainRow>, index: nat, step: (ImportState, ChainRow) -> RowOutcome): (r: Report)
    ensures r.successes + |r.errorRows| == |rows|
    ensures forall k :: k in r.errorRows ==> index + 2 <= k < index + 2 + |rows|
    decreases |rows|
  {
    if |rows| == 0 then Report(st, 0, [])
    else
      match step(st, rows[0])
      case RowFailed =>
        var rest := Fold(st, rows[1..], index + 1, step);
        Report(rest.state, rest.successes, [index + 2] + rest.errorRows)
      case Applied(st1) =>
        var rest := Fold(st1, rows[1..], index + 1, step);
        Report(rest.state, rest.successes + 1, rest.errorRows)
  }

  function ImportRows(st: ImportState, rows: seq<ChainRow>): Report {
    Fold(st, rows, 0, ImportRow)
  }

  /** The whole import: refused before any row when a required column is missing;
  `FileFailed` is the "Error processing file" outcome, with nothing stored. */
  datatype ImportResult = MissingRequired(columns: seq<string>) | Imported(report: Report) | FileFailed

  function ImportAssignments(st: ImportState, columns: seq<string>, rows: seq<ChainRow>): (r: ImportResult)
    ensures r.MissingRequired? <==> exists c :: c in RequiredColumns && c !in columns
    ensures r.MissingRequired? ==> forall c :: c in r.columns <==> c in RequiredColumns && c !in columns
    ensures r.Imported? ==> r.report.successes + |r.report.errorRows| == |rows|
  {
    var missing := MissingColumns(RequiredColumns, columns);
    if |missing| > 0 then MissingRequired(missing)
    else Imported(ImportRows(st, rows))
  }

  // The import as the source runs it.

  /** The attributes the source gives a new person (assignments.py:310-317); the
      INSERT it flushes lists these columns. */
  const CreateColumns: set<string> := {"first_name", "last_name", "email", "phone", "cell_id", "is_active"}

  /** A row whose writes the store refuses as the source makes them: a column
      width broken, or a person created without the NOT NULL `direction`. */
  predicate RefusedAsWritten(st: ImportState, row: ChainRow) {
    !RowFits(row) || (NamedPerson(st.people, row.first, row.last).None? && !ListsNotNull(CreateColumns))
  }

  /** The rows in one session, as the source runs them with a given row step:
      the first refused write fails the flush and leaves the session unusable,
      so every later row and the final commit raise and nothing is stored (None). */
  function RunAsWritten(st: ImportState, rows: seq<ChainRow>, step: (ImportState, ChainRow) -> RowOutcome): (r: Option<ImportState>)
    decreases |rows|
  {
    if |rows| == 0 then Some(st)
    else if RefusedAsWritten(st, rows[0]) then None
    else
      match step(st, rows[0])
      case RowFailed => None
      case Applied(st1) => RunAsWritten(st1, rows[1..], step)
  }

  /** The import as written: "Error processing file" (`FileFailed`) as soon as one
      write is refused; otherwise every row succeeded, and nobody was created. */
  function ImportAsWritten(st: ImportState, columns: seq<string>, rows: seq<ChainRow>): (r: ImportResult)
    ensures r.MissingRequired? <==> exists c :: c in RequiredColumns && c !in columns
    ensures r.Imported? ==> r.report.successes == |rows| && |r.report.errorRows| == 0
    ensures r.Imported? ==> |r.report.state.people| == |st.people|
  {
    var missing := MissingColumns(RequiredColumns, columns);
    if |missing| > 0 then MissingRequired(missing)
    else
      RunAsWrittenKeepsPeople(st, rows);
      match RunAsWritten(st, rows, ImportRow)
      case None => FileFailed
      case Some(s) => Imported(Report(s, |rows|, []))
  }

  /** A run that goes through never created anybody: each accepted row named a
      known person, whom it only updated. */
  lemma {:induction false} RunAsWrittenKeepsPeople(st: ImportState, rows: seq<ChainRow>)
    ensures RunAsWritten(st, rows, ImportRow).Some? ==> |RunAsWritten(st, rows, ImportRow).value.people| == |st.people|
    decreases |rows|
  {
    if |rows| > 0 && !RefusedAsWritten(st, rows[0]) {
      CreateLacksDirection();
      assert NamedPerson(st.people, rows[0].first, rows[0].last).Some?;
      var st1 := ImportRow(st, rows[0]).state;
      assert |st1.people| == |st.people|;
      RunAsWrittenKeepsPeople(st1, rows[1..]);
    }
  }

  /** As written, a row naming nobody known fails the whole file, where the
      corrected import creates the person and goes on. */
  lemma {:induction false} NewPersonFailsAsWritten(st: ImportState, columns: seq<string>, rows: seq<ChainRow>, k: int)
    requires forall c :: c in RequiredColumns ==> c in columns
    requires 0 <= k < |rows| && RunAsWritten(st, rows[..k], ImportRow).Some?
    requires NamedPerson(RunAsWritten(st, rows[..k], ImportRow).value.people, rows[k].first, rows[k].last).None?
    ensures ImportAsWritten(st, columns, rows).FileFailed?
  {
    CreateLacksDirection();
    RunAsWrittenStopsAt(st, rows, k, ImportRow);
    FailedRunFailsFile(st, columns, rows);
  }

  /** The store refuses the INSERT of a new person: `direction` is not among its columns. */
  lemma CreateLacksDirection()
    ensures !ListsNotNull(CreateColumns)
  {
    assert "direction" in NotNullColumns && "direction" !in CreateColumns;
  }

  lemma FailedRunFailsFile(st: ImportState, columns: seq<string>, rows: seq<ChainRow>)
    requires forall c :: c in RequiredColumns ==> c in columns
    requires RunAsWritten(st, rows, ImportRow).None?
    ensures ImportAsWritten(st, columns, rows).FileFailed?
  {
  }

  /** As written, a row that breaks a column width fails the whole file, where
      the corrected import counts that row alone as an error. */
  lemma WidthErrorFailsFileAsWritten(st: ImportState, columns: seq<string>, rows: seq<ChainRow>, k: int)
    requires forall c :: c in RequiredColumns ==> c in columns
    requires 0 <= k < |rows| && !RowFits(rows[k])
    ensures ImportAsWritten(st, columns, rows).FileFailed?
    ensures k + 2 in ImportAssignments(st, columns, rows).report.errorRows
  {
    RunAsWrittenWidth(st, rows, k, ImportRow);
    FailedRunFailsFile(st, columns, rows);
    ErrorRowsAreFailedRows(st, rows, k + 2);
  }

  /** Once the rows before `k` all went through, a refused row `k` stops the run. */
  lemma {:induction false} RunAsWrittenStopsAt(st: ImportState, rows: seq<ChainRow>, k: int,
                                               step: (ImportState, ChainRow) -> RowOutcome)
    requires 0 <= k < |rows| && RunAsWritten(st, rows[..k], step).Some?
    requires RefusedAsWritten(RunAsWritten(st, rows[..k], step).value, rows[k])
    ensures RunAsWritten(st, rows, step).None?
    decreases k
  {
    if k > 0 {
      assert rows[..k][0] == rows[0] && rows[..k][1..] == rows[1..][..k - 1];
      RunAsWrittenStopsAt(step(st, rows[0]).state, rows[1..], k - 1, step);
    } else {
      assert rows[..k] == [];
    }
  }

  /** A row that breaks a column width is refused in every state it meets. */
  lemma {:induction false} RunAsWrittenWidth(st: ImportState, rows: seq<ChainRow>, k: int,
                                             step: (ImportState, ChainRow) -> RowOutcome)
    requires 0 <= k < |rows| && !RowFits(rows[k])
    ensures RunAsWritten(st, rows, step).None?
    decreases k
  {
    if k > 0 && !RefusedAsWritten(st, rows[0]) && step(st, rows[0]).Applied? {
      assert rows[1..][k - 1] == rows[k];
      RunAsWrittenWidth(step(st, rows[0]).state, rows[1..], k - 1, step);
    }
  }

  /** A row number is reported as failed exactly when that row breaks a column
      width; every other row is applied. */
  lemma {:induction false} FoldErrorRows(st: ImportState, rows: seq<ChainRow>, index: nat,
                                         step: (ImportState, ChainRow) -> RowOutcome, k: int)
    requires forall s, row :: step(s, row).RowFailed? <==> !RowFits(row)
    ensures k in Fold(st, rows, index, step).errorRows <==> 0 <= k - index - 2 < |rows| && !RowFits(rows[k - index - 2])
    decreases |rows|
  {
    if |rows| > 0 {
      match step(st, rows[0]) {
        case RowFailed =>
          FoldErrorRows(st, rows[1..], index + 1, step, k);
        case Applied(st1) =>
          FoldErrorRows(st1, rows[1..], index + 1, step, k);
      }
    }
  }

  lemma ErrorRowsAreFailedRows(st: ImportState, rows: seq<ChainRow>, k: int)
    ensures k in ImportRows(st, rows).errorRows <==> 2 <= k < |rows| + 2 && !RowFits(rows[k - 2])
  {
    forall s, row ensures ImportRow(s, row).RowFailed? <==> !RowFits(row) {
    }
    assert ImportRows(st, rows) == Fold(st, rows, 0, ImportRow);
    FoldErrorRows(st, rows, 0, ImportRow, k);
  }

  // The summary messages (assignments.py:404-411).

  const ShownErrors: nat := 10

  datatype Flash = Summary(successes: nat, errors: nat) | RowError(row: int) | More(count: nat) | AllDone(successes: nat)

  function Messages(r: Report): (m: seq<Flash>)
    ensures |m| >= 1
    ensures |r.errorRows| == 0 ==> m == [AllDone(r.successes)]
    ensures |r.errorRows| > 0 ==> m[0] == Summary(r.successes, |r.errorRows|)
    ensures |r.errorRows| > 0 ==> |m| == 1 + (if |r.errorRows| > ShownErrors then ShownErrors + 1 else |r.errorRows|)
    ensures |r.errorRows| > ShownErrors ==> m[|m| - 1] == More(|r.errorRows| - ShownErrors)
  {
    if |r.errorRows| == 0 then [AllDone(r.successes)]
    else
      var shown := Take(r.errorRows, ShownErrors);
      [Summary(r.successes, |r.errorRows|)]
      + seq(|shown|, i requires 0 <= i < |shown| => RowError(shown[i]))
      + (if |r.errorRows| > ShownErrors then [More(|r.errorRows| - ShownErrors)] else [])
  }

  // Properties of one applied row.

  /** A row naming nobody known creates the person, active, in a cell that carries
      the row's path; the organisation stays valid. */
  lemma NewPersonPlaced(st: ImportState, row: ChainRow)
    requires ValidOrg(st.org) && RowFits(row)
    requires NamedPerson(st.people, row.first, row.last).None?
    ensures var s1 := ImportRow(st, row).state;
      && ValidOrg(s1.org)
      && |s1.people| == |st.people| + 1
      && s1.people[..|st.people|] == st.people
      && var p := s1.people[|st.people|];
         p.firstName == row.first && p.lastName == row.last && p.isActive
         && p.direction == row.path.direction && PersonFits(p)
         && FindCell(s1.org, p.cellId).Some?
  {
    NewPersonAppended(st, row);
    ResolveCellValid(st.org, row.path);
    NewPersonFits(st, row);
  }

  /** The person a row creates fits the people table's column widths. */
  lemma NewPersonFits(st: ImportState, row: ChainRow)
    requires RowFits(row)
    requires NamedPerson(st.people, row.first, row.last).None?
    ensures |ImportRow(st, row).state.people| == |st.people| + 1
    ensures PersonFits(ImportRow(st, row).state.people[|st.people|])
  {
    NewPersonAppended(st, row);
  }

  /** The people list after a row naming nobody known: the new person is appended
      with the resolved cell. */
  lemma NewPersonAppended(st: ImportState, row: ChainRow)
    requires RowFits(row)
    requires NamedPerson(st.people, row.first, row.last).None?
    ensures var s1 := ImportRow(st, row).state;
      && s1.org == ResolveCell(st.org, row.path).0
      && |s1.people| == |st.people| + 1
      && s1.people[..|st.people|] == st.people
      && var p := s1.people[|st.people|];
         p.firstName == row.first && p.lastName == row.last && p.isActive
         && p.direction == row.path.direction
         && p.email == CreateText(row.email) && p.phone == CreateText(row.phone)
         && p.cellId == ResolveCell(st.org, row.path).1.id
  {
    var (o1, cell) := ResolveCell(st.org, row.path);
    var p := NewPerson(NextId(st.people, (x: Person) => x.id), row.first, row.last, cell.id,
                       row.path.direction, CreateText(row.email), CreateText(row.phone), true);
    assert ImportRow(st, row) == Applied(ImportState(o1, st.people + [p]));
    assert (st.people + [p])[..|st.people|] == st.people;
  }

  /** A row naming a known person moves that person (and changes only their cell,
      email and phone); everybody else is untouched. */
  lemma ExistingPersonMoved(st: ImportState, row: ChainRow, i: int)
    requires RowFits(row) && 0 <= i < |st.people|
    requires NamedPerson(st.people, row.first, row.last).Some?
    ensures var s1 := ImportRow(st, row).state;
      var existing := NamedPerson(st.people, row.first, row.last).value;
      var cell := ExistingPersonCell(st.org, row.path).1;
      && |s1.people| == |st.people|
      && (st.people[i].id == existing.id ==>
            s1.people[i] == st.people[i].(cellId := cell.id, email := Replace(st.people[i].email, UpdateText(row.email)),
                                          phone := Replace(st.people[i].phone, UpdateText(row.phone))))
      && (st.people[i].id != existing.id ==> s1.people[i] == st.people[i])
  {
  }

  /** The cell an existing person is moved to has the row's names when it was
      found by them. */
  lemma FoundCellHasNames(o: Org, t: PathText)
    requires CellByNames(o, t).Some?
    ensures CellHasNames(o, ExistingPersonCell(o, t).1, t)
  {
  }
}

=== FILE: common.dfy ===
/** Shared vocabulary of the model: optional values, results, ASCII case folding,
    substrings and a few sequence helpers used by every other module. */
module Common {

  /** A value that may be missing: a NULL column, an absent request argument or a
      spreadsheet cell that reads as NaN. */
  datatype Option<+T> = None | Some(value: T)

  /** The outcome of an operation that can fail as a whole. */
  datatype Result<+T, +E> = Ok(value: T) | Err(error: E)

  /** Store identifiers (serial integer primary keys). */
  type Id = int

  /** Python truthiness of an optional integer request argument: `if region_id:` is
      false both when the argument is missing and when it parsed to 0. */
  predicate Given(o: Option<int>) {
    o.Some? && o.value != 0
  }

  /** Python truthiness of a string: only the empty string is false. */
  predicate NonEmpty(s: string) {
    |s| > 0
  }

  /** Case folding of one character as the store's LOWER and Python's str.lower do
      it for ASCII letters. */
  function LowerChar(c: char): (r: char)
    ensures 'A' <= c <= 'Z' ==> r as int == c as int + 32
    ensures !('A' <= c <= 'Z') ==> r == c
    ensures !('A' <= r <= 'Z')
  {
    if 'A' <= c <= 'Z' then (c as int + 32) as char else c
  }

  function Lower(s: string): (r: string)
    ensures |r| == |s|
    ensures forall i :: 0 <= i < |s| ==> r[i] == LowerChar(s[i])
  {
    if |s| == 0 then [] else [LowerChar(s[0])] + Lower(s[1..])
  }

  /** Lower-casing is a projection: applying it twice changes nothing more. */
  lemma LowerIdempotent(s: string)
    ensures Lower(Lower(s)) == Lower(s)
  {
  }

  lemma LowerAppend(a: string, b: string)
    ensures Lower(a + b) == Lower(a) + Lower(b)
  {
    assert forall i :: 0 <= i < |a + b| ==> Lower(a + b)[i] == (Lower(a) + Lower(b))[i];
  }

  /** `needle` occurs in `hay` starting at position `i`. */
  predicate OccursAt(needle: string, hay: string, i: int) {
    0 <= i && i + |needle| <= |hay| && hay[i..i + |needle|] == needle
  }

  predicate IsSubstring(needle: string, hay: string) {
    exists i :: 0 <= i <= |hay| && OccursAt(needle, hay, i)
  }

  /** Case-insensitive substring test. */
  predicate ContainsIgnoreCase(hay: string, needle: string) {
    IsSubstring(Lower(needle), Lower(hay))
  }

  predicate StartsWith(s: string, prefix: string) {
    |prefix| <= |s| && s[..|prefix|] == prefix
  }

  predicate EndsWith(s: string, suffix: string) {
    |suffix| <= |s| && s[|s| - |suffix|..] == suffix
  }

  /** The first `n` elements (SQL LIMIT n). */
  function Take<T>(s: seq<T>, n: nat): (r: seq<T>)
    ensures |r| == if |s| < n then |s| else n
    ensures r == s[..|r|]
  {
    if |s| <= n then s else s[..n]
  }

  /** Number of occurrences of `x` in `s`. */
  function Occurrences<T(==)>(s: seq<T>, x: T): (n: nat)
    ensures n == multiset(s)[x]
  {
    if |s| == 0 then 0
    else
      assert s == [s[0]] + s[1..];
      (if s[0] == x then 1 else 0) + Occurrences(s[1..], x)
  }

  /** Index of the first element satisfying `p`, or `|s|` when there is none: the
      row that `.first()` or `existing[0]` returns, rows being taken in store order. */
  function FirstIndex<T>(s: seq<T>, p: T -> bool): (i: nat)
    ensures i <= |s|
    ensures i < |s| ==> p(s[i])
    ensures forall j :: 0 <= j < i ==> !p(s[j])
  {
    if |s| == 0 then 0
    else if p(s[0]) then 0
    else 1 + FirstIndex(s[1..], p)
  }

  function First<T>(s: seq<T>, p: T -> bool): (r: Option<T>)
    ensures r.Some? <==> exists x :: x in s && p(x)
    ensures r.Some? ==> r.value in s && p(r.value)
  {
    var i := FirstIndex(s, p);
    if i < |s| then Some(s[i]) else None
  }

  /** Ids of a store table are pairwise distinct (its primary key). */
  predicate UniqueIds<T>(s: seq<T>, id: T -> Id) {
    forall i, j :: 0 <= i < j < |s| ==> id(s[i]) != id(s[j])
  }

  /** The id a serial primary key hands out next: above every id in use. */
  function NextId<T>(s: seq<T>, id: T -> Id): (n: Id)
    ensures n >= 1
    ensures forall x :: x in s ==> id(x) < n
  {
    if |s| == 0 then 1
    else
      var rest := NextId(s[1..], id);
      assert forall x :: x in s ==> x == s[0] || x in s[1..];
      if id(s[0]) < rest then rest else id(s[0]) + 1
  }

  /** Number of elements satisfying `p` (SQL COUNT(*) with a WHERE clause). */
  function CountWhere<T>(s: seq<T>, p: T -> bool): (n: nat)
    ensures n <= |s|
  {
    if |s| == 0 then 0 else (if p(s[0]) then 1 else 0) + CountWhere(s[1..], p)
  }

  /** The elements satisfying `p`, in their original order (a WHERE clause). */
  function Filter<T>(s: seq<T>, p: T -> bool): (r: seq<T>)
    ensures |r| <= |s|
    ensures forall x :: x in r ==> x in s && p(x)
    ensures forall x :: x in s && p(x) ==> x in r
  {
    if |s| == 0 then []
    else
      assert forall x :: x in s ==> x == s[0] || x in s[1..];
      (if p(s[0]) then [s[0]] else []) + Filter(s[1..], p)
  }

  lemma FilterCount<T>(s: seq<T>, p: T -> bool)
    ensures |Filter(s, p)| == CountWhere(s, p)
  {
  }

  lemma FilterAppend<T>(a: seq<T>, b: seq<T>, p: T -> bool)
    ensures Filter(a + b, p) == Filter(a, p) + Filter(b, p)
  {
    if |a| > 0 {
      assert (a + b)[1..] == a[1..] + b;
      FilterAppend(a[1..], b, p);
    } else {
      assert a + b == b;
    }
  }
}

=== FILE: dict.dfy ===
/** Python dictionaries, which keep their keys in insertion order: a sequence of
    (key, value) pairs whose keys are pairwise distinct. Assigning to a key that is
    already present replaces its value in place; a new key goes to the end. */
module OrderedDict {
  import opened Common

  type Dict<K, V> = seq<(K, V)>

  predicate DistinctKeys<K(==), V>(d: Dict<K, V>) {
    forall i, j :: 0 <= i < j < |d| ==> d[i].0 != d[j].0
  }

  predicate HasKey<K(==), V>(d: Dict<K, V>, k: K) {
    exists i :: 0 <= i < |d| && d[i].0 == k
  }

  /** `d.get(k)`. */
  function Get<K(==), V>(d: Dict<K, V>, k: K): (r: Option<V>)
    ensures r.Some? <==> HasKey(d, k)
    ensures r.Some? ==> exists i :: 0 <= i < |d| && d[i] == (k, r.value)
  {
    if |d| == 0 then None
    else if d[0].0 == k then Some(d[0].1)
    else
      var r := Get(d[1..], k);
      assert HasKey(d, k) ==> HasKey(d[1..], k) by {
        if HasKey(d, k) {
          var i :| 0 <= i < |d| && d[i].0 == k;
          assert d[1..][i - 1].0 == k;
        }
      }
      assert r.Some? ==> exists i :: 0 <= i < |d| && d[i] == (k, r.value) by {
        if r.Some? {
          var i :| 0 <= i < |d[1..]| && d[1..][i] == (k, r.value);
          assert d[i + 1] == (k, r.value);
        }
      }
      r
  }

  /** In a dictionary, the value stored with a key is the one `Get` returns. */
  lemma GetAt<K, V>(d: Dict<K, V>, i: int)
    requires DistinctKeys(d) && 0 <= i < |d|
    ensures Get(d, d[i].0) == Some(d[i].1)
  {
    var k := d[i].0;
    var r := Get(d, k);
    var j :| 0 <= j < |d| && d[j] == (k, r.value);
    assert i == j;
  }

  /** Position of `k`, or `|d|` when it is absent. */
  function KeyIndex<K(==), V>(d: Dict<K, V>, k: K): (i: nat)
    ensures i <= |d|
    ensures i < |d| <==> HasKey(d, k)
    ensures i < |d| ==> d[i].0 == k
  {
    FirstIndex(d, (e: (K, V)) => e.0 == k)
  }

  /** `d[k] = v`. */
  function Put<K(==,!new), V>(d: Dict<K, V>, k: K, v: V): (r: Dict<K, V>)
    requires DistinctKeys(d)
    ensures DistinctKeys(r)
    ensures Get(r, k) == Some(v)
    ensures forall k' :: k' != k ==> Get(r, k') == Get(d, k')
    ensures HasKey(d, k) ==> |r| == |d| && forall i :: 0 <= i < |d| ==> r[i].0 == d[i].0
    ensures !HasKey(d, k) ==> r == d + [(k, v)]
    ensures forall e :: e in r ==> e == (k, v) || e in d
  {
    var i := KeyIndex(d, k);
    var r := if i < |d| then d[i := (k, v)] else d + [(k, v)];
    assert r[i] == (k, v);
    assert DistinctKeys(r);
    GetAt(r, i);
    assert forall k' :: k' != k ==> Get(r, k') == Get(d, k') by {
      forall k' | k' != k ensures Get(r, k') == Get(d, k') {
        if HasKey(d, k') {
          var j :| 0 <= j < |d| && d[j].0 == k';
          assert r[j] == d[j];
          GetAt(d, j);
          GetAt(r, j);
        } else {
          assert !HasKey(r, k');
        }
      }
    }
    r
  }

  /** In a dictionary an entry is present exactly when `Get` returns its value. */
  lemma MemberIffGet<K, V>(d: Dict<K, V>, k: K, v: V)
    requires DistinctKeys(d)
    ensures (k, v) in d <==> Get(d, k) == Some(v)
  {
    if (k, v) in d {
      var i :| 0 <= i < |d| && d[i] == (k, v);
      GetAt(d, i);
    }
  }

  /** Entries whose keys are equal are the same entry. */
  lemma KeyDeterminesEntry<K, V>(d: Dict<K, V>, x: (K, V), y: (K, V))
    requires DistinctKeys(d) && x in d && y in d && x.0 == y.0
    ensures x == y
  {
    var i :| 0 <= i < |d| && d[i] == x;
    var j :| 0 <= j < |d| && d[j] == y;
    assert i == j;
  }

  /** With distinct keys no entry occurs twice. */
  lemma {:induction false} EntryOccursOnce<K, V>(d: Dict<K, V>, x: (K, V))
    requires DistinctKeys(d)
    ensures multiset(d)[x] <= 1
    decreases |d|
  {
    if |d| > 0 {
      assert d == [d[0]] + d[1..];
      EntryOccursOnce(d[1..], x);
      if d[0] == x {
        assert x !in d[1..];
      }
    }
  }

  /** Two positions holding the same entry make it occur at least twice. */
  lemma TwoPositions<T>(s: seq<T>, i: int, j: int)
    requires 0 <= i < j < |s| && s[i] == s[j]
    ensures multiset(s)[s[i]] >= 2
  {
    assert s == s[..j] + [s[j]] + s[j + 1..];
    assert s[..j][i] == s[i];
    assert multiset(s[..j])[s[i]] >= 1;
  }

  /** Reordering a dictionary's entries keeps its keys distinct. */
  lemma PermutationKeepsDistinctKeys<K, V>(d: Dict<K, V>, r: Dict<K, V>)
    requires DistinctKeys(d) && multiset(r) == multiset(d)
    ensures DistinctKeys(r)
  {
    forall i, j | 0 <= i < j < |r| ensures r[i].0 != r[j].0 {
      assert r[i] in multiset(d) && r[j] in multiset(d);
      if r[i].0 == r[j].0 {
        KeyDeterminesEntry(d, r[i], r[j]);
        TwoPositions(r, i, j);
        EntryOccursOnce(d, r[i]);
      }
    }
  }
}

=== FILE: dropdowns.dfy ===
/** The cascading filter lists of the member directory (app/controllers/saints.py:
    34-153): each level's list is joined up to its region and restricted by every
    ancestor the user has chosen, so that choosing a region narrows the directions,
    departments, teams and cells offered below it. Departments that share a name
    are told apart by their direction's name (saints.py:71-99). */
module Dropdowns {
  import opened Common
  import opened Order
  import opened Organization

  // The inner joins from a node up to its region.

  datatype DepartmentUp = DepartmentUp(direction: Direction, region: Region)
  datatype TeamUp = TeamUp(department: Department, direction: Direction, region: Region)
  datatype CellUp = CellUp(team: Team, department: Department, direction: Direction, region: Region)

  function DirectionRegion(o: Org, d: Direction): Option<Region> {
    FindRegion(o, d.regionId)
  }

  function DepartmentAncestors(o: Org, d: Department): Option<DepartmentUp> {
    match FindDirection(o, d.directionId)
    case None => None
    case Some(dir) =>
      match FindRegion(o, dir.regionId)
      case None => None
      case Some(reg) => Some(DepartmentUp(dir, reg))
  }

  function TeamAncestors(o: Org, t: Team): Option<TeamUp> {
    match FindDepartment(o, t.departmentId)
    case None => None
    case Some(d) =>
      match DepartmentAncestors(o, d)
      case None => None
      case Some(up) => Some(TeamUp(d, up.direction, up.region))
  }

  function CellAncestors(o: Org, c: Cell): Option<CellUp> {
    match FindTeam(o, c.teamId)
    case None => None
    case Some(t) =>
      match TeamAncestors(o, t)
      case None => None
      case Some(up) => Some(CellUp(t, up.department, up.direction, up.region))
  }

  // Which nodes each list offers. The arguments are the chosen ancestors after
  // `if region_id:` (None: nothing chosen at that level).

  predicate DirectionOffered(o: Org, d: Direction, region: Option<Id>) {
    DirectionRegion(o, d).Some? && (region.Some? ==> d.regionId == region.value)
  }

  predicate DepartmentOffered(o: Org, d: Department, region: Option<Id>, direction: Option<Id>) {
    match DepartmentAncestors(o, d)
    case None => false
    case Some(up) =>
      && (region.Some? ==> up.region.id == region.value)
      && (direction.Some? ==> d.directionId == direction.value)
  }

  predicate TeamOffered(o: Org, t: Team, region: Option<Id>, direction: Option<Id>, department: Option<Id>) {
    match TeamAncestors(o, t)
    case None => false
    case Some(up) =>
      && (region.Some? ==> up.region.id == region.value)
      && (direction.Some? ==> up.direction.id == direction.value)
      && (department.Some? ==> up.department.id == department.value)
  }

  predicate CellOffered(o: Org, c: Cell, region: Option<Id>, direction: Option<Id>, department: Option<Id>, team: Option<Id>) {
    match CellAncestors(o, c)
    case None => false
    case Some(up) =>
      && (region.Some? ==> up.region.id == region.value)
      && (direction.Some? ==> up.direction.id == direction.value)
      && (department.Some? ==> up.department.id == department.value)
      && (team.Some? ==> up.team.id == team.value)
  }

  function RegionName(o: Org, d: Direction): string {
    match DirectionRegion(o, d)
    case Some(r) => r.name
    case None => ""
  }

  function DirectionKey(o: Org, d: Direction): Key {
    [RegionName(o, d), d.name]
  }

  /** Directions, ordered by region name then direction name. */
  function DirectionList(o: Org, region: Option<Id>): (r: seq<Direction>)
    ensures forall d :: d in r <==> d in o.directions && DirectionOffered(o, d, region)
    ensures SortedBy(r, (d: Direction) => DirectionKey(o, d))
  {
    var s := Filter(o.directions, (d: Direction) => DirectionOffered(o, d, region));
    var r := SortBy(s, (d: Direction) => DirectionKey(o, d));
    assert forall d :: d in r <==> d in s by {
      forall d ensures d in r <==> d in s {
        SortKeepsMembers(s, (d: Direction) => DirectionKey(o, d), d);
      }
    }
    r
  }

  function TeamKey(t: Team): Key {
    [t.name]
  }

  /** Teams, ordered by name. */
  function TeamList(o: Org, region: Option<Id>, direction: Option<Id>, department: Option<Id>): (r: seq<Team>)
    ensures forall t :: t in r <==> t in o.teams && TeamOffered(o, t, region, direction, department)
    ensures SortedBy(r, TeamKey)
  {
    var s := Filter(o.teams, (t: Team) => TeamOffered(o, t, region, direction, department));
    var r := SortBy(s, TeamKey);
    assert forall t :: t in r <==> t in s by {
      forall t ensures t in r <==> t in s {
        SortKeepsMembers(s, TeamKey, t);
      }
    }
    r
  }

  function CellKey(c: Cell): Key {
    [c.name]
  }

  /** Cells, ordered by name. */
  function CellList(o: Org, region: Option<Id>, direction: Option<Id>, department: Option<Id>, team: Option<Id>): (r: seq<Cell>)
    ensures forall c :: c in r <==> c in o.cells && CellOffered(o, c, region, direction, department, team)
    ensures SortedBy(r, CellKey)
  {
    var s := Filter(o.cells, (c: Cell) => CellOffered(o, c, region, direction, department, team));
    var r := SortBy(s, CellKey);
    assert forall c :: c in r <==> c in s by {
      forall c ensures c in r <==> c in s {
        SortKeepsMembers(s, CellKey, c);
      }
    }
    r
  }

  // With nothing chosen, a valid organisation's lists are complete.

  lemma ValidDepartmentResolves(o: Org, d: Department)
    requires ValidOrg(o) && d in o.departments
    ensures DepartmentAncestors(o, d).Some?
  {
    var dir := FindDirection(o, d.directionId).value;
    assert dir in o.directions;
  }

  lemma ValidTeamResolves(o: Org, t: Team)
    requires ValidOrg(o) && t in o.teams
    ensures TeamAncestors(o, t).Some?
  {
    var d := FindDepartment(o, t.departmentId).value;
    ValidDepartmentResolves(o, d);
  }

  lemma ValidCellResolves(o: Org, c: Cell)
    requires ValidOrg(o) && c in o.cells
    ensures CellAncestors(o, c).Some?
  {
    var t := FindTeam(o, c.teamId).value;
    ValidTeamResolves(o, t);
  }

  lemma AllDirectionsWhenNoRegion(o: Org)
    requires ValidOrg(o)
    ensures forall d :: d in DirectionList(o, None) <==> d in o.directions
  {
  }

  lemma AllTeamsWhenNothingChosen(o: Org)
    requires ValidOrg(o)
    ensures forall t :: t in TeamList(o, None, None, None) <==> t in o.teams
  {
    var r := TeamList(o, None, None, None);
    forall t | t in o.teams ensures t in r {
      ValidTeamResolves(o, t);
      assert TeamOffered(o, t, None, None, None);
    }
  }

  lemma AllCellsWhenNothingChosen(o: Org)
    requires ValidOrg(o)
    ensures forall c :: c in CellList(o, None, None, None, None) <==> c in o.cells
  {
    forall c | c in o.cells ensures c in CellList(o, None, None, None, None) {
      ValidCellResolves(o, c);
      assert CellOffered(o, c, None, None, None, None);
    }
  }

  /** Choosing a deeper level never offers a cell outside the chosen team: the
      cells list offers exactly the chosen team's cells when only a team is chosen. */
  lemma CellsOfChosenTeam(o: Org, team: Id, c: Cell)
    requires ValidOrg(o) && c in o.cells
    ensures c in CellList(o, None, None, None, Some(team)) <==> c.teamId == team
  {
    ValidCellResolves(o, c);
    CellOfferedForTeam(o, c, team);
  }

  /** A cell whose chain resolves is offered for a chosen team exactly when it
      belongs to that team. */
  lemma CellOfferedForTeam(o: Org, c: Cell, team: Id)
    requires CellAncestors(o, c).Some?
    ensures CellOffered(o, c, None, None, None, Some(team)) <==> c.teamId == team
  {
    var t := FindTeam(o, c.teamId).value;
    assert t.id == c.teamId;
    assert CellAncestors(o, c).value.team == t;
  }

  // Department labels (saints.py:50-99).

  /** One row of the department query: the department and its direction's name. */
  datatype DeptRow = DeptRow(id: Id, name: string, directionId: Id, directionName: string)

  /** One entry of the department list: the id, the label shown, the direction. */
  datatype DeptOption = DeptOption(id: Id, caption: string, directionId: Id)

  function CountNamed(rows: seq<DeptRow>, n: string): nat {
    if |rows| == 0 then 0 else (if rows[0].name == n then 1 else 0) + CountNamed(rows[1..], n)
  }

  /** The rows named `n`, in order. */
  function Named(rows: seq<DeptRow>, n: string): (r: seq<DeptRow>)
    ensures |r| == CountNamed(rows, n)
    ensures forall x :: x in r <==> x in rows && x.name == n
  {
    if |rows| == 0 then []
    else
      assert forall x :: x in rows <==> x == rows[0] || x in rows[1..];
      (if rows[0].name == n then [rows[0]] else []) + Named(rows[1..], n)
  }

  /** The rows not named `n`, in order. */
  function NotNamed(rows: seq<DeptRow>, n: string): (r: seq<DeptRow>)
    ensures |r| + CountNamed(rows, n) == |rows|
    ensures forall x :: x in r <==> x in rows && x.name != n
    ensures forall m :: m != n ==> CountNamed(r, m) == CountNamed(rows, m)
  {
    if |rows| == 0 then []
    else
      assert forall x :: x in rows <==> x == rows[0] || x in rows[1..];
      var rest := NotNamed(rows[1..], n);
      var r := (if rows[0].name == n then [] else [rows[0]]) + rest;
      assert r[|r| - |rest|..] == rest;
      assert forall m :: m != n ==> CountNamed(r, m) == CountNamed(rows, m) by {
        if rows[0].name != n {
          assert r[1..] == rest;
        }
      }
      r
  }

  /** The label rule, stated per row: a name that more than one listed department
      carries gets its direction's name in parentheses. */
  function LabelFor(rows: seq<DeptRow>, x: DeptRow): string {
    if CountNamed(rows, x.name) > 1 then x.name + " (" + x.directionName + ")" else x.name
  }

  function OptionFor(rows: seq<DeptRow>, x: DeptRow): DeptOption {
    DeptOption(x.id, LabelFor(rows, x), x.directionId)
  }

  /** The entries of `s`, each labelled as the rule says for the whole `rows`. */
  function OptionsFor(rows: seq<DeptRow>, s: seq<DeptRow>): (r: seq<DeptOption>)
    ensures |r| == |s|
  {
    if |s| == 0 then [] else [OptionFor(rows, s[0])] + OptionsFor(rows, s[1..])
  }

  /** `departments_by_name`: the rows grouped by name, groups in order of the
      first row carrying the name, rows in query order inside a group. */
  function GroupByName(rows: seq<DeptRow>): seq<(string, seq<DeptRow>)>
    decreases |rows|
  {
    if |rows| == 0 then []
    else
      var n := rows[0].name;
      [(n, Named(rows, n))] + GroupByName(NotNamed(rows, n))
  }

  /** The loop of saints.py:80-96 for one group. */
  function LabelGroup(g: seq<DeptRow>): seq<DeptOption> {
    if |g| > 1 then Qualified(g)
    else if |g| == 1 then [DeptOption(g[0].id, g[0].name, g[0].directionId)]
    else []
  }

  function Qualified(g: seq<DeptRow>): (r: seq<DeptOption>)
    ensures |r| == |g|
  {
    if |g| == 0 then []
    else [DeptOption(g[0].id, g[0].name + " (" + g[0].directionName + ")", g[0].directionId)] + Qualified(g[1..])
  }

  function FormatGroups(groups: seq<(string, seq<DeptRow>)>): seq<DeptOption> {
    if |groups| == 0 then [] else LabelGroup(groups[0].1) + FormatGroups(groups[1..])
  }

  function LabelKey(d: DeptOption): Key {
    [d.caption]
  }

  /** The department list: grouped, labelled, then sorted by label. */
  function DepartmentOptions(rows: seq<DeptRow>): (r: seq<DeptOption>)
    ensures SortedBy(r, LabelKey)
  {
    SortBy(FormatGroups(GroupByName(rows)), LabelKey)
  }

  /** The head row goes to the side its name selects; the rest splits as before. */
  lemma SplitHead(s: seq<DeptRow>, n: string)
    requires |s| > 0
    ensures s[0].name == n ==> Named(s, n) == [s[0]] + Named(s[1..], n) && NotNamed(s, n) == NotNamed(s[1..], n)
    ensures s[0].name != n ==> Named(s, n) == Named(s[1..], n) && NotNamed(s, n) == [s[0]] + NotNamed(s[1..], n)
  {
  }

  lemma MultisetShift<T>(o: seq<T>, x: seq<T>, a: seq<T>, b: seq<T>)
    requires multiset(x) == multiset(a) + multiset(b)
    ensures multiset(o + x) == multiset(o + a) + multiset(b)
    ensures multiset(o + x) == multiset(a) + multiset(o + b)
  {
    assert multiset(o + x) == multiset(o) + multiset(x);
    assert multiset(o + a) == multiset(o) + multiset(a);
    assert multiset(o + b) == multiset(o) + multiset(b);
  }

  /** The head row's option goes to the side its name selects. */
  lemma OptionsSplitHead(rows: seq<DeptRow>, s: seq<DeptRow>, n: string)
    requires |s| > 0
    ensures var o := [OptionFor(rows, s[0])];
      && (s[0].name == n ==>
        && OptionsFor(rows, Named(s, n)) == o + OptionsFor(rows, Named(s[1..], n))
        && OptionsFor(rows, NotNamed(s, n)) == OptionsFor(rows, NotNamed(s[1..], n)))
      && (s[0].name != n ==>
        && OptionsFor(rows, Named(s, n)) == OptionsFor(rows, Named(s[1..], n))
        && OptionsFor(rows, NotNamed(s, n)) == o + OptionsFor(rows, NotNamed(s[1..], n)))
  {
    SplitHead(s, n);
    if s[0].name == n {
      var m := Named(s, n);
      assert m[0] == s[0] && m[1..] == Named(s[1..], n);
      OptionsForCons(rows, m);
    } else {
      var m := NotNamed(s, n);
      assert m[0] == s[0] && m[1..] == NotNamed(s[1..], n);
      OptionsForCons(rows, m);
    }
  }

  lemma OptionsForCons(rows: seq<DeptRow>, s: seq<DeptRow>)
    requires |s| > 0
    ensures OptionsFor(rows, s) == [OptionFor(rows, s[0])] + OptionsFor(rows, s[1..])
  {
  }

  /** Splitting by one name keeps every labelled entry. */
  lemma {:induction false} OptionsSplit(rows: seq<DeptRow>, s: seq<DeptRow>, n: string)
    ensures multiset(OptionsFor(rows, s)) == multiset(OptionsFor(rows, Named(s, n))) + multiset(OptionsFor(rows, NotNamed(s, n)))
    decreases |s|
  {
    if |s| > 0 {
      OptionsSplit(rows, s[1..], n);
      OptionsSplitHead(rows, s, n);
      OptionsForCons(rows, s);
      var o := [OptionFor(rows, s[0])];
      var a, b := OptionsFor(rows, Named(s[1..], n)), OptionsFor(rows, NotNamed(s[1..], n));
      MultisetShift(o, OptionsFor(rows, s[1..]), a, b);
    }
  }

  /** Labels depend only on how often each name occurs. */
  lemma {:induction false} OptionsSameCounts(a: seq<DeptRow>, b: seq<DeptRow>, s: seq<DeptRow>)
    requires forall x :: x in s ==> CountNamed(a, x.name) == CountNamed(b, x.name)
    ensures OptionsFor(a, s) == OptionsFor(b, s)
    decreases |s|
  {
    if |s| > 0 {
      assert s[0] in s;
      assert forall x :: x in s[1..] ==> x in s;
      OptionsSameCounts(a, b, s[1..]);
    }
  }

  /** A group of same-named rows, labelled as the group loop does it, carries the
      per-row labels of the rule. */
  lemma {:induction false} QualifiedIsRule(rows: seq<DeptRow>, g: seq<DeptRow>, n: string)
    requires forall x :: x in g ==> x.name == n
    requires CountNamed(rows, n) > 1
    ensures Qualified(g) == OptionsFor(rows, g)
    decreases |g|
  {
    if |g| > 0 {
      assert g[0] in g;
      assert forall x :: x in g[1..] ==> x in g;
      QualifiedIsRule(rows, g[1..], n);
    }
  }

  lemma {:induction false} FormatGroupsIsRule(rows: seq<DeptRow>)
    ensures multiset(FormatGroups(GroupByName(rows))) == multiset(OptionsFor(rows, rows))
    decreases |rows|
  {
    if |rows| > 0 {
      var n := rows[0].name;
      var g := Named(rows, n);
      var rest := NotNamed(rows, n);
      assert rows[0] in g;
      FormatGroupsIsRule(rest);
      OptionsSameCounts(rest, rows, rest);
      OptionsSplit(rows, rows, n);
      if |g| > 1 {
        QualifiedIsRule(rows, g, n);
      } else {
        assert g == [g[0]];
        assert OptionsFor(rows, g) == [OptionFor(rows, g[0])];
      }
    }
  }

  /** The department list holds, for every listed department, its entry labelled
      by the rule, and nothing else; a label differs from the name exactly when
      the name is shared. */
  lemma DepartmentLabels(rows: seq<DeptRow>)
    ensures multiset(DepartmentOptions(rows)) == multiset(OptionsFor(rows, rows))
    ensures forall x :: x in rows ==> (LabelFor(rows, x) == x.name <==> CountNamed(rows, x.name) <= 1)
  {
    FormatGroupsIsRule(rows);
    forall x | x in rows ensures LabelFor(rows, x) == x.name <==> CountNamed(rows, x.name) <= 1 {
      if CountNamed(rows, x.name) > 1 {
        assert |LabelFor(rows, x)| > |x.name|;
      }
    }
  }

  // The department query itself.

  function DeptRowOf(o: Org, d: Department): Option<DeptRow> {
    match DepartmentAncestors(o, d)
    case None => None
    case Some(up) => Some(DeptRow(d.id, d.name, d.directionId, up.direction.name))
  }

  function DeptRowKey(x: DeptRow): Key {
    [x.name, x.directionName]
  }

  /** The joined, filtered department rows in store order. */
  function DepartmentRows(o: Org, ds: seq<Department>, region: Option<Id>, direction: Option<Id>): (r: seq<DeptRow>)
    ensures forall x :: x in r <==> exists d :: d in ds && DepartmentOffered(o, d, region, direction) && DeptRowOf(o, d) == Some(x)
  {
    if |ds| == 0 then []
    else
      var rest := DepartmentRows(o, ds[1..], region, direction);
      assert forall d :: d in ds <==> d == ds[0] || d in ds[1..];
      if DepartmentOffered(o, ds[0], region, direction) then [DeptRowOf(o, ds[0]).value] + rest else rest
  }

  /** The department rows offered, sorted as the query orders them. */
  function SortedDepartmentRows(o: Org, region: Option<Id>, direction: Option<Id>): (rows: seq<DeptRow>)
    ensures forall y :: y in rows <==> y in DepartmentRows(o, o.departments, region, direction)
  {
    var all := DepartmentRows(o, o.departments, region, direction);
    var rows := SortBy(all, DeptRowKey);
    assert forall y :: y in rows <==> y in all by {
      forall y ensures y in rows <==> y in all {
        SortKeepsMembers(all, DeptRowKey, y);
      }
    }
    rows
  }

  /** The labelled list holds one option per row, labelled by the rule. */
  lemma DepartmentOptionsMembers(rows: seq<DeptRow>)
    ensures forall x :: x in DepartmentOptions(rows) <==> exists y :: y in rows && x == OptionFor(rows, y)
  {
    var r := DepartmentOptions(rows);
    DepartmentLabels(rows);
    OptionsMembers(rows, rows);
    forall x ensures x in r <==> x in OptionsFor(rows, rows) {
      assert x in r <==> x in multiset(r);
      assert x in OptionsFor(rows, rows) <==> x in multiset(OptionsFor(rows, rows));
    }
  }

  /** The department list as shown: every offered department and nothing else,
      under its rule label, sorted by label. */
  function DepartmentList(o: Org, region: Option<Id>, direction: Option<Id>): (r: seq<DeptOption>)
    ensures SortedBy(r, LabelKey)
    ensures forall d :: d in o.departments && DepartmentOffered(o, d, region, direction) ==>
      exists x :: x in r && x.id == d.id && x.directionId == d.directionId
    ensures forall x :: x in r ==> exists d :: d in o.departments && DepartmentOffered(o, d, region, direction) && x.id == d.id
  {
    var rows := SortedDepartmentRows(o, region, direction);
    DepartmentOptionsMembers(rows);
    var r := DepartmentOptions(rows);
    assert forall d :: d in o.departments && DepartmentOffered(o, d, region, direction) ==>
      exists x :: x in r && x.id == d.id && x.directionId == d.directionId by {
      forall d | d in o.departments && DepartmentOffered(o, d, region, direction)
        ensures exists x :: x in r && x.id == d.id && x.directionId == d.directionId {
        OfferedDepartmentListed(o, region, direction, d);
      }
    }
    r
  }

  /** An offered department's row is among the sorted rows, so its option is listed. */
  lemma OfferedDepartmentListed(o: Org, region: Option<Id>, direction: Option<Id>, d: Department)
    requires d in o.departments && DepartmentOffered(o, d, region, direction)
    ensures var r := DepartmentOptions(SortedDepartmentRows(o, region, direction));
      exists x :: x in r && x.id == d.id && x.directionId == d.directionId
  {
    var rows := SortedDepartmentRows(o, region, direction);
    DepartmentOptionsMembers(rows);
    var y := DeptRowOf(o, d).value;
    assert y in rows;
    assert OptionFor(rows, y) in DepartmentOptions(rows);
  }

  lemma {:induction false} OptionsMembers(rows: seq<DeptRow>, s: seq<DeptRow>)
    ensures forall x :: x in OptionsFor(rows, s) <==> exists y :: y in s && x == OptionFor(rows, y)
    decreases |s|
  {
    if |s| > 0 {
      OptionsMembers(rows, s[1..]);
      assert forall y :: y in s <==> y == s[0] || y in s[1..];
    }
  }
}

=== FILE: form.dfy ===
/** Reading the attendance form (app/controllers/attendance.py:168-181): the
    submitted fields whose name has the shape `person_status[<id>]` become a
    dictionary from person id to the submitted status text. */
module AttendanceForm {
  import opened Common
  import opened OrderedDict

  /** One submitted form field: its name and its value. */
  type Field = (string, string)

  const StatusKeyPrefix := "person_status["
  const StatusKeySuffix := "]"

  predicate IsDigit(c: char) {
    '0' <= c <= '9'
  }

  predicate AllDigits(s: string) {
    forall i :: 0 <= i < |s| ==> IsDigit(s[i])
  }

  /** The number a run of decimal digits denotes, most significant digit first. */
  function DigitsValue(s: string): nat
    requires AllDigits(s)
  {
    if |s| == 0 then 0 else DigitsValue(s[..|s| - 1]) * 10 + (s[|s| - 1] as int - '0' as int)
  }

  /** The whitespace `int()` strips from both ends of its argument: the ASCII
      space and '\t' through '\r', and every character above U+007F that
      `str.isspace()` accepts (those are turned into a space first). The ASCII
      separators U+001C through U+001F are not among them, although
      `str.isspace()` accepts them: `int()` rejects text holding them. */
  predicate IsSpace(c: char) {
    || c == ' ' || '\t' <= c <= '\r'
    || c == '\U{85}' || c == '\U{A0}' || c == '\U{1680}' || '\U{2000}' <= c <= '\U{200A}'
    || c == '\U{2028}' || c == '\U{2029}' || c == '\U{202F}' || c == '\U{205F}' || c == '\U{3000}'
  }

  /** `s` without the whitespace `int()` strips at either end. */
  function TrimSpace(s: string): (r: string)
    ensures |r| <= |s|
    ensures |r| > 0 ==> !IsSpace(r[0]) && !IsSpace(r[|r| - 1])
    decreases |s|
  {
    if |s| > 0 && IsSpace(s[0]) then TrimSpace(s[1..])
    else if |s| > 0 && IsSpace(s[|s| - 1]) then TrimSpace(s[..|s| - 1])
    else s
  }

  /** Stripping removes whitespace only: every other character of `s` survives. */
  lemma {:induction false} TrimKeepsText(s: string, c: char)
    requires c in s && !IsSpace(c)
    ensures c in TrimSpace(s)
    decreases |s|
  {
    if |s| > 0 && IsSpace(s[0]) {
      assert c in s[1..] by { assert c != s[0]; }
      TrimKeepsText(s[1..], c);
    } else if |s| > 0 && IsSpace(s[|s| - 1]) {
      assert c in s[..|s| - 1] by {
        var i :| 0 <= i < |s| && s[i] == c;
        assert i != |s| - 1;
        assert s[..|s| - 1][i] == c;
      }
      TrimKeepsText(s[..|s| - 1], c);
    }
  }

  /** Digits with single underscores between them, as `int()` accepts (`1_000`). */
  predicate Grouped(b: string) {
    && |b| > 0 && IsDigit(b[0]) && IsDigit(b[|b| - 1])
    && (forall i :: 0 <= i < |b| ==> IsDigit(b[i]) || b[i] == '_')
    && (forall i :: 0 <= i < |b| - 1 ==> !DoubleUnderscore(b, i))
  }

  predicate DoubleUnderscore(b: string, i: int)
    requires 0 <= i < |b| - 1
  {
    b[i] == '_' && b[i + 1] == '_'
  }

  /** The digits of `b` with the underscores dropped. */
  function Ungrouped(b: string): (r: string)
    requires forall i :: 0 <= i < |b| ==> IsDigit(b[i]) || b[i] == '_'
    ensures AllDigits(r)
    ensures AllDigits(b) ==> r == b
  {
    if |b| == 0 then ""
    else if b[|b| - 1] == '_' then Ungrouped(b[..|b| - 1])
    else Ungrouped(b[..|b| - 1]) + [b[|b| - 1]]
  }

  /** Python's `int()` on a string: surrounding whitespace is stripped, then an
      optional sign, then decimal digits with single underscores between them;
      anything else raises ValueError (None here). */
  function ParseInt(s: string): Option<int> {
    ParseStripped(TrimSpace(s))
  }

  /** `int()` on text that has no surrounding whitespace. */
  function ParseStripped(t: string): Option<int> {
    if |t| > 0 && (t[0] == '-' || t[0] == '+') then
      if Grouped(t[1..]) then
        var n := DigitsValue(Ungrouped(t[1..]));
        Some(if t[0] == '-' then 0 - n else n)
      else None
    else if Grouped(t) then Some(DigitsValue(Ungrouped(t)))
    else None
  }

  function DigitChar(d: nat): char
    requires d < 10
  {
    ('0' as int + d) as char
  }

  /** The decimal text of a natural number, as `str()` writes it. */
  function ShowNat(n: nat): (r: string)
    ensures |r| > 0 && AllDigits(r)
  {
    if n < 10 then [DigitChar(n)] else ShowNat(n / 10) + [DigitChar(n % 10)]
  }

  function ShowInt(n: int): (r: string)
    ensures |r| > 0
  {
    if n < 0 then "-" + ShowNat(-n) else ShowNat(n)
  }

  lemma {:induction false} DigitsOfShowNat(n: nat)
    ensures DigitsValue(ShowNat(n)) == n
    decreases n
  {
    if n >= 10 {
      DigitsOfShowNat(n / 10);
      var s := ShowNat(n);
      assert s[..|s| - 1] == ShowNat(n / 10);
    }
  }

  /** `int(str(n)) == n`: the id written into a field name reads back unchanged. */
  lemma {:induction false} ParseShowInt(n: int)
    ensures ParseInt(ShowInt(n)) == Some(n)
  {
    if n < 0 {
      ParseShowNegative(n);
    } else {
      DigitsOfShowNat(n);
      ParseUnsigned(ShowNat(n));
    }
  }

  lemma {:induction false} ParseShowNegative(n: int)
    requires n < 0
    ensures ParseInt(ShowInt(n)) == Some(n)
  {
    var digits := ShowNat(-n);
    DigitsOfShowNat(-n);
    assert DigitsValue(digits) == -n;
    ParseSigned(digits);
    assert ParseInt("-" + digits) == Some(n);
    assert ShowInt(n) == "-" + digits;
  }

  lemma {:induction false} ParseSigned(digits: string)
    requires |digits| > 0 && AllDigits(digits)
    ensures ParseInt("-" + digits) == Some(0 - DigitsValue(digits))
  {
    SignedText(digits);
    NegativeStripped("-" + digits);
  }

  /** The facts about `"-" + digits` that parsing it needs. */
  lemma SignedText(digits: string)
    requires |digits| > 0 && AllDigits(digits)
    ensures var s := "-" + digits;
      && s[0] == '-' && s[1..] == digits && Grouped(s[1..]) && Ungrouped(s[1..]) == digits
      && TrimSpace(s) == s
  {
    var s := "-" + digits;
    assert s[0] == '-' && s[1..] == digits && s[|s| - 1] == digits[|digits| - 1];
    DigitsGrouped(digits);
    DigitsNotSpace(digits);
    TrimUnchanged(s);
  }

  lemma NegativeStripped(t: string)
    requires |t| > 0 && t[0] == '-' && Grouped(t[1..])
    ensures ParseStripped(t) == Some(0 - DigitsValue(Ungrouped(t[1..])))
  {
  }

  lemma ParseUnsigned(digits: string)
    requires |digits| > 0 && AllDigits(digits)
    ensures ParseInt(digits) == Some(DigitsValue(digits))
  {
    DigitsGrouped(digits);
    DigitsNotSpace(digits);
    TrimUnchanged(digits);
  }

  /** Text that neither starts nor ends with whitespace is left as it is. */
  lemma TrimUnchanged(s: string)
    requires |s| > 0 && !IsSpace(s[0]) && !IsSpace(s[|s| - 1])
    ensures TrimSpace(s) == s
  {
  }

  /** No digit is whitespace. */
  lemma DigitsNotSpace(digits: string)
    requires |digits| > 0 && AllDigits(digits)
    ensures !IsSpace(digits[0]) && !IsSpace(digits[|digits| - 1])
  {
    assert IsDigit(digits[0]) && IsDigit(digits[|digits| - 1]);
  }

  /** Plain digits are a group (and `Ungrouped` has nothing to drop). */
  lemma DigitsGrouped(digits: string)
    requires |digits| > 0 && AllDigits(digits)
    ensures Grouped(digits)
  {
    assert IsDigit(digits[0]) && IsDigit(digits[|digits| - 1]);
    forall i | 0 <= i < |digits| - 1
      ensures !DoubleUnderscore(digits, i)
    {
      assert IsDigit(digits[i]);
    }
  }

  /** A character that is not whitespace, a digit, an underscore or a sign makes
      `int()` fail wherever it stands. */
  lemma ParseIntRejectsForeign(s: string, c: char)
    requires c in s && !IsSpace(c) && !IsDigit(c) && c != '_' && c != '-' && c != '+'
    ensures ParseInt(s).None?
  {
    var t := TrimSpace(s);
    TrimKeepsText(s, c);
    var i :| 0 <= i < |t| && t[i] == c;
    if |t| > 0 && (t[0] == '-' || t[0] == '+') {
      assert t[1..][i - 1] == c;
    }
  }

  /** The ASCII separators U+001C through U+001F are not whitespace to `int()`,
      so text holding one is no integer, wherever it stands. */
  lemma SeparatorRejected(s: string, c: char)
    requires c in s && '\U{1C}' <= c <= '\U{1F}'
    ensures ParseInt(s).None?
  {
    ParseIntRejectsForeign(s, c);
  }

  /** Whitespace around a number is ignored: `int(" 7\n") == 7`. */
  lemma ParseIgnoresSpace(pre: string, s: string, post: string)
    requires forall i :: 0 <= i < |pre| ==> IsSpace(pre[i])
    requires forall i :: 0 <= i < |post| ==> IsSpace(post[i])
    ensures ParseInt(pre + s + post) == ParseInt(s)
  {
    TrimSpaceAround(pre, s, post);
  }

  lemma {:induction false} TrimSpaceAround(pre: string, s: string, post: string)
    requires forall i :: 0 <= i < |pre| ==> IsSpace(pre[i])
    requires forall i :: 0 <= i < |post| ==> IsSpace(post[i])
    ensures TrimSpace(pre + s + post) == TrimSpace(s)
    decreases |pre| + |s| + |post|
  {
    var w := pre + s + post;
    if |pre| > 0 {
      assert w[0] == pre[0] && w[1..] == pre[1..] + s + post;
      TrimSpaceAround(pre[1..], s, post);
    } else if |s| == 0 {
      if |post| > 0 {
        assert w[0] == post[0] && w[1..] == [] + [] + post[1..];
        TrimSpaceAround([], [], post[1..]);
      }
    } else if IsSpace(s[0]) {
      assert w[0] == s[0] && w[1..] == [] + s[1..] + post;
      TrimSpaceAround([], s[1..], post);
    } else if |post| > 0 {
      assert w[0] == s[0] && w[|w| - 1] == post[|post| - 1];
      assert w[..|w| - 1] == [] + s + post[..|post| - 1];
      TrimSpaceAround([], s, post[..|post| - 1]);
    } else {
      assert w == s;
    }
  }

  /** Underscores between digits are ignored: `int("1_000") == 1000`. */
  lemma {:induction false} UnderscoreIgnored(a: string, b: string)
    requires |a| > 0 && AllDigits(a) && |b| > 0 && AllDigits(b)
    ensures ParseInt(a + "_" + b) == ParseInt(a + b)
  {
    var g := a + "_" + b;
    GroupedText(a, b);
    assert ParseInt(g) == Some(DigitsValue(a + b));
    assert AllDigits(a + b);
    ParseUnsigned(a + b);
  }

  /** `a_b` is a group of the digits of `a` and `b`, with nothing to strip. */
  lemma {:induction false} GroupedText(a: string, b: string)
    requires |a| > 0 && AllDigits(a) && |b| > 0 && AllDigits(b)
    ensures var g := a + "_" + b;
      && Grouped(g) && Ungrouped(g) == a + b && TrimSpace(g) == g && g[0] != '-' && g[0] != '+'
  {
    var g := a + "_" + b;
    assert g[0] == a[0] && g[|g| - 1] == b[|b| - 1];
    assert IsDigit(a[0]) && IsDigit(b[|b| - 1]);
    TrimUnchanged(g);
    forall i | 0 <= i < |g| - 1
      ensures !DoubleUnderscore(g, i)
    {
      if i < |a| {
        assert g[i] == a[i];
      } else {
        assert g[i + 1] == b[i - |a|];
      }
    }
    UngroupedConcat(a, b);
  }

  lemma {:induction false} UngroupedConcat(a: string, b: string)
    requires AllDigits(a) && AllDigits(b)
    ensures Ungrouped(a + "_" + b) == a + b
    decreases |b|
  {
    var g := a + "_" + b;
    if |b| == 0 {
      assert g[..|g| - 1] == a;
    } else {
      var b' := b[..|b| - 1];
      assert g[..|g| - 1] == a + "_" + b';
      UngroupedConcat(a, b');
      assert a + b == (a + b') + [b[|b| - 1]];
    }
  }

  // Integer text as the store casts it.

  /** The whitespace PostgreSQL's integer input skips: the C locale's `isspace`. */
  predicate IsSqlSpace(c: char) {
    c == ' ' || '\t' <= c <= '\r'
  }

  /** `s` without C whitespace at either end. */
  function SqlTrim(s: string): (r: string)
    ensures |r| <= |s|
    ensures |r| > 0 ==> !IsSqlSpace(r[0]) && !IsSqlSpace(r[|r| - 1])
    decreases |s|
  {
    if |s| > 0 && IsSqlSpace(s[0]) then SqlTrim(s[1..])
    else if |s| > 0 && IsSqlSpace(s[|s| - 1]) then SqlTrim(s[..|s| - 1])
    else s
  }

  /** The range of the store's `integer` columns. */
  const Int4Min := -0x8000_0000
  const Int4Max := 0x7FFF_FFFF

  /** PostgreSQL's cast of text to `integer` (`'7'::integer`), applied when text is
      compared with or stored into an integer column: surrounding whitespace is
      skipped, then an optional sign and at least one decimal digit; a value
      outside the 32-bit range, and any other text, is an error (None). */
  function SqlInt(s: string): (r: Option<int>)
    ensures r.Some? ==> Int4Min <= r.value <= Int4Max
  {
    var t := SqlTrim(s);
    var n :=
      if |t| > 1 && (t[0] == '-' || t[0] == '+') && AllDigits(t[1..]) then
        Some(if t[0] == '-' then 0 - DigitsValue(t[1..]) else DigitsValue(t[1..]))
      else if |t| > 0 && AllDigits(t) then Some(DigitsValue(t))
      else None;
    if n.Some? && Int4Min <= n.value <= Int4Max then n else None
  }

  /** The store reads back the decimal text of every 32-bit integer, and rejects
      the text of any other. */
  lemma {:induction false} SqlIntShowInt(n: int)
    ensures SqlInt(ShowInt(n)) == if Int4Min <= n <= Int4Max then Some(n) else None
  {
    if n < 0 {
      SqlIntNegative(n);
    } else {
      var digits := ShowNat(n);
      DigitsOfShowNat(n);
      assert ShowInt(n) == digits;
      DigitsNotSqlSpace(digits);
      assert SqlTrim(digits) == digits;
    }
  }

  lemma {:induction false} SqlIntNegative(n: int)
    requires n < 0
    ensures SqlInt(ShowInt(n)) == if Int4Min <= n then Some(n) else None
  {
    var digits := ShowNat(-n);
    DigitsOfShowNat(-n);
    var s := "-" + digits;
    assert ShowInt(n) == s;
    DigitsNotSqlSpace(digits);
    assert s[0] == '-' && s[1..] == digits && s[|s| - 1] == digits[|digits| - 1];
    assert SqlTrim(s) == s;
  }

  lemma DigitsNotSqlSpace(digits: string)
    requires |digits| > 0 && AllDigits(digits)
    ensures !IsSqlSpace(digits[0]) && !IsSqlSpace(digits[|digits| - 1])
  {
    assert IsDigit(digits[0]) && IsDigit(digits[|digits| - 1]);
  }

  /** Python and the store agree wherever the store accepts: text the cast reads
      as a number, `int()` reads as the same number. The converse fails, since
      `int()` also accepts underscores and wider whitespace. */
  lemma {:induction false} SqlIntAgreesWithParse(s: string)
    requires SqlInt(s).Some?
    ensures ParseInt(s) == SqlInt(s)
  {
    var t := SqlTrim(s);
    SqlTrimThenTrim(s);
    if |t| > 1 && (t[0] == '-' || t[0] == '+') && AllDigits(t[1..]) {
      var digits := t[1..];
      DigitsGrouped(digits);
      DigitsNotSpace(digits);
      assert t[|t| - 1] == digits[|digits| - 1];
      TrimUnchanged(t);
      assert ParseStripped(t) == SqlInt(s);
    } else {
      DigitsGrouped(t);
      DigitsNotSpace(t);
      TrimUnchanged(t);
      assert ParseStripped(t) == SqlInt(s);
    }
  }

  /** Whatever the store's trim removes, Python's strip removes too. */
  lemma {:induction false} SqlTrimThenTrim(s: string)
    ensures TrimSpace(s) == TrimSpace(SqlTrim(s))
    decreases |s|
  {
    if |s| > 0 && IsSqlSpace(s[0]) {
      assert s == [s[0]] + s[1..] + [];
      TrimSpaceAround([s[0]], s[1..], []);
      SqlTrimThenTrim(s[1..]);
    } else if |s| > 0 && IsSqlSpace(s[|s| - 1]) {
      assert s == [] + s[..|s| - 1] + [s[|s| - 1]];
      TrimSpaceAround([], s[..|s| - 1], [s[|s| - 1]]);
      SqlTrimThenTrim(s[..|s| - 1]);
    }
  }

  /** The person id a field name carries: `key[len(prefix):-1]` when the name starts
      with the prefix and ends with the bracket, and the middle parses as an int. */
  function FieldPersonId(key: string): Option<Id> {
    if StartsWith(key, StatusKeyPrefix) && EndsWith(key, StatusKeySuffix) then
      assert key[|key| - 1] == ']';
      ParseInt(key[|StatusKeyPrefix|..|key| - 1])
    else None
  }

  /** The name under which a person's status is submitted. */
  function StatusKey(id: Id): string {
    StatusKeyPrefix + ShowInt(id) + StatusKeySuffix
  }

  /** The field named after a person is read back as that person's id. */
  lemma StatusKeyRoundTrip(id: Id)
    ensures FieldPersonId(StatusKey(id)) == Some(id)
  {
    var key := StatusKey(id);
    assert key[..|StatusKeyPrefix|] == StatusKeyPrefix;
    assert key[|key| - 1..] == StatusKeySuffix;
    assert key[|StatusKeyPrefix|..|key| - 1] == ShowInt(id);
    ParseShowInt(id);
  }

  /** Field names that do not have the shape are ignored. */
  lemma OtherFieldsIgnored(key: string)
    requires !StartsWith(key, StatusKeyPrefix)
    ensures FieldPersonId(key).None?
  {
  }

  /** `request.form.items()`: one pair per distinct field name, with the first value
      submitted under it, in order of first appearance. */
  function FormItems(raw: seq<Field>): (r: Dict<string, string>)
    ensures DistinctKeys(r)
    decreases |raw|
  {
    if |raw| == 0 then []
    else
      var n := |raw| - 1;
      var d := FormItems(raw[..n]);
      if HasKey(d, raw[n].0) then d else Put(d, raw[n].0, raw[n].1)
  }

  /** The earliest field named `k` carries `v`. */
  ghost predicate FirstFor(raw: seq<Field>, k: string, v: string) {
    exists i :: 0 <= i < |raw| && raw[i] == (k, v) && forall j :: 0 <= j < i ==> raw[j].0 != k
  }

  /** Every submitted name appears once, with the first value submitted under it. */
  lemma {:induction false} FormItemsFirstValue(raw: seq<Field>, k: string)
    ensures HasKey(FormItems(raw), k) <==> exists i :: 0 <= i < |raw| && raw[i].0 == k
    ensures HasKey(FormItems(raw), k) ==> FirstFor(raw, k, Get(FormItems(raw), k).value)
    decreases |raw|
  {
    if |raw| > 0 {
      var n := |raw| - 1;
      var pre := raw[..n];
      FormItemsFirstValue(pre, k);
      FormItemsStep(raw, pre, k);
      FirstValueExtend(raw, pre, k, FormItems(pre), FormItems(raw));
    }
  }

  /** The induction step of `FormItemsFirstValue`, for any dictionaries related as
      one more field relates them. */
  lemma FirstValueExtend(raw: seq<Field>, pre: seq<Field>, k: string, d: Dict<string, string>, r: Dict<string, string>)
    requires |raw| > 0 && pre == raw[..|raw| - 1]
    requires Get(r, k) == if !HasKey(d, k) && raw[|raw| - 1].0 == k then Some(raw[|raw| - 1].1) else Get(d, k)
    requires HasKey(d, k) <==> exists i :: 0 <= i < |pre| && pre[i].0 == k
    requires HasKey(d, k) ==> FirstFor(pre, k, Get(d, k).value)
    ensures HasKey(r, k) <==> exists i :: 0 <= i < |raw| && raw[i].0 == k
    ensures HasKey(r, k) ==> FirstFor(raw, k, Get(r, k).value)
  {
    var n := |raw| - 1;
    NamedExtend(raw, pre, k);
    if HasKey(d, k) {
      FirstForExtend(pre, raw[n], k, Get(d, k).value);
      assert pre + [raw[n]] == raw;
    } else if raw[n].0 == k {
      FirstForAtEnd(raw, pre, k);
    }
  }

  /** One more field changes the entry for `k` only when `k` is new and the field
      carries it. */
  lemma FormItemsStep(raw: seq<Field>, pre: seq<Field>, k: string)
    requires |raw| > 0 && pre == raw[..|raw| - 1]
    ensures Get(FormItems(raw), k) ==
      if !HasKey(FormItems(pre), k) && raw[|raw| - 1].0 == k then Some(raw[|raw| - 1].1) else Get(FormItems(pre), k)
  {
  }

  lemma FirstForExtend(pre: seq<Field>, f: Field, k: string, v: string)
    requires FirstFor(pre, k, v)
    ensures FirstFor(pre + [f], k, v)
  {
    var i :| 0 <= i < |pre| && pre[i] == (k, v) && forall j :: 0 <= j < i ==> pre[j].0 != k;
    var raw := pre + [f];
    assert raw[i] == pre[i];
    forall j | 0 <= j < i ensures raw[j].0 != k {
      assert raw[j] == pre[j];
    }
  }

  lemma FirstForAtEnd(raw: seq<Field>, pre: seq<Field>, k: string)
    requires |raw| > 0 && pre == raw[..|raw| - 1] && raw[|raw| - 1].0 == k
    requires forall j :: 0 <= j < |pre| ==> pre[j].0 != k
    ensures FirstFor(raw, k, raw[|raw| - 1].1)
  {
    var n := |raw| - 1;
    forall j | 0 <= j < n ensures raw[j].0 != k {
      assert raw[j] == pre[j];
    }
    assert raw[n] == (k, raw[n].1);
  }

  /** The field with the highest index among those whose name `idOf` reads as `k`:
      the one whose value the dictionary keeps. */
  ghost predicate LastFor(fields: seq<Field>, idOf: string -> Option<Id>, k: Id, v: string) {
    exists i :: 0 <= i < |fields| && idOf(fields[i].0) == Some(k) && fields[i].1 == v
      && forall j :: i < j < |fields| ==> idOf(fields[j].0) != Some(k)
  }

  /** The loop of attendance.py:172-181 for a given reading of field names: every
      field whose name yields an id becomes an entry keyed by that id; a later field
      for the same id overwrites the value but keeps the position. */
  function CollectById(fields: seq<Field>, idOf: string -> Option<Id>): (r: Dict<Id, string>)
    ensures DistinctKeys(r)
    decreases |fields|
  {
    if |fields| == 0 then []
    else
      var n := |fields| - 1;
      var d := CollectById(fields[..n], idOf);
      match idOf(fields[n].0)
      case None => d
      case Some(id) => Put(d, id, fields[n].1)
  }

  /** An id is in the dictionary exactly when some field names it, and its value is
      the one submitted last under that id. */
  lemma {:induction false} CollectLastValue(fields: seq<Field>, idOf: string -> Option<Id>, k: Id)
    ensures HasKey(CollectById(fields, idOf), k) <==> exists i :: 0 <= i < |fields| && idOf(fields[i].0) == Some(k)
    ensures HasKey(CollectById(fields, idOf), k) ==> LastFor(fields, idOf, k, Get(CollectById(fields, idOf), k).value)
    decreases |fields|
  {
    if |fields| > 0 {
      var n := |fields| - 1;
      var pre := fields[..n];
      CollectLastValue(pre, idOf, k);
      CollectStep(fields, pre, idOf, k);
      LastValueExtend(fields, pre, idOf, k, CollectById(pre, idOf), CollectById(fields, idOf));
    }
  }

  /** The induction step of `CollectLastValue`, for any dictionaries related as one
      more field relates them. */
  lemma LastValueExtend(fields: seq<Field>, pre: seq<Field>, idOf: string -> Option<Id>, k: Id,
                        d: Dict<Id, string>, r: Dict<Id, string>)
    requires |fields| > 0 && pre == fields[..|fields| - 1]
    requires Get(r, k) == if idOf(fields[|fields| - 1].0) == Some(k) then Some(fields[|fields| - 1].1) else Get(d, k)
    requires HasKey(d, k) <==> exists i :: 0 <= i < |pre| && idOf(pre[i].0) == Some(k)
    requires HasKey(d, k) ==> LastFor(pre, idOf, k, Get(d, k).value)
    ensures HasKey(r, k) <==> exists i :: 0 <= i < |fields| && idOf(fields[i].0) == Some(k)
    ensures HasKey(r, k) ==> LastFor(fields, idOf, k, Get(r, k).value)
  {
    var n := |fields| - 1;
    IdExtend(fields, pre, idOf, k);
    if idOf(fields[n].0) == Some(k) {
      LastForAtEnd(fields, idOf, k);
    } else if HasKey(d, k) {
      var v := Get(d, k).value;
      LastForExtend(pre, fields[n], idOf, k, v);
      assert pre + [fields[n]] == fields;
    }
  }

  /** One more field overwrites the entry of the id it yields and no other. */
  lemma CollectStep(fields: seq<Field>, pre: seq<Field>, idOf: string -> Option<Id>, k: Id)
    requires |fields| > 0 && pre == fields[..|fields| - 1]
    ensures Get(CollectById(fields, idOf), k) ==
      if idOf(fields[|fields| - 1].0) == Some(k) then Some(fields[|fields| - 1].1) else Get(CollectById(pre, idOf), k)
  {
  }

  lemma LastForAtEnd(fields: seq<Field>, idOf: string -> Option<Id>, k: Id)
    requires |fields| > 0 && idOf(fields[|fields| - 1].0) == Some(k)
    ensures LastFor(fields, idOf, k, fields[|fields| - 1].1)
  {
    var n := |fields| - 1;
    assert fields[n].1 == fields[|fields| - 1].1;
  }

  /** Some field is named `k` exactly when one before the last is, or the last is. */
  lemma NamedExtend(raw: seq<Field>, pre: seq<Field>, k: string)
    requires |raw| > 0 && pre == raw[..|raw| - 1]
    ensures (exists i :: 0 <= i < |raw| && raw[i].0 == k) <==>
      (exists i :: 0 <= i < |pre| && pre[i].0 == k) || raw[|raw| - 1].0 == k
  {
    if i :| 0 <= i < |raw| && raw[i].0 == k {
      if i < |pre| {
        assert pre[i] == raw[i];
      }
    }
    if i :| 0 <= i < |pre| && pre[i].0 == k {
      assert raw[i] == pre[i];
    }
  }

  /** Some field yields `k` exactly when one before the last does, or the last does. */
  lemma IdExtend(fields: seq<Field>, pre: seq<Field>, idOf: string -> Option<Id>, k: Id)
    requires |fields| > 0 && pre == fields[..|fields| - 1]
    ensures (exists i :: 0 <= i < |fields| && idOf(fields[i].0) == Some(k)) <==>
      (exists i :: 0 <= i < |pre| && idOf(pre[i].0) == Some(k)) || idOf(fields[|fields| - 1].0) == Some(k)
  {
    if i :| 0 <= i < |fields| && idOf(fields[i].0) == Some(k) {
      if i < |pre| {
        assert pre[i] == fields[i];
      }
    }
    if i :| 0 <= i < |pre| && idOf(pre[i].0) == Some(k) {
      assert fields[i] == pre[i];
    }
  }

  /** A field for another id appended after the last one for `k` leaves it last. */
  lemma LastForExtend(pre: seq<Field>, f: Field, idOf: string -> Option<Id>, k: Id, v: string)
    requires LastFor(pre, idOf, k, v) && idOf(f.0) != Some(k)
    ensures LastFor(pre + [f], idOf, k, v)
  {
    var fields := pre + [f];
    var i :| 0 <= i < |pre| && idOf(pre[i].0) == Some(k) && pre[i].1 == v
      && forall j :: i < j < |pre| ==> idOf(pre[j].0) != Some(k);
    assert fields[i] == pre[i];
    forall j | i < j < |fields| ensures idOf(fields[j].0) != Some(k) {
      if j < |pre| {
        assert fields[j] == pre[j];
      }
    }
  }

  /** `person_status`, built from the fields as the form delivers them. */
  function ParseForm(fields: seq<Field>): (r: Dict<Id, string>)
    ensures DistinctKeys(r)
  {
    CollectById(fields, FieldPersonId)
  }

  /** The person ids of the dictionary are exactly those of the well-shaped field
      names, each with the value submitted last for it. */
  lemma ParseFormLastValue(fields: seq<Field>, k: Id)
    ensures HasKey(ParseForm(fields), k) <==> exists i :: 0 <= i < |fields| && FieldPersonId(fields[i].0) == Some(k)
    ensures HasKey(ParseForm(fields), k) ==> LastFor(fields, FieldPersonId, k, Get(ParseForm(fields), k).value)
  {
    CollectLastValue(fields, FieldPersonId, k);
  }

  /** Reading the form: the raw fields collapse to `request.form.items()` first. */
  function ReadForm(raw: seq<Field>): (r: Dict<Id, string>)
    ensures DistinctKeys(r)
  {
    ParseForm(FormItems(raw))
  }

  /** A person has an entry exactly when some submitted field name carries their
      id, and the entry is the value first submitted under one such name: a
      repeated name keeps its first value, and of two names carrying one id
      (`person_status[7]`, `person_status[07]`) the later name wins. */
  lemma ReadFormValue(raw: seq<Field>, k: Id)
    ensures HasKey(ReadForm(raw), k) <==> exists i :: 0 <= i < |raw| && FieldPersonId(raw[i].0) == Some(k)
    ensures HasKey(ReadForm(raw), k) ==>
      exists name :: FieldPersonId(name) == Some(k) && FirstFor(raw, name, Get(ReadForm(raw), k).value)
  {
    var items := FormItems(raw);
    ParseFormLastValue(items, k);
    if exists i :: 0 <= i < |raw| && FieldPersonId(raw[i].0) == Some(k) {
      var i :| 0 <= i < |raw| && FieldPersonId(raw[i].0) == Some(k);
      FormItemsFirstValue(raw, raw[i].0);
      var j :| 0 <= j < |items| && items[j].0 == raw[i].0;
      assert FieldPersonId(items[j].0) == Some(k);
    }
    if HasKey(ReadForm(raw), k) {
      var v := Get(ReadForm(raw), k).value;
      var j :| 0 <= j < |items| && FieldPersonId(items[j].0) == Some(k) && items[j].1 == v
        && forall m :: j < m < |items| ==> FieldPersonId(items[m].0) != Some(k);
      var name := items[j].0;
      GetAt(items, j);
      FormItemsFirstValue(raw, name);
      assert FirstFor(raw, name, v);
      var i :| 0 <= i < |raw| && raw[i] == (name, v) && forall m :: 0 <= m < i ==> raw[m].0 != name;
      assert FieldPersonId(raw[i].0) == Some(k);
    }
  }
}

=== FILE: grouping.dfy ===
/** The grouped view of the attendance form (app/controllers/attendance.py:13-136):
    the selected people, already in hierarchy-path order, are filed into nested
    dictionaries keyed by region, direction, department, team and cell NAME. A
    bucket records the id of the first node that created it, so same-named
    siblings share one bucket. Each person is listed with whether any attendance
    row exists for the service. */
module Grouping {
  import opened Common
  import opened OrderedDict
  import opened Organization
  import opened People
  import opened Services
  import opened Members

  /** One listed person: id, full name, and whether a row exists for the service. */
  datatype Entry = Entry(personId: Id, name: string, marked: bool)

  /** A bucket of the nested dictionary: the id it was created with, its sub-buckets
      by name, and (at cell depth) its people. */
  datatype Bucket = Bucket(id: Id, children: Dict<string, Bucket>, people: seq<Entry>)

  const EmptyBucket := Bucket(0, [], [])

  predicate WellFormed(b: Bucket)
    decreases b
  {
    && DistinctKeys(b.children)
    && forall i :: 0 <= i < |b.children| ==> WellFormed(b.children[i].1)
  }

  /** The bucket reached by following `names` from `b`. */
  function Descend(b: Bucket, names: seq<string>): Option<Bucket>
    decreases |names|
  {
    if |names| == 0 then Some(b)
    else
      match Get(b.children, names[0])
      case None => None
      case Some(c) => Descend(c, names[1..])
  }

  /** The people filed under `names`. */
  function PeopleAt(b: Bucket, names: seq<string>): seq<Entry> {
    match Descend(b, names)
    case None => []
    case Some(x) => x.people
  }

  /** The id recorded for the bucket at `names`. */
  function IdAt(b: Bucket, names: seq<string>): Option<Id> {
    match Descend(b, names)
    case None => None
    case Some(x) => Some(x.id)
  }

  lemma ChildWellFormed(b: Bucket, k: string)
    requires WellFormed(b)
    ensures Get(b.children, k).Some? ==> WellFormed(Get(b.children, k).value)
  {
    if Get(b.children, k).Some? {
      var i :| 0 <= i < |b.children| && b.children[i] == (k, Get(b.children, k).value);
    }
  }

  /** The sub-bucket named `name`, or a fresh empty one created with `id`. */
  function ChildOrNew(b: Bucket, name: string, id: Id): (c: Bucket)
    requires WellFormed(b)
    ensures WellFormed(c)
  {
    ChildWellFormed(b, name);
    match Get(b.children, name)
    case Some(c) => c
    case None => Bucket(id, [], [])
  }

  /** Files entry `e` under `names`, creating each missing bucket with the
      matching id of `ids`; an existing bucket keeps its id. */
  function Insert(b: Bucket, names: seq<string>, ids: seq<Id>, e: Entry): (r: Bucket)
    requires |ids| == |names| && WellFormed(b)
    ensures WellFormed(r) && r.id == b.id
    decreases |names|
  {
    if |names| == 0 then b.(people := b.people + [e])
    else
      var child := ChildOrNew(b, names[0], ids[0]);
      var c2 := Insert(child, names[1..], ids[1..], e);
      var children := Put(b.children, names[0], c2);
      assert forall i :: 0 <= i < |children| ==> WellFormed(children[i].1) by {
        forall i | 0 <= i < |children| ensures WellFormed(children[i].1) {
          assert children[i] in children;
          if children[i] != (names[0], c2) {
            var j :| 0 <= j < |b.children| && b.children[j] == children[i];
          }
        }
      }
      b.(children := children)
  }

  lemma {:induction false} EmptyHoldsNobody(id: Id, m: seq<string>)
    ensures PeopleAt(Bucket(id, [], []), m) == []
    ensures |m| > 0 ==> Descend(Bucket(id, [], []), m).None?
  {
  }

  /** Filing adds the entry to exactly the bucket at `names` and to no other. */
  lemma {:induction false} InsertPeopleAt(b: Bucket, names: seq<string>, ids: seq<Id>, e: Entry, m: seq<string>)
    requires |ids| == |names| && WellFormed(b)
    ensures PeopleAt(Insert(b, names, ids, e), m) == PeopleAt(b, m) + (if m == names then [e] else [])
    decreases |names|
  {
    if |names| > 0 && |m| > 0 && m[0] == names[0] {
      var child := ChildOrNew(b, names[0], ids[0]);
      EmptyHoldsNobody(ids[0], m[1..]);
      InsertPeopleAt(child, names[1..], ids[1..], e, m[1..]);
      assert m == names <==> m[1..] == names[1..] by {
        if m[1..] == names[1..] {
          assert m == [m[0]] + m[1..] && names == [names[0]] + names[1..];
        }
      }
    }
  }

  lemma PrefixStep(m: seq<string>, names: seq<string>)
    requires 1 < |m| && 0 < |names| && m[0] == names[0]
    ensures (|m| <= |names| && names[..|m|] == m) <==> (|m[1..]| <= |names[1..]| && names[1..][..|m[1..]|] == m[1..])
  {
    if |m| <= |names| && names[1..][..|m[1..]|] == m[1..] {
      assert names[..|m|] == [names[0]] + names[1..][..|m[1..]|];
      assert m == [m[0]] + m[1..];
    }
  }

  /** Filing creates the buckets along `names` that were missing, with the ids of
      `ids`, and leaves every existing bucket's id as it was. */
  lemma {:induction false} InsertIdAt(b: Bucket, names: seq<string>, ids: seq<Id>, e: Entry, m: seq<string>)
    requires |ids| == |names| && WellFormed(b)
    requires 0 < |m|
    ensures IdAt(Insert(b, names, ids, e), m) ==
      if IdAt(b, m).Some? then IdAt(b, m)
      else if |m| <= |names| && names[..|m|] == m then Some(ids[|m| - 1])
      else None
    decreases |names|
  {
    if |names| > 0 && m[0] == names[0] {
      var found := Get(b.children, names[0]).Some?;
      var child := ChildOrNew(b, names[0], ids[0]);
      var childNew := if |m| > 1 then IdAt(Insert(child, names[1..], ids[1..], e), m[1..]) else None;
      if |m| > 1 {
        InsertIdAt(child, names[1..], ids[1..], e, m[1..]);
        if !found {
          EmptyHoldsNobody(ids[0], m[1..]);
        }
      }
      InsertIdAlong(b, names, ids, e, m);
      IdAlongBefore(b, names[0], ids[0], m);
      IdCombine(m, names, ids, IdAt(Insert(b, names, ids, e), m), IdAt(b, m),
                if |m| > 1 then IdAt(child, m[1..]) else None, childNew, found, child.id);
    } else {
      InsertIdAside(b, names, ids, e, m);
    }
  }

  /** The id at `m` after filing, read through the first name of the path. */
  lemma InsertIdAlong(b: Bucket, names: seq<string>, ids: seq<Id>, e: Entry, m: seq<string>)
    requires |ids| == |names| && WellFormed(b) && 0 < |m| && 0 < |names| && m[0] == names[0]
    ensures IdAt(Insert(b, names, ids, e), m)
      == if |m| == 1 then Some(ChildOrNew(b, names[0], ids[0]).id)
         else IdAt(Insert(ChildOrNew(b, names[0], ids[0]), names[1..], ids[1..], e), m[1..])
  {
    var child := ChildOrNew(b, names[0], ids[0]);
    var c2 := Insert(child, names[1..], ids[1..], e);
    var r := Insert(b, names, ids, e);
    assert Get(r.children, names[0]) == Some(c2);
    assert Descend(r, m) == Descend(c2, m[1..]);
    if |m| == 1 {
      assert m[1..] == [];
      assert Descend(c2, m[1..]) == Some(c2);
    }
  }

  /** The id at `m` before filing, read through the first name of the path. */
  lemma IdAlongBefore(b: Bucket, name: string, id: Id, m: seq<string>)
    requires WellFormed(b) && 0 < |m| && m[0] == name
    ensures IdAt(b, m)
      == if Get(b.children, name).None? then None
         else if |m| == 1 then Some(ChildOrNew(b, name, id).id)
         else IdAt(ChildOrNew(b, name, id), m[1..])
    ensures Get(b.children, name).None? ==> ChildOrNew(b, name, id) == Bucket(id, [], [])
  {
    var child := ChildOrNew(b, name, id);
    if Get(b.children, name).Some? {
      assert Descend(b, m) == Descend(child, m[1..]);
      if |m| == 1 {
        assert m[1..] == [];
        assert Descend(child, m[1..]) == Some(child);
      }
    }
  }

  /** The case analysis of `InsertIdAt` along the path, on the ids alone. */
  lemma IdCombine(m: seq<string>, names: seq<string>, ids: seq<Id>, x: Option<Id>, before: Option<Id>,
                  childOld: Option<Id>, childNew: Option<Id>, found: bool, childId: Id)
    requires 0 < |m| && 0 < |names| && |ids| == |names| && m[0] == names[0]
    requires x == if |m| == 1 then Some(childId) else childNew
    requires before == if !found then None else if |m| == 1 then Some(childId) else childOld
    requires !found ==> childId == ids[0] && childOld.None?
    requires |m| > 1 ==> (childNew ==
      if childOld.Some? then childOld
      else if |m[1..]| <= |names[1..]| && names[1..][..|m[1..]|] == m[1..] then Some(ids[1..][|m[1..]| - 1])
      else None)
    ensures x == if before.Some? then before else if |m| <= |names| && names[..|m|] == m then Some(ids[|m| - 1]) else None
  {
    if |m| > 1 {
      PrefixStep(m, names);
    } else {
      assert names[..|m|] == m;
    }
  }

  /** Filing along another first name leaves the id at `m` as it was. */
  lemma InsertIdAside(b: Bucket, names: seq<string>, ids: seq<Id>, e: Entry, m: seq<string>)
    requires |ids| == |names| && WellFormed(b) && 0 < |m|
    requires |names| == 0 || m[0] != names[0]
    ensures IdAt(Insert(b, names, ids, e), m) == IdAt(b, m)
  {
    var r := Insert(b, names, ids, e);
    assert r.children == b.children || Get(r.children, m[0]) == Get(b.children, m[0]);
  }

  /** The ids of a path, region first, aligned with `PathNames`. */
  function PathIds(p: Path): seq<Id> {
    [p.region.id, p.direction.id, p.department.id, p.team.id, p.cell.id]
  }

  function EntryOf(p: Person, l: Ledger, serviceId: Id): Entry {
    Entry(p.id, FullName(p), p.id in MarkedIds(l, serviceId))
  }

  /** The loop of attendance.py:84-136, for a given way of reading a person's
      path and entry. */
  function GroupBy(people: seq<Person>, pathOf: Person -> Option<Path>, entryOf: Person -> Entry): (r: Bucket)
    ensures WellFormed(r)
    decreases |people|
  {
    if |people| == 0 then EmptyBucket
    else
      var n := |people| - 1;
      var t := GroupBy(people[..n], pathOf, entryOf);
      match pathOf(people[n])
      case None => t
      case Some(path) => Insert(t, PathNames(path), PathIds(path), entryOf(people[n]))
  }

  /** The grouped listing of the attendance form. */
  function Group(o: Org, people: seq<Person>, l: Ledger, serviceId: Id): Bucket {
    GroupBy(people, (p: Person) => HierarchyPath(o, p), (p: Person) => EntryOf(p, l, serviceId))
  }

  /** Reference: the entries of the people whose path names are `names`, in order. */
  function EntriesUnder(people: seq<Person>, pathOf: Person -> Option<Path>, entryOf: Person -> Entry,
                        names: seq<string>): seq<Entry> {
    if |people| == 0 then []
    else
      (if pathOf(people[0]).Some? && PathNames(pathOf(people[0]).value) == names then [entryOf(people[0])] else [])
      + EntriesUnder(people[1..], pathOf, entryOf, names)
  }

  lemma {:induction false} EntriesUnderAppend(a: seq<Person>, b: seq<Person>, pathOf: Person -> Option<Path>,
                                              entryOf: Person -> Entry, names: seq<string>)
    ensures EntriesUnder(a + b, pathOf, entryOf, names) == EntriesUnder(a, pathOf, entryOf, names) + EntriesUnder(b, pathOf, entryOf, names)
    decreases |a|
  {
    if |a| > 0 {
      assert (a + b)[1..] == a[1..] + b;
      EntriesUnderAppend(a[1..], b, pathOf, entryOf, names);
    } else {
      assert a + b == b;
    }
  }

  lemma EntriesUnderOne(p: Person, pathOf: Person -> Option<Path>, entryOf: Person -> Entry, names: seq<string>)
    ensures EntriesUnder([p], pathOf, entryOf, names)
      == if pathOf(p).Some? && PathNames(pathOf(p).value) == names then [entryOf(p)] else []
  {
    assert [p][1..] == [];
  }

  lemma {:induction false} GroupByFilesByPath(people: seq<Person>, pathOf: Person -> Option<Path>,
                                              entryOf: Person -> Entry, names: seq<string>)
    ensures PeopleAt(GroupBy(people, pathOf, entryOf), names) == EntriesUnder(people, pathOf, entryOf, names)
    decreases |people|
  {
    if |people| == 0 {
      EmptyHoldsNobody(0, names);
    } else {
      var n := |people| - 1;
      var pre, last := people[..n], people[n];
      GroupByFilesByPath(pre, pathOf, entryOf, names);
      assert pre + [last] == people;
      EntriesUnderAppend(pre, [last], pathOf, entryOf, names);
      EntriesUnderOne(last, pathOf, entryOf, names);
      var t := GroupBy(pre, pathOf, entryOf);
      match pathOf(last) {
        case None =>
          assert GroupBy(people, pathOf, entryOf) == t;
        case Some(path) =>
          assert GroupBy(people, pathOf, entryOf) == Insert(t, PathNames(path), PathIds(path), entryOf(last));
          InsertPeopleAt(t, PathNames(path), PathIds(path), entryOf(last), names);
      }
    }
  }

  /** Every listed person appears exactly once, in the bucket named by their own
      cell's path, and a bucket lists its people in the order of the listing. */
  lemma GroupFilesByPath(o: Org, people: seq<Person>, l: Ledger, serviceId: Id, names: seq<string>)
    ensures PeopleAt(Group(o, people, l, serviceId), names) ==
      EntriesUnder(people, (p: Person) => HierarchyPath(o, p), (p: Person) => EntryOf(p, l, serviceId), names)
  {
    GroupByFilesByPath(people, (p: Person) => HierarchyPath(o, p), (p: Person) => EntryOf(p, l, serviceId), names);
  }

  /** Reference: the id a bucket at `names` is created with is that of the first
      listed person whose path names begin with `names`. */
  function FirstIdUnder(people: seq<Person>, pathOf: Person -> Option<Path>, names: seq<string>): Option<Id>
    requires 0 < |names| <= 5
  {
    if |people| == 0 then None
    else match pathOf(people[0])
      case Some(path) =>
        if PathNames(path)[..|names|] == names then Some(PathIds(path)[|names| - 1])
        else FirstIdUnder(people[1..], pathOf, names)
      case None => FirstIdUnder(people[1..], pathOf, names)
  }

  lemma {:induction false} FirstIdUnderAppend(a: seq<Person>, b: seq<Person>, pathOf: Person -> Option<Path>, names: seq<string>)
    requires 0 < |names| <= 5
    ensures FirstIdUnder(a + b, pathOf, names) ==
      if FirstIdUnder(a, pathOf, names).Some? then FirstIdUnder(a, pathOf, names) else FirstIdUnder(b, pathOf, names)
    decreases |a|
  {
    if |a| > 0 {
      assert (a + b)[1..] == a[1..] + b;
      FirstIdUnderAppend(a[1..], b, pathOf, names);
    } else {
      assert a + b == b;
    }
  }

  lemma {:induction false} GroupByKeepsFirstId(people: seq<Person>, pathOf: Person -> Option<Path>,
                                               entryOf: Person -> Entry, names: seq<string>)
    requires 0 < |names| <= 5
    ensures IdAt(GroupBy(people, pathOf, entryOf), names) == FirstIdUnder(people, pathOf, names)
    decreases |people|
  {
    if |people| == 0 {
      EmptyHoldsNobody(0, names);
    } else {
      var n := |people| - 1;
      GroupByKeepsFirstId(people[..n], pathOf, entryOf, names);
      FirstIdUnderAppend(people[..n], [people[n]], pathOf, names);
      assert people[..n] + [people[n]] == people;
      assert [people[n]][1..] == [];
      var t := GroupBy(people[..n], pathOf, entryOf);
      match pathOf(people[n]) {
        case None =>
        case Some(path) =>
          InsertIdAt(t, PathNames(path), PathIds(path), entryOf(people[n]), names);
      }
    }
  }

  /** Buckets are keyed by name only: each keeps the id of the first node that
      reached it, so a later same-named sibling is merged into it. */
  lemma GroupKeepsFirstId(o: Org, people: seq<Person>, l: Ledger, serviceId: Id, names: seq<string>)
    requires 0 < |names| <= 5
    ensures IdAt(Group(o, people, l, serviceId), names) == FirstIdUnder(people, (p: Person) => HierarchyPath(o, p), names)
  {
    GroupByKeepsFirstId(people, (p: Person) => HierarchyPath(o, p), (p: Person) => EntryOf(p, l, serviceId), names);
  }

  /** An entry is marked exactly when some attendance row exists for the service,
      whatever that row's status. */
  lemma EntryMarkedIffAnyRow(p: Person, l: Ledger, serviceId: Id)
    ensures EntryOf(p, l, serviceId).marked <==> exists a :: a in l && IsKey(a, serviceId, p.id)
  {
  }

  datatype FormError = ServiceNotFound

  /** The attendance form page: 404 unless the service and its type exist (the
      join of `first_or_404`); otherwise the grouped listing. */
  function AttendanceFormView(o: Org, people: seq<Person>, types: seq<ServiceType>, services: seq<Service>,
                              l: Ledger, serviceId: Id, q: PeopleQuery): (r: Result<Bucket, FormError>)
    ensures r.Err? <==> (FindService(services, serviceId).None? ||
      FindServiceType(types, FindService(services, serviceId).value.typeId).None?)
    ensures r.Ok? ==> r.value == Group(o, MemberList(o, people, q), l, serviceId)
  {
    match FindService(services, serviceId)
    case None => Err(ServiceNotFound)
    case Some(s) =>
      if FindServiceType(types, s.typeId).None? then Err(ServiceNotFound)
      else Ok(Group(o, MemberList(o, people, q), l, serviceId))
  }
}

=== FILE: legacy_import.dfy ===
/** The spreadsheet import of app.py (`import_assignments`, app.py:861-1171): every
    row is matched against the people table through a fixed cascade of keys, and
    then updates the person found, creates a new one, is skipped, or fails. The
    organisation tables are only read; the fold counts one outcome per row. */
module LegacyImport {
  import opened Common
  import opened Like
  import opened Organization
  import opened People
  import opened Sheet
  import AttendanceForm

  /** Which optional columns the file has. */
  datatype Header = Header(personId: bool, firstName: bool, lastName: bool, email: bool,
                           phone: bool, cellName: bool, isActive: bool)

  /** One row; a value under a column the file lacks is never read. */
  datatype Row = Row(personId: Value, firstName: Value, lastName: Value, email: Value,
                     phone: Value, cellName: Value, isActive: Value)

  /** The three form options: `create_missing`, `update_existing`, and whether
      `match_type` is "exact" (anything else matches names fuzzily). */
  datatype Options = Options(createMissing: bool, updateExisting: bool, exactNames: bool)

  /** The file must carry person_id, both name columns, email or phone (app.py:899-908). */
  predicate HasIdentifier(h: Header) {
    h.personId || (h.firstName && h.lastName) || h.email || h.phone
  }

  /** The column exists and the row's cell in it is not NaN. */
  predicate Filled(column: bool, v: Value) {
    column && !v.Blank?
  }

  function Or<T>(o: Option<T>, default: T): T {
    if o.Some? then o.value else default
  }

  // How a cell value reaches the store.

  /** The argument of `LOWER(%s)`: the store has no LOWER on numbers or booleans,
      so only text gets through; anything else raises. */
  function SqlText(v: Value): Option<string> {
    if v.Text? then Some(v.s) else None
  }

  /** The argument of `person_id = %s`: a number is compared as it is, text goes
      through the store's integer cast (`AttendanceForm.SqlInt`), and anything else
      raises. */
  function IdParam(v: Value): Option<Id> {
    match v
    case Number(n) => Some(n)
    case Text(s) => AttendanceForm.SqlInt(s)
    case _ => None
  }

  /** The `is_active` coercion (app.py:984-992, app.py:1040-1049): booleans pass
      through, text is true exactly when it lower-cases to "true", and a number is
      true when it is not zero. */
  function Coerce(v: Value): (r: bool)
    requires !v.Blank?
    ensures v.Flag? ==> r == v.b
    ensures v.Text? ==> (r <==> Lower(v.s) == "true")
    ensures v.Number? ==> (r <==> v.n != 0)
  {
    match v
    case Flag(b) => b
    case Text(s) => Lower(s) == "true"
    case Number(n) => n != 0
  }

  /** The active flag the row sets, if the column is there and the cell is filled. */
  function ActiveValue(h: Header, row: Row): (r: Option<bool>)
    ensures r.Some? <==> Filled(h.isActive, row.isActive)
  {
    if Filled(h.isActive, row.isActive) then Some(Coerce(row.isActive)) else None
  }

  // The matching cascade (app.py:926-968).

  /** What one lookup step yields: the first person id found, nobody, or an error
      raised by the store. */
  datatype Lookup = Hit(id: Id) | Miss | Fault

  /** The columns of a person that the lookups read; updates never change them. */
  datatype Key = Key(id: Id, firstName: string, lastName: string, email: Option<string>, phone: Option<string>)

  function KeyOf(p: Person): Key {
    Key(p.id, p.firstName, p.lastName, p.email, p.phone)
  }

  function KeysOf(people: seq<Person>): (r: seq<Key>)
    ensures |r| == |people|
    ensures forall i :: 0 <= i < |r| ==> r[i] == KeyOf(people[i])
  {
    seq(|people|, i requires 0 <= i < |people| => KeyOf(people[i]))
  }

  /** The first row of a query, read as `existing[0][0]`. */
  function Found(keys: seq<Key>, p: Key -> bool): (r: Lookup)
    ensures r.Hit? <==> exists k :: k in keys && p(k)
    ensures r != Fault
    ensures r.Hit? ==> exists k :: k in keys && p(k) && k.id == r.id
  {
    match First(keys, p)
    case None => Miss
    case Some(k) => Hit(k.id)
  }

  /** `LOWER(first_name) = LOWER(f) AND LOWER(last_name) = LOWER(l)`. */
  predicate ExactName(k: Key, f: string, l: string) {
    Lower(k.firstName) == Lower(f) && Lower(k.lastName) == Lower(l)
  }

  /** `LOWER(first_name) LIKE LOWER('%f%') AND LOWER(last_name) LIKE LOWER('%l%')`. */
  predicate FuzzyName(k: Key, f: string, l: string) {
    ILike(k.firstName, Surround(f)) && ILike(k.lastName, Surround(l))
  }

  function ById(keys: seq<Key>, v: Value): Lookup {
    match IdParam(v)
    case None => Fault
    case Some(n) => Found(keys, (k: Key) => k.id == n)
  }

  function ByEmail(keys: seq<Key>, v: Value): Lookup {
    match SqlText(v)
    case None => Fault
    case Some(e) => Found(keys, (k: Key) => k.email.Some? && Lower(k.email.value) == Lower(e))
  }

  /** The phone is compared as `str(value)`, with exact equality. */
  function ByPhone(keys: seq<Key>, v: Value): Lookup {
    Found(keys, (k: Key) => k.phone == Some(PyStr(v)))
  }

  /** Exact mode passes the names to LOWER, so they must be text; fuzzy mode first
      formats them into the pattern, so any value goes. */
  function ByName(keys: seq<Key>, exact: bool, f: Value, l: Value): Lookup {
    if exact then
      if f.Text? && l.Text? then Found(keys, (k: Key) => ExactName(k, f.s, l.s)) else Fault
    else
      Found(keys, (k: Key) => FuzzyName(k, PyStr(f), PyStr(l)))
  }

  /** The four steps in their fixed order; a step whose column is missing or whose
      cell is NaN finds nobody. */
  function Steps(keys: seq<Key>, h: Header, exact: bool, row: Row): (r: seq<Lookup>)
    ensures |r| == 4
  {
    [ if Filled(h.personId, row.personId) then ById(keys, row.personId) else Miss,
      if Filled(h.email, row.email) then ByEmail(keys, row.email) else Miss,
      if Filled(h.phone, row.phone) then ByPhone(keys, row.phone) else Miss,
      if Filled(h.firstName, row.firstName) && Filled(h.lastName, row.lastName)
      then ByName(keys, exact, row.firstName, row.lastName) else Miss ]
  }

  /** The cascade as the source runs it: each later key only while nobody has been
      found, and an error ends the row. */
  function MatchPerson(keys: seq<Key>, h: Header, exact: bool, row: Row): Lookup {
    var byId := if Filled(h.personId, row.personId) then ById(keys, row.personId) else Miss;
    if !byId.Miss? then byId
    else
      var byEmail := if Filled(h.email, row.email) then ByEmail(keys, row.email) else Miss;
      if !byEmail.Miss? then byEmail
      else
        var byPhone := if Filled(h.phone, row.phone) then ByPhone(keys, row.phone) else Miss;
        if !byPhone.Miss? then byPhone
        else if Filled(h.firstName, row.firstName) && Filled(h.lastName, row.lastName)
        then ByName(keys, exact, row.firstName, row.lastName)
        else Miss
  }

  /** Match priority: the outcome is that of the first step that finds somebody or
      fails, and nobody is found only when every step finds nobody. */
  lemma MatchIsFirstDecisiveStep(keys: seq<Key>, h: Header, exact: bool, row: Row)
    ensures var steps := Steps(keys, h, exact, row);
      var k := FirstIndex(steps, (s: Lookup) => !s.Miss?);
      MatchPerson(keys, h, exact, row) == (if k < 4 then steps[k] else Miss)
  {
    var steps := Steps(keys, h, exact, row);
    var k := FirstIndex(steps, (s: Lookup) => !s.Miss?);
    if k >= 1 { assert steps[0].Miss?; }
    if k >= 2 { assert steps[1].Miss?; }
    if k >= 3 { assert steps[2].Miss?; }
    if k >= 4 { assert steps[3].Miss?; }
  }

  /** Exact mode: the stored names equal the row's, ignoring case. */
  lemma ExactNameMatch(keys: seq<Key>, f: string, l: string)
    ensures ByName(keys, true, Text(f), Text(l)).Hit? <==>
      exists k :: k in keys && Lower(k.firstName) == Lower(f) && Lower(k.lastName) == Lower(l)
  {
  }

  /** Fuzzy mode: each of the row's names is a case-insensitive substring of the
      stored one (so "Jon" finds "Jonathan"), when the names hold no LIKE
      metacharacter. */
  lemma FuzzyNameIsSubstring(keys: seq<Key>, f: string, l: string)
    requires NoMeta(f) && NoMeta(l)
    ensures ByName(keys, false, Text(f), Text(l)).Hit? <==>
      exists k :: k in keys && ContainsIgnoreCase(k.firstName, f) && ContainsIgnoreCase(k.lastName, l)
  {
    forall k | k in keys ensures FuzzyName(k, f, l) <==> ContainsIgnoreCase(k.firstName, f) && ContainsIgnoreCase(k.lastName, l) {
      ILikeSurroundIsContains(k.firstName, f);
      ILikeSurroundIsContains(k.lastName, l);
    }
  }

  // The per-row decision (app.py:971-1110).

  /** The cell the row names: first cell whose name equals it ignoring case. */
  function CellParam(o: Org, h: Header, row: Row): (r: Lookup)
    ensures r.Fault? <==> Filled(h.cellName, row.cellName) && !row.cellName.Text?
    ensures r.Hit? ==> row.cellName.Text? && exists c :: c in o.cells && c.id == r.id && Lower(c.name) == Lower(row.cellName.s)
  {
    if !Filled(h.cellName, row.cellName) then Miss
    else
      match SqlText(row.cellName)
      case None => Fault
      case Some(n) =>
        match First(o.cells, (c: Cell) => Lower(c.name) == Lower(n))
        case None => Miss
        case Some(c) => Hit(c.id)
  }

  /** What a row will do, decided before anything is written. */
  datatype Decision =
    | DoUpdate(pid: Id, cell: Option<Id>, active: Option<bool>)
    | DoCreate(first: string, last: string, email: Option<string>, phone: Option<string>,
               cellId: Option<Id>, activeFlag: bool)
    | DoSkip
    | DoFail

  /** The decision table: an update needs a match, `update_existing`, and at least
      one of a resolved cell or an active flag; a create needs no match,
      `create_missing` and both name columns; a lookup error fails the row; every
      other row is skipped. */
  function Decide(o: Org, keys: seq<Key>, h: Header, opts: Options, row: Row): (d: Decision)
    ensures var m := MatchPerson(keys, h, opts.exactNames, row);
      var c := CellParam(o, h, row);
      var names := h.firstName && h.lastName;
      && (d.DoUpdate? <==> m.Hit? && opts.updateExisting && !c.Fault? && (c.Hit? || ActiveValue(h, row).Some?))
      && (d.DoUpdate? ==> d.pid == m.id && d.active == ActiveValue(h, row)
                          && (c.Hit? ==> d.cell == Some(c.id)) && (c.Miss? ==> d.cell.None?))
      && (d.DoCreate? <==> m.Miss? && opts.createMissing && names && !c.Fault?)
      && (d.DoSkip? <==> (m.Hit? && (!opts.updateExisting || (c.Miss? && !Filled(h.isActive, row.isActive))))
                         || (m.Miss? && !(opts.createMissing && names)))
      && (d.DoFail? <==> m.Fault? || (c.Fault? && ((m.Hit? && opts.updateExisting) || (m.Miss? && opts.createMissing && names))))
    ensures d.DoCreate? ==> d.activeFlag == Or(ActiveValue(h, row), DefaultActive)
  {
    match MatchPerson(keys, h, opts.exactNames, row)
    case Fault => DoFail
    case Hit(pid) =>
      if !opts.updateExisting then DoSkip
      else
        var c := CellParam(o, h, row);
        if c.Fault? then DoFail
        else
          var cell := if c.Hit? then Some(c.id) else None;
          var active := ActiveValue(h, row);
          if cell.None? && active.None? then DoSkip else DoUpdate(pid, cell, active)
    case Miss =>
      if !(opts.createMissing && h.firstName && h.lastName) then DoSkip
      else
        var c := CellParam(o, h, row);
        if c.Fault? then DoFail
        else
          DoCreate(StoredText(row.firstName), StoredText(row.lastName),
                   if Filled(h.email, row.email) then Some(StoredText(row.email)) else None,
                   if Filled(h.phone, row.phone) then Some(PyStr(row.phone)) else None,
                   if c.Hit? then Some(c.id) else None,
                   Or(ActiveValue(h, row), DefaultActive))
  }

  /** The UPDATE of one decision on one person: only the row with the matched id
      changes, and only the columns the row sets. */
  function SetPerson(p: Person, d: Decision): (r: Person)
    ensures KeyOf(r) == KeyOf(p)
    ensures d.DoUpdate? && p.id == d.pid ==> r.cellId == Or(d.cell, p.cellId) && r.isActive == Or(d.active, p.isActive)
    ensures !(d.DoUpdate? && p.id == d.pid) ==> r == p
    ensures r.country == p.country && r.gender == p.gender
  {
    if d.DoUpdate? && p.id == d.pid then p.(cellId := Or(d.cell, p.cellId), isActive := Or(d.active, p.isActive))
    else p
  }

  function UpdateAll(people: seq<Person>, d: Decision): (r: seq<Person>)
    ensures |r| == |people|
    ensures forall i :: 0 <= i < |r| ==> r[i] == SetPerson(people[i], d)
  {
    seq(|people|, i requires 0 <= i < |people| => SetPerson(people[i], d))
  }

  /** The INSERT of a create decision, with the person's direction supplied: the
      store refuses a NULL cell, a cell whose chain does not resolve to a
      direction, and over-long text; the new id is the next serial value. */
  function Insert(o: Org, people: seq<Person>, d: Decision): (r: Option<Person>)
    requires d.DoCreate?
    ensures r.Some? <==> (d.cellId.Some? && CellDirection(o, d.cellId.value).Some?
      && |d.first| <= FirstNameLimit && |d.last| <= LastNameLimit
      && |CellDirection(o, d.cellId.value).value| <= DirectionLimit
      && OptFits(d.email, EmailLimit) && OptFits(d.phone, PhoneLimit))
    ensures r.Some? ==> (PersonFits(r.value)
      && r.value.firstName == d.first && r.value.lastName == d.last
      && r.value.email == d.email && r.value.phone == d.phone
      && r.value.isActive == d.activeFlag && r.value.cellId == d.cellId.value
      && r.value.direction == CellDirection(o, d.cellId.value).value
      && forall p :: p in people ==> p.id < r.value.id)
  {
    if d.cellId.None? then None
    else
      match CellDirection(o, d.cellId.value)
      case None => None
      case Some(direction) =>
        var p := NewPerson(NextId(people, (q: Person) => q.id), d.first, d.last,
                           d.cellId.value, direction, d.email, d.phone, d.activeFlag);
        if PersonFits(p) then Some(p) else None
  }

  /** The columns the INSERT of a created person lists (app.py:1052-1053). */
  const InsertColumns: set<string> := {"first_name", "last_name", "email", "phone", "cell_id", "is_active"}

  /** The INSERT as written: a statement whose column list leaves out a NOT NULL
      column without a default is refused whatever its values. */
  function InsertAsWritten(o: Org, people: seq<Person>, d: Decision): (r: Option<Person>)
    requires d.DoCreate?
  {
    if ListsNotNull(InsertColumns) then Insert(o, people, d) else None
  }

  /** The INSERT lists no `direction`, so the store refuses every person it is
      asked to create. */
  lemma InsertRefusedAsWritten(o: Org, people: seq<Person>, d: Decision)
    requires d.DoCreate?
    ensures InsertAsWritten(o, people, d).None?
  {
    assert "direction" in NotNullColumns && "direction" !in InsertColumns;
  }

  /** In a valid organisation the corrected INSERT of a person whose cell was
      found succeeds whenever the names, email and phone fit their columns. */
  lemma {:induction false} InsertInValidOrg(o: Org, people: seq<Person>, d: Decision, c: Cell)
    requires d.DoCreate? && ValidOrg(o) && c in o.cells && d.cellId == Some(c.id)
    requires |d.first| <= FirstNameLimit && |d.last| <= LastNameLimit
    requires OptFits(d.email, EmailLimit) && OptFits(d.phone, PhoneLimit)
    ensures Insert(o, people, d).Some?
    ensures Insert(o, people, d).value.cellId == c.id
  {
    CellDirectionFits(o, c);
    InsertSucceeds(o, people, d);
  }

  lemma {:induction false} InsertSucceeds(o: Org, people: seq<Person>, d: Decision)
    requires d.DoCreate? && d.cellId.Some?
    requires CellDirection(o, d.cellId.value).Some? && |CellDirection(o, d.cellId.value).value| <= DirectionLimit
    requires |d.first| <= FirstNameLimit && |d.last| <= LastNameLimit
    requires OptFits(d.email, EmailLimit) && OptFits(d.phone, PhoneLimit)
    ensures Insert(o, people, d).Some? && Insert(o, people, d).value.cellId == d.cellId.value
  {
  }

  // The fold over the rows (app.py:911-1117).

  datatype Outcome = Updated | Created | Skipped | Failed

  datatype Counts = Counts(updated: nat, created: nat, skipped: nat, errors: nat)

  function Sum(c: Counts): nat {
    c.updated + c.created + c.skipped + c.errors
  }

  /** One row's counter goes up by one, and no other. */
  function Tally(c: Counts, out: Outcome): (r: Counts)
    ensures Sum(r) == Sum(c) + 1
    ensures out == Updated <==> r.updated == c.updated + 1
    ensures out == Created <==> r.created == c.created + 1
    ensures out == Skipped <==> r.skipped == c.skipped + 1
    ensures out == Failed <==> r.errors == c.errors + 1
  {
    match out
    case Updated => c.(updated := c.updated + 1)
    case Created => c.(created := c.created + 1)
    case Skipped => c.(skipped := c.skipped + 1)
    case Failed => c.(errors := c.errors + 1)
  }

  /** The row's outcome and the people table after it; a failed row writes nothing. */
  function ApplyRow(o: Org, people: seq<Person>, h: Header, opts: Options, row: Row): (r: (Outcome, seq<Person>))
    ensures r.0 == Failed || r.0 == Skipped ==> r.1 == people
    ensures r.0 == Updated ==> KeysOf(r.1) == KeysOf(people)
    ensures r.0 == Created ==> opts.createMissing && |r.1| == |people| + 1 && r.1[..|people|] == people
  {
    var d := Decide(o, KeysOf(people), h, opts, row);
    match d
    case DoFail => (Failed, people)
    case DoSkip => (Skipped, people)
    case DoUpdate(_, _, _) =>
      var r := UpdateAll(people, d);
      assert KeysOf(r) == KeysOf(people);
      (Updated, r)
    case DoCreate(_, _, _, _, _, _) =>
      match Insert(o, people, d)
      case None => (Failed, people)
      case Some(p) => (Created, people + [p])
  }

  /** A row as the source runs it: as `ApplyRow`, with the create going through
      the INSERT as written. */
  function ApplyRowAsWritten(o: Org, people: seq<Person>, h: Header, opts: Options, row: Row): (r: (Outcome, seq<Person>))
  {
    var d := Decide(o, KeysOf(people), h, opts, row);
    if d.DoCreate? then
      match InsertAsWritten(o, people, d)
      case None => (Failed, people)
      case Some(p) => (Created, people + [p])
    else ApplyRow(o, people, h, opts, row)
  }

  /** As written, a row decided as a create is counted as an error and writes
      nothing, even where the corrected INSERT creates the person. */
  lemma CreateFailsAsWritten(o: Org, people: seq<Person>, h: Header, opts: Options, row: Row)
    requires Decide(o, KeysOf(people), h, opts, row).DoCreate?
    ensures ApplyRowAsWritten(o, people, h, opts, row) == (Failed, people)
    ensures Insert(o, people, Decide(o, KeysOf(people), h, opts, row)).Some? ==>
      ApplyRow(o, people, h, opts, row).0 == Created
  {
    InsertRefusedAsWritten(o, people, Decide(o, KeysOf(people), h, opts, row));
  }

  datatype Progress = Progress(people: seq<Person>, counts: Counts)

  /** The rows in file order; every row ends in exactly one counter. */
  function Run(o: Org, people: seq<Person>, h: Header, opts: Options, rows: seq<Row>): (r: Progress)
    ensures Sum(r.counts) == |rows|
    ensures |r.people| >= |people|
    decreases |rows|
  {
    if |rows| == 0 then Progress(people, Counts(0, 0, 0, 0))
    else
      var before := Run(o, people, h, opts, rows[..|rows| - 1]);
      var (out, after) := ApplyRow(o, before.people, h, opts, rows[|rows| - 1]);
      Progress(after, Tally(before.counts, out))
  }

  datatype ImportResult = NoIdentifier | Imported(people: seq<Person>, total: nat, counts: Counts)

  /** The whole import: a file without an identifier column is refused before any
      row is read; otherwise the four counters add up to the number of rows. */
  function Import(o: Org, people: seq<Person>, h: Header, opts: Options, rows: seq<Row>): (r: ImportResult)
    ensures r.NoIdentifier? <==> !HasIdentifier(h)
    ensures r.Imported? ==> r.total == |rows| && Sum(r.counts) == r.total
  {
    if !HasIdentifier(h) then NoIdentifier
    else
      var p := Run(o, people, h, opts, rows);
      Imported(p.people, |rows|, p.counts)
  }

  // Running an update-only file a second time.

  /** A person after the update decisions of a run, applied in order. */
  function Overlay(p: Person, ds: seq<Decision>): Person
    decreases |ds|
  {
    if |ds| == 0 then p else SetPerson(Overlay(p, ds[..|ds| - 1]), ds[|ds| - 1])
  }

  function OverlayAll(people: seq<Person>, ds: seq<Decision>): (r: seq<Person>)
    ensures |r| == |people|
    ensures forall i :: 0 <= i < |r| ==> r[i] == Overlay(people[i], ds)
  {
    seq(|people|, i requires 0 <= i < |people| => Overlay(people[i], ds))
  }

  /** The cell the last update for `id` that names a cell writes, else `cell`. */
  function CellAfter(ds: seq<Decision>, id: Id, cell: Id): Id
    decreases |ds|
  {
    if |ds| == 0 then cell
    else
      var d := ds[|ds| - 1];
      if d.DoUpdate? && d.pid == id && d.cell.Some? then d.cell.value
      else CellAfter(ds[..|ds| - 1], id, cell)
  }

  /** The flag the last update for `id` that sets one writes, else `active`. */
  function ActiveAfter(ds: seq<Decision>, id: Id, active: bool): bool
    decreases |ds|
  {
    if |ds| == 0 then active
    else
      var d := ds[|ds| - 1];
      if d.DoUpdate? && d.pid == id && d.active.Some? then d.active.value
      else ActiveAfter(ds[..|ds| - 1], id, active)
  }

  /** Every column an update writes ends with the last value written to it. */
  lemma {:induction false} OverlayIsLastWrite(p: Person, ds: seq<Decision>)
    ensures Overlay(p, ds) == p.(cellId := CellAfter(ds, p.id, p.cellId), isActive := ActiveAfter(ds, p.id, p.isActive))
    decreases |ds|
  {
    if |ds| > 0 {
      OverlayIsLastWrite(p, ds[..|ds| - 1]);
    }
  }

  lemma {:induction false} CellAfterAbsorbs(ds: seq<Decision>, id: Id, cell: Id)
    ensures CellAfter(ds, id, CellAfter(ds, id, cell)) == CellAfter(ds, id, cell)
    decreases |ds|
  {
    if |ds| > 0 {
      var d := ds[|ds| - 1];
      if !(d.DoUpdate? && d.pid == id && d.cell.Some?) {
        CellAfterAbsorbs(ds[..|ds| - 1], id, cell);
      }
    }
  }

  lemma {:induction false} ActiveAfterAbsorbs(ds: seq<Decision>, id: Id, active: bool)
    ensures ActiveAfter(ds, id, ActiveAfter(ds, id, active)) == ActiveAfter(ds, id, active)
    decreases |ds|
  {
    if |ds| > 0 {
      var d := ds[|ds| - 1];
      if !(d.DoUpdate? && d.pid == id && d.active.Some?) {
        ActiveAfterAbsorbs(ds[..|ds| - 1], id, active);
      }
    }
  }

  /** Writing the same updates again leaves a person as the first pass left them. */
  lemma OverlayIdempotent(p: Person, ds: seq<Decision>)
    ensures Overlay(Overlay(p, ds), ds) == Overlay(p, ds)
  {
    var q := Overlay(p, ds);
    OverlayIsLastWrite(p, ds);
    OverlayIsLastWrite(q, ds);
    CellAfterAbsorbs(ds, p.id, p.cellId);
    ActiveAfterAbsorbs(ds, p.id, p.isActive);
  }

  /** The decision of every row, all taken against the same lookup columns. */
  function Decisions(o: Org, keys: seq<Key>, h: Header, opts: Options, rows: seq<Row>): (r: seq<Decision>)
    ensures |r| == |rows|
    ensures forall i :: 0 <= i < |r| ==> r[i] == Decide(o, keys, h, opts, rows[i])
  {
    seq(|rows|, i requires 0 <= i < |rows| => Decide(o, keys, h, opts, rows[i]))
  }

  /** The outcome of a decision that is not a create. */
  function OutcomeOf(d: Decision): Outcome {
    match d
    case DoUpdate(_, _, _) => Updated
    case DoFail => Failed
    case _ => Skipped
  }

  /** Without `create_missing` a row is its decision: an update rewrites the matched
      person, anything else leaves the table alone. */
  lemma ApplyRowWithoutCreate(o: Org, people: seq<Person>, h: Header, opts: Options, row: Row, d: Decision)
    requires !opts.createMissing && d == Decide(o, KeysOf(people), h, opts, row)
    ensures ApplyRow(o, people, h, opts, row) == (OutcomeOf(d), if d.DoUpdate? then UpdateAll(people, d) else people)
    ensures !d.DoUpdate? ==> ApplyRow(o, people, h, opts, row).1 == people
  {
  }

  /** Without `create_missing` no row changes a column the lookups read. */
  lemma {:induction false} RunKeepsKeys(o: Org, people: seq<Person>, h: Header, opts: Options, rows: seq<Row>)
    requires !opts.createMissing
    ensures KeysOf(Run(o, people, h, opts, rows).people) == KeysOf(people)
    decreases |rows|
  {
    if |rows| > 0 {
      RunKeepsKeys(o, people, h, opts, rows[..|rows| - 1]);
    }
  }

  /** Without `create_missing` the counters depend only on the lookup columns. */
  lemma {:induction false} RunCountsFollowKeys(o: Org, a: seq<Person>, b: seq<Person>, h: Header, opts: Options, rows: seq<Row>)
    requires !opts.createMissing && KeysOf(a) == KeysOf(b)
    ensures Run(o, a, h, opts, rows).counts == Run(o, b, h, opts, rows).counts
    decreases |rows|
  {
    if |rows| > 0 {
      var pre := rows[..|rows| - 1];
      var row := rows[|rows| - 1];
      RunCountsFollowKeys(o, a, b, h, opts, pre);
      RunKeepsKeys(o, a, h, opts, pre);
      RunKeepsKeys(o, b, h, opts, pre);
      var ra := Run(o, a, h, opts, pre).people;
      var rb := Run(o, b, h, opts, pre).people;
      var d := Decide(o, KeysOf(a), h, opts, row);
      ApplyRowWithoutCreate(o, ra, h, opts, row, d);
      ApplyRowWithoutCreate(o, rb, h, opts, row, d);
    }
  }

  /** One more decision on top of an overlay. */
  lemma OverlayStep(people: seq<Person>, ds: seq<Decision>, d: Decision)
    ensures OverlayAll(people, ds + [d]) ==
      (if d.DoUpdate? then UpdateAll(OverlayAll(people, ds), d) else OverlayAll(people, ds))
  {
    assert (ds + [d])[..|ds|] == ds;
  }

  /** The decisions of a file are those of all but its last row, then the last row's. */
  lemma DecisionsAppend(o: Org, keys: seq<Key>, h: Header, opts: Options, rows: seq<Row>)
    requires |rows| > 0
    ensures Decisions(o, keys, h, opts, rows)
      == Decisions(o, keys, h, opts, rows[..|rows| - 1]) + [Decide(o, keys, h, opts, rows[|rows| - 1])]
  {
    var n := |rows| - 1;
    var a := Decisions(o, keys, h, opts, rows);
    var b := Decisions(o, keys, h, opts, rows[..n]) + [Decide(o, keys, h, opts, rows[n])];
    assert |a| == |b|;
    forall i | 0 <= i < |a| ensures a[i] == b[i] {
      if i < n {
        assert rows[..n][i] == rows[i];
      }
    }
  }

  /** Without `create_missing` a run is the overlay of its rows' update decisions. */
  lemma {:induction false} RunIsOverlay(o: Org, people: seq<Person>, h: Header, opts: Options, rows: seq<Row>)
    requires !opts.createMissing
    ensures Run(o, people, h, opts, rows).people == OverlayAll(people, Decisions(o, KeysOf(people), h, opts, rows))
    decreases |rows|
  {
    var keys := KeysOf(people);
    var ds := Decisions(o, keys, h, opts, rows);
    if |rows| == 0 {
      assert OverlayAll(people, ds) == people;
    } else {
      var n := |rows| - 1;
      var pre := rows[..n];
      var before := Run(o, people, h, opts, pre).people;
      RunIsOverlay(o, people, h, opts, pre);
      RunKeepsKeys(o, people, h, opts, pre);
      var d := Decide(o, keys, h, opts, rows[n]);
      var dsPre := Decisions(o, keys, h, opts, pre);
      DecisionsAppend(o, keys, h, opts, rows);
      assert Run(o, people, h, opts, rows).people == ApplyRow(o, before, h, opts, rows[n]).1;
      ApplyRowWithoutCreate(o, before, h, opts, rows[n], d);
      OverlayStep(people, dsPre, d);
    }
  }

  /** Importing the same update-only file twice: the second run changes nothing
      and counts exactly what the first counted. */
  lemma UpdateOnlyImportIdempotent(o: Org, people: seq<Person>, h: Header, opts: Options, rows: seq<Row>)
    requires !opts.createMissing
    requires Import(o, people, h, opts, rows).Imported?
    ensures var once := Import(o, people, h, opts, rows);
      Import(o, once.people, h, opts, rows) == once
  {
    var once := Run(o, people, h, opts, rows);
    var ds := Decisions(o, KeysOf(people), h, opts, rows);
    RunIsOverlay(o, people, h, opts, rows);
    RunKeepsKeys(o, people, h, opts, rows);
    assert Decisions(o, KeysOf(once.people), h, opts, rows) == ds;
    RunIsOverlay(o, once.people, h, opts, rows);
    OverlayAllIdempotent(people, ds);
    assert Run(o, once.people, h, opts, rows).people == once.people;
    RunCountsFollowKeys(o, once.people, people, h, opts, rows);
  }

  /** Overlaying the same decisions twice is overlaying them once. */
  lemma OverlayAllIdempotent(people: seq<Person>, ds: seq<Decision>)
    ensures OverlayAll(OverlayAll(people, ds), ds) == OverlayAll(people, ds)
  {
    var once := OverlayAll(people, ds);
    forall i | 0 <= i < |people| ensures OverlayAll(once, ds)[i] == once[i] {
      OverlayIdempotent(people[i], ds);
    }
  }

  // The store's connection pool (db.py:10-50).

  /** `SimpleConnectionPool(1, 20)` hands out at most 20 connections at once, and
      `getconn` raises once all of them are out. */
  const PoolSize: nat := 20

  /** The row asks the store something: the lookup of its first filled key runs, or
      it reaches the create branch, whose INSERT needs a connection. */
  predicate Queries(h: Header, opts: Options, row: Row) {
    || Filled(h.personId, row.personId) || Filled(h.email, row.email) || Filled(h.phone, row.phone)
    || (Filled(h.firstName, row.firstName) && Filled(h.lastName, row.lastName))
    || (opts.createMissing && h.firstName && h.lastName)
  }

  /** The UPDATE and the INSERT each take a connection of their own and never give it
      back (app.py:1011, app.py:1061), where `execute_query` returns its own. */
  predicate Leaks(d: Decision) {
    d.DoUpdate? || d.DoCreate?
  }

  /** A row that writes has asked the store something first. */
  lemma LeakQueries(o: Org, keys: seq<Key>, h: Header, opts: Options, row: Row)
    requires Leaks(Decide(o, keys, h, opts, row))
    ensures Queries(h, opts, row)
  {
  }

  /** One row as written, with `free` connections left in the pool: with none left,
      a row that asks the store anything fails at its first `getconn`; otherwise it
      is the corrected row, and a write keeps its connection for good. */
  function LeakingRow(o: Org, people: seq<Person>, h: Header, opts: Options, row: Row, free: nat): (r: (Outcome, seq<Person>, nat))
    ensures free == 0 && Queries(h, opts, row) ==> r == (Failed, people, 0)
    ensures free > 0 || !Queries(h, opts, row) ==> (r.0, r.1) == ApplyRow(o, people, h, opts, row)
    ensures r.2 == (if free > 0 && Leaks(Decide(o, KeysOf(people), h, opts, row)) then free - 1 else free)
  {
    if free == 0 && Queries(h, opts, row) then (Failed, people, 0)
    else
      var d := Decide(o, KeysOf(people), h, opts, row);
      var (out, after) := ApplyRow(o, people, h, opts, row);
      if Leaks(d) then
        LeakQueries(o, KeysOf(people), h, opts, row);
        (out, after, free - 1)
      else (out, after, free)
  }

  /** What one row does given the table and the free connections: its outcome,
      the table after it, and the connections left. */
  type RowStep = (seq<Person>, Row, nat) -> (Outcome, seq<Person>, nat)

  /** The rows in file order under any row step, starting with `free` connections. */
  function Fold(people: seq<Person>, rows: seq<Row>, free: nat, step: RowStep): (r: (Progress, nat))
    ensures Sum(r.0.counts) == |rows|
    decreases |rows|
  {
    if |rows| == 0 then (Progress(people, Counts(0, 0, 0, 0)), free)
    else
      var (before, left) := Fold(people, rows[..|rows| - 1], free, step);
      var (out, after, rest) := step(before.people, rows[|rows| - 1], left);
      (Progress(after, Tally(before.counts, out)), rest)
  }

  /** The corrected row, which gives back every connection it takes. */
  function Releasing(o: Org, h: Header, opts: Options): RowStep {
    (p: seq<Person>, row: Row, f: nat) => var x := ApplyRow(o, p, h, opts, row); (x.0, x.1, f)
  }

  /** The row as written. */
  function Leaking(o: Org, h: Header, opts: Options): RowStep {
    (p: seq<Person>, row: Row, f: nat) => LeakingRow(o, p, h, opts, row, f)
  }

  /** The run as written: `free` connections are left in the pool when it starts
      (earlier imports may already have kept some), and every row that writes
      keeps one more. */
  function RunLeaking(o: Org, people: seq<Person>, h: Header, opts: Options, rows: seq<Row>, free: nat): (r: (Progress, nat))
    ensures Sum(r.0.counts) == |rows|
    ensures r.1 <= free && r.1 + |rows| >= free
  {
    LeakingSpendsOne(o, h, opts);
    FoldSpends(people, rows, free, Leaking(o, h, opts));
    Fold(people, rows, free, Leaking(o, h, opts))
  }

  /** A step that keeps at most one connection per row. */
  ghost predicate SpendsAtMostOne(step: RowStep) {
    forall p: seq<Person>, row: Row, f: nat :: step(p, row, f).2 <= f && f <= step(p, row, f).2 + 1
  }

  lemma LeakingSpendsOne(o: Org, h: Header, opts: Options)
    ensures SpendsAtMostOne(Leaking(o, h, opts))
  {
  }

  /** A fold whose rows keep at most one connection each. */
  lemma {:induction false} FoldSpends(people: seq<Person>, rows: seq<Row>, free: nat, step: RowStep)
    requires SpendsAtMostOne(step)
    ensures Fold(people, rows, free, step).1 <= free
    ensures Fold(people, rows, free, step).1 + |rows| >= free
    decreases |rows|
  {
    if |rows| > 0 {
      FoldSpends(people, rows[..|rows| - 1], free, step);
    }
  }

  /** The corrected run is the fold of the corrected row. */
  lemma {:induction false} RunIsFold(o: Org, people: seq<Person>, h: Header, opts: Options, rows: seq<Row>, free: nat)
    ensures Fold(people, rows, free, Releasing(o, h, opts)) == (Run(o, people, h, opts, rows), free)
    decreases |rows|
  {
    if |rows| > 0 {
      RunIsFold(o, people, h, opts, rows[..|rows| - 1], free);
    }
  }

  /** Two steps that do the same to the table and the counters whenever the first
      has a connection to spare. */
  ghost predicate AgreeWhileFree(a: RowStep, b: RowStep) {
    forall p: seq<Person>, row: Row, f: nat, g: nat :: f > 0 ==>
      a(p, row, f).0 == b(p, row, g).0 && a(p, row, f).1 == b(p, row, g).1
  }

  /** Folds of two such steps agree while the first never runs out. */
  lemma {:induction false} FoldsAgree(people: seq<Person>, rows: seq<Row>, fa: nat, fb: nat, a: RowStep, b: RowStep)
    requires AgreeWhileFree(a, b) && SpendsAtMostOne(a) && |rows| <= fa
    ensures Fold(people, rows, fa, a).0 == Fold(people, rows, fb, b).0
    decreases |rows|
  {
    if |rows| > 0 {
      FoldsAgree(people, rows[..|rows| - 1], fa, fb, a, b);
      FoldSpends(people, rows[..|rows| - 1], fa, a);
    }
  }

  lemma LeakingAgrees(o: Org, h: Header, opts: Options)
    ensures AgreeWhileFree(Leaking(o, h, opts), Releasing(o, h, opts))
  {
  }

  /** While the pool lasts, the run as written is the corrected run. */
  lemma RunLeakingWhilePoolLasts(o: Org, people: seq<Person>, h: Header, opts: Options, rows: seq<Row>, free: nat)
    requires |rows| <= free
    ensures RunLeaking(o, people, h, opts, rows, free).0 == Run(o, people, h, opts, rows)
  {
    LeakingAgrees(o, h, opts);
    LeakingSpendsOne(o, h, opts);
    FoldsAgree(people, rows, free, free, Leaking(o, h, opts), Releasing(o, h, opts));
    RunIsFold(o, people, h, opts, rows, free);
  }

  /** `n` copies of one row. */
  function Repeat(row: Row, n: nat): (r: seq<Row>)
    ensures |r| == n && forall i :: 0 <= i < n ==> r[i] == row
  {
    seq(n, _ => row)
  }

  /** On any table with lookup columns `keys` and at least one free connection when
      `spends`, the step counts `row` as an update, keeps the lookup columns, and
      keeps one connection exactly when `spends`. */
  ghost predicate UpdatesOnce(step: RowStep, keys: seq<Key>, row: Row, spends: bool) {
    forall p: seq<Person>, f: nat :: KeysOf(p) == keys && (spends ==> f > 0) ==>
      && step(p, row, f).0 == Updated
      && KeysOf(step(p, row, f).1) == keys
      && step(p, row, f).2 == (if spends then f - 1 else f)
  }

  /** The same update row `n` times: every copy updates, the lookup columns stay,
      and each copy keeps a connection when the step does. */
  lemma {:induction false} FoldRepeat(people: seq<Person>, row: Row, n: nat, free: nat, step: RowStep, spends: bool)
    requires UpdatesOnce(step, KeysOf(people), row, spends)
    requires spends ==> n <= free
    ensures var r := Fold(people, Repeat(row, n), free, step);
      && r.0.counts == Counts(n, 0, 0, 0)
      && KeysOf(r.0.people) == KeysOf(people)
      && r.1 == (if spends then free - n else free)
    decreases n
  {
    if n > 0 {
      assert Repeat(row, n)[..n - 1] == Repeat(row, n - 1);
      FoldRepeat(people, row, n - 1, free, step, spends);
    }
  }

  /** A row decided as an update is counted as one and keeps the lookup columns. */
  lemma UpdateRow(o: Org, people: seq<Person>, keys: seq<Key>, h: Header, opts: Options, row: Row)
    requires KeysOf(people) == keys && Decide(o, keys, h, opts, row).DoUpdate?
    ensures ApplyRow(o, people, h, opts, row).0 == Updated
    ensures KeysOf(ApplyRow(o, people, h, opts, row).1) == KeysOf(people)
  {
  }

  lemma ReleasingUpdatesOnce(o: Org, people: seq<Person>, h: Header, opts: Options, row: Row)
    requires Decide(o, KeysOf(people), h, opts, row).DoUpdate?
    ensures UpdatesOnce(Releasing(o, h, opts), KeysOf(people), row, false)
  {
    forall p: seq<Person>, f: nat | KeysOf(p) == KeysOf(people)
      ensures Releasing(o, h, opts)(p, row, f).0 == Updated
      ensures KeysOf(Releasing(o, h, opts)(p, row, f).1) == KeysOf(people)
    {
      UpdateRow(o, p, KeysOf(people), h, opts, row);
    }
  }

  lemma LeakingUpdatesOnce(o: Org, people: seq<Person>, h: Header, opts: Options, row: Row)
    requires Decide(o, KeysOf(people), h, opts, row).DoUpdate?
    ensures UpdatesOnce(Leaking(o, h, opts), KeysOf(people), row, true)
  {
    forall p: seq<Person>, f: nat | KeysOf(p) == KeysOf(people) && f > 0
      ensures Leaking(o, h, opts)(p, row, f).0 == Updated
      ensures KeysOf(Leaking(o, h, opts)(p, row, f).1) == KeysOf(people)
      ensures Leaking(o, h, opts)(p, row, f).2 == f - 1
    {
      UpdateRow(o, p, KeysOf(people), h, opts, row);
    }
  }

  /** The corrected run of the same update row `n` times: every copy updates. */
  lemma RunRepeat(o: Org, people: seq<Person>, h: Header, opts: Options, row: Row, n: nat)
    requires Decide(o, KeysOf(people), h, opts, row).DoUpdate?
    ensures Run(o, people, h, opts, Repeat(row, n)).counts == Counts(n, 0, 0, 0)
  {
    ReleasingUpdatesOnce(o, people, h, opts, row);
    FoldRepeat(people, row, n, 0, Releasing(o, h, opts), false);
    RunIsFold(o, people, h, opts, Repeat(row, n), 0);
  }

  /** As written, a file updating one known person once more than there are free
      connections fails its last row with the pool exhausted, where the corrected
      run updates every row (`RunRepeat`). From a fresh pool that is the 21st row. */
  lemma PoolExhaustedAsWritten(o: Org, people: seq<Person>, h: Header, opts: Options, row: Row, free: nat)
    requires Decide(o, KeysOf(people), h, opts, row).DoUpdate?
    ensures RunLeaking(o, people, h, opts, Repeat(row, free + 1), free).0.counts == Counts(free, 0, 0, 1)
    ensures RunLeaking(o, people, h, opts, Repeat(row, free + 1), free).1 == 0
  {
    var rows := Repeat(row, free + 1);
    assert rows[..free] == Repeat(row, free);
    LeakingUpdatesOnce(o, people, h, opts, row);
    FoldRepeat(people, row, free, free, Leaking(o, h, opts), true);
    LeakQueries(o, KeysOf(people), h, opts, row);
  }

  /** From a fresh pool: twenty updates go through and the 21st row is an error. */
  lemma FreshPoolFailsTwentyFirst(o: Org, people: seq<Person>, h: Header, opts: Options, row: Row)
    requires Decide(o, KeysOf(people), h, opts, row).DoUpdate?
    ensures RunLeaking(o, people, h, opts, Repeat(row, PoolSize + 1), PoolSize).0.counts == Counts(20, 0, 0, 1)
  {
    PoolExhaustedAsWritten(o, people, h, opts, row, PoolSize);
  }
}

=== FILE: legacy_marking.dfy ===
/** The older attendance writers of app.py, which talk SQL directly and commit after
    every statement: the check-in form (app.py:50-75) and the members-page
    `mark_attendance` (app.py:594-634). "Present" only ever inserts a missing row;
    "absent" deletes every row of the key. A statement the store rejects (a foreign
    key to a service or person that does not exist, a service id that is not a
    number) ends the request with the statements before it already committed. */
module LegacyMarking {
  import opened Common
  import opened People
  import opened Services
  import opened AttendanceForm

  datatype LegacyOutcome =
    | Rejected                  // the "select a service and at least one person" message
    | Done(ledger: Ledger)
    | Failed(ledger: Ledger)    // a statement raised; earlier statements stay committed

  predicate ServiceExists(services: seq<Service>, id: Id) {
    FindService(services, id).Some?
  }

  /** The row the INSERT creates: status takes the column default, check-in is the
      transaction time, notes are the submitted notes text. */
  function LegacyRow(serviceId: Id, personId: Id, notes: string, now: int): Attendance {
    Attendance(serviceId, personId, DefaultStatus, Some(now), Some(notes))
  }

  /** The "present" loop: insert a row for every id that has none. */
  function InsertMissing(l: Ledger, services: seq<Service>, people: seq<Person>, serviceId: Id,
                         ids: seq<Id>, notes: string, now: int): (r: LegacyOutcome)
    ensures !r.Rejected?
    decreases |ids|
  {
    if |ids| == 0 then Done(l)
    else if Lookup(l, serviceId, ids[0]).Some? then InsertMissing(l, services, people, serviceId, ids[1..], notes, now)
    else if !ServiceExists(services, serviceId) || FindPerson(people, ids[0]).None? then Failed(l)
    else InsertMissing(l + [LegacyRow(serviceId, ids[0], notes, now)], services, people, serviceId, ids[1..], notes, now)
  }

  /** `DELETE ... WHERE service_id = %s AND person_id = %s`. */
  function DeleteKey(l: Ledger, serviceId: Id, personId: Id): (r: Ledger)
    ensures forall a :: a in r <==> a in l && !IsKey(a, serviceId, personId)
  {
    if |l| == 0 then []
    else
      var rest := DeleteKey(l[1..], serviceId, personId);
      assert forall a :: a in l <==> a == l[0] || a in l[1..];
      (if IsKey(l[0], serviceId, personId) then [] else [l[0]]) + rest
  }

  /** The "absent" loop. */
  function DeleteAll(l: Ledger, serviceId: Id, ids: seq<Id>): (r: Ledger)
    decreases |ids|
  {
    if |ids| == 0 then l else DeleteAll(DeleteKey(l, serviceId, ids[0]), serviceId, ids[1..])
  }

  /** The check-in form's POST for the service of the URL. */
  function CheckIn(l: Ledger, services: seq<Service>, people: seq<Person>, serviceId: Id,
                   ids: seq<Id>, notes: string, now: int): LegacyOutcome {
    InsertMissing(l, services, people, serviceId, ids, notes, now)
  }

  /** `mark_attendance`: the service id arrives as form text ("" when missing). */
  function LegacyMark(l: Ledger, services: seq<Service>, people: seq<Person>, serviceField: string,
                      presentIds: seq<Id>, absentIds: seq<Id>, notes: string, now: int): (r: LegacyOutcome)
    ensures r.Rejected? <==> serviceField == "" || (|presentIds| == 0 && |absentIds| == 0)
  {
    if serviceField == "" || (|presentIds| == 0 && |absentIds| == 0) then Rejected
    else
      match SqlInt(serviceField)
      case None => Failed(l)
      case Some(serviceId) =>
        match InsertMissing(l, services, people, serviceId, presentIds, notes, now)
        case Done(l1) => Done(DeleteAll(l1, serviceId, absentIds))
        case other => other
  }

  // Properties.

  lemma {:induction false} DeleteKeyRows(l: Ledger, serviceId: Id, personId: Id, s: Id, p: Id)
    ensures Rows(DeleteKey(l, serviceId, personId), s, p) ==
      if s == serviceId && p == personId then [] else Rows(l, s, p)
    decreases |l|
  {
    if |l| > 0 {
      DeleteKeyRows(l[1..], serviceId, personId, s, p);
      var head := if IsKey(l[0], serviceId, personId) then [] else [l[0]];
      RowsAppend(head, DeleteKey(l[1..], serviceId, personId), s, p);
      assert [l[0]][1..] == [];
    }
  }

  /** The absent loop leaves no row for any listed id and every other key as it was. */
  lemma {:induction false} DeleteAllRows(l: Ledger, serviceId: Id, ids: seq<Id>, s: Id, p: Id)
    ensures Rows(DeleteAll(l, serviceId, ids), s, p) ==
      if s == serviceId && p in ids then [] else Rows(l, s, p)
    decreases |ids|
  {
    if |ids| > 0 {
      DeleteKeyRows(l, serviceId, ids[0], s, p);
      DeleteAllRows(DeleteKey(l, serviceId, ids[0]), serviceId, ids[1..], s, p);
      assert p in ids <==> p == ids[0] || p in ids[1..];
    }
  }

  /** The present loop, when no statement fails, leaves a row for every listed id;
      a key that already had rows keeps them unchanged, even an absent one. */
  lemma {:induction false} InsertMissingRows(l: Ledger, services: seq<Service>, people: seq<Person>, serviceId: Id,
                                             ids: seq<Id>, notes: string, now: int, s: Id, p: Id)
    requires InsertMissing(l, services, people, serviceId, ids, notes, now).Done?
    ensures var after := InsertMissing(l, services, people, serviceId, ids, notes, now).ledger;
      if s == serviceId && p in ids && |Rows(l, s, p)| == 0
      then Rows(after, s, p) == [LegacyRow(serviceId, p, notes, now)]
      else Rows(after, s, p) == Rows(l, s, p)
    decreases |ids|
  {
    if |ids| > 0 {
      assert p in ids <==> p == ids[0] || p in ids[1..];
      if Lookup(l, serviceId, ids[0]).Some? {
        InsertMissingRows(l, services, people, serviceId, ids[1..], notes, now, s, p);
      } else {
        var x := LegacyRow(serviceId, ids[0], notes, now);
        RowsAppend(l, [x], s, p);
        assert [x][1..] == [];
        InsertMissingRows(l + [x], services, people, serviceId, ids[1..], notes, now, s, p);
      }
    }
  }

  /** A statement fails only for a missing service or person that needed a row. */
  lemma {:induction false} InsertMissingFailsOnlyOnForeignKey(l: Ledger, services: seq<Service>, people: seq<Person>,
                                                               serviceId: Id, ids: seq<Id>, notes: string, now: int)
    requires ServiceExists(services, serviceId)
    requires forall p :: p in ids ==> FindPerson(people, p).Some?
    ensures InsertMissing(l, services, people, serviceId, ids, notes, now).Done?
    decreases |ids|
  {
    if |ids| > 0 {
      assert ids[0] in ids;
      if Lookup(l, serviceId, ids[0]).Some? {
        InsertMissingFailsOnlyOnForeignKey(l, services, people, serviceId, ids[1..], notes, now);
      } else {
        InsertMissingFailsOnlyOnForeignKey(l + [LegacyRow(serviceId, ids[0], notes, now)], services, people, serviceId, ids[1..], notes, now);
      }
    }
  }

  /** What `mark_attendance` leaves for each key when it completes: no row for an id
      listed as absent (even one also listed as present), the inserted row for a
      present id that had none, and every other key untouched. */
  lemma LegacyMarkRows(l: Ledger, services: seq<Service>, people: seq<Person>, serviceField: string,
                       presentIds: seq<Id>, absentIds: seq<Id>, notes: string, now: int, s: Id, p: Id)
    requires LegacyMark(l, services, people, serviceField, presentIds, absentIds, notes, now).Done?
    ensures var after := LegacyMark(l, services, people, serviceField, presentIds, absentIds, notes, now).ledger;
      var serviceId := SqlInt(serviceField).value;
      && (s == serviceId && p in absentIds ==> Rows(after, s, p) == [])
      && (s == serviceId && p !in absentIds && p in presentIds && |Rows(l, s, p)| == 0 ==>
            Rows(after, s, p) == [LegacyRow(serviceId, p, notes, now)])
      && (s == serviceId && p !in absentIds && p in presentIds && |Rows(l, s, p)| > 0 ==>
            Rows(after, s, p) == Rows(l, s, p))
      && (s != serviceId || (p !in absentIds && p !in presentIds) ==> Rows(after, s, p) == Rows(l, s, p))
  {
    var serviceId := SqlInt(serviceField).value;
    var mid := InsertMissing(l, services, people, serviceId, presentIds, notes, now);
    InsertMissingRows(l, services, people, serviceId, presentIds, notes, now, s, p);
    DeleteAllRows(mid.ledger, serviceId, absentIds, s, p);
  }

  /** Both legacy writers keep "at most one row per key". */
  lemma LegacyMarkKeepsUniqueKeys(l: Ledger, services: seq<Service>, people: seq<Person>, serviceField: string,
                                  presentIds: seq<Id>, absentIds: seq<Id>, notes: string, now: int)
    requires UniqueKeys(l)
    requires LegacyMark(l, services, people, serviceField, presentIds, absentIds, notes, now).Done?
    ensures UniqueKeys(LegacyMark(l, services, people, serviceField, presentIds, absentIds, notes, now).ledger)
  {
    var after := LegacyMark(l, services, people, serviceField, presentIds, absentIds, notes, now).ledger;
    forall s, p ensures |Rows(after, s, p)| <= 1 {
      LegacyMarkRows(l, services, people, serviceField, presentIds, absentIds, notes, now, s, p);
    }
  }
}

=== FILE: like.dfy ===
/** The store's LIKE / ILIKE pattern matching, which every name search of the system
    goes through: `first_name ILIKE '%<text>%'`.  `%` matches any run of characters,
    `_` any single character and a backslash makes the next character literal. */
module Like {
  import opened Common

  predicate IsMeta(c: char) {
    c == '%' || c == '_' || c == '\\'
  }

  /** A pattern fragment without wildcard or escape characters. */
  predicate NoMeta(q: string) {
    forall i :: 0 <= i < |q| ==> !IsMeta(q[i])
  }

  /** `s LIKE p`.  A pattern ending in a lone backslash matches nothing. */
  function Matches(s: string, p: string): bool
    decreases |p|, |s|
  {
    if |p| == 0 then |s| == 0
    else if p[0] == '%' then Matches(s, p[1..]) || (|s| > 0 && Matches(s[1..], p))
    else if |s| == 0 then false
    else if p[0] == '_' then Matches(s[1..], p[1..])
    else if p[0] == '\\' then |p| > 1 && s[0] == p[1] && Matches(s[1..], p[2..])
    else s[0] == p[0] && Matches(s[1..], p[1..])
  }

  /** `s ILIKE p`, which the store evaluates as LIKE on lower-cased operands. */
  predicate ILike(s: string, p: string) {
    Matches(Lower(s), Lower(p))
  }

  /** The pattern `%<q>%` that the source builds around a search text. */
  function Surround(q: string): string {
    "%" + q + "%"
  }

  lemma {:induction false} PercentMatchesAll(s: string)
    ensures Matches(s, "%")
    decreases |s|
  {
    if |s| > 0 {
      PercentMatchesAll(s[1..]);
    }
  }

  /** A leading `%` lets the rest of the pattern match any suffix. */
  lemma {:induction false} LeadingPercent(s: string, p: string)
    ensures Matches(s, "%" + p) <==> exists i :: 0 <= i <= |s| && Matches(s[i..], p)
    decreases |s|
  {
    var pp := "%" + p;
    assert pp[1..] == p;
    if |s| == 0 {
      assert s[0..] == s;
    } else {
      LeadingPercent(s[1..], p);
      if Matches(s, pp) {
        if !Matches(s, p) {
          assert Matches(s[1..], pp);
          var j :| 0 <= j <= |s[1..]| && Matches(s[1..][j..], p);
          assert s[1..][j..] == s[j + 1..];
        } else {
          assert s[0..] == s;
        }
      } else {
        forall i | 0 <= i <= |s|
          ensures !Matches(s[i..], p)
        {
          if i == 0 {
            assert s[0..] == s;
          } else {
            assert s[1..][i - 1..] == s[i..];
          }
        }
      }
    }
  }

  /** A literal prefix of the pattern must match the subject character for character. */
  lemma {:induction false} LiteralPrefix(s: string, q: string, p: string)
    requires NoMeta(q)
    ensures Matches(s, q + p) <==> StartsWith(s, q) && Matches(s[|q|..], p)
    decreases |q|
  {
    if |q| == 0 {
      assert q + p == p;
    } else {
      var qp := q + p;
      assert qp[0] == q[0] && !IsMeta(q[0]);
      assert qp[1..] == q[1..] + p;
      if |s| > 0 {
        LiteralPrefix(s[1..], q[1..], p);
        if |q| <= |s| {
          assert s[1..][|q| - 1..] == s[|q|..];
          assert s[..|q|] == [s[0]] + s[1..][..|q| - 1];
        }
      }
    }
  }

  /** `s LIKE '%q%'` is plain substring containment when `q` has no wildcard. */
  lemma SurroundIsSubstring(s: string, q: string)
    requires NoMeta(q)
    ensures Matches(s, Surround(q)) <==> IsSubstring(q, s)
  {
    assert Surround(q) == "%" + (q + "%");
    LeadingPercent(s, q + "%");
    if Matches(s, Surround(q)) {
      var i :| 0 <= i <= |s| && Matches(s[i..], q + "%");
      LiteralPrefix(s[i..], q, "%");
      assert s[i..][..|q|] == s[i..i + |q|];
      assert OccursAt(q, s, i);
    }
    if IsSubstring(q, s) {
      var i :| 0 <= i <= |s| && OccursAt(q, s, i);
      LiteralPrefix(s[i..], q, "%");
      assert s[i..][..|q|] == s[i..i + |q|];
      PercentMatchesAll(s[i..][|q|..]);
      assert Matches(s[i..], q + "%");
    }
  }

  lemma LowerKeepsNoMeta(q: string)
    requires NoMeta(q)
    ensures NoMeta(Lower(q))
  {
  }

  /** `s ILIKE '%q%'`, as built by every name search, is case-insensitive substring
      containment whenever the search text holds no `%`, `_` or backslash. */
  lemma ILikeSurroundIsContains(s: string, q: string)
    requires NoMeta(q)
    ensures ILike(s, Surround(q)) <==> ContainsIgnoreCase(s, q)
  {
    LowerAppend("%", q);
    LowerAppend("%" + q, "%");
    assert Lower("%") == "%";
    assert Lower(Surround(q)) == Surround(Lower(q));
    LowerKeepsNoMeta(q);
    SurroundIsSubstring(Lower(s), Lower(q));
  }

  /** A search text made only of `%` matches every name: the wildcard is not escaped. */
  lemma WildcardSearchMatchesEverything(s: string)
    ensures ILike(s, Surround("%"))
  {
    LowerAppend("%", "%");
    LowerAppend("%%", "%");
    assert Lower(Surround("%")) == "%%%";
    PercentMatchesAll(Lower(s));
    assert "%%%"[1..] == "%%";
    assert "%%"[1..] == "%";
  }
}

=== FILE: marking.dfy ===
/** Recording attendance for one service (app/controllers/attendance.py:159-268).
    Each entry of the parsed form acts on the ledger rows of its own
    (service, person) key only: "present" and "absent" create or update the row,
    "not-marked" deletes it, any other value and any unknown person are ignored. */
module Marking {
  import opened Common
  import opened OrderedDict
  import opened People
  import opened Services
  import opened Database
  import opened AttendanceForm

  const PresentValue := "present"
  const AbsentValue := "absent"
  const NotMarkedValue := "not-marked"

  /** One element of the `attendance` list of the JSON answer. */
  datatype Update = Update(personId: Id, status: string)

  /** The ledger after a run and the changes it reports. */
  datatype Outcome = Outcome(ledger: Ledger, updates: seq<Update>)

  datatype MarkError = ServiceNotFound

  predicate Known(people: seq<Person>, personId: Id) {
    FindPerson(people, personId).Some?
  }

  /** The row a fresh "present" creates: checked in now, no notes. */
  function PresentRow(serviceId: Id, personId: Id, now: int): Attendance {
    Attendance(serviceId, personId, Present, Some(now), None)
  }

  /** The row a fresh "absent" creates: no check-in time, no notes. */
  function AbsentRow(serviceId: Id, personId: Id): Attendance {
    Attendance(serviceId, personId, Absent, None, None)
  }

  /** One iteration of the loop at attendance.py:187-252, acting on the first row of
      the key (`existing`). Updates keep the row's position and notes. */
  function Step(l: Ledger, people: seq<Person>, serviceId: Id, personId: Id, value: string, now: int): Outcome {
    if !Known(people, personId) then Outcome(l, [])
    else
      var i := RowIndex(l, serviceId, personId);
      if value == PresentValue then
        if i == |l| then Outcome(l + [PresentRow(serviceId, personId, now)], [Update(personId, PresentValue)])
        else if l[i].status != Present then
          Outcome(l[i := l[i].(status := Present, checkIn := Some(now))], [Update(personId, PresentValue)])
        else Outcome(l, [])
      else if value == AbsentValue then
        if i == |l| then Outcome(l + [AbsentRow(serviceId, personId)], [Update(personId, AbsentValue)])
        else if l[i].status != Absent then
          Outcome(l[i := l[i].(status := Absent, checkIn := None)], [Update(personId, AbsentValue)])
        else Outcome(l, [])
      else if value == NotMarkedValue && i < |l| then
        Outcome(l[..i] + l[i + 1..], [Update(personId, NotMarkedValue)])
      else Outcome(l, [])
  }

  /** The same iteration seen from its own key: what it does to the rows of
      (service, person), first row first. */
  function KeyEffect(rows: seq<Attendance>, serviceId: Id, personId: Id, value: string, now: int): seq<Attendance> {
    if value == PresentValue then
      if |rows| == 0 then [PresentRow(serviceId, personId, now)]
      else if rows[0].status != Present then [rows[0].(status := Present, checkIn := Some(now))] + rows[1..]
      else rows
    else if value == AbsentValue then
      if |rows| == 0 then [AbsentRow(serviceId, personId)]
      else if rows[0].status != Absent then [rows[0].(status := Absent, checkIn := None)] + rows[1..]
      else rows
    else if value == NotMarkedValue && |rows| > 0 then rows[1..]
    else rows
  }

  lemma RowsSingle(x: Attendance, s: Id, p: Id)
    ensures Rows([x], s, p) == if IsKey(x, s, p) then [x] else []
  {
    assert [x][1..] == [];
  }

  /** Cutting the ledger around position `i`. */
  lemma RowsAround(l: Ledger, i: int, s: Id, p: Id)
    requires 0 <= i < |l|
    ensures Rows(l, s, p) == Rows(l[..i], s, p) + Rows([l[i]], s, p) + Rows(l[i + 1..], s, p)
  {
    assert l == l[..i] + [l[i]] + l[i + 1..];
    RowsAppend(l[..i] + [l[i]], l[i + 1..], s, p);
    RowsAppend(l[..i], [l[i]], s, p);
  }

  lemma RowsReplace(l: Ledger, i: int, x: Attendance, s: Id, p: Id)
    requires 0 <= i < |l|
    ensures Rows(l[i := x], s, p) == Rows(l[..i], s, p) + Rows([x], s, p) + Rows(l[i + 1..], s, p)
  {
    var m := l[i := x];
    RowsAround(m, i, s, p);
    assert m[..i] == l[..i] && m[i + 1..] == l[i + 1..];
  }

  lemma RowsRemove(l: Ledger, i: int, s: Id, p: Id)
    requires 0 <= i < |l|
    ensures Rows(l[..i] + l[i + 1..], s, p) == Rows(l[..i], s, p) + Rows(l[i + 1..], s, p)
  {
    RowsAppend(l[..i], l[i + 1..], s, p);
  }

  /** Appending a row for a key that had none. */
  lemma RowsAfterAppend(l: Ledger, x: Attendance, s: Id, p: Id)
    requires Rows(l, x.serviceId, x.personId) == []
    ensures Rows(l + [x], s, p) == if IsKey(x, s, p) then [x] else Rows(l, s, p)
  {
    RowsAppend(l, [x], s, p);
    RowsSingle(x, s, p);
  }

  /** Replacing the first row of a key by another row of the same key. */
  lemma RowsAfterReplace(l: Ledger, i: int, x: Attendance, s: Id, p: Id)
    requires 0 <= i < |l| && IsKey(x, l[i].serviceId, l[i].personId)
    requires Rows(l[..i], l[i].serviceId, l[i].personId) == []
    ensures IsKey(l[i], s, p) ==> |Rows(l, s, p)| > 0 && Rows(l[i := x], s, p) == [x] + Rows(l, s, p)[1..]
    ensures !IsKey(l[i], s, p) ==> Rows(l[i := x], s, p) == Rows(l, s, p)
  {
    RowsAround(l, i, s, p);
    RowsReplace(l, i, x, s, p);
    RowsSingle(l[i], s, p);
    RowsSingle(x, s, p);
    SwapMiddle(Rows(l, s, p), Rows(l[i := x], s, p),
      Rows(l[..i], s, p), Rows([l[i]], s, p), Rows([x], s, p), Rows(l[i + 1..], s, p), l[i], x);
  }

  /** Replacing a middle part that is either empty or a single element with nothing
      before it. */
  lemma SwapMiddle<T>(whole: seq<T>, changed: seq<T>, before: seq<T>, mid: seq<T>, mid': seq<T>, after: seq<T>, x: T, y: T)
    requires whole == before + mid + after && changed == before + mid' + after
    requires (mid == [x] && mid' == [y]) || (mid == [] && mid' == [])
    requires mid == [x] ==> before == []
    ensures mid == [x] ==> |whole| > 0 && changed == [y] + whole[1..]
    ensures mid == [] ==> changed == whole
  {
    if mid == [x] {
      assert whole == [x] + after;
    }
  }

  /** Deleting the first row of a key. */
  lemma RowsAfterRemove(l: Ledger, i: int, s: Id, p: Id)
    requires 0 <= i < |l|
    requires Rows(l[..i], l[i].serviceId, l[i].personId) == []
    ensures IsKey(l[i], s, p) ==> |Rows(l, s, p)| > 0 && Rows(l[..i] + l[i + 1..], s, p) == Rows(l, s, p)[1..]
    ensures !IsKey(l[i], s, p) ==> Rows(l[..i] + l[i + 1..], s, p) == Rows(l, s, p)
  {
    RowsAround(l, i, s, p);
    RowsRemove(l, i, s, p);
    RowsSingle(l[i], s, p);
    DropMiddle(Rows(l, s, p), Rows(l[..i] + l[i + 1..], s, p),
      Rows(l[..i], s, p), Rows([l[i]], s, p), Rows(l[i + 1..], s, p), l[i]);
  }

  /** Removing a middle part that is either empty or a single element with nothing
      before it. */
  lemma DropMiddle<T>(whole: seq<T>, cut: seq<T>, before: seq<T>, mid: seq<T>, after: seq<T>, x: T)
    requires whole == before + mid + after && cut == before + after
    requires mid == [x] || mid == []
    requires mid == [x] ==> before == []
    ensures mid == [x] ==> |whole| > 0 && cut == whole[1..]
    ensures mid == [] ==> cut == whole
  {
    if mid == [x] {
      assert whole == [x] + after;
    }
  }

  /** One iteration changes the rows of its own key as `KeyEffect` says, and the rows
      of every other key not at all. */
  lemma StepRows(l: Ledger, people: seq<Person>, serviceId: Id, personId: Id, value: string, now: int, s: Id, p: Id)
    ensures Rows(Step(l, people, serviceId, personId, value, now).ledger, s, p) ==
      if s == serviceId && p == personId && Known(people, personId)
      then KeyEffect(Rows(l, serviceId, personId), serviceId, personId, value, now)
      else Rows(l, s, p)
  {
    if Known(people, personId) {
      var i := RowIndex(l, serviceId, personId);
      RowIndexSplit(l, serviceId, personId);
      if i < |l| {
        assert IsKey(l[i], s, p) <==> s == serviceId && p == personId;
      }
      if i == |l| {
        if value == PresentValue {
          RowsAfterAppend(l, PresentRow(serviceId, personId, now), s, p);
        } else if value == AbsentValue {
          RowsAfterAppend(l, AbsentRow(serviceId, personId), s, p);
        }
      } else if value == PresentValue {
        if l[i].status != Present {
          RowsAfterReplace(l, i, l[i].(status := Present, checkIn := Some(now)), s, p);
        }
      } else if value == AbsentValue {
        if l[i].status != Absent {
          RowsAfterReplace(l, i, l[i].(status := Absent, checkIn := None), s, p);
        }
      } else if value == NotMarkedValue {
        RowsAfterRemove(l, i, s, p);
      }
    }
  }

  /** The loop over all entries of the dictionary, in its order. */
  function ApplyAll(l: Ledger, people: seq<Person>, serviceId: Id, entries: Dict<Id, string>, now: int): (r: Outcome)
    ensures |r.updates| <= |entries|
    decreases |entries|
  {
    if |entries| == 0 then Outcome(l, [])
    else
      var first := Step(l, people, serviceId, entries[0].0, entries[0].1, now);
      var rest := ApplyAll(first.ledger, people, serviceId, entries[1..], now);
      Outcome(rest.ledger, first.updates + rest.updates)
  }

  lemma DistinctTail<V>(entries: Dict<Id, V>)
    requires DistinctKeys(entries) && |entries| > 0
    ensures DistinctKeys(entries[1..])
    ensures !HasKey(entries[1..], entries[0].0)
  {
    assert forall i :: 0 <= i < |entries[1..]| ==> entries[1..][i].0 != entries[0].0 by {
      forall i | 0 <= i < |entries[1..]| ensures entries[1..][i].0 != entries[0].0 {
        assert entries[1..][i] == entries[i + 1];
      }
    }
  }

  /** After the whole loop, each key's rows are the result of its own entry alone:
      the entries act on pairwise distinct keys and never interfere. */
  lemma {:induction false} ApplyAllRows(l: Ledger, people: seq<Person>, serviceId: Id, entries: Dict<Id, string>, now: int, s: Id, p: Id)
    requires DistinctKeys(entries)
    ensures Rows(ApplyAll(l, people, serviceId, entries, now).ledger, s, p) ==
      if s == serviceId && Known(people, p) && HasKey(entries, p)
      then KeyEffect(Rows(l, serviceId, p), serviceId, p, Get(entries, p).value, now)
      else Rows(l, s, p)
    decreases |entries|
  {
    if |entries| > 0 {
      var first := Step(l, people, serviceId, entries[0].0, entries[0].1, now);
      DistinctTail(entries);
      StepRows(l, people, serviceId, entries[0].0, entries[0].1, now, s, p);
      ApplyAllRows(first.ledger, people, serviceId, entries[1..], now, s, p);
      if p != entries[0].0 {
        assert HasKey(entries, p) <==> HasKey(entries[1..], p) by {
          if HasKey(entries, p) {
            var i :| 0 <= i < |entries| && entries[i].0 == p;
            assert entries[1..][i - 1].0 == p;
          }
          if HasKey(entries[1..], p) {
            var i :| 0 <= i < |entries[1..]| && entries[1..][i].0 == p;
            assert entries[i + 1].0 == p;
          }
        }
      } else {
        assert HasKey(entries, p) by {
          assert entries[0].0 == p;
        }
      }
    }
  }

  /** Every reported change names a known person of the dictionary and carries the
      status submitted for that person. */
  lemma {:induction false} ApplyAllReports(l: Ledger, people: seq<Person>, serviceId: Id, entries: Dict<Id, string>, now: int)
    requires DistinctKeys(entries)
    ensures forall u :: u in ApplyAll(l, people, serviceId, entries, now).updates ==>
      Known(people, u.personId) && Get(entries, u.personId) == Some(u.status)
      && u.status in {PresentValue, AbsentValue, NotMarkedValue}
    decreases |entries|
  {
    if |entries| > 0 {
      var first := Step(l, people, serviceId, entries[0].0, entries[0].1, now);
      DistinctTail(entries);
      ApplyAllReports(first.ledger, people, serviceId, entries[1..], now);
      GetAt(entries, 0);
      forall k | k != entries[0].0 && HasKey(entries[1..], k)
        ensures Get(entries, k) == Get(entries[1..], k)
      {
      }
    }
  }

  /** One iteration reports its entry exactly when the person is known and the key
      is not yet in the state the entry asks for. */
  lemma StepReports(l: Ledger, people: seq<Person>, serviceId: Id, personId: Id, value: string, now: int)
    ensures Step(l, people, serviceId, personId, value, now).updates ==
      if Known(people, personId) && !Settled(Rows(l, serviceId, personId), value)
      then [Update(personId, value)] else []
  {
    RowIndexSplit(l, serviceId, personId);
  }

  /** The loop reports a change for a person exactly when that person is known, the
      dictionary asks for a status, and the key was not already in that state:
      every change made is reported, and nothing else is. */
  lemma {:induction false} ApplyAllReportsExactly(l: Ledger, people: seq<Person>, serviceId: Id, entries: Dict<Id, string>, now: int)
    requires DistinctKeys(entries)
    ensures forall p, v :: Update(p, v) in ApplyAll(l, people, serviceId, entries, now).updates <==>
      Known(people, p) && Get(entries, p) == Some(v) && !Settled(Rows(l, serviceId, p), v)
    decreases |entries|
  {
    if |entries| > 0 {
      var k := entries[0].0;
      var value := entries[0].1;
      var first := Step(l, people, serviceId, k, value, now);
      var all := ApplyAll(l, people, serviceId, entries, now);
      DistinctTail(entries);
      StepReports(l, people, serviceId, k, value, now);
      ApplyAllReportsExactly(first.ledger, people, serviceId, entries[1..], now);
      forall p, v
        ensures Update(p, v) in all.updates <==>
          Known(people, p) && Get(entries, p) == Some(v) && !Settled(Rows(l, serviceId, p), v)
      {
        StepRows(l, people, serviceId, k, value, now, serviceId, p);
      }
    }
  }

  /** `mark_attendance`: a 404 when the service does not exist; otherwise the
      ledger after every entry of the submitted fields, read as
      `request.form.items()` gives them, has been applied, and the list of
      changes. */
  function MarkAttendance(st: Store, serviceId: Id, raw: seq<Field>, now: int): (r: Result<Outcome, MarkError>)
    ensures r.Err? <==> forall sv :: sv in st.services ==> sv.id != serviceId
    ensures r.Ok? ==> forall u :: u in r.value.updates ==>
      Known(st.people, u.personId) && Get(ReadForm(raw), u.personId) == Some(u.status)
    ensures r.Ok? ==> |r.value.updates| <= |ReadForm(raw)|
    ensures r.Ok? ==> forall p, v :: Update(p, v) in r.value.updates <==>
      Known(st.people, p) && Get(ReadForm(raw), p) == Some(v) && !Settled(Rows(st.ledger, serviceId, p), v)
  {
    if FindService(st.services, serviceId).None? then Err(ServiceNotFound)
    else
      ApplyAllReports(st.ledger, st.people, serviceId, ReadForm(raw), now);
      ApplyAllReportsExactly(st.ledger, st.people, serviceId, ReadForm(raw), now);
      Ok(ApplyAll(st.ledger, st.people, serviceId, ReadForm(raw), now))
  }

  /** The key is already in the state its entry asks for. */
  predicate Settled(rows: seq<Attendance>, value: string) {
    && (value == PresentValue ==> |rows| > 0 && rows[0].status == Present)
    && (value == AbsentValue ==> |rows| > 0 && rows[0].status == Absent)
    && (value == NotMarkedValue ==> |rows| == 0)
  }

  /** On a key with at most one row, an entry leaves at most one row, in the state
      it asks for. */
  lemma EffectSettles(rows: seq<Attendance>, serviceId: Id, personId: Id, value: string, now: int)
    requires |rows| <= 1
    ensures |KeyEffect(rows, serviceId, personId, value, now)| <= 1
    ensures Settled(KeyEffect(rows, serviceId, personId, value, now), value)
  {
  }

  /** An entry whose key is already settled changes nothing and reports nothing. */
  lemma StepSettled(l: Ledger, people: seq<Person>, serviceId: Id, personId: Id, value: string, now: int)
    requires Known(people, personId) ==> Settled(Rows(l, serviceId, personId), value)
    ensures Step(l, people, serviceId, personId, value, now) == Outcome(l, [])
  {
    RowIndexSplit(l, serviceId, personId);
  }

  lemma {:induction false} ApplyAllSettled(l: Ledger, people: seq<Person>, serviceId: Id, entries: Dict<Id, string>, now: int)
    requires forall i :: 0 <= i < |entries| && Known(people, entries[i].0) ==>
      Settled(Rows(l, serviceId, entries[i].0), entries[i].1)
    ensures ApplyAll(l, people, serviceId, entries, now) == Outcome(l, [])
    decreases |entries|
  {
    if |entries| > 0 {
      StepSettled(l, people, serviceId, entries[0].0, entries[0].1, now);
      assert forall i :: 0 <= i < |entries[1..]| ==> entries[1..][i] == entries[i + 1];
      ApplyAllSettled(l, people, serviceId, entries[1..], now);
    }
  }

  /** "present" for a known person leaves a present row for the service; a row that
      was not present already is checked in now, one that was is left untouched. */
  lemma MarkPresentEffect(st: Store, serviceId: Id, raw: seq<Field>, now: int, p: Id)
    requires MarkAttendance(st, serviceId, raw, now).Ok?
    requires Known(st.people, p) && Get(ReadForm(raw), p) == Some(PresentValue)
    ensures Lookup(MarkAttendance(st, serviceId, raw, now).value.ledger, serviceId, p).Some?
    ensures Lookup(MarkAttendance(st, serviceId, raw, now).value.ledger, serviceId, p).value.status == Present
    ensures Lookup(st.ledger, serviceId, p).None? || Lookup(st.ledger, serviceId, p).value.status != Present ==>
      Lookup(MarkAttendance(st, serviceId, raw, now).value.ledger, serviceId, p).value.checkIn == Some(now)
    ensures Lookup(st.ledger, serviceId, p).Some? && Lookup(st.ledger, serviceId, p).value.status == Present ==>
      Lookup(MarkAttendance(st, serviceId, raw, now).value.ledger, serviceId, p) == Lookup(st.ledger, serviceId, p)
  {
    var rows := Rows(st.ledger, serviceId, p);
    MarkedRows(st, serviceId, raw, now, p);
    CheckInEffect(rows, serviceId, p, PresentValue, now);
    LookupIsFirstRow(st.ledger, serviceId, p);
    LookupIsFirstRow(MarkAttendance(st, serviceId, raw, now).value.ledger, serviceId, p);
  }

  /** "absent" for a known person leaves an absent row without check-in time, unless
      the row was absent already, in which case it is left untouched. */
  lemma MarkAbsentEffect(st: Store, serviceId: Id, raw: seq<Field>, now: int, p: Id)
    requires MarkAttendance(st, serviceId, raw, now).Ok?
    requires Known(st.people, p) && Get(ReadForm(raw), p) == Some(AbsentValue)
    ensures Lookup(MarkAttendance(st, serviceId, raw, now).value.ledger, serviceId, p).Some?
    ensures Lookup(MarkAttendance(st, serviceId, raw, now).value.ledger, serviceId, p).value.status == Absent
    ensures Lookup(st.ledger, serviceId, p).None? || Lookup(st.ledger, serviceId, p).value.status != Absent ==>
      Lookup(MarkAttendance(st, serviceId, raw, now).value.ledger, serviceId, p).value.checkIn.None?
    ensures Lookup(st.ledger, serviceId, p).Some? && Lookup(st.ledger, serviceId, p).value.status == Absent ==>
      Lookup(MarkAttendance(st, serviceId, raw, now).value.ledger, serviceId, p) == Lookup(st.ledger, serviceId, p)
  {
    var rows := Rows(st.ledger, serviceId, p);
    MarkedRows(st, serviceId, raw, now, p);
    CheckInEffect(rows, serviceId, p, AbsentValue, now);
    LookupIsFirstRow(st.ledger, serviceId, p);
    LookupIsFirstRow(MarkAttendance(st, serviceId, raw, now).value.ledger, serviceId, p);
  }

  /** The rows a run leaves for a key the form names. */
  lemma MarkedRows(st: Store, serviceId: Id, raw: seq<Field>, now: int, p: Id)
    requires MarkAttendance(st, serviceId, raw, now).Ok?
    requires Known(st.people, p) && HasKey(ReadForm(raw), p)
    ensures Rows(MarkAttendance(st, serviceId, raw, now).value.ledger, serviceId, p)
      == KeyEffect(Rows(st.ledger, serviceId, p), serviceId, p, Get(ReadForm(raw), p).value, now)
  {
    assert MarkAttendance(st, serviceId, raw, now).value.ledger
      == ApplyAll(st.ledger, st.people, serviceId, ReadForm(raw), now).ledger;
    ApplyAllRows(st.ledger, st.people, serviceId, ReadForm(raw), now, serviceId, p);
  }

  /** "present" and "absent" on the rows of one key: the first row ends in the asked
      state, changed rows get the new check-in, rows already in that state stay. */
  lemma CheckInEffect(rows: seq<Attendance>, serviceId: Id, personId: Id, value: string, now: int)
    requires value == PresentValue || value == AbsentValue
    ensures |KeyEffect(rows, serviceId, personId, value, now)| > 0
    ensures KeyEffect(rows, serviceId, personId, value, now)[0].status == (if value == PresentValue then Present else Absent)
    ensures |rows| == 0 || rows[0].status != KeyEffect(rows, serviceId, personId, value, now)[0].status ==>
      KeyEffect(rows, serviceId, personId, value, now)[0].checkIn == (if value == PresentValue then Some(now) else None)
    ensures |rows| > 0 && rows[0].status == KeyEffect(rows, serviceId, personId, value, now)[0].status ==>
      KeyEffect(rows, serviceId, personId, value, now) == rows
  {
  }

  /** "not-marked" for a known person deletes the first row of the key; with one row
      per key, the person is left unmarked. */
  lemma MarkNotMarkedEffect(st: Store, serviceId: Id, raw: seq<Field>, now: int, p: Id)
    requires MarkAttendance(st, serviceId, raw, now).Ok?
    requires Known(st.people, p) && Get(ReadForm(raw), p) == Some(NotMarkedValue)
    ensures |Rows(st.ledger, serviceId, p)| > 0 ==>
      Rows(MarkAttendance(st, serviceId, raw, now).value.ledger, serviceId, p) == Rows(st.ledger, serviceId, p)[1..]
    ensures UniqueKeys(st.ledger) ==> Lookup(MarkAttendance(st, serviceId, raw, now).value.ledger, serviceId, p).None?
  {
    ApplyAllRows(st.ledger, st.people, serviceId, ReadForm(raw), now, serviceId, p);
  }

  /** Rows of other services, of unknown people, of people the form does not name,
      and of entries with any other status text are left exactly as they were. */
  lemma MarkLeavesOthers(st: Store, serviceId: Id, raw: seq<Field>, now: int, s: Id, p: Id)
    requires MarkAttendance(st, serviceId, raw, now).Ok?
    requires s != serviceId || !Known(st.people, p) || !HasKey(ReadForm(raw), p)
      || Get(ReadForm(raw), p).value !in {PresentValue, AbsentValue, NotMarkedValue}
    ensures Rows(MarkAttendance(st, serviceId, raw, now).value.ledger, s, p) == Rows(st.ledger, s, p)
  {
    ApplyAllRows(st.ledger, st.people, serviceId, ReadForm(raw), now, s, p);
  }

  /** A run keeps "at most one row per (service, person)". */
  lemma MarkKeepsUniqueKeys(st: Store, serviceId: Id, raw: seq<Field>, now: int)
    requires UniqueKeys(st.ledger)
    requires MarkAttendance(st, serviceId, raw, now).Ok?
    ensures UniqueKeys(MarkAttendance(st, serviceId, raw, now).value.ledger)
  {
    var after := MarkAttendance(st, serviceId, raw, now).value.ledger;
    forall s, p ensures |Rows(after, s, p)| <= 1 {
      ApplyAllRows(st.ledger, st.people, serviceId, ReadForm(raw), now, s, p);
      if s == serviceId && Known(st.people, p) && HasKey(ReadForm(raw), p) {
        EffectSettles(Rows(st.ledger, serviceId, p), serviceId, p, Get(ReadForm(raw), p).value, now);
      }
    }
  }

  /** Submitting the same form again, at any later time, changes nothing and reports
      nothing. */
  lemma MarkIdempotent(st: Store, serviceId: Id, raw: seq<Field>, now: int, later: int)
    requires UniqueKeys(st.ledger)
    requires MarkAttendance(st, serviceId, raw, now).Ok?
    ensures MarkAttendance(st.(ledger := MarkAttendance(st, serviceId, raw, now).value.ledger), serviceId, raw, later)
      == Ok(Outcome(MarkAttendance(st, serviceId, raw, now).value.ledger, []))
  {
    var entries := ReadForm(raw);
    var once := MarkAttendance(st, serviceId, raw, now).value.ledger;
    forall i | 0 <= i < |entries| && Known(st.people, entries[i].0)
      ensures Settled(Rows(once, serviceId, entries[i].0), entries[i].1)
    {
      var p := entries[i].0;
      GetAt(entries, i);
      ApplyAllRows(st.ledger, st.people, serviceId, entries, now, serviceId, p);
      EffectSettles(Rows(st.ledger, serviceId, p), serviceId, p, entries[i].1, now);
    }
    ApplyAllSettled(once, st.people, serviceId, entries, later);
  }
}

=== FILE: members.dfy ===
/** The member directory and the people searches: which people a listing selects
    (the AND of the supplied filters), the order it shows them in, how it is cut
    into pages, and the small JSON/HTML details of each row. Two listings exist:
    the ORM one of app/controllers/saints.py and the SQL one of app.py:293-592;
    they select and order alike but read their arguments and page differently. */
module Members {
  import opened Common
  import opened Like
  import opened Order
  import opened Organization
  import opened People
  import opened Services

  /** The filters of a listing once the request arguments are read. A level that
      is None is not filtered on; an empty country or name text is not either. */
  datatype PeopleQuery = PeopleQuery(
    region: Option<Id>,
    direction: Option<Id>,
    department: Option<Id>,
    team: Option<Id>,
    cell: Option<Id>,
    active: bool,
    country: string,
    name: string)

  /** An integer argument read with `type=int` and tested with `if region_id:`: a
      missing argument and the value 0 both mean "no filter". */
  function Truthy(o: Option<int>): (r: Option<Id>)
    ensures r.Some? <==> Given(o)
    ensures r.Some? ==> r == o
  {
    if Given(o) then o else None
  }

  /** `request.args.get('is_active', 'true') == 'true'`: only the exact text
      "true" (or no argument) selects active members. */
  function ActiveArg(arg: Option<string>): bool {
    arg.None? || arg.value == "true"
  }

  /** The query of the ORM listing (saints.py:18-24, 178). */
  function OrmQuery(region: Option<int>, direction: Option<int>, department: Option<int>, team: Option<int>,
                    cell: Option<int>, activeArg: Option<string>, country: string, name: string): PeopleQuery {
    PeopleQuery(Truthy(region), Truthy(direction), Truthy(department), Truthy(team), Truthy(cell),
                ActiveArg(activeArg), country, name)
  }

  /** The query of the SQL listing (app.py:297-303): the id arguments stay text, so
      any non-empty one filters, "0" included; there is no country filter. The ids
      are given here already read as numbers. */
  function TextQuery(region: Option<Id>, direction: Option<Id>, department: Option<Id>, team: Option<Id>,
                     cell: Option<Id>, activeArg: Option<string>, name: string): PeopleQuery {
    PeopleQuery(region, direction, department, team, cell, ActiveArg(activeArg), "", name)
  }

  /** `first_name ILIKE '%text%' OR last_name ILIKE '%text%'`. */
  predicate NameMatches(p: Person, text: string) {
    ILike(p.firstName, Surround(text)) || ILike(p.lastName, Surround(text))
  }

  /** The meaning of a query: the person's cell chain resolves (the inner joins),
      and every supplied filter holds. A country compares equal only to a stored,
      identical country (NULL never matches). */
  predicate Selects(o: Org, q: PeopleQuery, p: Person) {
    match HierarchyPath(o, p)
    case None => false
    case Some(path) =>
      && p.isActive == q.active
      && LevelsHold(q, path)
      && (q.country != "" ==> p.country == Some(q.country))
      && (q.name != "" ==> NameMatches(p, q.name))
  }

  /** Every supplied level id is the id on the path at that level. */
  predicate LevelsHold(q: PeopleQuery, path: Path) {
    && (q.region.Some? ==> path.region.id == q.region.value)
    && (q.direction.Some? ==> path.direction.id == q.direction.value)
    && (q.department.Some? ==> path.department.id == q.department.value)
    && (q.team.Some? ==> path.team.id == q.team.value)
    && (q.cell.Some? ==> path.cell.id == q.cell.value)
  }

  /** One optional `filter(level == id)` step of the query builder. */
  function AtLevel(o: Org, s: seq<Person>, level: Option<Id>, at: Path -> Id): (r: seq<Person>)
    ensures forall x :: x in r <==> (x in s &&
      (level.Some? ==> HierarchyPath(o, x).Some? && at(HierarchyPath(o, x).value) == level.value))
  {
    if level.None? then s
    else Filter(s, (x: Person) => HierarchyPath(o, x).Some? && at(HierarchyPath(o, x).value) == level.value)
  }

  /** The five optional level filters, region first. */
  function Levels(o: Org, s: seq<Person>, q: PeopleQuery): (r: seq<Person>)
    ensures forall x :: x in r ==> x in s
    ensures forall x :: HierarchyPath(o, x).Some? ==> (x in r <==> x in s && LevelsHold(q, HierarchyPath(o, x).value))
  {
    var s1 := AtLevel(o, s, q.region, (path: Path) => path.region.id);
    var s2 := AtLevel(o, s1, q.direction, (path: Path) => path.direction.id);
    var s3 := AtLevel(o, s2, q.department, (path: Path) => path.department.id);
    var s4 := AtLevel(o, s3, q.team, (path: Path) => path.team.id);
    AtLevel(o, s4, q.cell, (path: Path) => path.cell.id)
  }

  /** The query builder of saints.py:156-188, one filter after another: the joins,
      is_active, the five levels, country, then the name. */
  function FilterPeople(o: Org, people: seq<Person>, q: PeopleQuery): (r: seq<Person>)
    ensures forall x :: x in r <==> x in people && Selects(o, q, x)
  {
    var active := JoinedActive(o, people, q);
    var s5 := Levels(o, active, q);
    var r := TextFilters(s5, q);
    assert forall x :: x in r <==> x in people && Selects(o, q, x) by {
      forall x ensures x in r <==> x in people && Selects(o, q, x) {
        if HierarchyPath(o, x).None? {
          assert x !in active;
        }
      }
    }
    r
  }

  /** The inner joins up the cell chain, then `is_active`. */
  function JoinedActive(o: Org, people: seq<Person>, q: PeopleQuery): (r: seq<Person>)
    ensures forall x :: x in r <==> x in people && HierarchyPath(o, x).Some? && x.isActive == q.active
  {
    var joined := Filter(people, (x: Person) => HierarchyPath(o, x).Some?);
    Filter(joined, (x: Person) => x.isActive == q.active)
  }

  /** The country filter, then the name search, each only when its text is given. */
  function TextFilters(s: seq<Person>, q: PeopleQuery): (r: seq<Person>)
    ensures forall x :: x in r <==>
      (x in s && (q.country != "" ==> x.country == Some(q.country)) && (q.name != "" ==> NameMatches(x, q.name)))
  {
    var s6 := if q.country == "" then s else Filter(s, (x: Person) => x.country == Some(q.country));
    if q.name == "" then s6 else Filter(s6, (x: Person) => NameMatches(x, q.name))
  }

  /** A name search whose text has no wildcard is a case-insensitive substring
      test on either name. */
  lemma NameSearchIsSubstring(p: Person, text: string)
    requires NoMeta(text)
    ensures NameMatches(p, text) <==> ContainsIgnoreCase(p.firstName, text) || ContainsIgnoreCase(p.lastName, text)
  {
    ILikeSurroundIsContains(p.firstName, text);
    ILikeSurroundIsContains(p.lastName, text);
  }

  /** The ORDER BY of both listings: region, direction, department, team and cell
      names, then surname, then given name. */
  function MemberKey(o: Org, p: Person): Key {
    match HierarchyPath(o, p)
    case Some(path) => PathNames(path) + [p.lastName, p.firstName]
    case None => [p.lastName, p.firstName]
  }

  /** Every person the query selects, in hierarchy-path order. */
  function MemberList(o: Org, people: seq<Person>, q: PeopleQuery): (r: seq<Person>)
    ensures SortedBy(r, (x: Person) => MemberKey(o, x))
    ensures forall x :: x in r <==> x in people && Selects(o, q, x)
    ensures multiset(r) == multiset(FilterPeople(o, people, q))
  {
    var s := FilterPeople(o, people, q);
    var r := SortBy(s, (x: Person) => MemberKey(o, x));
    assert forall x :: x in r <==> x in s by {
      forall x ensures x in r <==> x in s {
        SortKeepsMembers(s, (x: Person) => MemberKey(o, x), x);
      }
    }
    r
  }

  // Flask-SQLAlchemy paging, `paginate(page, per_page, error_out=False)`.

  const DefaultPage := 1
  const DefaultPerPage := 50
  /** The per-page size the pagination library falls back to for a size below 1. */
  const FallbackPerPage := 20

  datatype Page<T> = Page(items: seq<T>, page: nat, perPage: nat, total: nat, pages: nat)

  function CeilDiv(n: nat, d: nat): (r: nat)
    requires d > 0
    ensures r * d >= n
    ensures r > 0 ==> (r - 1) * d < n
  {
    if n == 0 then 0 else 1 + CeilDiv(if n <= d then 0 else n - d, d)
  }

  /** Rows `start .. start + count` of `all`, cut at its end (LIMIT/OFFSET). */
  function Window<T>(all: seq<T>, start: nat, count: nat): (r: seq<T>)
    ensures |r| <= count
    ensures start >= |all| ==> r == []
    ensures start < |all| ==> r == all[start..if start + count < |all| then start + count else |all|]
  {
    if start >= |all| then []
    else all[start..if start + count < |all| then start + count else |all|]
  }

  /** The page the library returns: a page number below 1 becomes 1 and a size
      below 1 becomes 20; `pages` is the ceiling of total over size. */
  function Paginate<T>(all: seq<T>, pageArg: int, perPageArg: int): (r: Page<T>)
    ensures r.page >= 1 && r.perPage >= 1 && r.total == |all|
    ensures pageArg >= 1 ==> r.page == pageArg
    ensures perPageArg >= 1 ==> r.perPage == perPageArg
    ensures r.pages * r.perPage >= |all| && (r.pages > 0 ==> (r.pages - 1) * r.perPage < |all|)
    ensures r.items == Window(all, (r.page - 1) * r.perPage, r.perPage)
  {
    var page: nat := if pageArg < 1 then 1 else pageArg;
    var per: nat := if perPageArg < 1 then FallbackPerPage else perPageArg;
    MulMonotone(0, page - 1, per);
    var start: nat := (page - 1) * per;
    var pages := CeilDiv(|all|, per);
    Page(Window(all, start, per), page, per, |all|, pages)
  }

  /** The listing's own call: missing arguments default to page 1 of 50. */
  function ListingPage<T>(all: seq<T>, pageArg: Option<int>, perPageArg: Option<int>): (r: Page<T>)
    ensures pageArg.None? ==> r.page == DefaultPage
    ensures perPageArg.None? ==> r.perPage == DefaultPerPage
  {
    Paginate(all, if pageArg.Some? then pageArg.value else DefaultPage,
             if perPageArg.Some? then perPageArg.value else DefaultPerPage)
  }

  predicate HasPrev<T>(p: Page<T>) {
    p.page > 1
  }

  predicate HasNext<T>(p: Page<T>) {
    p.page < p.pages
  }

  /** The pages 1..k laid end to end. */
  function FirstPages<T>(all: seq<T>, per: nat, k: nat): seq<T>
    requires per >= 1
  {
    if k == 0 then [] else FirstPages(all, per, k - 1) + Paginate(all, k, per).items
  }

  lemma {:induction false} FirstPagesPrefix<T>(all: seq<T>, per: nat, k: nat)
    requires per >= 1
    ensures FirstPages(all, per, k) == all[..if k * per < |all| then k * per else |all|]
    decreases k
  {
    if k > 0 {
      FirstPagesPrefix(all, per, k - 1);
      var a := (k - 1) * per;
      MulSucc(k - 1, per);
      assert FirstPages(all, per, k) == FirstPages(all, per, k - 1) + Paginate(all, k, per).items;
      WindowExtendsPrefix(all, a, per);
    }
  }

  /** A prefix cut at `a` followed by the window starting at `a` is the prefix cut
      one window further. */
  lemma WindowExtendsPrefix<T>(all: seq<T>, a: nat, per: nat)
    ensures all[..if a < |all| then a else |all|] + Window(all, a, per)
         == all[..if a + per < |all| then a + per else |all|]
  {
    if a < |all| {
      var cut := if a + per < |all| then a + per else |all|;
      assert all[..a] + all[a..cut] == all[..cut];
    }
  }

  /** Walking the pages from 1 to `pages` shows every selected row exactly once,
      in listing order. */
  lemma PagesPartition<T>(all: seq<T>, per: nat)
    requires per >= 1
    ensures FirstPages(all, per, Paginate(all, 1, per).pages) == all
  {
    var n := Paginate(all, 1, per).pages;
    FirstPagesPrefix(all, per, n);
  }

  lemma MulSucc(a: nat, c: nat)
    ensures (a + 1) * c == a * c + c
    ensures a * c >= 0
  {
  }

  lemma {:induction false} MulMonotone(a: nat, b: nat, c: nat)
    requires a <= b
    ensures a * c <= b * c
    decreases b - a
  {
    if a < b {
      MulMonotone(a, b - 1, c);
      assert (b - 1) * c + c == b * c;
    }
  }

  /** There is a next page exactly when the next page holds rows. */
  lemma HasNextIffRowsFollow<T>(all: seq<T>, page: int, per: int)
    requires page >= 1 && per >= 1
    ensures HasNext(Paginate(all, page, per)) <==> |Paginate(all, page + 1, per).items| > 0
  {
    var n := Paginate(all, page, per).pages;
    var next := Paginate(all, page + 1, per);
    assert next.items == Window(all, page * per, per);
    if page < n {
      MulMonotone(page, n - 1, per);
      assert page * per < |all|;
    } else {
      MulMonotone(n, page, per);
      assert page * per >= |all|;
    }
  }

  /** The page links are produced only when the result needs more than one page,
      that is when there are more rows than fit on one. */
  predicate ShowPageLinks<T>(p: Page<T>) {
    p.pages > 1
  }

  lemma PageLinksIffOverflow<T>(all: seq<T>, page: int, per: int)
    requires per >= 1
    ensures ShowPageLinks(Paginate(all, page, per)) <==> |all| > per
  {
    var n := Paginate(all, page, per).pages;
    if n > 1 {
      MulMonotone(1, n - 1, per);
    } else {
      MulMonotone(n, 1, per);
    }
  }

  // The SQL listing's paging (app.py:307-308, 441-448, 496-497).

  const SqlPerPage: nat := 100

  /** `(total_count + per_page - 1) // per_page`. */
  function TotalPages(total: nat): nat {
    (total + SqlPerPage - 1) / SqlPerPage
  }

  /** The page number after the range check: at least 1, and at most the last page
      when there is one. */
  function ClampPage(page: int, totalPages: nat): int {
    if page < 1 then 1 else if page > totalPages && totalPages > 0 then totalPages else page
  }

  function Offset(page: int): int {
    (page - 1) * SqlPerPage
  }

  /** The page arithmetic: `TotalPages` is the ceiling of total / 100; the clamped
      page lies in 1..TotalPages when any row exists and is the requested one when
      that is in range; its offset then starts inside the result. */
  lemma ClampInRange(total: nat, page: int)
    ensures TotalPages(total) * SqlPerPage >= total
    ensures TotalPages(total) > 0 ==> (TotalPages(total) - 1) * SqlPerPage < total
    ensures ClampPage(page, TotalPages(total)) >= 1
    ensures total > 0 ==> ClampPage(page, TotalPages(total)) <= TotalPages(total)
    ensures 1 <= page <= TotalPages(total) ==> ClampPage(page, TotalPages(total)) == page
    ensures total > 0 ==> 0 <= Offset(ClampPage(page, TotalPages(total))) < total
  {
    var n := TotalPages(total);
    var c := ClampPage(page, n);
    if total > 0 {
      assert n >= 1;
      assert 1 <= c <= n;
      assert (c - 1) * SqlPerPage <= (n - 1) * SqlPerPage;
    }
  }

  /** The rows the SQL listing shows for a requested page. */
  function SqlPage<T>(all: seq<T>, page: int): (r: seq<T>)
    ensures |all| > 0 ==> |r| > 0
  {
    var c := ClampPage(page, TotalPages(|all|));
    ClampInRange(|all|, page);
    Window(all, Offset(c), SqlPerPage)
  }

  /** The SQL listing agrees with the library's paging at 100 per page after its
      own clamp; so unlike the ORM listing it never shows an empty page past the
      end of a non-empty result. */
  lemma SqlPageIsClampedPaginate<T>(all: seq<T>, page: int)
    ensures SqlPage(all, page) == Paginate(all, ClampPage(page, TotalPages(|all|)), SqlPerPage).items
    ensures |all| > 0 && page > TotalPages(|all|) ==> |Paginate(all, page, SqlPerPage).items| == 0
  {
    ClampInRange(|all|, page);
    if |all| > 0 && page > TotalPages(|all|) {
      assert page - 1 >= TotalPages(|all|);
      assert (page - 1) * SqlPerPage >= TotalPages(|all|) * SqlPerPage;
    }
  }

  // Row details.

  /** `value or default`: a NULL or empty text shows the default. */
  function OrDefault(v: Option<string>, default: string): (r: string)
    ensures v.Some? && v.value != "" ==> r == v.value
    ensures v.None? || v.value == "" ==> r == default
  {
    if v.Some? && v.value != "" then v.value else default
  }

  const NoPhone := "Not available"
  const NoCountry := "Not specified"

  /** The AJAX row's phone and country cells (saints.py:216-218). */
  function PhoneCell(p: Person): string {
    OrDefault(p.phone, NoPhone)
  }

  function CountryCell(p: Person): string {
    OrDefault(p.country, NoCountry)
  }

  /** The attendance state the SQL listing shows for a person (app.py:501-563):
      "unmarked" with no service chosen; otherwise "present" when any attendance
      row for the service exists and "absent" when none does. */
  datatype ListedStatus = Unmarked | ListedPresent | ListedAbsent

  function SaintsStatus(l: Ledger, service: Option<Id>, personId: Id): (r: ListedStatus)
    ensures service.None? <==> r == Unmarked
    ensures service.Some? ==> (r == ListedPresent <==> exists a :: a in l && IsKey(a, service.value, personId))
  {
    if service.None? then Unmarked
    else if Lookup(l, service.value, personId).Some? then ListedPresent
    else ListedAbsent
  }

  /** The listing reads the row's existence, not its status: a person whose row
      records an absence is shown as present. */
  lemma AbsentRowListedPresent(l: Ledger, s: Id, p: Id)
    requires Lookup(l, s, p).Some? && Lookup(l, s, p).value.status == Absent
    ensures SaintsStatus(l, Some(s), p) == ListedPresent
  {
  }

  // Searches.

  const BulkLimit: nat := 100

  /** `search_bulk_people` (assignments.py:40-119): the same filters without
      country, ordered by surname then given name, at most 100. */
  function BulkKey(p: Person): Key {
    [p.lastName, p.firstName]
  }

  function BulkSearch(o: Org, people: seq<Person>, q: PeopleQuery): (r: seq<Person>)
    requires q.country == ""
    ensures |r| == if |FilterPeople(o, people, q)| < BulkLimit then |FilterPeople(o, people, q)| else BulkLimit
    ensures SortedBy(r, BulkKey)
    ensures forall x :: x in r ==> x in people && Selects(o, q, x)
    ensures |FilterPeople(o, people, q)| <= BulkLimit ==> forall x :: x in people && Selects(o, q, x) ==> x in r
    ensures forall x, y :: x in r && y in people && Selects(o, q, y) && y !in r ==> KeyLe(BulkKey(x), BulkKey(y))
  {
    var r := Take(SortBy(FilterPeople(o, people, q), BulkKey), BulkLimit);
    BulkMembers(o, people, q);
    BulkTopK(o, people, q);
    r
  }

  /** The cut keeps people the filter selected, and every one of them when there
      are few enough. */
  lemma BulkMembers(o: Org, people: seq<Person>, q: PeopleQuery)
    requires q.country == ""
    ensures var s := FilterPeople(o, people, q);
      var r := Take(SortBy(s, BulkKey), BulkLimit);
      && (forall x :: x in r ==> x in people && Selects(o, q, x))
      && (|s| <= BulkLimit ==> forall x :: x in people && Selects(o, q, x) ==> x in r)
  {
    var s := FilterPeople(o, people, q);
    var sorted := SortBy(s, BulkKey);
    assert forall x :: x in sorted <==> x in s by {
      forall x ensures x in sorted <==> x in s {
        SortKeepsMembers(s, BulkKey, x);
      }
    }
  }

  /** Nobody the cut leaves out sorts before anybody it keeps. */
  lemma BulkTopK(o: Org, people: seq<Person>, q: PeopleQuery)
    requires q.country == ""
    ensures var r := Take(SortBy(FilterPeople(o, people, q), BulkKey), BulkLimit);
      forall x, y :: x in r && y in people && Selects(o, q, y) && y !in r ==> KeyLe(BulkKey(x), BulkKey(y))
  {
    var s := FilterPeople(o, people, q);
    var sorted := SortBy(s, BulkKey);
    var r := Take(sorted, BulkLimit);
    forall x, y | x in r && y in people && Selects(o, q, y) && y !in r
      ensures KeyLe(BulkKey(x), BulkKey(y))
    {
      SortKeepsMembers(s, BulkKey, y);
      CutKeepsLeast(sorted, BulkKey, BulkLimit, x, y);
    }
  }

  /** The search box of the ORM pages and of the API (attendance.py:270-309,
      routes.py:27-66): a text shorter than 2 characters finds nobody; otherwise
      the active people whose first or last name contains it, in store order, at
      most 20. `marked` says whether a service was chosen and the person has any
      row for it. */
  const SearchMinLength: nat := 2
  const SearchLimit: nat := 20

  datatype Hit = Hit(person: Person, marked: bool)

  predicate SearchMatch(p: Person, text: string) {
    p.isActive && NameMatches(p, text)
  }

  /** One hit per person found, in order; `chosen` is the service whose rows mark
      a hit, if any. */
  function Hits(found: seq<Person>, l: Ledger, chosen: Option<Id>): (r: seq<Hit>)
    ensures |r| == |found|
    ensures forall i :: 0 <= i < |r| ==> r[i].person == found[i]
    ensures forall i :: 0 <= i < |r| ==>
      (r[i].marked <==> chosen.Some? && exists a :: a in l && IsKey(a, chosen.value, found[i].id))
  {
    seq(|found|, i requires 0 <= i < |found| => Hit(found[i], chosen.Some? && Lookup(l, chosen.value, found[i].id).Some?))
  }

  function SearchPeople(people: seq<Person>, l: Ledger, text: string, service: Option<int>): (r: seq<Hit>)
    ensures |text| < SearchMinLength ==> r == []
    ensures |r| <= SearchLimit
    ensures |text| >= SearchMinLength ==>
      var n := CountWhere(people, (x: Person) => SearchMatch(x, text));
      |r| == if n < SearchLimit then n else SearchLimit
    ensures forall h :: h in r ==> h.person in people && SearchMatch(h.person, text)
    ensures forall h :: h in r ==> (h.marked <==> Given(service) && exists a :: a in l && IsKey(a, service.value, h.person.id))
    ensures |text| >= SearchMinLength && CountWhere(people, (x: Person) => SearchMatch(x, text)) <= SearchLimit ==>
      forall x :: x in people && SearchMatch(x, text) ==> exists h :: h in r && h.person == x
  {
    if |text| < SearchMinLength then []
    else
      var matching := Filter(people, (x: Person) => SearchMatch(x, text));
      var found := Take(matching, SearchLimit);
      FilterCount(people, (x: Person) => SearchMatch(x, text));
      assert forall x :: x in found ==> x in matching;
      HitsMembers(found, l, Truthy(service));
      Hits(found, l, Truthy(service))
  }

  /** The hits, read as a collection: each is a person found, marked as its row
      says, and every person found has one. */
  lemma HitsMembers(found: seq<Person>, l: Ledger, chosen: Option<Id>)
    ensures var r := Hits(found, l, chosen);
      && (forall h :: h in r ==> h.person in found)
      && (forall h :: h in r ==> (h.marked <==> chosen.Some? && exists a :: a in l && IsKey(a, chosen.value, h.person.id)))
      && (forall x :: x in found ==> exists h :: h in r && h.person == x)
  {
    var r := Hits(found, l, chosen);
    forall x | x in found ensures exists h :: h in r && h.person == x {
      var i :| 0 <= i < |found| && found[i] == x;
      assert r[i] in r;
    }
  }

  /** app.py's search (app.py:254-291): at least 3 characters, active people whose
      cell exists, ordered by surname then given name, at most 20. */
  const SqlSearchMinLength: nat := 3

  predicate SqlSearchMatch(o: Org, p: Person, text: string) {
    FindCell(o, p.cellId).Some? && SearchMatch(p, text)
  }

  function SqlSearchPeople(o: Org, people: seq<Person>, text: string): (r: seq<Person>)
    ensures |text| < SqlSearchMinLength ==> r == []
    ensures |text| >= SqlSearchMinLength ==>
      var n := CountWhere(people, (x: Person) => SqlSearchMatch(o, x, text));
      |r| == if n < SearchLimit then n else SearchLimit
    ensures SortedBy(r, BulkKey)
    ensures forall x :: x in r ==> x in people && SqlSearchMatch(o, x, text)
    ensures |text| >= SqlSearchMinLength && CountWhere(people, (x: Person) => SqlSearchMatch(o, x, text)) <= SearchLimit ==>
      forall x :: x in people && SqlSearchMatch(o, x, text) ==> x in r
    ensures |text| >= SqlSearchMinLength ==>
      forall x, y :: x in r && y in people && SqlSearchMatch(o, y, text) && y !in r ==> KeyLe(BulkKey(x), BulkKey(y))
  {
    if |text| < SqlSearchMinLength then []
    else
      var keep := (x: Person) => SqlSearchMatch(o, x, text);
      FilterCount(people, keep);
      FilteredCut(people, keep, SearchLimit);
      Take(SortBy(Filter(people, keep), BulkKey), SearchLimit)
  }

  /** The first `k` of the people `keep` selects, sorted by name: selected people
      only, all of them when at most `k` are, and none left out sorting before one
      kept. */
  lemma FilteredCut(people: seq<Person>, keep: Person -> bool, k: nat)
    ensures var r := Take(SortBy(Filter(people, keep), BulkKey), k);
      && (forall x :: x in r ==> x in people && keep(x))
      && (|Filter(people, keep)| <= k ==> forall x :: x in people && keep(x) ==> x in r)
      && (forall x, y :: x in r && y in people && keep(y) && y !in r ==> KeyLe(BulkKey(x), BulkKey(y)))
  {
    var s := Filter(people, keep);
    var sorted := SortBy(s, BulkKey);
    var r := Take(sorted, k);
    assert forall x :: x in sorted <==> x in s by {
      forall x ensures x in sorted <==> x in s {
        SortKeepsMembers(s, BulkKey, x);
      }
    }
    forall x, y | x in r && y in people && keep(y) && y !in r
      ensures KeyLe(BulkKey(x), BulkKey(y))
    {
      CutKeepsLeast(sorted, BulkKey, k, x, y);
    }
  }

  /** The JSON rows of app.py's search: the people found, in order, each marked
      when a service argument is given and the person has a row for it
      (app.py:274-289). The argument stays text there, so any non-empty one,
      "0" included, is looked up; `service` is None for a missing or empty one. */
  function SqlSearch(o: Org, people: seq<Person>, l: Ledger, text: string, service: Option<Id>): (r: seq<Hit>)
    ensures |r| == |SqlSearchPeople(o, people, text)|
    ensures forall i :: 0 <= i < |r| ==> r[i].person == SqlSearchPeople(o, people, text)[i]
    ensures forall i :: 0 <= i < |r| ==>
      (r[i].marked <==> service.Some? && exists a :: a in l && IsKey(a, service.value, r[i].person.id))
  {
    Hits(SqlSearchPeople(o, people, text), l, service)
  }

  /** `verify_person` (app.py:1173-1229): both names are required; every person
      whose given name contains the first text and whose surname contains the
      second (case-insensitively, wildcards live) is reported, in store order. */
  datatype Verification = NamesRequired | NoneFound | Found(people: seq<Person>)

  predicate VerifyMatch(p: Person, first: string, last: string) {
    ILike(p.firstName, Surround(first)) && ILike(p.lastName, Surround(last))
  }

  function VerifyPerson(people: seq<Person>, first: string, last: string): (r: Verification)
    ensures r == NamesRequired <==> first == "" || last == ""
    ensures r == NoneFound <==> first != "" && last != "" && forall x :: x in people ==> !VerifyMatch(x, first, last)
    ensures r.Found? ==> forall x :: x in r.people <==> x in people && VerifyMatch(x, first, last)
  {
    if first == "" || last == "" then NamesRequired
    else
      var found := Filter(people, (x: Person) => VerifyMatch(x, first, last));
      if |found| == 0 then
        NoneFound
      else
        assert found[0] in found;
        Found(found)
  }
}

=== FILE: order.dfy ===
/** The orderings the store's ORDER BY clauses and Python's `list.sort` impose:
    code-point lexicographic order on strings, lexicographic order on tuples of
    strings (a multi-column ORDER BY), and descending order on counts. Sorting is a
    stable insertion sort; what the rest of the model relies on is only that the
    result is an ordered permutation of the input. */
module Order {
  import opened Common

  /** A multi-column sort key: the column values, most significant first. */
  type Key = seq<string>

  /** `a <= b` in code-point lexicographic order. */
  predicate StrLe(a: string, b: string)
    decreases |a|
  {
    |a| == 0 || (|b| > 0 && (a[0] < b[0] || (a[0] == b[0] && StrLe(a[1..], b[1..]))))
  }

  predicate StrLt(a: string, b: string) {
    StrLe(a, b) && a != b
  }

  lemma {:induction false} StrLeTotal(a: string, b: string)
    ensures StrLe(a, b) || StrLe(b, a)
    decreases |a|
  {
    if |a| > 0 && |b| > 0 && a[0] == b[0] {
      StrLeTotal(a[1..], b[1..]);
    }
  }

  lemma {:induction false} StrLeRefl(a: string)
    ensures StrLe(a, a)
    decreases |a|
  {
    if |a| > 0 {
      StrLeRefl(a[1..]);
    }
  }

  lemma {:induction false} StrLeAntisymmetric(a: string, b: string)
    requires StrLe(a, b) && StrLe(b, a)
    ensures a == b
    decreases |a|
  {
    if |a| > 0 {
      StrLeAntisymmetric(a[1..], b[1..]);
      assert a == [a[0]] + a[1..];
      assert b == [b[0]] + b[1..];
    }
  }

  lemma {:induction false} StrLeTrans(a: string, b: string, c: string)
    requires StrLe(a, b) && StrLe(b, c)
    ensures StrLe(a, c)
    decreases |a|
  {
    if |a| > 0 && a[0] == b[0] && b[0] == c[0] {
      StrLeTrans(a[1..], b[1..], c[1..]);
    }
  }

  /** Lexicographic order on keys, as ORDER BY c1, c2, ... compares rows. */
  predicate KeyLe(a: Key, b: Key)
    decreases |a|
  {
    |a| == 0 || (|b| > 0 && (StrLt(a[0], b[0]) || (a[0] == b[0] && KeyLe(a[1..], b[1..]))))
  }

  lemma {:induction false} KeyLeTotal(a: Key, b: Key)
    ensures KeyLe(a, b) || KeyLe(b, a)
    decreases |a|
  {
    if |a| > 0 && |b| > 0 {
      StrLeTotal(a[0], b[0]);
      if a[0] == b[0] {
        KeyLeTotal(a[1..], b[1..]);
      }
    }
  }

  lemma {:induction false} KeyLeTrans(a: Key, b: Key, c: Key)
    requires KeyLe(a, b) && KeyLe(b, c)
    ensures KeyLe(a, c)
    decreases |a|
  {
    if |a| > 0 {
      if a[0] == b[0] && b[0] == c[0] {
        KeyLeTrans(a[1..], b[1..], c[1..]);
      } else {
        StrLeRefl(a[0]);
        StrLeRefl(b[0]);
        StrLeTrans(a[0], b[0], c[0]);
        if a[0] == c[0] {
          StrLeAntisymmetric(a[0], b[0]);
        }
      }
    }
  }

  predicate SortedBy<T>(s: seq<T>, key: T -> Key) {
    forall i, j :: 0 <= i < j < |s| ==> KeyLe(key(s[i]), key(s[j]))
  }

  /** Inserts `x` before the first element whose key is not below it. */
  function Insert<T(==)>(x: T, s: seq<T>, key: T -> Key): (r: seq<T>)
    requires SortedBy(s, key)
    ensures SortedBy(r, key)
    ensures multiset(r) == multiset(s) + multiset{x}
  {
    if |s| == 0 then [x]
    else if KeyLe(key(x), key(s[0])) then
      BelowHeadBelowAll(x, s, key);
      ConsSorted(x, s, key);
      [x] + s
    else
      SortedTail(s, key);
      var rest := Insert(x, s[1..], key);
      KeyLeTotal(key(x), key(s[0]));
      HeadBelowInserted(x, s, rest, key);
      ConsSorted(s[0], rest, key);
      assert s == [s[0]] + s[1..];
      [s[0]] + rest
  }

  lemma SortedTail<T>(s: seq<T>, key: T -> Key)
    requires SortedBy(s, key) && |s| > 0
    ensures SortedBy(s[1..], key)
  {
    forall i, j | 0 <= i < j < |s| - 1 ensures KeyLe(key(s[1..][i]), key(s[1..][j])) {
      assert s[1..][i] == s[i + 1] && s[1..][j] == s[j + 1];
    }
  }

  /** A first element whose key is at most the head's stays sorted in front. */
  lemma ConsSorted<T>(x: T, s: seq<T>, key: T -> Key)
    requires SortedBy(s, key)
    requires forall e :: e in s ==> KeyLe(key(x), key(e))
    ensures SortedBy([x] + s, key)
  {
    var r := [x] + s;
    forall i, j | 0 <= i < j < |r| ensures KeyLe(key(r[i]), key(r[j])) {
      assert r[j] == s[j - 1];
      if i > 0 {
        assert r[i] == s[i - 1];
      } else {
        assert s[j - 1] in s;
      }
    }
  }

  /** A key at most the head's is at most every key of a sorted sequence. */
  lemma BelowHeadBelowAll<T>(x: T, s: seq<T>, key: T -> Key)
    requires SortedBy(s, key) && |s| > 0 && KeyLe(key(x), key(s[0]))
    ensures forall e :: e in s ==> KeyLe(key(x), key(e))
  {
    forall e | e in s ensures KeyLe(key(x), key(e)) {
      var j :| 0 <= j < |s| && s[j] == e;
      if j > 0 {
        KeyLeTrans(key(x), key(s[0]), key(s[j]));
      }
    }
  }

  /** The head of a sorted sequence is at most every element of its tail with a
      larger key inserted. */
  lemma HeadBelowInserted<T>(x: T, s: seq<T>, rest: seq<T>, key: T -> Key)
    requires SortedBy(s, key) && |s| > 0 && KeyLe(key(s[0]), key(x))
    requires multiset(rest) == multiset(s[1..]) + multiset{x}
    ensures forall e :: e in rest ==> KeyLe(key(s[0]), key(e))
  {
    forall e | e in rest ensures KeyLe(key(s[0]), key(e)) {
      assert e in multiset(rest);
      if e != x {
        assert e in multiset(s[1..]);
        var j :| 0 <= j < |s[1..]| && s[1..][j] == e;
        assert s[j + 1] == e;
      }
    }
  }

  /** A stable sort by key: the result is ordered and holds exactly the input. */
  function SortBy<T(==)>(s: seq<T>, key: T -> Key): (r: seq<T>)
    ensures SortedBy(r, key)
    ensures multiset(r) == multiset(s)
    ensures |r| == |s|
  {
    if |s| == 0 then []
    else
      assert s == [s[0]] + s[1..];
      Insert(s[0], SortBy(s[1..], key), key)
  }

  /** Ordered by descending weight (`ORDER BY count DESC`). */
  predicate SortedDesc<T>(s: seq<T>, weight: T -> int) {
    forall i, j :: 0 <= i < j < |s| ==> weight(s[i]) >= weight(s[j])
  }

  function InsertDesc<T(==)>(x: T, s: seq<T>, weight: T -> int): (r: seq<T>)
    requires SortedDesc(s, weight)
    ensures SortedDesc(r, weight)
    ensures multiset(r) == multiset(s) + multiset{x}
  {
    if |s| == 0 then [x]
    else if weight(s[0]) <= weight(x) then
      ConsDesc(x, s, weight);
      [x] + s
    else
      DescTail(s, weight);
      var rest := InsertDesc(x, s[1..], weight);
      HeadAboveInserted(x, s, rest, weight);
      ConsDesc(s[0], rest, weight);
      assert s == [s[0]] + s[1..];
      [s[0]] + rest
  }

  lemma DescTail<T>(s: seq<T>, weight: T -> int)
    requires SortedDesc(s, weight) && |s| > 0
    ensures SortedDesc(s[1..], weight)
  {
    forall i, j | 0 <= i < j < |s| - 1 ensures weight(s[1..][i]) >= weight(s[1..][j]) {
      assert s[1..][i] == s[i + 1] && s[1..][j] == s[j + 1];
    }
  }

  /** A first element weighing at least the head stays in descending order in front. */
  lemma ConsDesc<T>(x: T, s: seq<T>, weight: T -> int)
    requires SortedDesc(s, weight)
    requires |s| > 0 ==> weight(x) >= weight(s[0])
    ensures SortedDesc([x] + s, weight)
  {
    var r := [x] + s;
    forall i, j | 0 <= i < j < |r| ensures weight(r[i]) >= weight(r[j]) {
      assert r[j] == s[j - 1];
      if i > 0 {
        assert r[i] == s[i - 1];
      } else if j > 1 {
        assert weight(s[0]) >= weight(s[j - 1]);
      }
    }
  }

  /** The head of a descending sequence weighs at least the first element of its
      tail with a lighter element inserted. */
  lemma HeadAboveInserted<T>(x: T, s: seq<T>, rest: seq<T>, weight: T -> int)
    requires SortedDesc(s, weight) && |s| > 0 && weight(s[0]) > weight(x)
    requires multiset(rest) == multiset(s[1..]) + multiset{x}
    ensures |rest| > 0 ==> weight(s[0]) >= weight(rest[0])
  {
    if |rest| > 0 {
      var e := rest[0];
      assert e in multiset(rest);
      if e != x {
        assert e in multiset(s[1..]);
        var j :| 0 <= j < |s[1..]| && s[1..][j] == e;
        assert s[j + 1] == e;
      }
    }
  }

  function SortByDesc<T(==)>(s: seq<T>, weight: T -> int): (r: seq<T>)
    ensures SortedDesc(r, weight)
    ensures multiset(r) == multiset(s)
    ensures |r| == |s|
  {
    if |s| == 0 then []
    else
      assert s == [s[0]] + s[1..];
      InsertDesc(s[0], SortByDesc(s[1..], weight), weight)
  }

  /** A cut of a sorted sequence (`LIMIT n` after `ORDER BY`) keeps elements
      whose keys come no later than the key of anything it drops. */
  lemma CutKeepsLeast<T>(s: seq<T>, key: T -> Key, n: nat, x: T, y: T)
    requires SortedBy(s, key)
    requires x in Take(s, n) && y in s && y !in Take(s, n)
    ensures KeyLe(key(x), key(y))
  {
    var t := Take(s, n);
    var i :| 0 <= i < |t| && t[i] == x;
    var j :| 0 <= j < |s| && s[j] == y;
    assert forall m :: 0 <= m < |t| ==> t[m] == s[m];
    assert s[i] == x;
  }

  /** Membership survives sorting in both directions. */
  lemma SortKeepsMembers<T>(s: seq<T>, key: T -> Key, x: T)
    ensures x in SortBy(s, key) <==> x in s
  {
    var r := SortBy(s, key);
    assert x in r <==> x in multiset(r);
    assert x in s <==> x in multiset(s);
  }

  lemma SortDescKeepsMembers<T>(s: seq<T>, weight: T -> int, x: T)
    ensures x in SortByDesc(s, weight) <==> x in s
  {
    var r := SortByDesc(s, weight);
    assert x in r <==> x in multiset(r);
    assert x in s <==> x in multiset(s);
  }
}

=== FILE: organization.dfy ===
/** The five-level organisation: Region > Direction > Department > Team > Cell
    (app/models/organization.py). Each table is a sequence of rows in store order;
    a child row holds the id of its parent. Nothing makes a name unique among its
    siblings, so two cells of one team may share a name. */
module Organization {
  import opened Common

  /** Every node name is a VARCHAR(100) NOT NULL column. */
  const NameLimit: nat := 100

  datatype Region = Region(id: Id, name: string)
  datatype Direction = Direction(id: Id, name: string, regionId: Id)
  datatype Department = Department(id: Id, name: string, directionId: Id)
  datatype Team = Team(id: Id, name: string, departmentId: Id)
  datatype Cell = Cell(id: Id, name: string, teamId: Id)

  datatype Org = Org(
    regions: seq<Region>,
    directions: seq<Direction>,
    departments: seq<Department>,
    teams: seq<Team>,
    cells: seq<Cell>)

  /** One entry of a hierarchy path: the node's own id and name. */
  datatype NodeRef = NodeRef(id: Id, name: string)

  /** The chain from a cell up to its region. */
  datatype Path = Path(region: NodeRef, direction: NodeRef, department: NodeRef, team: NodeRef, cell: NodeRef)

  /** The five names of a path, region first: the grouping and sort key of the
      attendance and member views. */
  function PathNames(p: Path): seq<string> {
    [p.region.name, p.direction.name, p.department.name, p.team.name, p.cell.name]
  }

  predicate NameFits(name: string) {
    |name| <= NameLimit
  }

  // Lookups by primary key; with unique ids the first match is the only one.

  function FindRegion(o: Org, id: Id): Option<Region> {
    First(o.regions, (r: Region) => r.id == id)
  }

  function FindDirection(o: Org, id: Id): Option<Direction> {
    First(o.directions, (d: Direction) => d.id == id)
  }

  function FindDepartment(o: Org, id: Id): Option<Department> {
    First(o.departments, (d: Department) => d.id == id)
  }

  function FindTeam(o: Org, id: Id): Option<Team> {
    First(o.teams, (t: Team) => t.id == id)
  }

  function FindCell(o: Org, id: Id): Option<Cell> {
    First(o.cells, (c: Cell) => c.id == id)
  }

  /** The path of the cell with id `cellId`, following cell -> team -> department ->
      direction -> region (people.py:30-53); None when some link does not resolve. */
  function CellPath(o: Org, cellId: Id): (r: Option<Path>)
    ensures r.Some? ==>
      && FindCell(o, cellId).Some?
      && r.value.cell == NodeRef(cellId, FindCell(o, cellId).value.name)
      && r.value.team.id == FindCell(o, cellId).value.teamId
      && FindTeam(o, r.value.team.id).Some?
      && r.value.team.name == FindTeam(o, r.value.team.id).value.name
      && r.value.department.id == FindTeam(o, r.value.team.id).value.departmentId
      && FindDepartment(o, r.value.department.id).Some?
      && r.value.department.name == FindDepartment(o, r.value.department.id).value.name
      && r.value.direction.id == FindDepartment(o, r.value.department.id).value.directionId
      && FindDirection(o, r.value.direction.id).Some?
      && r.value.direction.name == FindDirection(o, r.value.direction.id).value.name
      && r.value.region.id == FindDirection(o, r.value.direction.id).value.regionId
      && FindRegion(o, r.value.region.id).Some?
      && r.value.region.name == FindRegion(o, r.value.region.id).value.name
  {
    match FindCell(o, cellId)
    case None => None
    case Some(c) =>
      match FindTeam(o, c.teamId)
      case None => None
      case Some(t) =>
        match FindDepartment(o, t.departmentId)
        case None => None
        case Some(d) =>
          match FindDirection(o, d.directionId)
          case None => None
          case Some(dir) =>
            match FindRegion(o, dir.regionId)
            case None => None
            case Some(reg) =>
              Some(Path(NodeRef(reg.id, reg.name), NodeRef(dir.id, dir.name), NodeRef(d.id, d.name),
                        NodeRef(t.id, t.name), NodeRef(c.id, c.name)))
  }

  /** Each table keeps its primary key and name width, and every foreign key names
      an existing parent row. */
  predicate RegionsValid(o: Org) {
    && UniqueIds(o.regions, (r: Region) => r.id)
    && (forall r :: r in o.regions ==> NameFits(r.name))
  }

  predicate DirectionsValid(o: Org) {
    && UniqueIds(o.directions, (d: Direction) => d.id)
    && (forall d :: d in o.directions ==> NameFits(d.name) && FindRegion(o, d.regionId).Some?)
  }

  predicate DepartmentsValid(o: Org) {
    && UniqueIds(o.departments, (d: Department) => d.id)
    && (forall d :: d in o.departments ==> NameFits(d.name) && FindDirection(o, d.directionId).Some?)
  }

  predicate TeamsValid(o: Org) {
    && UniqueIds(o.teams, (t: Team) => t.id)
    && (forall t :: t in o.teams ==> NameFits(t.name) && FindDepartment(o, t.departmentId).Some?)
  }

  predicate CellsValid(o: Org) {
    && UniqueIds(o.cells, (c: Cell) => c.id)
    && (forall c :: c in o.cells ==> NameFits(c.name) && FindTeam(o, c.teamId).Some?)
  }

  /** The store's constraints on the organisation tables: primary keys, foreign keys
      that resolve, and names within VARCHAR(100). No uniqueness of (name, parent). */
  predicate ValidOrg(o: Org) {
    RegionsValid(o) && DirectionsValid(o) && DepartmentsValid(o) && TeamsValid(o) && CellsValid(o)
  }

  /** In a valid organisation every cell's chain resolves all the way to a region:
      the hierarchy path of a member of that cell is always computable. */
  lemma ValidCellHasPath(o: Org, c: Cell)
    requires ValidOrg(o)
    requires c in o.cells
    ensures CellPath(o, c.id).Some?
  {
    var fc := FindCell(o, c.id).value;
    var t := TeamOfCell(o, fc);
    var d := DepartmentOfTeam(o, t);
    var dir := DirectionOfDepartment(o, d);
    var reg := RegionOfDirection(o, dir);
    PathOfResolvedChain(o, fc, t, d, dir);
  }

  // One link of the chain at a time, each from its own table's constraint.

  lemma TeamOfCell(o: Org, c: Cell) returns (t: Team)
    requires CellsValid(o) && c in o.cells
    ensures FindTeam(o, c.teamId) == Some(t) && t in o.teams
  {
    t := FindTeam(o, c.teamId).value;
  }

  lemma DepartmentOfTeam(o: Org, t: Team) returns (d: Department)
    requires TeamsValid(o) && t in o.teams
    ensures FindDepartment(o, t.departmentId) == Some(d) && d in o.departments
  {
    d := FindDepartment(o, t.departmentId).value;
  }

  lemma DirectionOfDepartment(o: Org, d: Department) returns (dir: Direction)
    requires DepartmentsValid(o) && d in o.departments
    ensures FindDirection(o, d.directionId) == Some(dir) && dir in o.directions
  {
    dir := FindDirection(o, d.directionId).value;
  }

  lemma RegionOfDirection(o: Org, dir: Direction) returns (reg: Region)
    requires DirectionsValid(o) && dir in o.directions
    ensures FindRegion(o, dir.regionId) == Some(reg)
  {
    reg := FindRegion(o, dir.regionId).value;
  }

  lemma PathOfResolvedChain(o: Org, c: Cell, t: Team, d: Department, dir: Direction)
    requires FindCell(o, c.id) == Some(c)
    requires FindTeam(o, c.teamId) == Some(t)
    requires FindDepartment(o, t.departmentId) == Some(d)
    requires FindDirection(o, d.directionId) == Some(dir)
    requires FindRegion(o, dir.regionId).Some?
    ensures CellPath(o, c.id).Some?
  {
  }
}

=== FILE: people.dfy ===
/** Members of the organisation (app/models/people.py). A person belongs to exactly
    one cell at a time; the rest of the hierarchy is derived from that cell. */
module People {
  import opened Common
  import opened Organization

  /** Column widths of the people table. */
  const FirstNameLimit: nat := 50
  const LastNameLimit: nat := 50
  const EmailLimit: nat := 100
  const PhoneLimit: nat := 20
  const DirectionLimit: nat := 100

  /** The columns of the people table that are NOT NULL and have no default
      (people.py:9-12); the serial id, `is_active` and the timestamps have
      defaults. An INSERT whose column list leaves one out is refused. */
  const NotNullColumns: set<string> := {"first_name", "last_name", "cell_id", "direction"}

  /** An INSERT naming these columns is not refused for a missing NOT NULL value. */
  predicate ListsNotNull(columns: set<string>) {
    NotNullColumns <= columns
  }

  datatype Person = Person(
    id: Id,
    firstName: string,
    lastName: string,
    cellId: Id,
    direction: string,
    email: Option<string>,
    phone: Option<string>,
    country: Option<string>,
    gender: Option<string>,
    isActive: bool)

  /** A new member row: country and gender unset; the caller passes `is_active`
      explicitly, and `DefaultActive` is what the column defaults to. */
  const DefaultActive := true

  function NewPerson(id: Id, first: string, last: string, cellId: Id, direction: string,
                     email: Option<string>, phone: Option<string>, active: bool): Person
  {
    Person(id, first, last, cellId, direction, email, phone, None, None, active)
  }

  /** `full_name`: given name, one space, surname. */
  function FullName(p: Person): (r: string)
    ensures |r| == |p.firstName| + 1 + |p.lastName|
    ensures r[..|p.firstName|] == p.firstName
    ensures r[|p.firstName|] == ' '
    ensures r[|p.firstName| + 1..] == p.lastName
  {
    p.firstName + " " + p.lastName
  }

  /** `hierarchy_path`: the person's cell and its ancestors, each with its own id
      and name; None when the chain does not resolve. */
  function HierarchyPath(o: Org, p: Person): Option<Path> {
    CellPath(o, p.cellId)
  }

  /** The direction recorded on a new member of the cell: the name of the
      direction the cell's chain leads to; None when the chain does not resolve. */
  function CellDirection(o: Org, cellId: Id): (r: Option<string>)
    ensures r.Some? <==> CellPath(o, cellId).Some?
  {
    match CellPath(o, cellId)
    case None => None
    case Some(path) => Some(path.direction.name)
  }

  /** In a valid organisation every cell yields a direction, and it fits the
      person's `direction` column. */
  lemma CellDirectionFits(o: Org, c: Cell)
    requires ValidOrg(o) && c in o.cells
    ensures CellDirection(o, c.id).Some? && |CellDirection(o, c.id).value| <= DirectionLimit
  {
    ValidCellHasPath(o, c);
    var path := CellPath(o, c.id).value;
    var dir := FindDirection(o, path.direction.id).value;
    assert dir in o.directions;
  }

  function FindPerson(people: seq<Person>, id: Id): Option<Person> {
    First(people, (p: Person) => p.id == id)
  }

  predicate OptFits(v: Option<string>, limit: nat) {
    v.None? || |v.value| <= limit
  }

  /** The person row fits its VARCHAR columns. */
  predicate PersonFits(p: Person) {
    && |p.firstName| <= FirstNameLimit
    && |p.lastName| <= LastNameLimit
    && |p.direction| <= DirectionLimit
    && OptFits(p.email, EmailLimit)
    && OptFits(p.phone, PhoneLimit)
  }

  /** The store's constraints on the people table: primary key, a cell that exists
      (cell_id is NOT NULL and a foreign key), and column widths. */
  predicate ValidPeople(o: Org, people: seq<Person>) {
    && UniqueIds(people, (p: Person) => p.id)
    && (forall p :: p in people ==> PersonFits(p) && FindCell(o, p.cellId).Some?)
  }

  /** In a valid store every member's hierarchy path resolves. */
  lemma MemberHasPath(o: Org, people: seq<Person>, p: Person)
    requires ValidOrg(o) && ValidPeople(o, people)
    requires p in people
    ensures HierarchyPath(o, p).Some?
  {
    var c := FindCell(o, p.cellId).value;
    assert c in o.cells && c.id == p.cellId;
    ValidCellHasPath(o, c);
  }
}

=== FILE: pivot.dfy ===
/** The date report's pivot (app/controllers/reports.py:70-99 and 303-328): query rows
    (date, service name, count), ordered by date, become chart labels, which are the
    distinct formatted dates in first-seen order, and one data series per service
    name, in first-seen order. Also the colour each chart dataset is given. */
module Pivot {
  import opened Common
  import opened OrderedDict

  /** One row of the grouped date query. */
  datatype DateCount = DateCount(date: int, serviceName: string, count: nat)

  /** Labels, and one series of counts per service name. */
  datatype Chart = Chart(labels: seq<string>, series: Dict<string, seq<nat>>)

  function Zeros(n: nat): (r: seq<nat>)
    ensures |r| == n
    ensures forall i :: 0 <= i < n ==> r[i] == 0
  {
    seq(n, i => 0)
  }

  /** `dates.index(label)`. */
  function IndexOf(labels: seq<string>, tag: string): (i: nat)
    ensures i <= |labels|
    ensures i < |labels| ==> labels[i] == tag
    ensures tag in labels ==> i < |labels|
  {
    FirstIndex(labels, (l: string) => l == tag)
  }

  // The reference: what the chart is meant to show.

  predicate Distinct(s: seq<string>) {
    forall i, j :: 0 <= i < j < |s| ==> s[i] != s[j]
  }

  /** The distinct formatted dates, in the order they first occur. */
  function Labels(rows: seq<DateCount>, fmt: int -> string): (r: seq<string>)
    ensures Distinct(r)
    ensures forall l :: l in r <==> exists k :: 0 <= k < |rows| && fmt(rows[k].date) == l
    decreases |rows|
  {
    if |rows| == 0 then []
    else
      var n := |rows| - 1;
      var prev := Labels(rows[..n], fmt);
      var l := fmt(rows[n].date);
      assert forall k :: 0 <= k < n ==> rows[..n][k] == rows[k];
      AddLabel(prev, l)
  }

  /** The count of the last row with this label and name; 0 when there is none. */
  function LastCount(rows: seq<DateCount>, tag: string, name: string, fmt: int -> string): nat
    decreases |rows|
  {
    if |rows| == 0 then 0
    else
      var last := rows[|rows| - 1];
      if fmt(last.date) == tag && last.serviceName == name then last.count
      else LastCount(rows[..|rows| - 1], tag, name, fmt)
  }

  /** The series a name is meant to have: one count per label. */
  function Column(rows: seq<DateCount>, labels: seq<string>, name: string, fmt: int -> string): (r: seq<nat>)
    ensures |r| == |labels|
    ensures forall i :: 0 <= i < |r| ==> r[i] == LastCount(rows, labels[i], name, fmt)
  {
    seq(|labels|, i requires 0 <= i < |labels| => LastCount(rows, labels[i], name, fmt))
  }

  lemma {:induction false} NoRowNoCount(rows: seq<DateCount>, tag: string, name: string, fmt: int -> string)
    requires forall k :: 0 <= k < |rows| ==> !(fmt(rows[k].date) == tag && rows[k].serviceName == name)
    ensures LastCount(rows, tag, name, fmt) == 0
    decreases |rows|
  {
    if |rows| > 0 {
      var n := |rows| - 1;
      assert forall k :: 0 <= k < n ==> rows[..n][k] == rows[k];
      NoRowNoCount(rows[..n], tag, name, fmt);
    }
  }

  /** When exactly one row carries the label and the name, its count is the entry. */
  lemma {:induction false} LastCountOnly(rows: seq<DateCount>, tag: string, name: string, fmt: int -> string, k: int)
    requires 0 <= k < |rows| && fmt(rows[k].date) == tag && rows[k].serviceName == name
    requires forall m :: 0 <= m < |rows| && m != k ==> !(fmt(rows[m].date) == tag && rows[m].serviceName == name)
    ensures LastCount(rows, tag, name, fmt) == rows[k].count
    decreases |rows|
  {
    var n := |rows| - 1;
    if k < n {
      assert forall m :: 0 <= m < n ==> rows[..n][m] == rows[m];
      LastCountOnly(rows[..n], tag, name, fmt, k);
    }
  }

  // As written: a series is created with as many zeros as there are labels at that
  // moment and never grows.

  /** The labels after a row: its formatted date is appended when it is new. */
  function AddLabel(labels: seq<string>, tag: string): (r: seq<string>)
    ensures tag in r && forall l :: l in r <==> l in labels || l == tag
  {
    if tag in labels then labels else labels + [tag]
  }

  /** One row as written: a new name gets as many zeros as there are labels now. */
  function AsWrittenStep(c: Chart, row: DateCount, fmt: int -> string): (r: Option<Chart>)
    requires DistinctKeys(c.series)
    ensures r.Some? ==> DistinctKeys(r.value.series)
  {
    var tag := fmt(row.date);
    var labels := AddLabel(c.labels, tag);
    var s := if HasKey(c.series, row.serviceName) then Get(c.series, row.serviceName).value else Zeros(|labels|);
    var i := IndexOf(labels, tag);
    if i < |s| then Some(Chart(labels, Put(c.series, row.serviceName, s[i := row.count])))
    else None
  }

  /** None is the IndexError the out-of-range write raises. */
  function PivotAsWritten(rows: seq<DateCount>, fmt: int -> string): (r: Option<Chart>)
    ensures r.Some? ==> DistinctKeys(r.value.series)
    decreases |rows|
  {
    if |rows| == 0 then Some(Chart([], []))
    else
      match PivotAsWritten(rows[..|rows| - 1], fmt)
      case None => None
      case Some(c) => AsWrittenStep(c, rows[|rows| - 1], fmt)
  }

  /** Two services of the same type, so with the same service name, held on two days
      that format differently (a weekly service seen twice in the 30-day window) fail:
      the name's series was sized when only the first day was known. */
  lemma PivotAsWrittenFailsOnSecondDate(fmt: int -> string, d1: int, d2: int, name: string, c1: nat, c2: nat)
    requires fmt(d1) != fmt(d2)
    ensures PivotAsWritten([DateCount(d1, name, c1), DateCount(d2, name, c2)], fmt).None?
  {
    var r1 := DateCount(d1, name, c1);
    var r2 := DateCount(d2, name, c2);
    var rows := [r1, r2];
    assert rows[..1] == [r1];
    AsWrittenFirstRow(fmt, d1, name, c1);
    var c := Chart([fmt(d1)], [(name, [c1])]);
    assert Get(c.series, name) == Some([c1]);
    assert AddLabel(c.labels, fmt(d2)) == [fmt(d1), fmt(d2)];
    assert IndexOf([fmt(d1), fmt(d2)], fmt(d2)) == 1;
  }

  /** The chart as written after one row: one label and a one-entry series. */
  lemma AsWrittenFirstRow(fmt: int -> string, d1: int, name: string, c1: nat)
    ensures PivotAsWritten([DateCount(d1, name, c1)], fmt) == Some(Chart([fmt(d1)], [(name, [c1])]))
  {
    var r1 := DateCount(d1, name, c1);
    assert [r1][..0] == [];
    var c := Chart([fmt(d1)], [(name, [c1])]);
    assert AddLabel([], fmt(d1)) == [fmt(d1)];
    assert IndexOf([fmt(d1)], fmt(d1)) == 0;
    assert Zeros(1)[0 := c1] == [c1];
    assert Put([], name, [c1]) == [(name, [c1])];
    assert AsWrittenStep(Chart([], []), r1, fmt) == Some(c);
  }

  // Corrected: a series is padded with zeros up to the current labels before each
  // write and once more at the end, so every series has one entry per label.

  function Padded(s: seq<nat>, n: nat): (r: seq<nat>)
    requires |s| <= n
    ensures |r| == n && r[..|s|] == s
    ensures forall i :: |s| <= i < n ==> r[i] == 0
  {
    s + Zeros(n - |s|)
  }

  /** One row, corrected: the row's series is first padded to the labels. */
  function FoldStep(c: Chart, row: DateCount, fmt: int -> string): (r: Chart)
    requires DistinctKeys(c.series)
    requires forall name :: HasKey(c.series, name) ==> |Get(c.series, name).value| <= |c.labels|
    ensures r.labels == AddLabel(c.labels, fmt(row.date))
    ensures DistinctKeys(r.series)
    ensures forall name :: HasKey(r.series, name) ==> |Get(r.series, name).value| <= |r.labels|
  {
    var tag := fmt(row.date);
    var labels := AddLabel(c.labels, tag);
    var prev := if HasKey(c.series, row.serviceName) then Get(c.series, row.serviceName).value else [];
    var s := Padded(prev, |labels|);
    Chart(labels, Put(c.series, row.serviceName, s[IndexOf(labels, tag) := row.count]))
  }

  /** The fold of the source with the padding added. */
  function PivotFold(rows: seq<DateCount>, fmt: int -> string): (c: Chart)
    ensures c.labels == Labels(rows, fmt)
    ensures DistinctKeys(c.series)
    ensures forall name :: HasKey(c.series, name) ==> |Get(c.series, name).value| <= |c.labels|
    decreases |rows|
  {
    if |rows| == 0 then Chart([], [])
    else FoldStep(PivotFold(rows[..|rows| - 1], fmt), rows[|rows| - 1], fmt)
  }

  /** The entry of `name`, padded to the labels, is the name's column. */
  ghost predicate ColumnHolds(rows: seq<DateCount>, fmt: int -> string, c: Chart, name: string) {
    HasKey(c.series, name) ==>
      |Get(c.series, name).value| <= |c.labels|
      && Padded(Get(c.series, name).value, |c.labels|) == Column(rows, c.labels, name, fmt)
  }

  /** Some row is held under `name`. */
  ghost predicate Seen(rows: seq<DateCount>, name: string) {
    exists k :: 0 <= k < |rows| && rows[k].serviceName == name
  }

  lemma SeenAppend(pre: seq<DateCount>, row: DateCount, name: string)
    ensures Seen(pre + [row], name) <==> Seen(pre, name) || row.serviceName == name
  {
    var rows := pre + [row];
    if Seen(pre, name) {
      var k :| 0 <= k < |pre| && pre[k].serviceName == name;
      assert rows[k] == pre[k];
    }
    if row.serviceName == name {
      assert rows[|pre|] == row;
    }
    if Seen(rows, name) && row.serviceName != name {
      var k :| 0 <= k < |rows| && rows[k].serviceName == name;
      assert k < |pre| && pre[k] == rows[k];
    }
  }

  /** The fold has an entry for exactly the names seen so far. */
  lemma {:induction false} PivotFoldKeys(rows: seq<DateCount>, fmt: int -> string, name: string)
    ensures HasKey(PivotFold(rows, fmt).series, name) <==> Seen(rows, name)
    decreases |rows|
  {
    if |rows| > 0 {
      var n := |rows| - 1;
      var pre := rows[..n];
      assert rows == pre + [rows[n]];
      SeenAppend(pre, rows[n], name);
      PivotFoldKeys(pre, fmt, name);
      var c := PivotFold(pre, fmt);
      var c' := FoldStep(c, rows[n], fmt);
      assert PivotFold(rows, fmt) == c';
      if rows[n].serviceName != name {
        assert Get(c'.series, name) == Get(c.series, name);
      } else {
        assert Get(c'.series, name).Some?;
      }
    }
  }

  /** The last row's count shows only under its own label and name. */
  lemma LastCountAppend(pre: seq<DateCount>, row: DateCount, tag: string, name: string, fmt: int -> string)
    ensures LastCount(pre + [row], tag, name, fmt) ==
      if fmt(row.date) == tag && row.serviceName == name then row.count else LastCount(pre, tag, name, fmt)
  {
    assert (pre + [row])[..|pre|] == pre;
  }

  /** A row under another name leaves this name's column as it was, plus a zero
      for a new label. */
  lemma StepOtherName(pre: seq<DateCount>, row: DateCount, fmt: int -> string, c: Chart, name: string)
    requires c.labels == Labels(pre, fmt) && DistinctKeys(c.series)
    requires forall n :: HasKey(c.series, n) ==> |Get(c.series, n).value| <= |c.labels|
    requires ColumnHolds(pre, fmt, c, name) && name != row.serviceName
    ensures ColumnHolds(pre + [row], fmt, FoldStep(c, row, fmt), name)
  {
    var c' := FoldStep(c, row, fmt);
    if HasKey(c'.series, name) {
      assert HasKey(c.series, name);
      var s := Get(c.series, name).value;
      assert Get(c'.series, name) == Some(s);
      forall j | 0 <= j < |c'.labels|
        ensures Padded(s, |c'.labels|)[j] == LastCount(pre + [row], c'.labels[j], name, fmt)
      {
        OtherNameEntry(pre, row, fmt, c.labels, c'.labels, s, name, j);
      }
    }
  }

  /** One position of a series the row does not touch, after the row. */
  lemma OtherNameEntry(pre: seq<DateCount>, row: DateCount, fmt: int -> string, labels: seq<string>,
                       labels': seq<string>, s: seq<nat>, name: string, j: int)
    requires labels == Labels(pre, fmt) && labels' == AddLabel(labels, fmt(row.date))
    requires |s| <= |labels| && Padded(s, |labels|) == Column(pre, labels, name, fmt)
    requires name != row.serviceName && 0 <= j < |labels'|
    ensures Padded(s, |labels'|)[j] == LastCount(pre + [row], labels'[j], name, fmt)
  {
    LastCountAppend(pre, row, labels'[j], name, fmt);
    if j < |labels| {
      assert labels'[j] == labels[j];
      assert Padded(s, |labels|)[j] == LastCount(pre, labels[j], name, fmt);
      if j < |s| {
        assert Padded(s, |labels'|)[j] == s[j] == Padded(s, |labels|)[j];
      }
    } else {
      NewLabelHasNoCount(pre, fmt, labels'[j], name);
    }
  }

  /** An old label, other than the row's, keeps the count it had in the row's own
      series. */
  lemma OwnEntryAtOldLabel(pre: seq<DateCount>, row: DateCount, fmt: int -> string, c: Chart, j: int)
    requires c.labels == Labels(pre, fmt) && DistinctKeys(c.series)
    requires ColumnHolds(pre, fmt, c, row.serviceName)
    requires !HasKey(c.series, row.serviceName) ==> forall l :: LastCount(pre, l, row.serviceName, fmt) == 0
    requires 0 <= j < |c.labels| && c.labels[j] != fmt(row.date)
    ensures var prev := if HasKey(c.series, row.serviceName) then Get(c.series, row.serviceName).value else [];
      (if j < |prev| then prev[j] else 0) == LastCount(pre + [row], c.labels[j], row.serviceName, fmt)
  {
    var name := row.serviceName;
    LastCountAppend(pre, row, c.labels[j], name, fmt);
    if HasKey(c.series, name) {
      var prev := Get(c.series, name).value;
      assert Padded(prev, |c.labels|)[j] == LastCount(pre, c.labels[j], name, fmt);
    }
  }

  /** What the step stores under the row's name. */
  lemma FoldStepOwnGet(c: Chart, row: DateCount, fmt: int -> string)
    requires DistinctKeys(c.series)
    requires forall n :: HasKey(c.series, n) ==> |Get(c.series, n).value| <= |c.labels|
    ensures var labels := AddLabel(c.labels, fmt(row.date));
      var prev := if HasKey(c.series, row.serviceName) then Get(c.series, row.serviceName).value else [];
      Get(FoldStep(c, row, fmt).series, row.serviceName)
        == Some(Padded(prev, |labels|)[IndexOf(labels, fmt(row.date)) := row.count])
  {
  }

  /** A series of full length whose every entry is the name's last count is the
      name's column. */
  lemma EntriesMakeColumn(rows: seq<DateCount>, labels: seq<string>, name: string, fmt: int -> string, w: seq<nat>)
    requires |w| == |labels|
    requires forall j :: 0 <= j < |w| ==> w[j] == LastCount(rows, labels[j], name, fmt)
    ensures Padded(w, |labels|) == Column(rows, labels, name, fmt)
  {
    assert Padded(w, |labels|) == w;
  }

  /** The row's own series after the step holds, at every label, the last count. */
  lemma StepOwnEntries(pre: seq<DateCount>, row: DateCount, fmt: int -> string, c: Chart, w: seq<nat>)
    requires c.labels == Labels(pre, fmt) && DistinctKeys(c.series)
    requires forall n :: HasKey(c.series, n) ==> |Get(c.series, n).value| <= |c.labels|
    requires ColumnHolds(pre, fmt, c, row.serviceName)
    requires !HasKey(c.series, row.serviceName) ==> forall l :: LastCount(pre, l, row.serviceName, fmt) == 0
    requires var labels := AddLabel(c.labels, fmt(row.date));
      var prev := if HasKey(c.series, row.serviceName) then Get(c.series, row.serviceName).value else [];
      w == Padded(prev, |labels|)[IndexOf(labels, fmt(row.date)) := row.count]
    ensures var labels := AddLabel(c.labels, fmt(row.date));
      |w| == |labels| && forall j :: 0 <= j < |w| ==> w[j] == LastCount(pre + [row], labels[j], row.serviceName, fmt)
  {
    var name := row.serviceName;
    var tag := fmt(row.date);
    var labels := AddLabel(c.labels, tag);
    var i := IndexOf(labels, tag);
    assert i < |labels| && labels[i] == tag;
    forall j | 0 <= j < |w| ensures w[j] == LastCount(pre + [row], labels[j], name, fmt) {
      if j == i {
        LastCountAppend(pre, row, tag, name, fmt);
      } else {
        assert j < |c.labels| && labels[j] == c.labels[j];
        OwnEntryAtOldLabel(pre, row, fmt, c, j);
      }
    }
  }

  /** The row's own series: its old column padded, with the row's count at the
      row's label. */
  lemma StepOwnName(pre: seq<DateCount>, row: DateCount, fmt: int -> string, c: Chart)
    requires c.labels == Labels(pre, fmt) && DistinctKeys(c.series)
    requires forall n :: HasKey(c.series, n) ==> |Get(c.series, n).value| <= |c.labels|
    requires ColumnHolds(pre, fmt, c, row.serviceName)
    requires !HasKey(c.series, row.serviceName) ==> forall l :: LastCount(pre, l, row.serviceName, fmt) == 0
    ensures ColumnHolds(pre + [row], fmt, FoldStep(c, row, fmt), row.serviceName)
  {
    var name := row.serviceName;
    var c' := FoldStep(c, row, fmt);
    var tag := fmt(row.date);
    var prev := if HasKey(c.series, name) then Get(c.series, name).value else [];
    var w := Padded(prev, |c'.labels|)[IndexOf(c'.labels, tag) := row.count];
    FoldStepOwnGet(c, row, fmt);
    StepOwnEntries(pre, row, fmt, c, w);
    EntriesMakeColumn(pre + [row], c'.labels, name, fmt, w);
  }

  /** A name the fold has no entry for has no count under any label. */
  lemma UnseenHasNoCount(rows: seq<DateCount>, fmt: int -> string, name: string)
    requires !HasKey(PivotFold(rows, fmt).series, name)
    ensures forall l :: LastCount(rows, l, name, fmt) == 0
  {
    PivotFoldKeys(rows, fmt, name);
    forall l ensures LastCount(rows, l, name, fmt) == 0 {
      NoRowNoCount(rows, l, name, fmt);
    }
  }

  /** After every row each entry, padded, is its name's column. */
  lemma {:induction false} PivotFoldColumns(rows: seq<DateCount>, fmt: int -> string, name: string)
    ensures ColumnHolds(rows, fmt, PivotFold(rows, fmt), name)
    decreases |rows|
  {
    if |rows| > 0 {
      var n := |rows| - 1;
      var pre := rows[..n];
      assert rows == pre + [rows[n]];
      PivotFoldColumns(pre, fmt, name);
      var c := PivotFold(pre, fmt);
      assert PivotFold(rows, fmt) == FoldStep(c, rows[n], fmt);
      if rows[n].serviceName == name {
        if !HasKey(c.series, name) {
          UnseenHasNoCount(pre, fmt, name);
        }
        StepOwnName(pre, rows[n], fmt, c);
      } else {
        StepOtherName(pre, rows[n], fmt, c, name);
      }
    }
  }

  /** A label that no earlier row formats to has no count under any name. */
  lemma NewLabelHasNoCount(rows: seq<DateCount>, fmt: int -> string, tag: string, name: string)
    requires tag !in Labels(rows, fmt)
    ensures LastCount(rows, tag, name, fmt) == 0
  {
    NoRowNoCount(rows, tag, name, fmt);
  }

  // The order of the series: a name's series comes where its first row does.

  /** The position of the first row held under `name`; |rows| when there is none. */
  function FirstRowOf(rows: seq<DateCount>, name: string): (k: nat)
    ensures k <= |rows|
    ensures k < |rows| <==> Seen(rows, name)
    ensures k < |rows| ==> rows[k].serviceName == name
    ensures forall m :: 0 <= m < k ==> rows[m].serviceName != name
  {
    FirstIndex(rows, (g: DateCount) => g.serviceName == name)
  }

  /** The series are ordered by the first rows of their names. */
  ghost predicate FirstSeenOrder(rows: seq<DateCount>, series: Dict<string, seq<nat>>) {
    forall i, j :: 0 <= i < j < |series| ==> FirstRowOf(rows, series[i].0) < FirstRowOf(rows, series[j].0)
  }

  /** A later row moves no name's first row, and a name new with it starts there. */
  lemma FirstRowAppend(pre: seq<DateCount>, row: DateCount, name: string)
    ensures Seen(pre, name) ==> FirstRowOf(pre + [row], name) == FirstRowOf(pre, name)
    ensures !Seen(pre, name) && row.serviceName == name ==> FirstRowOf(pre + [row], name) == |pre|
  {
    var rows := pre + [row];
    var i := FirstRowOf(pre, name);
    var k := FirstRowOf(rows, name);
    assert forall m :: 0 <= m < |pre| ==> rows[m] == pre[m];
    if Seen(pre, name) {
      assert rows[i] == pre[i];
      assert k <= i;
    } else if row.serviceName == name {
      assert rows[|pre|] == row;
      assert k <= |pre|;
    }
  }

  /** Writing the row's series keeps the order: an old name keeps its place, and a
      new one, first seen at this row, goes last. */
  lemma PutKeepsOrder(pre: seq<DateCount>, row: DateCount, d: Dict<string, seq<nat>>, v: seq<nat>)
    requires DistinctKeys(d) && FirstSeenOrder(pre, d)
    requires forall k :: 0 <= k < |d| ==> Seen(pre, d[k].0)
    requires HasKey(d, row.serviceName) <==> Seen(pre, row.serviceName)
    ensures FirstSeenOrder(pre + [row], Put(d, row.serviceName, v))
  {
    var r := Put(d, row.serviceName, v);
    forall k | 0 <= k < |d|
      ensures FirstRowOf(pre + [row], d[k].0) == FirstRowOf(pre, d[k].0) < |pre|
    {
      FirstRowAppend(pre, row, d[k].0);
    }
    if !HasKey(d, row.serviceName) {
      FirstRowAppend(pre, row, row.serviceName);
      assert r[|d|].0 == row.serviceName;
    }
  }

  /** The fold adds each name's series when the name's first row comes. */
  lemma {:induction false} PivotFoldOrder(rows: seq<DateCount>, fmt: int -> string)
    ensures FirstSeenOrder(rows, PivotFold(rows, fmt).series)
    decreases |rows|
  {
    if |rows| > 0 {
      var n := |rows| - 1;
      var pre := rows[..n];
      var row := rows[n];
      assert rows == pre + [row];
      PivotFoldOrder(pre, fmt);
      var c := PivotFold(pre, fmt);
      forall k | 0 <= k < |c.series| ensures Seen(pre, c.series[k].0) {
        PivotFoldKeys(pre, fmt, c.series[k].0);
      }
      PivotFoldKeys(pre, fmt, row.serviceName);
      var labels := AddLabel(c.labels, fmt(row.date));
      var prev := if HasKey(c.series, row.serviceName) then Get(c.series, row.serviceName).value else [];
      var s := Padded(prev, |labels|);
      PutKeepsOrder(pre, row, c.series, s[IndexOf(labels, fmt(row.date)) := row.count]);
    }
  }

  /** Every entry padded to `n`. */
  function PadAll(series: Dict<string, seq<nat>>, n: nat): (r: Dict<string, seq<nat>>)
    requires forall k :: 0 <= k < |series| ==> |series[k].1| <= n
    ensures |r| == |series|
    ensures forall k :: 0 <= k < |r| ==> r[k] == (series[k].0, Padded(series[k].1, n))
  {
    seq(|series|, k requires 0 <= k < |series| => (series[k].0, Padded(series[k].1, n)))
  }

  /** Padding keeps the keys and pads each value. */
  lemma PadAllGet(series: Dict<string, seq<nat>>, n: nat, name: string)
    requires DistinctKeys(series)
    requires forall k :: 0 <= k < |series| ==> |series[k].1| <= n
    ensures DistinctKeys(PadAll(series, n))
    ensures HasKey(PadAll(series, n), name) <==> HasKey(series, name)
    ensures HasKey(series, name) ==>
      |Get(series, name).value| <= n && Get(PadAll(series, n), name) == Some(Padded(Get(series, name).value, n))
  {
    var r := PadAll(series, n);
    assert DistinctKeys(r) by {
      forall i, j | 0 <= i < j < |r| ensures r[i].0 != r[j].0 {
        assert r[i].0 == series[i].0 && r[j].0 == series[j].0;
      }
    }
    if HasKey(series, name) {
      var k :| 0 <= k < |series| && series[k].0 == name;
      assert r[k].0 == name;
      GetAt(series, k);
      GetAt(r, k);
    }
    if HasKey(r, name) {
      var k :| 0 <= k < |r| && r[k].0 == name;
      assert series[k].0 == name;
    }
  }

  /** The corrected pivot: labels are the distinct formatted dates in first-seen
      order; there is one series per service name, one entry per label, and each
      entry is the count of the last row with that label and name, or 0. */
  function PivotChart(rows: seq<DateCount>, fmt: int -> string): (r: Chart)
    ensures r.labels == Labels(rows, fmt)
    ensures DistinctKeys(r.series)
    ensures forall name :: HasKey(r.series, name) <==> Seen(rows, name)
    ensures forall name :: HasKey(r.series, name) ==> Get(r.series, name).value == Column(rows, r.labels, name, fmt)
    ensures forall i, j :: 0 <= i < j < |r.series| ==> FirstRowOf(rows, r.series[i].0) < FirstRowOf(rows, r.series[j].0)
  {
    var c := PivotFold(rows, fmt);
    PivotFoldOrder(rows, fmt);
    assert forall k :: 0 <= k < |c.series| ==> |c.series[k].1| <= |c.labels| by {
      forall k | 0 <= k < |c.series| ensures |c.series[k].1| <= |c.labels| {
        GetAt(c.series, k);
      }
    }
    var r := Chart(c.labels, PadAll(c.series, |c.labels|));
    PadAllGet(c.series, |c.labels|, "");
    forall name ensures HasKey(r.series, name) <==> Seen(rows, name)
      ensures HasKey(r.series, name) ==> Get(r.series, name).value == Column(rows, r.labels, name, fmt)
    {
      PadAllGet(c.series, |c.labels|, name);
      PivotFoldKeys(rows, fmt, name);
      PivotFoldColumns(rows, fmt, name);
    }
    r
  }
}

=== FILE: placement.dfy ===
/** Moving people between cells from the assignments page
    (app/controllers/assignments.py:121-168): one person at a time, or a list of
    people into one cell. The store's foreign key on `cell_id` rejects a commit
    that points a person at a cell that does not exist. */
module Placement {
  import opened Common
  import opened Organization
  import opened People

  datatype SaveOutcome =
    | MissingInformation        // the "Missing required information" message
    | PersonNotFound            // get_or_404
    | CommitFailed              // the cell foreign key rejected the commit
    | Saved(people: seq<Person>, reported: nat)

  /** Every person whose id is listed is put in `cellId`; nobody else changes. */
  function MoveAll(people: seq<Person>, ids: seq<Id>, cellId: Id): (r: seq<Person>)
    ensures |r| == |people|
    ensures forall i :: 0 <= i < |r| ==>
      r[i] == if people[i].id in ids then people[i].(cellId := cellId) else people[i]
  {
    if |people| == 0 then []
    else
      [if people[0].id in ids then people[0].(cellId := cellId) else people[0]] + MoveAll(people[1..], ids, cellId)
  }

  /** `save_assignment`: a missing or zero person or cell id is refused. */
  function SaveAssignment(o: Org, people: seq<Person>, personArg: Option<int>, cellArg: Option<int>): (r: SaveOutcome)
    ensures r == MissingInformation <==> !Given(personArg) || !Given(cellArg)
    ensures r == PersonNotFound <==> Given(personArg) && Given(cellArg) && FindPerson(people, personArg.value).None?
    ensures r.Saved? <==> (Given(personArg) && Given(cellArg) &&
      FindPerson(people, personArg.value).Some? && FindCell(o, cellArg.value).Some?)
    ensures r == CommitFailed <==> (Given(personArg) && Given(cellArg) &&
      FindPerson(people, personArg.value).Some? && FindCell(o, cellArg.value).None?)
    ensures r.Saved? ==> r.reported == 1
    ensures r.Saved? ==> |r.people| == |people| && forall i :: 0 <= i < |people| ==>
      r.people[i] == if people[i].id == personArg.value then people[i].(cellId := cellArg.value) else people[i]
  {
    if !Given(personArg) || !Given(cellArg) then MissingInformation
    else if FindPerson(people, personArg.value).None? then PersonNotFound
    else if FindCell(o, cellArg.value).None? then CommitFailed
    else Saved(MoveAll(people, [personArg.value], cellArg.value), 1)
  }

  /** `save_bulk_assignment`: unknown ids are passed over, and the message counts
      every submitted id, found or not. */
  function SaveBulkAssignment(o: Org, people: seq<Person>, ids: seq<Id>, cellArg: Option<int>): (r: SaveOutcome)
    ensures r == MissingInformation <==> |ids| == 0 || !Given(cellArg)
    ensures r != PersonNotFound
    ensures r.Saved? ==> r.reported == |ids|
    ensures r.Saved? ==> |r.people| == |people| && forall i :: 0 <= i < |people| ==>
      r.people[i] == if people[i].id in ids then people[i].(cellId := cellArg.value) else people[i]
    ensures r == CommitFailed <==> (|ids| > 0 && Given(cellArg) && FindCell(o, cellArg.value).None? &&
      exists p :: p in people && p.id in ids)
  {
    if |ids| == 0 || !Given(cellArg) then MissingInformation
    else
      var moved := MoveAll(people, ids, cellArg.value);
      if FindCell(o, cellArg.value).None? && exists p :: p in people && p.id in ids then CommitFailed
      else Saved(moved, |ids|)
  }

  /** Saving one known person is the bulk save of a one-id list. */
  lemma SingleIsBulkOfOne(o: Org, people: seq<Person>, personArg: Option<int>, cellArg: Option<int>)
    requires Given(personArg) && Given(cellArg) && FindPerson(people, personArg.value).Some?
    ensures SaveAssignment(o, people, personArg, cellArg) == SaveBulkAssignment(o, people, [personArg.value], cellArg)
  {
    var p := FindPerson(people, personArg.value).value;
    assert p in people && p.id in [personArg.value];
  }

  /** A successful save keeps every member in an existing cell. */
  lemma SaveKeepsValidPeople(o: Org, people: seq<Person>, ids: seq<Id>, cellArg: Option<int>)
    requires ValidPeople(o, people)
    requires SaveBulkAssignment(o, people, ids, cellArg).Saved?
    ensures ValidPeople(o, SaveBulkAssignment(o, people, ids, cellArg).people)
  {
    var r := SaveBulkAssignment(o, people, ids, cellArg).people;
    assert forall i :: 0 <= i < |r| ==> r[i].id == people[i].id;
    forall p | p in r ensures PersonFits(p) && FindCell(o, p.cellId).Some? {
      var i :| 0 <= i < |r| && r[i] == p;
      assert people[i] in people;
    }
  }

  /** Saving the same list into the same cell a second time changes nothing. */
  lemma BulkSaveIdempotent(o: Org, people: seq<Person>, ids: seq<Id>, cellArg: Option<int>)
    requires SaveBulkAssignment(o, people, ids, cellArg).Saved?
    ensures var once := SaveBulkAssignment(o, people, ids, cellArg).people;
      SaveBulkAssignment(o, once, ids, cellArg) == Saved(once, |ids|)
  {
    var once := SaveBulkAssignment(o, people, ids, cellArg).people;
    var twice := MoveAll(once, ids, cellArg.value);
    assert twice == once;
    if FindCell(o, cellArg.value).None? {
      assert forall p :: p in once ==> p.id !in ids by {
        forall p | p in once ensures p.id !in ids {
          var i :| 0 <= i < |once| && once[i] == p;
          assert people[i] in people;
        }
      }
    }
  }
}

=== FILE: reports.dfy ===
/** The attendance reports (app/controllers/reports.py): ledger rows whose service
    falls in a date window are joined to their service, type, person and hierarchy,
    then counted per (date, service name), per department name or per team name.
    Every row counts, whatever its status. Today's date is a parameter and a date
    is a day number. */
module Reports {
  import opened Common
  import opened OrderedDict
  import opened Order
  import opened Organization
  import opened People
  import opened Services
  import opened Database
  import opened Pivot

  /** The window length when the request gives no whole number of days. */
  const DefaultDays: int := 30

  function DaysArg(arg: Option<int>): int {
    if arg.Some? then arg.value else DefaultDays
  }

  /** `service_date BETWEEN today - days AND today`: both ends included. */
  predicate InWindow(date: int, today: int, days: int) {
    today - days <= date <= today
  }

  // Counting: GROUP BY a key, COUNT(attendance_id).

  /** The group key of every row that passes the joins and filters, in ledger
      order; `keyOf` is None for a row the query drops. */
  function KeysOf<K>(l: Ledger, keyOf: Attendance -> Option<K>): (r: seq<K>)
    ensures |r| <= |l|
  {
    if |l| == 0 then []
    else (match keyOf(l[0]) case Some(k) => [k] case None => []) + KeysOf(l[1..], keyOf)
  }

  /** The count of one group: the ledger rows whose key is `k`. */
  function RowCount<K(==)>(l: Ledger, keyOf: Attendance -> Option<K>, k: K): nat {
    CountWhere(l, (a: Attendance) => keyOf(a) == Some(k))
  }

  /** How often a key occurs among the kept rows is its group's count. */
  lemma {:induction false} KeysOfCounts<K>(l: Ledger, keyOf: Attendance -> Option<K>, k: K)
    ensures multiset(KeysOf(l, keyOf))[k] == RowCount(l, keyOf, k)
    decreases |l|
  {
    if |l| > 0 {
      KeysOfCounts(l[1..], keyOf, k);
    }
  }

  /** A group with a positive count has a row in the ledger. */
  lemma {:induction false} CountedRowExists<K>(l: Ledger, keyOf: Attendance -> Option<K>, k: K)
    requires RowCount(l, keyOf, k) > 0
    ensures exists a :: a in l && keyOf(a) == Some(k)
    decreases |l|
  {
    if keyOf(l[0]) != Some(k) {
      CountedRowExists(l[1..], keyOf, k);
      var a :| a in l[1..] && keyOf(a) == Some(k);
      assert a in l;
    }
  }

  /** Two row selections that agree on every row keep the same keys. */
  lemma {:induction false} KeysOfAgree<K>(l: Ledger, k1: Attendance -> Option<K>, k2: Attendance -> Option<K>)
    requires forall a :: a in l ==> k1(a) == k2(a)
    ensures KeysOf(l, k1) == KeysOf(l, k2)
    decreases |l|
  {
    if |l| > 0 {
      assert l[0] in l;
      assert forall a :: a in l[1..] ==> a in l;
      KeysOfAgree(l[1..], k1, k2);
    }
  }

  /** The ledger with only statuses changed. */
  predicate SameButStatus(l: Ledger, l2: Ledger) {
    |l| == |l2| && forall i :: 0 <= i < |l| ==> l2[i] == l[i].(status := l2[i].status)
  }

  /** A key that does not look at the status keeps the same rows whatever the
      statuses are. */
  lemma {:induction false} KeysIgnoreStatus<K>(l: Ledger, l2: Ledger, keyOf: Attendance -> Option<K>)
    requires SameButStatus(l, l2)
    requires forall a: Attendance, s: Status :: keyOf(a.(status := s)) == keyOf(a)
    ensures KeysOf(l2, keyOf) == KeysOf(l, keyOf)
    decreases |l|
  {
    if |l| > 0 {
      assert l2[0] == l[0].(status := l2[0].status);
      assert SameButStatus(l[1..], l2[1..]);
      KeysIgnoreStatus(l[1..], l2[1..], keyOf);
    }
  }

  /** The distinct keys, in first-seen order. */
  function FirstSeen<K(==,!new)>(keys: seq<K>): (u: seq<K>)
    ensures forall k :: k in u <==> k in keys
    ensures forall i, j :: 0 <= i < j < |u| ==> u[i] != u[j]
    decreases |keys|
  {
    if |keys| == 0 then []
    else
      var n := |keys| - 1;
      var pre := FirstSeen(keys[..n]);
      assert keys == keys[..n] + [keys[n]];
      if keys[n] in pre then pre else pre + [keys[n]]
  }

  /** A table listing each distinct key once with its number of occurrences is a
      dictionary from the keys to their counts. */
  lemma CountTable<K>(keys: seq<K>, u: seq<K>, d: Dict<K, nat>)
    requires forall k :: k in u <==> k in keys
    requires forall i, j :: 0 <= i < j < |u| ==> u[i] != u[j]
    requires |d| == |u| && forall i :: 0 <= i < |d| ==> d[i] == (u[i], multiset(keys)[u[i]])
    ensures DistinctKeys(d)
    ensures forall k :: HasKey(d, k) <==> k in keys
    ensures forall k :: HasKey(d, k) ==> Get(d, k).value == multiset(keys)[k]
  {
    forall k ensures HasKey(d, k) <==> k in keys {
      if k in keys {
        var i :| 0 <= i < |u| && u[i] == k;
        assert d[i].0 == k;
      }
    }
    forall k | HasKey(d, k) ensures Get(d, k).value == multiset(keys)[k] {
      var i :| 0 <= i < |d| && d[i].0 == k;
      GetAt(d, i);
    }
  }

  /** `GROUP BY` with `COUNT`: one entry per distinct key, in first-seen order,
      holding the number of times the key occurs. */
  function Tally<K(==,!new)>(keys: seq<K>): (d: Dict<K, nat>)
    ensures DistinctKeys(d)
    ensures forall k :: HasKey(d, k) <==> k in keys
    ensures forall k :: HasKey(d, k) ==> Get(d, k).value == multiset(keys)[k]
  {
    var u := FirstSeen(keys);
    var d := seq(|u|, i requires 0 <= i < |u| => (u[i], multiset(keys)[u[i]]));
    CountTable(keys, u, d);
    d
  }

  /** The weight of `ORDER BY count DESC`. */
  function CountOf(e: (string, nat)): int {
    e.1
  }

  /** `GROUP BY name ORDER BY count DESC`: each name once, with the number of
      times it occurs, largest count first. The store leaves the order of equal
      counts open; here they keep first-seen order. */
  function Ranked(keys: seq<string>): (r: seq<(string, nat)>)
    ensures SortedDesc(r, CountOf)
    ensures DistinctKeys(r)
    ensures forall e :: e in r <==> e.0 in keys && e.1 == multiset(keys)[e.0]
  {
    var d := Tally(keys);
    var r := SortByDesc(d, CountOf);
    PermutationKeepsDistinctKeys(d, r);
    forall e ensures e in r <==> e.0 in keys && e.1 == multiset(keys)[e.0] {
      SortDescKeepsMembers(d, CountOf, e);
      MemberIffGet(d, e.0, e.1);
    }
    r
  }

  // Colours.

  /** The hue of the i-th dataset's colour. */
  function Hue(i: nat): (h: nat)
    ensures h < 360
  {
    (i * 137) % 360
  }

  /** The first 360 datasets all get different hues. Equal hues would make
      `(j - i) * 137` a multiple of 360; since 137 * 113 = 43 * 360 + 1, `j - i`
      itself would then be a multiple of 360, which no gap below 360 is. */
  lemma HuesDistinct(i: nat, j: nat)
    requires i < j < 360
    ensures Hue(i) != Hue(j)
  {
    var qi := (i * 137) / 360;
    var qj := (j * 137) / 360;
    assert i * 137 == 360 * qi + Hue(i);
    assert j * 137 == 360 * qj + Hue(j);
    var d, k := j - i, qj - qi;
    assert d * 137 == 360 * k + (Hue(j) - Hue(i));
    assert d == 360 * (113 * k - 43 * d) + 113 * (Hue(j) - Hue(i));
  }

  /** One colour per dataset. */
  function Hues(n: nat): (r: seq<nat>)
    ensures |r| == n && forall i :: 0 <= i < n ==> r[i] == Hue(i)
  {
    seq(n, i requires 0 <= i < n => Hue(i))
  }

  // The date report (reports.py:35-106).

  /** Whether the row's service passes the service type filter; with a type given
      the query joins the type table, so the type must exist. */
  predicate TypePasses(st: Store, s: Service, serviceType: Option<int>) {
    !Given(serviceType) || (FindServiceType(st.types, s.typeId).Some? && s.typeId == serviceType.value)
  }

  /** The (date, service name) group of a row: its service and the service's type
      must exist, and the service must be in the window and pass the type filter. */
  function DateKey(st: Store, today: int, days: int, serviceType: Option<int>, a: Attendance): Option<(int, string)> {
    match FindService(st.services, a.serviceId)
    case None => None
    case Some(s) =>
      match FindServiceType(st.types, s.typeId)
      case None => None
      case Some(t) =>
        if InWindow(s.date, today, days) && TypePasses(st, s, serviceType) then Some((s.date, t.name)) else None
  }

  function DateKeyOf(st: Store, today: int, days: int, serviceType: Option<int>): Attendance -> Option<(int, string)> {
    (a: Attendance) => DateKey(st, today, days, serviceType, a)
  }

  function GroupOf(e: ((int, string), nat)): DateCount {
    DateCount(e.0.0, e.0.1, e.1)
  }

  /** The weight that makes `SortByDesc` put earlier dates first (`ORDER BY
      service_date`). */
  function Earlier(g: DateCount): int {
    -g.date
  }

  predicate DistinctGroups(r: seq<DateCount>) {
    forall i, j :: 0 <= i < j < |r| ==> (r[i].date, r[i].serviceName) != (r[j].date, r[j].serviceName)
  }

  /** One query row per dictionary entry. */
  function GroupsOf(d: Dict<(int, string), nat>): (r: seq<DateCount>)
    ensures |r| == |d| && forall i :: 0 <= i < |d| ==> r[i] == GroupOf(d[i])
  {
    seq(|d|, i requires 0 <= i < |d| => GroupOf(d[i]))
  }

  lemma GroupsOfMember(d: Dict<(int, string), nat>, g: DateCount)
    ensures g in GroupsOf(d) <==> ((g.date, g.serviceName), g.count) in d
  {
    var groups := GroupsOf(d);
    if g in groups {
      var a :| 0 <= a < |groups| && groups[a] == g;
      assert d[a] == ((g.date, g.serviceName), g.count);
    }
    if ((g.date, g.serviceName), g.count) in d {
      var a :| 0 <= a < |d| && d[a] == ((g.date, g.serviceName), g.count);
      assert groups[a] == g;
    }
  }

  /** A group built from a dictionary entry occurs once among the groups. */
  lemma {:induction false} GroupOccursOnce(d: Dict<(int, string), nat>, g: DateCount)
    requires DistinctKeys(d)
    ensures multiset(GroupsOf(d))[g] <= 1
    decreases |d|
  {
    if |d| > 0 {
      var groups := GroupsOf(d);
      assert groups == [groups[0]] + GroupsOf(d[1..]);
      GroupOccursOnce(d[1..], g);
      if groups[0] == g {
        forall i | 0 <= i < |d| - 1 ensures GroupsOf(d[1..])[i] != g {
          assert d[0].0 != d[i + 1].0;
        }
      }
    }
  }

  /** Any reordering of the groups keeps (date, name) pairs distinct. */
  lemma GroupsStayDistinct(d: Dict<(int, string), nat>, r: seq<DateCount>)
    requires DistinctKeys(d) && multiset(r) == multiset(GroupsOf(d))
    ensures DistinctGroups(r)
  {
    var groups := GroupsOf(d);
    forall i, j | 0 <= i < j < |r| ensures (r[i].date, r[i].serviceName) != (r[j].date, r[j].serviceName) {
      assert r[i] in multiset(groups) && r[j] in multiset(groups);
      GroupsOfMember(d, r[i]);
      GroupsOfMember(d, r[j]);
      if (r[i].date, r[i].serviceName) == (r[j].date, r[j].serviceName) {
        KeyDeterminesEntry(d, ((r[i].date, r[i].serviceName), r[i].count), ((r[j].date, r[j].serviceName), r[j].count));
        TwoPositions(r, i, j);
        GroupOccursOnce(d, r[i]);
      }
    }
  }

  /** The grouped date query: one row per (date, service name) that has rows,
      carrying their number, ordered by date. */
  function DateGroups(st: Store, today: int, days: int, serviceType: Option<int>): (r: seq<DateCount>)
    ensures forall i, j :: 0 <= i < j < |r| ==> r[i].date <= r[j].date
    ensures DistinctGroups(r)
    ensures forall g :: g in r <==>
      (var n := RowCount(st.ledger, DateKeyOf(st, today, days, serviceType), (g.date, g.serviceName));
       n > 0 && g.count == n)
  {
    var keyOf := DateKeyOf(st, today, days, serviceType);
    var keys := KeysOf(st.ledger, keyOf);
    var d := Tally(keys);
    var r := SortByDesc(GroupsOf(d), Earlier);
    GroupsStayDistinct(d, r);
    forall g ensures g in r <==>
      (var n := RowCount(st.ledger, keyOf, (g.date, g.serviceName)); n > 0 && g.count == n)
    {
      KeysOfCounts(st.ledger, keyOf, (g.date, g.serviceName));
      SortDescKeepsMembers(GroupsOf(d), Earlier, g);
      GroupsOfMember(d, g);
      MemberIffGet(d, (g.date, g.serviceName), g.count);
    }
    r
  }

  /** The date chart: the groups pivoted into per-service series (with the
      padding the source omits), and one colour per series. */
  datatype DateChart = DateChart(chart: Chart, colours: seq<nat>)

  function DateReport(st: Store, today: int, daysArg: Option<int>, serviceType: Option<int>, fmt: int -> string): (r: DateChart)
    ensures |r.colours| == |r.chart.series|
    ensures forall i :: 0 <= i < |r.colours| ==> r.colours[i] == Hue(i)
  {
    var c := PivotChart(DateGroups(st, today, DaysArg(daysArg), serviceType), fmt);
    DateChart(c, Hues(|c.series|))
  }

  /** `fmt` tells the window's days apart (true of `%d %b` for windows shorter
      than a year). */
  ghost predicate FormatSeparates(fmt: int -> string, today: int, days: int) {
    forall d1, d2 :: InWindow(d1, today, days) && InWindow(d2, today, days) && fmt(d1) == fmt(d2) ==> d1 == d2
  }

  /** Every group of the date query lies in the window. */
  lemma GroupsInWindow(st: Store, today: int, days: int, serviceType: Option<int>)
    ensures forall g :: g in DateGroups(st, today, days, serviceType) ==> InWindow(g.date, today, days)
  {
    var keyOf := DateKeyOf(st, today, days, serviceType);
    forall g | g in DateGroups(st, today, days, serviceType) ensures InWindow(g.date, today, days) {
      CountedRowExists(st.ledger, keyOf, (g.date, g.serviceName));
    }
  }

  /** The date chart counts rows: when the format separates the window's days,
      the entry of a service name at a day's label is the number of ledger rows
      for that day and name, absent rows included. */
  lemma DateChartCountsRows(st: Store, today: int, daysArg: Option<int>, serviceType: Option<int>, fmt: int -> string,
                            date: int, name: string)
    requires FormatSeparates(fmt, today, DaysArg(daysArg))
    requires InWindow(date, today, DaysArg(daysArg))
    ensures var c := DateReport(st, today, daysArg, serviceType, fmt).chart;
      HasKey(c.series, name) && fmt(date) in c.labels ==>
        Get(c.series, name).value[IndexOf(c.labels, fmt(date))]
          == RowCount(st.ledger, DateKeyOf(st, today, DaysArg(daysArg), serviceType), (date, name))
  {
    var days := DaysArg(daysArg);
    var rows := DateGroups(st, today, days, serviceType);
    var c := PivotChart(rows, fmt);
    var tag := fmt(date);
    if HasKey(c.series, name) && tag in c.labels {
      var i := IndexOf(c.labels, tag);
      assert Get(c.series, name).value == Column(rows, c.labels, name, fmt);
      assert Get(c.series, name).value[i] == LastCount(rows, tag, name, fmt);
      DateGroupsAtLabel(st, today, days, serviceType, fmt, date, name);
    }
  }

  /** The last group of the date query under a day's label and a name carries the
      number of ledger rows for that day and service. */
  lemma DateGroupsAtLabel(st: Store, today: int, days: int, serviceType: Option<int>, fmt: int -> string,
                          date: int, name: string)
    requires FormatSeparates(fmt, today, days) && InWindow(date, today, days)
    ensures LastCount(DateGroups(st, today, days, serviceType), fmt(date), name, fmt)
         == RowCount(st.ledger, DateKeyOf(st, today, days, serviceType), (date, name))
  {
    var rows := DateGroups(st, today, days, serviceType);
    var n := RowCount(st.ledger, DateKeyOf(st, today, days, serviceType), (date, name));
    var tag := fmt(date);
    GroupsInWindow(st, today, days, serviceType);
    forall m | 0 <= m < |rows| && fmt(rows[m].date) == tag ensures rows[m].date == date {
      assert rows[m] in rows;
    }
    if n > 0 {
      assert DateCount(date, name, n) in rows;
    }
    GroupAtLabel(rows, fmt, tag, date, name, n);
  }

  /** In distinct groups whose dates `fmt` keeps apart, the entry at a date's label
      is that date's group count, or 0 when the date has no group. */
  lemma GroupAtLabel(rows: seq<DateCount>, fmt: int -> string, tag: string, date: int, name: string, n: nat)
    requires DistinctGroups(rows) && tag == fmt(date)
    requires forall g :: g in rows ==> g.count > 0
    requires forall m :: 0 <= m < |rows| && fmt(rows[m].date) == tag ==> rows[m].date == date
    requires forall g :: g in rows ==> g.date == date && g.serviceName == name ==> g.count == n
    requires n > 0 ==> DateCount(date, name, n) in rows
    ensures LastCount(rows, tag, name, fmt) == n
  {
    if n > 0 {
      var k :| 0 <= k < |rows| && rows[k] == DateCount(date, name, n);
      LastCountOnly(rows, tag, name, fmt, k);
    } else {
      forall m | 0 <= m < |rows| ensures !(fmt(rows[m].date) == tag && rows[m].serviceName == name) {
        assert rows[m] in rows;
      }
      NoRowNoCount(rows, tag, name, fmt);
    }
  }

  /** A service has a series in the date chart exactly when some row of the
      window counts under its name. */
  lemma DateSeriesNames(st: Store, today: int, days: int, serviceType: Option<int>, fmt: int -> string, name: string)
    ensures var keyOf := DateKeyOf(st, today, days, serviceType);
      (HasKey(PivotChart(DateGroups(st, today, days, serviceType), fmt).series, name) <==>
       exists d :: RowCount(st.ledger, keyOf, (d, name)) > 0)
  {
    var keyOf := DateKeyOf(st, today, days, serviceType);
    var rows := DateGroups(st, today, days, serviceType);
    if Seen(rows, name) {
      var k :| 0 <= k < |rows| && rows[k].serviceName == name;
      assert rows[k] in rows;
      assert RowCount(st.ledger, keyOf, (rows[k].date, name)) > 0;
    }
    if exists d :: RowCount(st.ledger, keyOf, (d, name)) > 0 {
      var d :| RowCount(st.ledger, keyOf, (d, name)) > 0;
      var n := RowCount(st.ledger, keyOf, (d, name));
      assert DateCount(d, name, n) in rows;
      var k :| 0 <= k < |rows| && rows[k] == DateCount(d, name, n);
      assert Seen(rows, name);
    }
  }

  // Bar charts: the department and team reports.

  /** Names, their counts, and one colour per bar. */
  datatype BarChart = BarChart(labels: seq<string>, data: seq<nat>, colours: seq<nat>)

  /** The bars of a name-grouped query, from its ranked (name, count) pairs. */
  function BarsOf(keys: seq<string>): (r: BarChart)
    ensures |r.labels| == |r.data| == |r.colours|
    ensures forall i :: 0 <= i < |r.colours| ==> r.colours[i] == Hue(i)
  {
    var ranked := Ranked(keys);
    BarChart(seq(|ranked|, i requires 0 <= i < |ranked| => ranked[i].0),
             seq(|ranked|, i requires 0 <= i < |ranked| => ranked[i].1),
             Hues(|ranked|))
  }

  /** The bars are ordered by descending count and name each name once. */
  lemma BarsRanked(keys: seq<string>)
    ensures var r := BarsOf(keys);
      && (forall i, j :: 0 <= i < j < |r.data| ==> r.data[i] >= r.data[j])
      && (forall i, j :: 0 <= i < j < |r.labels| ==> r.labels[i] != r.labels[j])
  {
    var ranked := Ranked(keys);
    var r := BarsOf(keys);
    forall i, j | 0 <= i < j < |r.data| ensures r.data[i] >= r.data[j] {
      assert CountOf(ranked[i]) >= CountOf(ranked[j]);
    }
    forall i, j | 0 <= i < j < |r.labels| ensures r.labels[i] != r.labels[j] {
      assert ranked[i].0 != ranked[j].0;
    }
  }

  /** Each name with rows is one bar, whose height is the name's count. */
  lemma BarsCountNames(keys: seq<string>)
    ensures var r := BarsOf(keys);
      && (forall i :: 0 <= i < |r.labels| ==> r.data[i] == multiset(keys)[r.labels[i]] > 0)
      && (forall name :: name in r.labels <==> name in keys)
  {
    var ranked := Ranked(keys);
    var r := BarsOf(keys);
    forall i | 0 <= i < |r.labels| ensures r.data[i] == multiset(keys)[r.labels[i]] > 0 {
      assert ranked[i] in ranked;
    }
    forall name ensures name in r.labels <==> name in keys {
      if name in keys {
        assert (name, multiset(keys)[name]) in ranked;
        var i :| 0 <= i < |ranked| && ranked[i] == (name, multiset(keys)[name]);
        assert r.labels[i] == name;
      }
      if name in r.labels {
        var i :| 0 <= i < |r.labels| && r.labels[i] == name;
        assert ranked[i] in ranked;
      }
    }
  }

  /** The bars of a ledger query, stated in rows: a name is a bar exactly when
      some row counts under it, and its height is the number of such rows. */
  lemma BarsCountRows(l: Ledger, keyOf: Attendance -> Option<string>)
    ensures var r := BarsOf(KeysOf(l, keyOf));
      && (forall i :: 0 <= i < |r.labels| ==> r.data[i] == RowCount(l, keyOf, r.labels[i]))
      && (forall name :: name in r.labels <==> RowCount(l, keyOf, name) > 0)
  {
    BarsCountNames(KeysOf(l, keyOf));
    forall name ensures multiset(KeysOf(l, keyOf))[name] == RowCount(l, keyOf, name) {
      KeysOfCounts(l, keyOf, name);
    }
  }

  /** The department a row counts under in the department report
      (reports.py:121-159): its person and the whole chain from the person's cell
      up to the region must exist (inner joins), and so must its service, which
      must be in the window and pass the type and region filters. */
  function DepartmentKey(st: Store, today: int, days: int, serviceType: Option<int>, region: Option<int>, a: Attendance)
    : Option<string>
  {
    match FindPerson(st.people, a.personId)
    case None => None
    case Some(p) =>
      match HierarchyPath(st.org, p)
      case None => None
      case Some(path) =>
        match FindService(st.services, a.serviceId)
        case None => None
        case Some(s) =>
          if InWindow(s.date, today, days) && TypePasses(st, s, serviceType) && (!Given(region) || path.region.id == region.value)
          then Some(path.department.name)
          else None
  }

  function DepartmentKeyOf(st: Store, today: int, days: int, serviceType: Option<int>, region: Option<int>)
    : Attendance -> Option<string>
  {
    (a: Attendance) => DepartmentKey(st, today, days, serviceType, region, a)
  }

  /** The department report: departments are grouped by NAME, so two departments
      sharing a name share a bar. */
  function DepartmentReport(st: Store, today: int, daysArg: Option<int>, serviceType: Option<int>, region: Option<int>)
    : (r: BarChart)
    ensures |r.labels| == |r.data|
    ensures forall i :: 0 <= i < |r.labels| ==>
      r.data[i] == RowCount(st.ledger, DepartmentKeyOf(st, today, DaysArg(daysArg), serviceType, region), r.labels[i])
    ensures forall name :: name in r.labels <==>
      RowCount(st.ledger, DepartmentKeyOf(st, today, DaysArg(daysArg), serviceType, region), name) > 0
  {
    var keyOf := DepartmentKeyOf(st, today, DaysArg(daysArg), serviceType, region);
    BarsCountRows(st.ledger, keyOf);
    BarsOf(KeysOf(st.ledger, keyOf))
  }

  /** With unique ids, looking a member up by id finds that member. */
  lemma FindPersonFinds(people: seq<Person>, p: Person)
    requires UniqueIds(people, (x: Person) => x.id) && p in people
    ensures FindPerson(people, p.id) == Some(p)
  {
    var q := FindPerson(people, p.id).value;
    var i :| 0 <= i < |people| && people[i] == q;
    var j :| 0 <= j < |people| && people[j] == p;
    assert i == j;
  }

  /** A row counts under its person's department, as the person's hierarchy path
      names it. */
  lemma DepartmentKeyFollowsPath(st: Store, today: int, days: int, serviceType: Option<int>, region: Option<int>,
                                 a: Attendance, p: Person)
    requires UniqueIds(st.people, (x: Person) => x.id) && p in st.people && p.id == a.personId
    ensures var key := DepartmentKey(st, today, days, serviceType, region, a);
      key.Some? ==> HierarchyPath(st.org, p).Some? && key.value == HierarchyPath(st.org, p).value.department.name
  {
    FindPersonFinds(st.people, p);
  }

  /** Statuses do not count: the department report of a ledger with the same
      rows under other statuses is the same. */
  lemma DepartmentReportIgnoresStatus(st: Store, l2: Ledger, today: int, daysArg: Option<int>, serviceType: Option<int>,
                                      region: Option<int>)
    requires SameButStatus(st.ledger, l2)
    ensures DepartmentReport(st.(ledger := l2), today, daysArg, serviceType, region)
         == DepartmentReport(st, today, daysArg, serviceType, region)
  {
    var days := DaysArg(daysArg);
    var k1 := DepartmentKeyOf(st, today, days, serviceType, region);
    var k2 := DepartmentKeyOf(st.(ledger := l2), today, days, serviceType, region);
    KeysOfAgree(l2, k2, k1);
    KeysIgnoreStatus(st.ledger, l2, k1);
  }

  /** Statuses do not count in the date groups either. */
  lemma DateGroupsIgnoreStatus(st: Store, l2: Ledger, today: int, days: int, serviceType: Option<int>)
    requires SameButStatus(st.ledger, l2)
    ensures DateGroups(st.(ledger := l2), today, days, serviceType) == DateGroups(st, today, days, serviceType)
  {
    var k1 := DateKeyOf(st, today, days, serviceType);
    var k2 := DateKeyOf(st.(ledger := l2), today, days, serviceType);
    KeysOfAgree(l2, k2, k1);
    KeysIgnoreStatus(st.ledger, l2, k1);
  }

  // The report API (reports.py:186-340).

  /** The request's filters; `Given` is Python truthiness (missing or 0 is off). */
  datatype Filters = Filters(
    serviceType: Option<int>,
    region: Option<int>,
    direction: Option<int>,
    department: Option<int>,
    team: Option<int>,
    cell: Option<int>)

  /** `QueryFailed` is a request the store or Python rejects: a report type with no
      query, a join condition naming a table outside the query, or the same table
      joined twice. */
  datatype ApiReport =
    | DateSeries(chart: Chart)
    | Breakdown(title: string, labels: seq<string>, data: seq<nat>)
    | QueryFailed

  const DefaultReportType := "date"

  /** The region filter of the department query joins the department's direction
      and region. */
  predicate RegionPasses(o: Org, d: Department, region: Option<int>) {
    !Given(region) ||
      match FindDirection(o, d.directionId)
      case None => false
      case Some(dir) => FindRegion(o, dir.regionId).Some? && dir.regionId == region.value
  }

  predicate DirectionPasses(o: Org, d: Department, direction: Option<int>) {
    !Given(direction) || (FindDirection(o, d.directionId).Some? && d.directionId == direction.value)
  }

  /** The department query of the API joins people, cells, teams and departments
      only; `department_id` is not among its arguments, because the source skips
      that filter for this report. */
  function ApiDepartmentKey(st: Store, today: int, days: int, serviceType: Option<int>, region: Option<int>,
                            direction: Option<int>, team: Option<int>, cell: Option<int>, a: Attendance): Option<string>
  {
    match FindPerson(st.people, a.personId)
    case None => None
    case Some(p) =>
      match FindCell(st.org, p.cellId)
      case None => None
      case Some(c) =>
        match FindTeam(st.org, c.teamId)
        case None => None
        case Some(t) =>
          match FindDepartment(st.org, t.departmentId)
          case None => None
          case Some(d) =>
            match FindService(st.services, a.serviceId)
            case None => None
            case Some(s) =>
              if && InWindow(s.date, today, days)
                 && TypePasses(st, s, serviceType)
                 && RegionPasses(st.org, d, region)
                 && DirectionPasses(st.org, d, direction)
                 && (!Given(team) || t.id == team.value)
                 && (!Given(cell) || c.id == cell.value)
              then Some(d.name)
              else None
  }

  function ApiDepartmentKeyOf(st: Store, today: int, days: int, f: Filters): Attendance -> Option<string> {
    (a: Attendance) => ApiDepartmentKey(st, today, days, f.serviceType, f.region, f.direction, f.team, f.cell, a)
  }

  /** The team query joins people, cells and teams; `team_id` is not among its
      arguments, because the source skips that filter for this report. */
  function ApiTeamKey(st: Store, today: int, days: int, serviceType: Option<int>, cell: Option<int>, a: Attendance)
    : Option<string>
  {
    match FindPerson(st.people, a.personId)
    case None => None
    case Some(p) =>
      match FindCell(st.org, p.cellId)
      case None => None
      case Some(c) =>
        match FindTeam(st.org, c.teamId)
        case None => None
        case Some(t) =>
          match FindService(st.services, a.serviceId)
          case None => None
          case Some(s) =>
            if InWindow(s.date, today, days) && TypePasses(st, s, serviceType) && (!Given(cell) || c.id == cell.value)
            then Some(t.name)
            else None
  }

  function ApiTeamKeyOf(st: Store, today: int, days: int, f: Filters): Attendance -> Option<string> {
    (a: Attendance) => ApiTeamKey(st, today, days, f.serviceType, f.cell, a)
  }

  /** A filter on a table the query never joins puts that table in the FROM list
      as a cross join restricted to one id: the rows survive when a node with that
      id exists (ids being unique, counts are unchanged) and vanish otherwise. */
  predicate CrossJoinKeeps(o: Org, f: Filters, reportType: string) {
    if reportType == "date" then
      && (!Given(f.department) || FindDepartment(o, f.department.value).Some?)
      && (!Given(f.team) || FindTeam(o, f.team.value).Some?)
      && (!Given(f.cell) || FindCell(o, f.cell.value).Some?)
    else if reportType == "team" then
      !Given(f.department) || FindDepartment(o, f.department.value).Some?
    else true
  }

  /** The rows the API's query sees: all of them, or none when a cross-joined
      filter names a node that does not exist. */
  function ApiKept(st: Store, f: Filters, reportType: string): Ledger {
    if CrossJoinKeeps(st.org, f, reportType) then st.ledger else []
  }

  /** The name a row counts under in the department or the team breakdown. */
  function ApiBarKeyOf(st: Store, today: int, days: int, f: Filters, reportType: string): Attendance -> Option<string> {
    if reportType == "department" then ApiDepartmentKeyOf(st, today, days, f) else ApiTeamKeyOf(st, today, days, f)
  }

  /** `api_attendance_data`. */
  function ApiAttendanceData(st: Store, today: int, daysArg: Option<int>, typeArg: Option<string>, f: Filters,
                             fmt: int -> string): (r: ApiReport)
    ensures var t := if typeArg.Some? then typeArg.value else DefaultReportType;
      r == QueryFailed <==>
        || (t != "date" && t != "department" && t != "team")
        || (t == "date" && (Given(f.region) || Given(f.direction)))
        || (t == "department" && Given(f.region) && Given(f.direction))
        || (t == "team" && (Given(f.region) || Given(f.direction)))
    ensures r.DateSeries? ==> typeArg.None? || typeArg.value == "date"
    ensures r.Breakdown? ==> typeArg.Some? && (typeArg.value == "department" || typeArg.value == "team")
    ensures r.Breakdown? ==>
      && r.title == (if typeArg.value == "department" then "Attendance by Department" else "Attendance by Team")
      && |r.labels| == |r.data|
      && (forall i, j :: 0 <= i < j < |r.data| ==> r.data[i] >= r.data[j])
      && (forall i, j :: 0 <= i < j < |r.labels| ==> r.labels[i] != r.labels[j])
    ensures r.Breakdown? ==>
      var kept := ApiKept(st, f, typeArg.value);
      var keyOf := ApiBarKeyOf(st, today, DaysArg(daysArg), f, typeArg.value);
      && (forall i :: 0 <= i < |r.labels| ==> r.data[i] == RowCount(kept, keyOf, r.labels[i]))
      && (forall name :: name in r.labels <==> RowCount(kept, keyOf, name) > 0)
  {
    var reportType := if typeArg.Some? then typeArg.value else DefaultReportType;
    var days := DaysArg(daysArg);
    var kept := ApiKept(st, f, reportType);
    if reportType == "date" then
      if Given(f.region) || Given(f.direction) then QueryFailed
      else DateSeries(PivotChart(DateGroups(st.(ledger := kept), today, days, f.serviceType), fmt))
    else if reportType == "department" || reportType == "team" then
      if reportType == "department" && Given(f.region) && Given(f.direction) then QueryFailed
      else if reportType == "team" && (Given(f.region) || Given(f.direction)) then QueryFailed
      else
        var keyOf := ApiBarKeyOf(st, today, days, f, reportType);
        var bars := BarsOf(KeysOf(kept, keyOf));
        BarsRanked(KeysOf(kept, keyOf));
        BarsCountRows(kept, keyOf);
        Breakdown(if reportType == "department" then "Attendance by Department" else "Attendance by Team",
                  bars.labels, bars.data)
    else QueryFailed
  }

  /** The API's date series, over the rows its query keeps: a service has a series
      exactly when some row in the window counts under its name, and (when the
      format separates the window's days) its entry at a day's label is the
      number of rows for that day and service. */
  lemma ApiDateSeriesCountsRows(st: Store, today: int, daysArg: Option<int>, typeArg: Option<string>, f: Filters,
                                fmt: int -> string, date: int, name: string)
    requires typeArg.None? || typeArg.value == "date"
    requires !Given(f.region) && !Given(f.direction)
    requires FormatSeparates(fmt, today, DaysArg(daysArg)) && InWindow(date, today, DaysArg(daysArg))
    ensures var r := ApiAttendanceData(st, today, daysArg, typeArg, f, fmt);
      var seen := st.(ledger := ApiKept(st, f, "date"));
      var keyOf := DateKeyOf(seen, today, DaysArg(daysArg), f.serviceType);
      && r.DateSeries?
      && (HasKey(r.chart.series, name) <==> exists d :: RowCount(seen.ledger, keyOf, (d, name)) > 0)
      && (HasKey(r.chart.series, name) && fmt(date) in r.chart.labels ==>
            Get(r.chart.series, name).value[IndexOf(r.chart.labels, fmt(date))] == RowCount(seen.ledger, keyOf, (date, name)))
  {
    var seen := st.(ledger := ApiKept(st, f, "date"));
    assert ApiAttendanceData(st, today, daysArg, typeArg, f, fmt) == DateSeries(DateReport(seen, today, daysArg, f.serviceType, fmt).chart);
    DateChartCountsRows(seen, today, daysArg, f.serviceType, fmt, date, name);
    DateSeriesNames(seen, today, DaysArg(daysArg), f.serviceType, fmt, name);
  }

  /** `department_id` is ignored by the department report. */
  lemma DepartmentIdIgnoredByDepartmentReport(st: Store, today: int, daysArg: Option<int>, f: Filters, x: Option<int>,
                                              fmt: int -> string)
    ensures ApiAttendanceData(st, today, daysArg, Some("department"), f.(department := x), fmt)
         == ApiAttendanceData(st, today, daysArg, Some("department"), f, fmt)
  {
  }

  /** `team_id` is ignored by the team report. */
  lemma TeamIdIgnoredByTeamReport(st: Store, today: int, daysArg: Option<int>, f: Filters, x: Option<int>,
                                  fmt: int -> string)
    ensures ApiAttendanceData(st, today, daysArg, Some("team"), f.(team := x), fmt)
         == ApiAttendanceData(st, today, daysArg, Some("team"), f, fmt)
  {
  }

  /** The team filter does restrict the department report: every counted row's
      person sits in a cell of that team. */
  lemma TeamIdRestrictsDepartmentReport(st: Store, today: int, days: int, f: Filters, a: Attendance)
    requires Given(f.team)
    requires ApiDepartmentKeyOf(st, today, days, f)(a).Some?
    ensures exists p, c ::
      (p in st.people && p.id == a.personId && c in st.org.cells && c.id == p.cellId && c.teamId == f.team.value)
  {
    var p := FindPerson(st.people, a.personId).value;
    var c := FindCell(st.org, p.cellId).value;
    var t := FindTeam(st.org, c.teamId).value;
    assert t.id == f.team.value;
  }

  /** With only the type filter, the API's department breakdown in a valid store
      is the department report's chart: the API query stops at the department, the
      report's goes up to the region, and in a valid store every chain resolves. */
  lemma ApiDepartmentsMatchReport(st: Store, today: int, daysArg: Option<int>, serviceType: Option<int>,
                                  fmt: int -> string)
    requires ValidStore(st)
    ensures var f := Filters(serviceType, None, None, None, None, None);
      var chart := DepartmentReport(st, today, daysArg, serviceType, None);
      ApiAttendanceData(st, today, daysArg, Some("department"), f, fmt)
        == Breakdown("Attendance by Department", chart.labels, chart.data)
  {
    var days := DaysArg(daysArg);
    var f := Filters(serviceType, None, None, None, None, None);
    var k1 := ApiDepartmentKeyOf(st, today, days, f);
    var k2 := DepartmentKeyOf(st, today, days, serviceType, None);
    forall a | a in st.ledger ensures k1(a) == k2(a) {
      ApiDepartmentKeyAgrees(st, today, days, serviceType, a);
    }
    KeysOfAgree(st.ledger, k1, k2);
    assert CrossJoinKeeps(st.org, f, "department");
    var bars := BarsOf(KeysOf(st.ledger, k1));
    assert ApiAttendanceData(st, today, daysArg, Some("department"), f, fmt)
        == Breakdown("Attendance by Department", bars.labels, bars.data);
  }

  /** In a valid store, with only the type filter, a row counts under the same
      department name in the API query and in the department report. */
  lemma ApiDepartmentKeyAgrees(st: Store, today: int, days: int, serviceType: Option<int>, a: Attendance)
    requires ValidStore(st)
    ensures ApiDepartmentKey(st, today, days, serviceType, None, None, None, None, a)
         == DepartmentKey(st, today, days, serviceType, None, a)
  {
    var person := FindPerson(st.people, a.personId);
    if person.Some? {
      MemberHasPath(st.org, st.people, person.value);
    }
    KeyAgreesWhenPathResolves(st, today, days, serviceType, a);
  }

  /** When the row's person has a hierarchy path, both queries reach the same
      department and apply the same window and type filters. */
  lemma KeyAgreesWhenPathResolves(st: Store, today: int, days: int, serviceType: Option<int>, a: Attendance)
    requires FindPerson(st.people, a.personId).Some? ==> HierarchyPath(st.org, FindPerson(st.people, a.personId).value).Some?
    ensures ApiDepartmentKey(st, today, days, serviceType, None, None, None, None, a)
         == DepartmentKey(st, today, days, serviceType, None, a)
  {
    var person := FindPerson(st.people, a.personId);
    if person.Some? {
      var p := person.value;
      var path := CellPath(st.org, p.cellId).value;
      var c := FindCell(st.org, p.cellId).value;
      var t := FindTeam(st.org, c.teamId).value;
      var d := FindDepartment(st.org, t.departmentId).value;
      assert path.department.name == d.name;
      var api := ApiDepartmentKey(st, today, days, serviceType, None, None, None, None, a);
      var report := DepartmentKey(st, today, days, serviceType, None, a);
      match FindService(st.services, a.serviceId)
      case None =>
        assert api == None && report == None;
      case Some(s) =>
        var passes := InWindow(s.date, today, days) && TypePasses(st, s, serviceType);
        assert api == (if passes then Some(d.name) else None);
        assert report == (if passes then Some(path.department.name) else None);
    }
  }
}

=== FILE: services.dfy ===
/** Services (occurrences of a recurring event) and the attendance ledger
    (app/models/services.py). A ledger row ties one person to one service; no row
    for a (service, person) pair means "not marked", which is different from a row
    whose status is absent. */
module Services {
  import opened Common

  /** `status` is VARCHAR(20) NOT NULL DEFAULT 'present'; the application only ever
      writes the two values below. */
  const StatusLimit: nat := 20

  datatype Status = Present | Absent

  function StatusName(s: Status): (r: string)
    ensures |r| <= StatusLimit
  {
    match s
    case Present => "present"
    case Absent => "absent"
  }

  /** The column default of `status`. */
  const DefaultStatus := Present

  datatype ServiceType = ServiceType(id: Id, name: string, description: Option<string>)

  /** Dates are day numbers and times are seconds since midnight. */
  datatype Service = Service(id: Id, typeId: Id, date: int, time: int, notes: Option<string>)

  /** One ledger row; `checkIn` is a nullable timestamp. */
  datatype Attendance = Attendance(
    serviceId: Id,
    personId: Id,
    status: Status,
    checkIn: Option<int>,
    notes: Option<string>)

  type Ledger = seq<Attendance>

  const UnknownServiceName := "Unknown Service"

  /** `is_upcoming`: the service is today or later. */
  function IsUpcoming(s: Service, today: int): (r: bool)
    ensures r <==> !(s.date < today)
  {
    s.date >= today
  }

  function FindServiceType(types: seq<ServiceType>, id: Id): Option<ServiceType> {
    First(types, (t: ServiceType) => t.id == id)
  }

  function FindService(services: seq<Service>, id: Id): Option<Service> {
    First(services, (s: Service) => s.id == id)
  }

  /** `service_name`: the type's name, or "Unknown Service" when the service has no
      type. */
  function ServiceName(types: seq<ServiceType>, s: Service): (r: string)
    ensures (exists t :: t in types && t.id == s.typeId) ==> r == FindServiceType(types, s.typeId).value.name
    ensures (forall t :: t in types ==> t.id != s.typeId) ==> r == UnknownServiceName
  {
    match FindServiceType(types, s.typeId)
    case Some(t) => t.name
    case None => UnknownServiceName
  }

  predicate IsKey(a: Attendance, serviceId: Id, personId: Id) {
    a.serviceId == serviceId && a.personId == personId
  }

  /** Position of the first row for (service, person), or |ledger| when there is none. */
  function RowIndex(l: Ledger, serviceId: Id, personId: Id): (i: nat)
    ensures i <= |l|
    ensures i < |l| ==> IsKey(l[i], serviceId, personId)
    ensures forall j :: 0 <= j < i ==> !IsKey(l[j], serviceId, personId)
  {
    FirstIndex(l, (a: Attendance) => IsKey(a, serviceId, personId))
  }

  /** All rows for (service, person), in ledger order. */
  function Rows(l: Ledger, serviceId: Id, personId: Id): seq<Attendance> {
    if |l| == 0 then []
    else (if IsKey(l[0], serviceId, personId) then [l[0]] else []) + Rows(l[1..], serviceId, personId)
  }

  /** The rows of a key are exactly the ledger rows carrying that key. */
  lemma {:induction false} RowsMembers(l: Ledger, serviceId: Id, personId: Id)
    ensures |Rows(l, serviceId, personId)| <= |l|
    ensures forall a :: a in Rows(l, serviceId, personId) <==> a in l && IsKey(a, serviceId, personId)
    decreases |l|
  {
    if |l| > 0 {
      RowsMembers(l[1..], serviceId, personId);
      assert forall a :: a in l <==> a == l[0] || a in l[1..];
    }
  }

  lemma {:induction false} RowsAppend(a: Ledger, b: Ledger, serviceId: Id, personId: Id)
    ensures Rows(a + b, serviceId, personId) == Rows(a, serviceId, personId) + Rows(b, serviceId, personId)
    decreases |a|
  {
    if |a| == 0 {
      assert a + b == b;
    } else {
      var h := if IsKey(a[0], serviceId, personId) then [a[0]] else [];
      assert (a + b)[0] == a[0];
      assert (a + b)[1..] == a[1..] + b;
      assert Rows(a + b, serviceId, personId) == h + Rows(a[1..] + b, serviceId, personId);
      assert Rows(a, serviceId, personId) == h + Rows(a[1..], serviceId, personId);
      RowsAppend(a[1..], b, serviceId, personId);
    }
  }

  /** The row `filter_by(service_id=.., person_id=..).first()` returns. */
  function Lookup(l: Ledger, serviceId: Id, personId: Id): (r: Option<Attendance>)
    ensures r.Some? <==> exists j :: 0 <= j < |l| && IsKey(l[j], serviceId, personId)
    ensures r.Some? ==> IsKey(r.value, serviceId, personId) && r.value in l
  {
    var rows := Rows(l, serviceId, personId);
    RowsMembers(l, serviceId, personId);
    if |rows| == 0 then
      assert forall j :: 0 <= j < |l| ==> !IsKey(l[j], serviceId, personId) by {
        forall j | 0 <= j < |l| ensures !IsKey(l[j], serviceId, personId) {
          assert l[j] in l;
        }
      }
      None
    else
      assert rows[0] in l;
      Some(rows[0])
  }

  /** `Lookup` returns the first of the key's rows. */
  lemma LookupIsFirstRow(l: Ledger, serviceId: Id, personId: Id)
    ensures Lookup(l, serviceId, personId) ==
      if |Rows(l, serviceId, personId)| == 0 then None else Some(Rows(l, serviceId, personId)[0])
  {
  }

  lemma {:induction false} NoRowsBefore(l: Ledger, i: nat, serviceId: Id, personId: Id)
    requires i <= |l|
    requires forall j :: 0 <= j < i ==> !IsKey(l[j], serviceId, personId)
    ensures Rows(l[..i], serviceId, personId) == []
    decreases i
  {
    if i > 0 {
      assert l[..i] == l[..i - 1] + [l[i - 1]];
      RowsAppend(l[..i - 1], [l[i - 1]], serviceId, personId);
      NoRowsBefore(l, i - 1, serviceId, personId);
    }
  }

  /** The first row for the key sits at `RowIndex`: everything before it belongs to
      other keys. */
  lemma RowIndexSplit(l: Ledger, serviceId: Id, personId: Id)
    ensures Rows(l[..RowIndex(l, serviceId, personId)], serviceId, personId) == []
    ensures RowIndex(l, serviceId, personId) == |l| ==> Rows(l, serviceId, personId) == []
    ensures RowIndex(l, serviceId, personId) < |l| ==>
      Rows(l, serviceId, personId) == [l[RowIndex(l, serviceId, personId)]] + Rows(l[RowIndex(l, serviceId, personId) + 1..], serviceId, personId)
  {
    var i := RowIndex(l, serviceId, personId);
    NoRowsBefore(l, i, serviceId, personId);
    assert l == l[..i] + l[i..];
    RowsAppend(l[..i], l[i..], serviceId, personId);
    if i < |l| {
      assert l[i..] == [l[i]] + l[i + 1..];
      RowsAppend([l[i]], l[i + 1..], serviceId, personId);
    }
  }

  /** `Lookup` returns exactly the row at `RowIndex`. */
  lemma LookupAtRowIndex(l: Ledger, serviceId: Id, personId: Id)
    ensures Lookup(l, serviceId, personId).Some? <==> RowIndex(l, serviceId, personId) < |l|
    ensures RowIndex(l, serviceId, personId) < |l| ==>
      Lookup(l, serviceId, personId) == Some(l[RowIndex(l, serviceId, personId)])
  {
    RowIndexSplit(l, serviceId, personId);
  }

  /** At most one ledger row per (service, person). */
  ghost predicate UniqueKeys(l: Ledger) {
    forall s, p :: |Rows(l, s, p)| <= 1
  }

  /** The same invariant stated on positions: no two rows share a key. */
  predicate DistinctRowKeys(l: Ledger) {
    forall i, j :: 0 <= i < j < |l| ==> !IsKey(l[j], l[i].serviceId, l[i].personId)
  }

  lemma {:induction false} TwoRowsForKey(l: Ledger, i: int, j: int, s: Id, p: Id)
    requires 0 <= i < j < |l| && IsKey(l[i], s, p) && IsKey(l[j], s, p)
    ensures |Rows(l, s, p)| >= 2
    decreases |l|
  {
    if i > 0 {
      TwoRowsForKey(l[1..], i - 1, j - 1, s, p);
    } else {
      RowsMembers(l[1..], s, p);
      assert l[1..][j - 1] in l[1..];
    }
  }

  lemma {:induction false} RowsGiveTwoPositions(l: Ledger, s: Id, p: Id) returns (i: int, j: int)
    requires |Rows(l, s, p)| >= 2
    ensures 0 <= i < j < |l| && IsKey(l[i], s, p) && IsKey(l[j], s, p)
    decreases |l|
  {
    if IsKey(l[0], s, p) {
      var rest := Rows(l[1..], s, p);
      RowsMembers(l[1..], s, p);
      assert rest[0] in l[1..];
      var k :| 0 <= k < |l[1..]| && l[1..][k] == rest[0];
      i, j := 0, k + 1;
    } else {
      var i', j' := RowsGiveTwoPositions(l[1..], s, p);
      i, j := i' + 1, j' + 1;
    }
  }

  /** The per-key and the positional statements of "one row per key" agree. */
  lemma UniqueKeysIffDistinct(l: Ledger)
    ensures UniqueKeys(l) <==> DistinctRowKeys(l)
  {
    if !UniqueKeys(l) {
      var s, p :| |Rows(l, s, p)| > 1;
      var i, j := RowsGiveTwoPositions(l, s, p);
    }
    if !DistinctRowKeys(l) {
      var i, j :| 0 <= i < j < |l| && IsKey(l[j], l[i].serviceId, l[i].personId);
      TwoRowsForKey(l, i, j, l[i].serviceId, l[i].personId);
    }
  }

  /** The ids of the people with a row for the service, in ledger order
      (`marked_ids`). */
  function MarkedIds(l: Ledger, serviceId: Id): (r: seq<Id>)
    ensures forall p :: p in r <==> Lookup(l, serviceId, p).Some?
  {
    if |l| == 0 then []
    else
      var rest := MarkedIds(l[1..], serviceId);
      assert forall p :: Lookup(l, serviceId, p).Some? <==>
        (IsKey(l[0], serviceId, p) || Lookup(l[1..], serviceId, p).Some?) by {
        forall p ensures Lookup(l, serviceId, p).Some? <==>
          (IsKey(l[0], serviceId, p) || Lookup(l[1..], serviceId, p).Some?) {
          if Lookup(l[1..], serviceId, p).Some? {
            var j :| 0 <= j < |l[1..]| && IsKey(l[1..][j], serviceId, p);
            assert IsKey(l[j + 1], serviceId, p);
          }
          if Lookup(l, serviceId, p).Some? && !IsKey(l[0], serviceId, p) {
            var j :| 0 <= j < |l| && IsKey(l[j], serviceId, p);
            assert j > 0 && IsKey(l[1..][j - 1], serviceId, p);
          }
        }
      }
      (if l[0].serviceId == serviceId then [l[0].personId] else []) + rest
  }
}

=== FILE: sheet.dfy ===
/** Spreadsheet cells as the file reader delivers them, and the text each becomes
    on its way to Python's `str()` or to a VARCHAR column of the store. Shared by
    both imports (app.py:861-1171, app/controllers/assignments.py:196-418). */
module Sheet {
  import AttendanceForm

  /** One cell; `Blank` is an empty cell, which reads as NaN. */
  datatype Value = Blank | Flag(b: bool) | Number(n: int) | Text(s: string)

  /** Python's `str(v)`. */
  function PyStr(v: Value): string {
    match v
    case Blank => "nan"
    case Flag(b) => if b then "True" else "False"
    case Number(n) => AttendanceForm.ShowInt(n)
    case Text(s) => s
  }

  /** A cell passed as it is into a VARCHAR column. The driver sends NaN as the
      float literal `'NaN'`, a boolean as `true` / `false` and a number as its
      digits, and the store's assignment cast keeps their text: NaN is stored as
      the text "NaN", never as NULL. */
  function StoredText(v: Value): string {
    match v
    case Blank => "NaN"
    case Flag(b) => if b then "true" else "false"
    case Number(n) => AttendanceForm.ShowInt(n)
    case Text(s) => s
  }

  /** The store keeps what `str()` would print for text and numbers; the two
      differ exactly on NaN and on booleans, which the store spells differently. */
  lemma StoredTextIsStr(v: Value)
    ensures StoredText(v) == PyStr(v) <==> v.Text? || v.Number?
  {
    match v
    case Blank =>
      assert StoredText(v)[0] == 'N' && PyStr(v)[0] == 'n';
    case Flag(b) =>
      assert StoredText(v)[0] != PyStr(v)[0];
    case Number(_) =>
    case Text(_) =>
  }
}

=== FILE: store.dfy ===
/** The whole persistent state the core reads and writes: the organisation tables,
    the people, the service catalogue and the attendance ledger. */
module Database {
  import opened Common
  import opened Organization
  import opened People
  import opened Services

  datatype Store = Store(
    org: Org,
    people: seq<Person>,
    types: seq<ServiceType>,
    services: seq<Service>,
    ledger: Ledger)

  /** The constraints the schema enforces, plus the one-row-per-key discipline
      that every ledger writer keeps. */
  ghost predicate ValidStore(st: Store) {
    && ValidOrg(st.org)
    && ValidPeople(st.org, st.people)
    && UniqueIds(st.services, (s: Service) => s.id)
    && UniqueKeys(st.ledger)
  }
}
